=== FILE: README.md ===
# Endless runner, raver platformer and engine samples, modelled in Dafny

This project models the game logic of a DragonRuby repository. Each part is a pure step function over immutable datatypes. Each carries contracts and lemmas that state what the Ruby code promises.

- **The endless runner** (`test-first-game/app`). It has a five-lane road seen through a clamped single-vanishing-point camera with a screen-shake timer. It also has:
  - the player, obstacle and coin records;
  - a spawner driven by distance watermarks;
  - the centre/half-extent box collision test;
  - the game-state update, with its running-to-game-over latch;
  - the input handler;
  - the renderers' draw order, HUD/game-over choice and lane-divider arithmetic.
- **The monolithic runner** (`test-first-game/app/main.rb`). This earlier single-file version of the same game has three lanes, frame timers and a proximity collision test. It is modelled separately.
- **The raver platformer** (`mygame/app`). Its core is a group of ravers chained by `target` references. Each follower is sprung toward the raver it targets, and the group adds, splices out and promotes ravers while keeping exactly one head. Around it are the spawners for:
  - platforms, lone ravers, windows, coins and the two background tiles.

  It also has window acceptance and scoring, the death rule, the sprite-frame index, the scene machine of `main.rb`, and the spring-chain prototype of `laurence_main.rb`.
- **Five samples**:
  - the `compose_blendmode` bit packing, with its decode round trip;
  - the blend-modes colour cycle and panel layout;
  - the progress-bar health counter;
  - the input-remapping table and mode machine;
  - the quarter-circle tiling.

Shared pieces:
- `RubyArray` states once how Ruby's `each` behaves when the block deletes the current element. The cursor then passes over the next element. The same module defines a snapshot walk that visits every element, as a reference.
- `Numeric` holds Ruby's floored integer division and remainder, `clamp`, `floor`, `ceil` and `to_i`.
- `Wrappers` holds the `Result`/`Option` types. Ruby exceptions (`ArgumentError`, `NoMethodError`, `IndexError`) are `Failure` values.

Some inputs come from outside the game, and they become parameters:
- random draws, each with a `requires` giving the range the Ruby call returns;
- `Kernel.tick_count`;
- pressed keys;
- the engine's rectangle intersection test;
- `Math.sin`/`Math.cos`.

Floats are Dafny `real`s.

## Model

| member | source | states |
|---|---|---|
| RubyArray.EachDelete | test-first-game/app/systems/collision_detector.rb:16-22 | every element is either kept or counted as deleted |
| RubyArray.Sweep | test-first-game/app/systems/collision_detector.rb:16-22 | every element is visited once: the survivors are exactly the stepped elements the block does not delete |
| RubyArray.EachDeleteIsIterate | test-first-game/app/systems/collision_detector.rb:16-22 | when the block's effect ignores which element it deleted, the walk applies the effect once per deletion |
| RubyArray.SweepIsIterate | test-first-game/app/systems/collision_detector.rb:16-22 | the snapshot walk applies such an effect once per deletion too |
| RubyArray.SweepRemovesCondemned | test-first-game/app/systems/collision_detector.rb:16-22 | the snapshot walk deletes exactly the elements the block condemns |
| RubyArray.NoDeletionAgrees | test-first-game/app/systems/collision_detector.rb:16-22 | when the block deletes nothing, the walk and the snapshot agree and both step every element |
| RubyArray.KeepAll | test-first-game/app/systems/collision_detector.rb:16-22 | a block that neither changes nor deletes leaves the array and the accumulator alone |
| RubyArray.SweepFilters | test-first-game/app/systems/collision_detector.rb:16-22 | with elements unchanged, the snapshot keeps exactly the elements it does not condemn |
| RubyArray.AdjacentDeletionSkips | test-first-game/app/systems/collision_detector.rb:16-22 | of two neighbours both to be deleted, Ruby's walk deletes the first and keeps the second unvisited, where the snapshot deletes both |
| RubyArray.KeptPreserves | test-first-game/app/systems/collision_detector.rb:16-22 | a property every element has and the block keeps holds of every survivor, in both walks |
| RunnerConfig.LaneTableFacts | test-first-game/app/config/constants.rb:14-22 | the five lanes are 150 apart, strictly increasing, and all strictly inside the road edges derived from them |
| RunnerConfig.TuningFacts | test-first-game/app/config/constants.rb:7-61 | the horizon lies above the camera baseline, the far scale is a proper fraction, and the game-over threshold lies below the hit penalty so one hit can end a slow run |
| PerspectiveCamera.New | test-first-game/app/rendering/perspective_camera.rb:3-12 | a fresh camera has no shake pending and zero offsets |
| PerspectiveCamera.TriggerShake | test-first-game/app/rendering/perspective_camera.rb:14-17 | the shake timer becomes six frames per intensity level, nothing else changes |
| PerspectiveCamera.ShakeMagnitude | test-first-game/app/rendering/perspective_camera.rb:23 | the magnitude is the least integer at or above timer/6 |
| PerspectiveCamera.Update | test-first-game/app/rendering/perspective_camera.rb:19-31 | a running timer counts down by one and both offsets stay within the magnitude; a spent timer zeroes the offsets |
| PerspectiveCamera.ShakeOffset | test-first-game/app/rendering/perspective_camera.rb:24-25 | a random draw in [0, 1) gives an offset in [-m, m) |
| PerspectiveCamera.DepthRatio | test-first-game/app/rendering/perspective_camera.rb:37-38 | the ratio lies in [0, 1] and equals depth/1000 inside the road |
| PerspectiveCamera.PerspectiveScale | test-first-game/app/rendering/perspective_camera.rb:35-45 | the scale lies between 0.15 and 1 |
| PerspectiveCamera.WorldToScreen | test-first-game/app/rendering/perspective_camera.rb:48-67 | the projected point carries the perspective scale of its depth |
| PerspectiveCamera.WorldRectToScreen | test-first-game/app/rendering/perspective_camera.rb:71-92 | the rectangle is centred on the projected point at its depth, and dividing width and height by the scale gives back the world size |
| PerspectiveCamera.ScaleEndpoints | test-first-game/app/rendering/perspective_camera.rb:35-45 | scale 1 at depth 0 and 0.15 at the horizon depth 1000 |
| PerspectiveCamera.ScaleMonotone | test-first-game/app/rendering/perspective_camera.rb:35-45 | farther never looks bigger, and inside the road strictly smaller |
| PerspectiveCamera.ScaleClampIdempotent | test-first-game/app/rendering/perspective_camera.rb:37-38 | a depth outside the road has the scale of the nearer end |
| PerspectiveCamera.ScreenXInverse | test-first-game/app/rendering/perspective_camera.rb:48-67 | without shake, world x 0 lands on the vanishing point and world x is recovered from screen x by dividing by the scale |
| PerspectiveCamera.ScreenYLinear | test-first-game/app/rendering/perspective_camera.rb:48-67 | screen y does not depend on world x and runs from the baseline to the horizon |
| PerspectiveCamera.ShakeSettles | test-first-game/app/rendering/perspective_camera.rb:27-30 | with the timer spent, one update returns the camera to its unshaken initial state |
| PerspectiveCamera.CountDown | test-first-game/app/rendering/perspective_camera.rb:14-31 | while it lasts, each update takes one frame off the shake timer |
| PerspectiveCamera.ShakeDuration | test-first-game/app/rendering/perspective_camera.rb:14-31 | a shake timer of n frames is spent after exactly n updates: it is still running after every m < n |
| RunnerEntities.NewPlayer | test-first-game/app/entities/player.rb:6-14 | a new player stands at the road centre with the start speed and no sideways velocity, and is not game-over |
| RunnerEntities.UpdatePlayer | test-first-game/app/entities/player.rb:16-22 | the player moves by its velocity and stays on the road: a move that would leave it stops at the nearer edge; only x changes |
| RunnerEntities.MoveLeft | test-first-game/app/entities/player.rb:24-26 | the velocity becomes minus the sideways speed, nothing else changes |
| RunnerEntities.MoveRight | test-first-game/app/entities/player.rb:28-30 | the velocity becomes the sideways speed, nothing else changes |
| RunnerEntities.StopHorizontalMovement | test-first-game/app/entities/player.rb:32-34 | the velocity becomes zero, nothing else changes |
| RunnerEntities.HitObstacle | test-first-game/app/entities/player.rb:36-39 | a hit costs 2.0 of speed, never going below zero; only the speed changes |
| RunnerEntities.CollectCoin | test-first-game/app/entities/player.rb:41-43 | a coin adds 0.5 to the speed; only the speed changes |
| RunnerEntities.ResetPlayer | test-first-game/app/entities/player.rb:49-54 | reset gives back a new player's position, speed and velocity while keeping size and colour |
| RunnerEntities.PlayerBounds | test-first-game/app/entities/player.rb:56-58 | the bounds report the player's position and size |
| RunnerEntities.FourHitsEndTheGame | test-first-game/app/entities/player.rb:36-47 | from the start speed, three hits leave 2.0 and the game goes on; the fourth hit leaves 0 and ends it |
| RunnerEntities.PlayerGameOver | test-first-game/app/entities/player.rb:45-47 | the speed at or below the threshold; `NewPlayer` starts outside it and `FourHitsEndTheGame` reaches it on the fourth hit |
| RunnerEntities.ObstacleOffScreen | test-first-game/app/entities/obstacle.rb:20-22 | its y below -100; `ObstacleEventuallyOffScreen` shows every obstacle gets there at a positive speed and `RunnerGameState.MoveObstacles` keeps exactly the others |
| RunnerEntities.NewObstacle | test-first-game/app/entities/obstacle.rb:6-12 | a new obstacle has the given lane position, width and distance, the fixed height and one of the three obstacle colours |
| RunnerEntities.UpdateObstacle | test-first-game/app/entities/obstacle.rb:14-18 | an update moves the obstacle toward the player by exactly the player's speed, nothing else changes |
| RunnerEntities.ObstacleBounds | test-first-game/app/entities/obstacle.rb:24-26 | the bounds report the obstacle's position and size |
| RunnerEntities.UpdateObstacleNMoves | test-first-game/app/entities/obstacle.rb:14-18 | n updates at a fixed speed move the obstacle n times that speed nearer |
| RunnerEntities.ObstacleEventuallyOffScreen | test-first-game/app/entities/obstacle.rb:14-22 | at any positive speed some finite number of updates takes the obstacle off screen |
| RunnerEntities.NewCoin | test-first-game/app/entities/coin.rb:6-12 | a new coin has the given position and distance, the coin size and the gold colour |
| RunnerEntities.UpdateCoin | test-first-game/app/entities/coin.rb:14-18 | an update moves the coin toward the player by exactly the player's speed, nothing else changes |
| RunnerEntities.CoinOffScreen | test-first-game/app/entities/coin.rb:20-22 | its y below -100; `RunnerGameState.MoveCoins` keeps exactly the coins not past it |
| RunnerEntities.CoinBounds | test-first-game/app/entities/coin.rb:24-26 | the bounds report the coin's position and size |
| CollisionDetector.OverlapIsEdgeOverlap | test-first-game/app/systems/collision_detector.rb:28-46 | the centre and half-extent test holds exactly when the boxes' open edge intervals overlap both sideways and in depth |
| CollisionDetector.OverlapSymmetric | test-first-game/app/systems/collision_detector.rb:28-46 | overlap does not depend on argument order |
| CollisionDetector.TouchingIsNotOverlap | test-first-game/app/systems/collision_detector.rb:42-45 | boxes that only touch, sideways or in depth, do not overlap because both comparisons are strict |
| CollisionDetector.RepeatedHits | test-first-game/app/entities/player.rb:36-39 | k hits in a row cost 2.0·k of speed, never below zero |
| CollisionDetector.RepeatedCoins | test-first-game/app/systems/collision_detector.rb:16-22 | k coins in a row add 0.5·k to the speed and 10·k to the score |
| CollisionDetector.CheckObstacles | test-first-game/app/systems/collision_detector.rb:7-13 | one hit per overlapping obstacle; the survivors are exactly the obstacles that do not overlap the player, and only the player and the obstacle list change |
| CollisionDetector.CheckCoins | test-first-game/app/systems/collision_detector.rb:15-22 | one boost and 10 points per overlapping coin; the survivors are exactly the coins that do not overlap the player, and only player, score and coin list change |
| CollisionDetector.CheckCollisions | test-first-game/app/systems/collision_detector.rb:3-23 | the intended pass: every overlapping obstacle costs a hit and is removed, every overlapping coin pays 10 points and a boost and is removed, everything else is kept; distance, road offset and game-over flag are unchanged |
| CollisionDetector.CheckCollisionsRuby | test-first-game/app/systems/collision_detector.rb:3-23 | with the hit arity fixed, the player takes one hit per obstacle and one boost per coin that Ruby's delete-while-iterating walk actually removes, and the lists are what that walk leaves; nothing else changes |
| CollisionDetector.CheckCollisionsAsWritten | test-first-game/app/systems/collision_detector.rb:3-23 | the pass raises an argument error exactly when some obstacle overlaps the player, and otherwise behaves as the Ruby walk |
| CollisionDetector.AdjacentCoinsSkipped | test-first-game/app/systems/collision_detector.rb:16-22 | two overlapping coins in a row: the Ruby walk collects only the first and leaves the second, the intended pass collects both |
| CollisionDetector.NothingHitRuby | test-first-game/app/systems/collision_detector.rb:3-23 | when nothing overlaps the player the Ruby walk changes nothing |
| CollisionDetector.ObstaclesUntouched | test-first-game/app/systems/collision_detector.rb:7-13 | with no overlapping obstacle the obstacle loop changes nothing |
| CollisionDetector.CoinsUntouched | test-first-game/app/systems/collision_detector.rb:15-22 | with no overlapping coin the coin loop changes nothing |
| CollisionDetector.NothingHitSweep | test-first-game/app/systems/collision_detector.rb:3-23 | when nothing overlaps the player the intended pass changes nothing |
| CollisionDetector.NothingHitAgrees | test-first-game/app/systems/collision_detector.rb:3-23 | when nothing overlaps the player both passes agree and leave the state unchanged |
| RunnerSpawner.New | test-first-game/app/systems/spawner.rb:3-6 | both watermarks start at distance 0 |
| RunnerSpawner.LaneAt | test-first-game/app/config/constants.rb:16 | lane i sits at world x -300 + 150·i |
| RunnerSpawner.SpanCentre | test-first-game/app/systems/spawner.rb:17-21 | the centre of lanes [lane, lane + span) in world x |
| RunnerSpawner.SpawnObstaclesAsWritten | test-first-game/app/systems/spawner.rb:15-31 | when due, exactly one obstacle is appended at the horizon, with x the lane index (0 to 4) and width the span (1 to 3), and the obstacle watermark moves to the current distance; otherwise nothing changes |
| RunnerSpawner.SpawnCoinsAsWritten | test-first-game/app/systems/spawner.rb:33-47 | when due, exactly one coin is appended at the horizon with x the lane index, and the coin watermark moves; otherwise nothing changes |
| RunnerSpawner.LaneObstacle | test-first-game/app/systems/spawner.rb:17-26 | the intended obstacle covers lanes [lane, lane + span) edge to edge, lies within the road and stands at the horizon |
| RunnerSpawner.SpawnObstacles | test-first-game/app/systems/spawner.rb:15-31 | when due, the lane obstacle for the draws is appended and the watermark moves; otherwise nothing changes; the coin watermark is untouched |
| RunnerSpawner.SpawnCoins | test-first-game/app/systems/spawner.rb:33-47 | when due, a coin in the drawn lane at the horizon is appended and the watermark moves; otherwise nothing changes |
| RunnerSpawner.Update | test-first-game/app/systems/spawner.rb:8-11 | one update appends at most one obstacle and at most one coin, both at the horizon, keeps the old entities in order, appends exactly when the interval has passed, moves each watermark to the current distance exactly when that kind spawned, and changes nothing else |
| RunnerSpawner.UpdateAsWritten | test-first-game/app/systems/spawner.rb:8-11 | as written, a due obstacle is appended at x = its lane index with width = its span, a due coin at x = its lane index, and the watermarks move as in the corrected update |
| RunnerSpawner.AsWrittenSameSchedule | test-first-game/app/systems/spawner.rb:8-11 | the as-written and the corrected update spawn on the same frames, leave the same spawner and differ only in the entity lists |
| RunnerSpawner.LaneCoverage | test-first-game/app/systems/spawner.rb:17-26 | a player centred in a lane overlaps the intended obstacle sideways exactly when that lane is one the obstacle covers |
| RunnerSpawner.LaneIndexAsX | test-first-game/app/systems/spawner.rb:26 | as written, an obstacle drawn for lane 0 lands at x 0 with width 1, in the centre lane where the player starts, while the intended one sits on lane 0 at full lane width |
| RunnerSpawner.NoEarlySpawn | test-first-game/app/systems/spawner.rb:17-35 | until the distance passes a watermark by its interval of 150 or 80, an update changes neither the game nor the spawner |
| RunnerGameState.New | test-first-game/app/game_state.rb:5-13 | a new state holds a new player, no entities, zero score, distance and road offset, and is not over |
| RunnerGameState.MoveObstacles | test-first-game/app/game_state.rb:27-29 | every survivor is some moved obstacle still on screen, and every moved obstacle still on screen survives |
| RunnerGameState.MoveCoins | test-first-game/app/game_state.rb:31-33 | every survivor is some moved coin still on screen, and every moved coin still on screen survives |
| RunnerGameState.Update | test-first-game/app/game_state.rb:15-39 | distance grows by a tenth of the speed, the road offset by the speed, the player moves, each entity moves and is kept exactly when it is still on screen, the score is kept, and the game is over exactly when it was or the speed is at or below the threshold |
| RunnerGameState.Reset | test-first-game/app/game_state.rb:41-49 | reset yields the initial state except that the player keeps its size and colour, and exactly the initial state for a player of the standard size and colour |
| RunnerInput.Process | test-first-game/app/systems/input_handler.rb:3-25 | R after game over resets; otherwise a finished game is untouched; in play only the velocity changes: left or A wins over right or D, and no key stops the player |
| RunnerGame.New | test-first-game/app/game.rb:3-9 | a new game pairs a new state with a new spawner |
| RunnerGame.Step | test-first-game/app/game.rb:16-25 | the logic phase adds a tenth of the speed to the distance, never lowers the score, and latches game over exactly when the speed was at or below the threshold |
| RunnerGame.Tick | test-first-game/app/game.rb:11-29 | a finished game without R is unchanged; a running frame grows the distance by a tenth of the speed, never lowers the score and ends the game exactly when the speed was already at or below the threshold |
| RunnerGame.TickRestarts | test-first-game/app/systems/input_handler.rb:4-8 | a restart frame yields an empty road, score 0, one frame's distance, a running game and, in the corrected game, a fresh spawner |
| RunnerGame.TickAsWritten | test-first-game/app/game.rb:11-29 | as written, a finished game without R is unchanged and does not raise |
| RunnerGame.StepAsWritten | test-first-game/app/game.rb:18-25 | as written, the logic phase raises exactly when the spawned-on road has an obstacle over the player; otherwise the distance grows by the speed, the score never falls and the spawner moves as in the corrected update |
| RunnerGame.TickAsWrittenRestarts | test-first-game/app/game.rb:3-9 | as written, a restart keeps the session's spawner and its frame spawns nothing |
| RunnerGame.FrozenWhileOver | test-first-game/app/game.rb:15-25 | while the game is over and R is not pressed nothing changes at all |
| RunnerGame.FatalHitLatchesNextFrame | test-first-game/app/game_state.rb:35-38 | the game does not end in the frame of a fatal hit, because the latch is checked before collisions; it ends in the next frame |
| RunnerGame.SpawnedSurviveAtHorizon | test-first-game/app/game.rb:20-24 | an obstacle spawned in a frame is still on the road at the end of that frame, since collisions are checked before it moves |
| RunnerGame.RestartKeepsWatermarks | test-first-game/app/game.rb:3-9 | as written, a restart keeps the old obstacle watermark, so an obstacle due at distance 150 of the new run does not spawn; the corrected game restarts the spawner |
| RunnerRenderer.ObstacleEntry | test-first-game/app/rendering/renderer.rb:41-55 | an obstacle's entry has its depth, its colour and its projected rectangle |
| RunnerRenderer.CoinEntry | test-first-game/app/rendering/renderer.rb:58-72 | a coin's entry has its depth, its colour and its projected rectangle |
| RunnerRenderer.PlayerEntry | test-first-game/app/rendering/renderer.rb:75-88 | the player's entry has its depth, its colour and its projected rectangle |
| RunnerRenderer.Collect | test-first-game/app/rendering/renderer.rb:36-88 | one entry per obstacle in order, then one per coin in order, then the player's, and nothing else |
| RunnerRenderer.Insert | test-first-game/app/rendering/renderer.rb:91 | inserting into a far-first list keeps it far-first and adds exactly the one entry |
| RunnerRenderer.SortFarFirst | test-first-game/app/rendering/renderer.rb:91 | the sorted list is far-first and a permutation of its input |
| RunnerRenderer.DrawOrder | test-first-game/app/rendering/renderer.rb:90-96 | the drawn list is far-first and a permutation of the collected entries, one per object |
| RunnerRenderer.CollectHasAll | test-first-game/app/rendering/renderer.rb:36-88 | the player and every obstacle and coin have their entry among the collected ones |
| RunnerRenderer.DrawOrderDrawsAll | test-first-game/app/rendering/renderer.rb:90-96 | sorting loses nothing: the player and every obstacle and coin are drawn |
| RunnerRenderer.NearestComesLast | test-first-game/app/rendering/renderer.rb:91 | in a far-first list an entry strictly nearer than all others is last |
| RunnerRenderer.CollectedBeyondPlayer | test-first-game/app/rendering/renderer.rb:36-88 | when every entity lies beyond the player's depth, so does every collected entry but the player's |
| RunnerRenderer.NearestOfPermutationLast | test-first-game/app/rendering/renderer.rb:91 | in any far-first rearrangement, the entry strictly nearer than all others comes last |
| RunnerRenderer.PlayerDrawnLast | test-first-game/app/rendering/renderer.rb:90-96 | with every entity beyond the player, the player is drawn last, on top of everything |
| RunnerRenderer.ChooseOverlay | test-first-game/app/rendering/renderer.rb:26-31 | the game-over screen shows exactly when the game is over, the HUD otherwise with the speed; both carry score and distance |
| RunnerRenderer.Render | test-first-game/app/rendering/renderer.rb:9-32 | a frame draws every object far-first as a permutation of the collected entries, the road's 340 surface rows and edges, the as-written lane dashes, and the game-over screen exactly when the game is over |
| RoadRenderer.Lerp | test-first-game/app/rendering/road_renderer.rb:43-45 | interpolation stays between its endpoints and hits each at t = 0 and t = 1 |
| RoadRenderer.Fraction | test-first-game/app/rendering/road_renderer.rb:41 | row i of n sits at a fraction in [0, 1), starting at 0 |
| RoadRenderer.RoadCorners | test-first-game/app/rendering/road_renderer.rb:26-31 | the road trapezoid runs from x 265 to 1015 at the bottom of the screen to 583.75 to 696.25 at the horizon, y 680 |
| RoadRenderer.SurfaceRowCount | test-first-game/app/rendering/road_renderer.rb:34-39 | the surface has one row per two pixels of road height: 340 rows |
| RoadRenderer.SurfaceRow | test-first-game/app/rendering/road_renderer.rb:40-57 | every row lies inside the trapezoid, below the horizon, and no wider than the near edge nor narrower than the far edge; row 0 is the near edge |
| RoadRenderer.Surface | test-first-game/app/rendering/road_renderer.rb:23-60 | the cached surface is the 340 rows in order |
| RoadRenderer.SurfaceRowsOrdered | test-first-game/app/rendering/road_renderer.rb:40-57 | later rows are strictly higher on screen and strictly narrower |
| RoadRenderer.Edges | test-first-game/app/rendering/road_renderer.rb:153-208 | each surface row gets a left strip ending where the row starts and a right strip starting where it ends, both three pixels wide at the row's height and within three pixels of the road |
| RoadRenderer.DividerSpacing | test-first-game/app/rendering/road_renderer.rb:66-75 | the dash spacing lies between 30 and 120, and is 60 at the start speed |
| RoadRenderer.SpacingShrinksWithSpeed | test-first-game/app/rendering/road_renderer.rb:69-75 | a faster player never gets more widely spaced dashes |
| RoadRenderer.DividerOffset | test-first-game/app/rendering/road_renderer.rb:80 | the animation offset is the non-negative remainder of the truncated distance by the spacing |
| RoadRenderer.Midpoints | test-first-game/app/rendering/road_renderer.rb:82-87 | one point per pair of neighbouring lanes, halfway between them |
| RoadRenderer.DividersBetweenLanes | test-first-game/app/rendering/road_renderer.rb:82-87 | four dividers, each strictly between its two lanes and half a lane width from each |
| RoadRenderer.Rows | test-first-game/app/rendering/road_renderer.rb:90-106 | the dash rows step by the spacing from the start, all below the horizon, and the next step would reach it |
| RoadRenderer.RowsCoverRoad | test-first-game/app/rendering/road_renderer.rb:80-106 | the first row starts within one spacing behind the camera and the rows reach the horizon |
| RoadRenderer.DepthRatioInt | test-first-game/app/rendering/perspective_camera.rb:37 | dividing an Integer depth by the Integer 1000 gives 0 everywhere below the horizon and 1 beyond it |
| RoadRenderer.WorldToScreenInt | test-first-game/app/rendering/perspective_camera.rb:48-67 | an Integer depth below the horizon projects at scale 1 onto the bottom of the screen; at or outside the road ends it agrees with the real-valued projection |
| RoadRenderer.DividerAsWritten | test-first-game/app/rendering/road_renderer.rb:90-121 | as written, a dash's ends are projected at Integer depths |
| RoadRenderer.Divider | test-first-game/app/rendering/road_renderer.rb:90-121 | the intended dash is projected at real depths and tapers: its far width is no greater than its near width, both between 0.15·8 and 8 |
| RoadRenderer.DividersWith | test-first-game/app/rendering/road_renderer.rb:62-107 | one row of dashes per dash depth, each with one dash per lane divider, projected as written or as intended |
| RoadRenderer.IntegerDepthFlattensDashes | test-first-game/app/rendering/road_renderer.rb:90-105 | as written, every dash short of the horizon is a full-width flat line at the bottom of the screen; the intended dash climbs the screen and narrows |
| RoadRenderer.RenderDividers | test-first-game/app/rendering/road_renderer.rb:90-106 | with no speed passed the rows use the default spacing of 60, and each row holds one as-written Integer-depth dash per lane boundary |
| RoadRenderer.RenderedDashesAreFlat | test-first-game/app/rendering/road_renderer.rb:90-121 | without shake, every rendered dash short of the horizon is a full-width flat line at the bottom of the screen |
| RoadRenderer.FillLineCount | test-first-game/app/rendering/road_renderer.rb:124 | at least one fill line and at most one per two pixels of dash height |
| RoadRenderer.FillLines | test-first-game/app/rendering/road_renderer.rb:124-145 | the trapezoid's lines start at the near end and stay between its ends in height and width |
| RoadRenderer.FillLine | test-first-game/app/rendering/road_renderer.rb:127-132 | a fill line lies between the dash's ends in height and width, and is the near end at t = 0 |
| MonoRunner.Defaults | test-first-game/app/main.rb:11-60 | the first frame starts in the middle lane at speed 8 with no entities, zero timers, score and distance, and the game running |
| MonoRunner.PerspectiveScale | test-first-game/app/main.rb:68-78 | the scale lies between 0.7 and 1, is 1 at or before depth 0 and 0.7 at or beyond depth 1000 |
| MonoRunner.WorldRectToScreen | test-first-game/app/main.rb:81-116 | the rectangle is centred on the projected x, its size divided by the scale gives the world size, and y runs from 150 at the camera to 600 at the horizon |
| MonoRunner.ChooseLane | test-first-game/app/main.rb:123-128 | left or A moves the target one lane left, right or D one lane right, stopping at the outer lanes; left wins; no key keeps the target |
| MonoRunner.Input | test-first-game/app/main.rb:118-134 | as written, a finished game is left untouched and a running game only changes its target lane |
| MonoRunner.InputCorrected | test-first-game/app/main.rb:118-134 | with the restart test before the early return, R after game over resets, a finished game without R is untouched, and a running game behaves as before |
| MonoRunner.Reset | test-first-game/app/main.rb:592-607 | a reset gives the first frame's state, keeping only the player's size |
| MonoRunner.StepToward | test-first-game/app/main.rb:142-147 | x moves toward the target by at most 10 without passing it, and arrives exactly when it was within 10 |
| MonoRunner.MovePlayer | test-first-game/app/main.rb:141-151 | only x and the lane index change; the lane index becomes the target once x has arrived |
| MonoRunner.Decay | test-first-game/app/main.rb:153-155 | the speed drops by 0.002 per frame but never below 2.0 |
| MonoRunner.NewObstacle | test-first-game/app/main.rb:560-574 | a new obstacle stands in its lane at the horizon, 80 by 120 |
| MonoRunner.NewCoin | test-first-game/app/main.rb:576-590 | a new coin stands in its lane at the horizon, 30 by 30 |
| MonoRunner.Timer | test-first-game/app/main.rb:161-173 | a timer fires exactly when the count reaches the interval and then restarts at 0; otherwise it counts the frame |
| MonoRunner.HitCount | test-first-game/app/main.rb:194-204 | the number of entities near the player is at most the number of entities |
| MonoRunner.RepeatedPenalty | test-first-game/app/main.rb:199-202 | k hits in a row cost 2.5·k of speed, never below zero |
| MonoRunner.RepeatedBonus | test-first-game/app/main.rb:212-216 | m coins in a row add 0.5·m to the speed and 10·m to the score |
| MonoRunner.MoveAll | test-first-game/app/main.rb:175-187 | every survivor is a moved entity not past the cull line, and every moved entity not past it survives |
| MonoRunner.HitObstacles | test-first-game/app/main.rb:194-205 | the speed drops by 2.5 per obstacle near the player, never below zero; the survivors are exactly the obstacles not near the player |
| MonoRunner.CollectCoins | test-first-game/app/main.rb:207-218 | each coin near the player adds 0.5 of speed and 10 points; the survivors are exactly the coins not near the player |
| MonoRunner.Advance1 | test-first-game/app/main.rb:139-173 | the player steers and decays, distance grows by the decayed speed, the score becomes the truncated distance, and each list gains its new entity exactly when its timer fires |
| MonoRunner.ObstaclePhase | test-first-game/app/main.rb:175-205 | only the player's speed and the obstacle list change; the speed pays one penalty per moved obstacle near the player; survivors are on screen and not near the player |
| MonoRunner.CoinPhase | test-first-game/app/main.rb:182-218 | only player, coins and score change; one boost and 10 points per moved coin near the player; survivors are on screen and not near the player |
| MonoRunner.Collide | test-first-game/app/main.rb:175-223 | penalties and bonuses are paid per entity near the player, only the speed of the player changes, timers and distance are kept, and the game ends exactly when the speed is at or below 1.5 |
| MonoRunner.CollideSurvivors | test-first-game/app/main.rb:175-218 | nothing that survives the frame is past the cull line or near the player |
| MonoRunner.Calc | test-first-game/app/main.rb:136-224 | a finished game is frozen; otherwise distance grows by the decayed speed, the score is at least the truncated distance, the speed stays non-negative and the game ends exactly when it is at or below 1.5 |
| MonoRunner.Tick | test-first-game/app/main.rb:4-9 | a frame of a finished game changes nothing |
| MonoRunner.RestartUnreachable | test-first-game/app/main.rb:118-134 | as written, once the game is over pressing R changes nothing; the corrected input restarts at speed 8 |
| MonoRunner.CoinBonusIsOverwritten | test-first-game/app/main.rb:157-159 | the score after a frame does not depend on the score before it, so coin points last one frame |
| MonoRunner.TimerPeriod | test-first-game/app/main.rb:161-166 | below the interval the spawn timer just counts frames, and the next frame fires exactly when the count has reached 59 |
| MonoRunner.TimerCycle | test-first-game/app/main.rb:161-166 | from a fresh start the timer is back at 0 after exactly 60 frames and not before, so it fires once every 60 frames |
| MonoRunner.SpawnedMovesSameFrame | test-first-game/app/main.rb:161-180 | a new obstacle is moved 1.5 times the speed in the frame it appears |
| Ravers.RaverRect | mygame/app/raver.rb:11-18 | a raver's hit box is 100 by 100 at its position |
| Ravers.NewRaver | mygame/app/raver.rb:38-45 | a new raver has the given target, kind and position and is at rest |
| Ravers.Follow | mygame/app/raver.rb:59-63 | following retargets the raver and stops it; nothing else changes |
| Ravers.NewGroup | mygame/app/raver.rb:95-102 | a new group is one rabbit with no target, on the ground at height 0, and forms a chain |
| Ravers.Find | mygame/app/raver.rb:82-85 | the first raver matching the block is found, or none matches at all |
| Ravers.FindById | mygame/app/raver.rb:206 | with distinct ids, searching for a raver's id finds that raver |
| Ravers.HeadIsUnique | mygame/app/raver.rb:82-85 | in a chain exactly one raver has no target, and head_raver finds it |
| Ravers.FollowerIsNext | mygame/app/raver.rb:204-207 | in a chain the only follower of a raver is the next one in the chain, and follower_of finds it; the tail has none |
| Ravers.Index | mygame/app/raver.rb:30-36 | the index is 0 exactly for a raver without target |
| Ravers.IndexIsChainPosition | mygame/app/raver.rb:30-36 | along a chain a raver's index is its distance from the head |
| Ravers.SqDistance | mygame/app/raver.rb:146-148 | the squared distance is never negative |
| Ravers.Closest | mygame/app/raver.rb:143-149 | no raver is found exactly for an empty group; otherwise the first raver at least distance from the point |
| Ravers.ClosestFrom | mygame/app/raver.rb:146-148 | the scan returns the first raver at least distance among all of them |
| Ravers.AddNewRaver | mygame/app/raver.rb:151-171 | the newcomer is appended at rest with a fresh id behind the closest raver (with no target in an empty group), and the only raver changed is retargeted to the newcomer |
| Ravers.ChainAfterAdd | mygame/app/raver.rb:151-171 | the chain after an add is one longer |
| Ravers.AddKeepsFresh | mygame/app/raver.rb:151-171 | adding keeps ids distinct and below the next id |
| Ravers.AddRetargetsFollower | mygame/app/raver.rb:160-166 | adding retargets only the closest raver's old follower, to the newcomer |
| Ravers.AddKeepsChain | mygame/app/raver.rb:151-171 | adding keeps the group one chain, with the newcomer right behind the closest raver |
| Ravers.RemoveAt | mygame/app/raver.rb:197 | deleting a raver closes the gap and keeps everyone else in order |
| Ravers.RemoveRaver | mygame/app/raver.rb:184-198 | a lone raver is never removed; otherwise the group shrinks by one and nothing but the raver list changes |
| Ravers.RemoveIsRetargeted | mygame/app/raver.rb:187-197 | removal retargets the leaver's follower to the leaver's target, then deletes the leaver |
| Ravers.RemoveKeepsChain | mygame/app/raver.rb:184-198 | removing from a group of several keeps ids fresh and the group one chain, closed over the gap |
| Ravers.RemovingHeadPromotesFollower | mygame/app/raver.rb:200-202 | removing the head makes its follower the new head |
| Ravers.RemoveHead | mygame/app/raver.rb:200-202 | with a head, the head is removed; without one, the call fails unless the group has a single raver |
| Ravers.RemoveRaverWithType | mygame/app/raver.rb:177-182 | the first raver of the kind leaves; with none of that kind nothing changes |
| Ravers.RemoveRaverClosestTo | mygame/app/raver.rb:173-175 | the call fails exactly on an empty group; otherwise the raver at least distance is removed |
| Ravers.NeverEmpty | mygame/app/raver.rb:185 | removal never empties the group: one raver stays one, otherwise the group shrinks by one |
| Ravers.Coef | mygame/app/raver.rb:219-223 | the push is 0.7 in the air and 5 on the ground |
| Ravers.MoveLeft | mygame/app/raver.rb:218-226 | without a head the call fails; otherwise only the head's horizontal velocity drops by the push, never below -10 |
| Ravers.MoveRight | mygame/app/raver.rb:228-237 | without a head the call fails; otherwise only the head's horizontal velocity rises by the push, never above 10 |
| Ravers.Jump | mygame/app/raver.rb:213-215 | without a head the call fails; otherwise only the head's vertical velocity changes, to 26 |
| Ravers.CollideWithPlatform | mygame/app/raver.rb:239-241 | only the floor height changes |
| Ravers.Fall | mygame/app/raver.rb:107-116 | friction scales the horizontal velocity by 0.9, gravity lowers the vertical one by 0.9 but not below -15, and the head moves by the new velocities |
| Ravers.Spring | mygame/app/raver.rb:47-57 | only position and velocity change, and a raver without target does not move |
| Ravers.SpringPass | mygame/app/raver.rb:125-134 | the pass keeps ids, targets and kinds, and sets every raver's animation speed to 4 in flight, else 0 |
| Ravers.Tick | mygame/app/raver.rb:104-141 | without a head nothing changes; a floor above the ceiling makes the clamp raise; otherwise structure and floor are kept, the highest stack rises to at least the group size, and exactly one of on-ground and flying holds |
| Ravers.TickBounds | mygame/app/raver.rb:107-123 | after a tick the head lies in [0, 1200] × [floor, 720], falls no faster than 15, is on the ground exactly at the floor, and falls only while flying |
| Ravers.HeadIsFixedByPass | mygame/app/raver.rb:125-134 | the spring pass only sets the head's animation speed |
| Ravers.TickKeepsChain | mygame/app/raver.rb:104-141 | a tick keeps ids fresh and the chain unchanged |
| Score.HasDied | mygame/app/score.rb:11-13 | death once the misses reach the allowance; `FiveMissesKill` ties it to five misses and `DeathIsPermanent` shows it never ends |
| Score.NewScore | mygame/app/score.rb:4-9 | a new score is all zeros with five windows allowed, and not dead |
| Score.Miss | mygame/app/score.rb:2 | a miss adds one to the missed windows and changes nothing else |
| Score.MissN | mygame/app/score.rb:2 | n misses add n to the missed windows and change nothing else |
| Score.DeathIsPermanent | mygame/app/score.rb:11-13 | once dead, further misses keep the score dead |
| Score.FiveMissesKill | mygame/app/score.rb:11-13 | from a new score, the player is dead exactly after five or more misses |
| Animatable.OrDefault | mygame/app/animatable.rb:5-6 | an unset attribute takes its default, a set one keeps its value |
| Animatable.SpriteId | mygame/app/animatable.rb:4-10 | the defaults 4 and 3 are stored; speed 0 gives frame 0; a count of 0 with a non-zero speed raises; otherwise the frame is below the count |
| Animatable.Frame | mygame/app/animatable.rb:4-10 | for a non-negative speed and the default count, the frame is one of 0, 1, 2 and is what sprite_id returns |
| Animatable.DefaultsApply | mygame/app/animatable.rb:5-6 | an unset speed becomes 4 and an unset count 3 |
| Animatable.FrameConstantWithinBlock | mygame/app/animatable.rb:9 | a frame is shown for speed ticks in a row |
| Animatable.FramePeriodic | mygame/app/animatable.rb:9 | the animation repeats every speed·3 ticks |
| Animatable.StillFrame | mygame/app/animatable.rb:8 | at speed 0 every tick shows frame 0 |
| Windows.NewWindow | mygame/app/window.rb:62-68 | a new window has the given position and accepted types, its drawn sprite, and cannot be opened yet |
| Windows.PrefabSize | mygame/app/window.rb:14-28 | the drawn box is wider than it is tall and never empty |
| Windows.WindowRect | mygame/app/window.rb:53-60 | the hit box is a fixed 100 by 100 at the window's corner |
| Windows.OpeningGrowsOnlyTheSprite | mygame/app/window.rb:14-60 | an openable window is drawn 20 wider and 10 taller than the 200 by 100 closed one, with the same hit box |
| Windows.Indicators | mygame/app/window.rb:34-51 | one 70-pixel icon per accepted type, in order, level with the window |
| Windows.IndicatorsFanOut | mygame/app/window.rb:36-41 | icons step 42 apart: leftward from the window's x left of 500, rightward from its right edge less one icon otherwise, never crossing that start |
| Windows.Kinds | mygame/app/window.rb:72 | the kinds of the ravers, in order |
| Windows.Rects | mygame/app/raver.rb:74-76 | the hit boxes of the ravers, in order |
| Windows.Minus | mygame/app/window.rb:72 | the difference keeps only entries of the first list that are absent from the second |
| Windows.MinusEmptyIffCovered | mygame/app/window.rb:72 | the difference is empty exactly when every accepted type occurs among the ravers |
| Windows.AnyHit | mygame/app/window.rb:71 | the intersection search succeeds exactly when some rectangle meets the window's |
| Windows.UpdateCanBeOpened | mygame/app/window.rb:70-73 | a window can be opened exactly when some raver touches it and the group holds every accepted type; nothing else changes |
| Windows.NewWindowSpawner | mygame/app/window.rb:81-88 | a new spawner has no windows, a 5-second interval and one type allowed |
| Windows.GrowTypes | mygame/app/window.rb:91-93 | the type budget grows by one exactly on ticks that are multiples of 120 seconds |
| Windows.Spawn | mygame/app/window.rb:94-107 | once more than the interval has passed, exactly one new window is appended at height 600 and the time noted; otherwise nothing changes |
| Windows.MissesAddUp | mygame/app/window.rb:114 | n misses in a row add n to the missed windows |
| Windows.ScrollCountsMisses | mygame/app/window.rb:109-117 | the scroll counts one missed window per window it deletes, and changes nothing else in the score |
| Windows.HighWindowsAllSink | mygame/app/window.rb:109-117 | while every window is at least half a pixel up, nothing is missed and each window sinks by exactly 0.5 |
| Windows.LastWindowMissed | mygame/app/window.rb:112-116 | a lone window below half a pixel is deleted and costs one miss |
| Windows.Tick | mygame/app/window.rb:90-118 | grow the budget, maybe spawn, then scroll: only the missed count of the score changes, by at most the number of windows plus one, and the budget never shrinks |
| Windows.SpawnedTypeCount | mygame/app/window.rb:97-106 | a spawned window asks for between one and the budget's number of types, starts at height 600 closed, and sits at x in 50..300 or 900..1000 |
| Windows.Pow10 | mygame/app/window.rb:122 | a power of ten is at least 1 |
| Windows.CloseWindow | mygame/app/window.rb:121-125 | closing scores 10 to the number of accepted types and removes exactly that window, keeping the others in order |
| Windows.MoreTypesScoreMore | mygame/app/window.rb:122 | each extra accepted type multiplies the reward by ten, so more types always score strictly more |
| Platforms.Prefab | mygame/app/platform.rb:13-21 | the drawn box is the platform's own position and size |
| Platforms.PlatformRect | mygame/app/platform.rb:4-11 | the collision box is the drawn box 10 taller |
| Platforms.RectExtendsPrefab | mygame/app/platform.rb:4-21 | the collision box shares the drawn box's corner and width and reaches 10 higher |
| Platforms.TypedParam | mygame/app/platform.rb:56-64 | the kind table answers exactly for rolls 0 to 2, always 80 high; any other roll gives nil |
| Platforms.OnlyTwoKindsOccur | mygame/app/platform.rb:56 | the roll is 0 or 1, so only the 240- and 400-wide kinds ever spawn and the 80-wide one never does |
| Platforms.NewPlatformSpawner | mygame/app/platform.rb:35-41 | a new spawner has no platforms, a 2-second interval and multiplier 1 |
| Platforms.NewPlatforms | mygame/app/platform.rb:65-74 | both flips give two platforms, otherwise exactly one |
| Platforms.SpawnPlacement | mygame/app/platform.rb:53-74 | a spawn adds one or two platforms of the drawn kind, between heights 750 and 800 and x 50 and 1200; the left one in 50..500, the right one in 500..1200 |
| Platforms.Harden | mygame/app/platform.rb:45-47 | the multiplier grows by 0.1 exactly on multiples of 30 seconds and never falls; nothing else changes |
| Platforms.Spawn | mygame/app/platform.rb:49-75 | once the interval has passed, the new platforms are appended, the time noted, and the next interval is the draw divided by the multiplier; otherwise nothing changes |
| Platforms.Tick | mygame/app/platform.rb:43-84 | harden, maybe spawn, then scroll with Ruby's walk; the multiplier never falls below its old value or 1 |
| Platforms.HighPlatformsSink | mygame/app/platform.rb:77-83 | while no platform would pass the cull line, each sinks by exactly 3 times the multiplier and none is dropped |
| Platforms.LowPlatformDropped | mygame/app/platform.rb:80-82 | a platform that sinks below -76 is dropped |
| LoneRavers.NewLoneRaver | mygame/app/lone_raver.rb:25-33 | a new lone raver has the given position and kind, is 120 square, animates at 4 and cannot be snatched yet |
| LoneRavers.CreateRaver | mygame/app/lone_raver.rb:35-37 | the raver built from a lone raver is a head at rest, at its position and of its kind |
| LoneRavers.SnatchedRaverJoins | mygame/app/lone_raver.rb:35-37 | adding a snatched lone raver to the group appends exactly the raver create_raver builds, aimed at the closest raver |
| LoneRavers.MinSqDistance | mygame/app/lone_raver.rb:40-42 | the minimum is attained by some raver and no raver is nearer |
| LoneRavers.NearIffSomeRaverClose | mygame/app/lone_raver.rb:39-43 | the least distance is under 100 exactly when some raver is closer than 100 |
| LoneRavers.UpdateCanBeSnatched | mygame/app/lone_raver.rb:39-43 | with no ravers the comparison raises; otherwise only the flag changes, and it is set exactly when some raver is closer than 100 |
| LoneRavers.NewLoneRaverSpawner | mygame/app/lone_raver.rb:51-56 | a new spawner has no lone ravers and a 3-second interval |
| LoneRavers.Spawn | mygame/app/lone_raver.rb:59-62 | once more than the interval has passed, one lone raver is appended and the time noted; otherwise nothing changes |
| LoneRavers.Tick | mygame/app/lone_raver.rb:58-72 | the tick raises exactly when there are lone ravers to check and no ravers to measure against; otherwise it spawns and scrolls with Ruby's walk |
| LoneRavers.SpawnPlacement | mygame/app/lone_raver.rb:61 | a spawned lone raver appears at height 800, x between 100 and 1000, 120 square and not yet snatchable |
| LoneRavers.HighLoneRaversDrift | mygame/app/lone_raver.rb:64-71 | lone ravers at least one up all drift down by one with their flag refreshed, and none leaves |
| LoneRavers.PickUp | mygame/app/lone_raver.rb:75-77 | picking up removes exactly that lone raver and keeps the rest in order |
| Coins.NewCoin | mygame/app/coin.rb:26-31 | a new coin has the given position and drawn kind and animates at 8 |
| Coins.EveryKindListed | mygame/app/coin.rb:1 | every kind of coin is one of the four listed types |
| Coins.Prefab | mygame/app/coin.rb:7-15 | a coin is drawn as a 100-square box at its position |
| Coins.CoinRect | mygame/app/coin.rb:17-24 | a coin collides as a 100-square box at its position |
| Coins.RectIsPrefab | mygame/app/coin.rb:7-24 | a coin is hit exactly where it is drawn |
| Coins.NewCoinSpawner | mygame/app/coin.rb:38-43 | a new spawner has no coins, last spawned at 0, with an 8-second interval |
| Coins.Spawn | mygame/app/coin.rb:46-50 | once more than the interval has passed, one coin is appended and the time noted; otherwise nothing changes |
| Coins.SpawnPlacement | mygame/app/coin.rb:49 | a spawned coin appears at height 700, x between 100 and 1000 |
| Coins.Collect | mygame/app/coin.rb:52-58 | the pickup passes never add coins |
| Coins.CollectOnlyRemoves | mygame/app/coin.rb:52-58 | every coin left after the pickup passes was there before |
| Coins.UntouchedCoinsStay | mygame/app/coin.rb:52-58 | when no raver touches any coin, the pickup keeps every coin in order |
| Coins.LoneCoinTaken | mygame/app/coin.rb:53-56 | a raver touching the only coin takes it |
| Coins.FirstRaverTakesAll | mygame/app/coin.rb:52-58 | once the first raver's pass leaves no coins, the later passes find none |
| Coins.TouchedCoinTaken | mygame/app/coin.rb:52-58 | a single coin touching the first raver is gone after the pickup |
| Coins.EmptyStaysEmpty | mygame/app/coin.rb:52-58 | no coins stay no coins, whatever the ravers |
| Coins.HighCoinsSink | mygame/app/coin.rb:60-65 | coins at least one up all sink by one and none is removed |
| Coins.LowCoinDropped | mygame/app/coin.rb:62-64 | a coin sinking below zero is removed |
| Coins.Tick | mygame/app/coin.rb:45-66 | a tick spawns, picks up, then scrolls, and adds at most one coin |
| Backgrounds.Prefab | mygame/app/background.rb:4-12 | a tile is drawn as a full 1280 by 720 screen at its position |
| Backgrounds.NewBackgrounds | mygame/app/background.rb:24-26 | the spawner starts with a tile on screen and one right above it |
| Backgrounds.Down | mygame/app/background.rb:30 | a tile moves one pixel down and keeps its x |
| Backgrounds.Replacement | mygame/app/background.rb:34 | a replacement sits two screen heights above the tile it replaces, at x 0 |
| Backgrounds.Walk | mygame/app/background.rb:29-36 | Ruby's walk over the tiles keeps their number, one leaving for one appended |
| Backgrounds.Tick | mygame/app/background.rb:28-37 | a tick as written keeps the number of tiles |
| Backgrounds.SteadyWalk | mygame/app/background.rb:29-36 | while no tile leaves, the walk moves each tile from the cursor on down by one and leaves the earlier ones alone |
| Backgrounds.SteadyTick | mygame/app/background.rb:28-37 | a tick in which no tile passes the recycle line moves every tile down by one |
| Backgrounds.TickIntended | mygame/app/background.rb:28-37 | the intended tick keeps the number of tiles |
| Backgrounds.RecycledCount | mygame/app/background.rb:32-35 | one replacement is made for each tile that leaves |
| Backgrounds.SeamlessCovers | mygame/app/background.rb:25 | a seamless pair covers every screen row from 0 to 720 |
| Backgrounds.NewIsSeamless | mygame/app/background.rb:25 | the starting pair is seamless |
| Backgrounds.IntendedRecycles | mygame/app/background.rb:28-37 | on the tick the lower tile leaves, the upper tile moves down and the replacement follows it |
| Backgrounds.IntendedScrolls | mygame/app/background.rb:28-37 | above the recycle line, both tiles move down by one |
| Backgrounds.IntendedStaysSeamless | mygame/app/background.rb:28-37 | the intended tick keeps the pair seamless, whether or not a tile is recycled |
| Backgrounds.Ticks | mygame/app/background.rb:28-37 | n ticks keep the number of tiles |
| Backgrounds.FirstTicksScroll | mygame/app/background.rb:28-37 | for the first 720 ticks both tiles just scroll down together |
| Backgrounds.RecycleSkipsNeighbour | mygame/app/background.rb:28-37 | after 720 ticks the recycle leaves the upper tile unmoved for one frame, so the tiles overlap by two rows until the next recycle, where the intended tick stays seamless |
| Backgrounds.TicksCompose | mygame/app/background.rb:28-37 | n ticks after m ticks are m + n ticks |
| Backgrounds.PairScrolls | mygame/app/background.rb:28-37 | while neither tile reaches the recycle line, n ticks scroll a pair down by n |
| Backgrounds.SecondRecycleRestoresSeam | mygame/app/background.rb:28-37 | the overlapping pair scrolls 720 ticks, leaving the top two screen rows bare at its end; the next recycle skips the upper tile again and puts the pair back one height apart, and 718 ticks later it is where the first recycle found it |
| Backgrounds.RecyclePeriod | mygame/app/background.rb:28-37 | as written the background repeats every 1440 ticks after the first 720 |
| Platformer.Setup | mygame/app/main.rb:12-20 | a new game has a lone head raver on the ground, empty spawners, a seamless background, a zero score and a sound group |
| Platformer.SoundHasHead | mygame/app/main.rb:64 | a sound group always has a head for `head_raver` to find |
| Platformer.MotionKeepsSound | mygame/app/main.rb:56 | moving ravers without changing who follows whom keeps the group sound |
| Platformer.AddKeepsSound | mygame/app/main.rb:38 | adding a snatched raver keeps the group sound |
| Platformer.RemoveKeepsSound | mygame/app/main.rb:48 | removing a raver keeps the group sound |
| Platformer.FindUnmovedHead | mygame/app/main.rb:64 | moving ravers does not change which one is the head |
| Platformer.OnlyHeadMovedKeepsHead | mygame/app/main.rb:23-33 | pushing the head leaves the chain and the head where they were |
| Platformer.JumpStep | mygame/app/main.rb:23-25 | jump is pressed on the ground: only the head's vertical speed changes, to the jump speed; in the air nothing changes; it raises only if there is no head |
| Platformer.LeftStep | mygame/app/main.rb:27-29 | left pushes only the head, and raises only if there is no head |
| Platformer.RightStep | mygame/app/main.rb:31-33 | right pushes only the head, and raises only if there is no head |
| Platformer.Steer | mygame/app/main.rb:23-33 | steering moves only the head, keeps its speed within the limits in the pressed direction, and raises only when a push meets a group without a head |
| Platformer.JumpOnlyFromTheGround | mygame/app/main.rb:23 | in the air, pressing jump changes nothing |
| Platformer.Snatch | mygame/app/main.rb:35-42 | the snatch pass adds one raver for each lone raver it picks up and changes nothing else about the group |
| Platformer.SnatchJoins | mygame/app/main.rb:36-41 | each lone raver picked up adds exactly one raver, and a sound group stays sound |
| Platformer.AdjacentSnatchSkips | mygame/app/main.rb:36-41 | of two snatchable lone ravers side by side only the first joins; the second stays |
| Platformer.FirstOpenable | mygame/app/main.rb:45-53 | the window found can be opened and none before it can; when none is found, no window can be opened |
| Platformer.RemoveTypes | mygame/app/main.rb:47-49 | removing by the window's types takes at most one raver per type and never empties a group |
| Platformer.NeverEmptyByKind | mygame/app/main.rb:48 | removing one raver of a type takes at most one raver and never empties a group |
| Platformer.RemoveTypesKeepsSound | mygame/app/main.rb:47-49 | removing by the window's types keeps the group sound |
| Platformer.Drop | mygame/app/main.rb:44-54 | with no openable window nothing changes; otherwise the first one takes its types and closes, and points only grow |
| Platformer.DropClosesFirstOpenable | mygame/app/main.rb:44-54 | only the first openable window closes, the others stay in order, and it scores ten to the power of its type count |
| Platformer.FirstColliding | mygame/app/main.rb:64 | the platform found meets the head and none before it does; when none is found, no platform does |
| Platformer.DropHead | mygame/app/main.rb:69-73 | dropping the head leaves one raver fewer, the new head jumping and the floor at 0 |
| Platformer.Settle | mygame/app/main.rb:64-74 | a head falling or standing high enough on the first platform it meets lands on that platform; otherwise a head below 10 in a group of several is dropped, and the floor goes back to 0 |
| Platformer.Land | mygame/app/main.rb:64-74 | landing raises exactly when there is no head |
| Platformer.DropHeadKeepsSound | mygame/app/main.rb:69-72 | in a sound group of several, dropping the head works and the follower takes over soundly |
| Platformer.LandKeepsSound | mygame/app/main.rb:64-74 | a sound group always lands or drops without raising, and stays sound |
| Platformer.Handle | mygame/app/main.rb:22-54 | the input half raises only when steering does; it leaves platforms, background and coins alone, and points only grow |
| Platformer.HandleKeepsSound | mygame/app/main.rb:22-54 | a sound group gets through the input half without raising and stays sound |
| Platformer.Advance | mygame/app/main.rb:56-74 | the spawner ticks never lower the difficulty, missed windows grow by at most one more than there were windows, and the background stays seamless with the corrected recycle |
| Platformer.AdvanceKeepsSound | mygame/app/main.rb:56-74 | with a sound group, the update half raises exactly when the floor is above the ceiling, and the group stays sound |
| Platformer.TickGame | mygame/app/main.rb:22-74 | a game frame never lowers the difficulty, points, highest stack or windows missed, and keeps the background seamless with the corrected recycle |
| Platformer.TickGameKeepsSound | mygame/app/main.rb:22-74 | with a sound group, a game frame raises exactly when the floor is above the ceiling, and the group stays sound |
| Platformer.Play | mygame/app/main.rb:193-198 | after a game frame the scene is the end screen exactly when the score says the player has died |
| Platformer.Frame | mygame/app/main.rb:184-202 | Enter or pad A on the start or end screen starts a fresh game; a playing game plays; other screens stay as they are |
| Platformer.FrameKeepsReady | mygame/app/main.rb:184-202 | every frame hands the next one a scene it can run |
| Platformer.EnterIgnoredWhilePlaying | mygame/app/main.rb:184-187 | Enter does not restart a running game |
| Platformer.FirstTickLives | mygame/app/main.rb:184-198 | the first frame of a fresh game does not raise, keeps the group sound and cannot kill the player |
| Platformer.StartIsSafe | mygame/app/main.rb:184-198 | starting a game never raises and leaves it playing with a sound group |
| LaurenceMain.RoundTowardsSign | mygame/app/laurence_main.rb:42-48 | a positive number rounds up to a positive integer, anything else rounds down, each by less than one |
| LaurenceMain.RoundTowardsSignMagnitude | mygame/app/laurence_main.rb:42-48 | rounding never shrinks the magnitude and moves by less than one |
| LaurenceMain.RoundTowardsSignFixesIntegers | mygame/app/laurence_main.rb:42-48 | integers round to themselves |
| LaurenceMain.SpringConstants | mygame/app/laurence_main.rb:60-63 | the stiffness and damping scales are one over the squared step and one over the step |
| LaurenceMain.Coefficient | mygame/app/laurence_main.rb:69-70 | the first link gets the upper value, every link a value between lower and upper, its distance from lower shrinking as one over 1 + i |
| LaurenceMain.CoefficientApproachesLower | mygame/app/laurence_main.rb:69-70 | a later link is never further from the lower value than an earlier one |
| LaurenceMain.Step | mygame/app/laurence_main.rb:66-82 | the new velocity is the damped old one minus the stiffness pull, and the position advances by a sixtieth of the new velocity |
| LaurenceMain.SpringEquilibrium | mygame/app/laurence_main.rb:66-82 | a link at rest on its rest position stays there |
| LaurenceMain.SpringFromRestContracts | mygame/app/laurence_main.rb:66-82 | released from rest with a stiffness in [0, 1], a link ends up no further from its rest position |
| LaurenceMain.NewSpring | mygame/app/laurence_main.rb:54-64 | the constructor succeeds exactly with four arguments and otherwise raises ArgumentError |
| LaurenceMain.InitialShips | mygame/app/laurence_main.rb:89-96 | cnt ships stacked one sprite apart from (x, y), at rest, only the fourth red |
| LaurenceMain.NewPlayerAsWritten | mygame/app/laurence_main.rb:87-102 | building a player always raises ArgumentError |
| LaurenceMain.ConstantSpring | mygame/app/laurence_main.rb:100-101 | a two-value spring is the four-argument one with equal bounds, and gives the same coefficients on every link |
| LaurenceMain.NewPlayer | mygame/app/laurence_main.rb:87-102 | the corrected player always builds, with the stacked ships, the sprite size and the two springs |
| LaurenceMain.PlayerNeverConstructs | mygame/app/laurence_main.rb:100-101 | as written every construction raises "wrong number of arguments (given 2, expected 4)"; the corrected one never does |
| LaurenceMain.Position | mygame/app/laurence_main.rb:120-130 | a negative index counts from the end |
| LaurenceMain.Fetch | mygame/app/laurence_main.rb:120-130 | reading an index gives that slot inside the list and nil outside it |
| LaurenceMain.Store | mygame/app/laurence_main.rb:128-129 | writing raises IndexError exactly before the start; past the end it pads with nil; only the written slot changes |
| LaurenceMain.WithFirst | mygame/app/laurence_main.rb:104-118 | changing the first ship raises exactly when the list is empty or the first slot is nil |
| LaurenceMain.SetX | mygame/app/laurence_main.rb:104-106 | only the first ship's x changes, to the given value; an empty or nil first slot raises |
| LaurenceMain.MoveX | mygame/app/laurence_main.rb:108-110 | only the first ship's x changes, by the given amount; an empty or nil first slot raises |
| LaurenceMain.SetY | mygame/app/laurence_main.rb:112-114 | only the first ship's y changes, to the given value; an empty or nil first slot raises |
| LaurenceMain.MoveY | mygame/app/laurence_main.rb:116-118 | only the first ship's y changes, by the given amount; an empty or nil first slot raises |
| LaurenceMain.MoveXInverse | mygame/app/laurence_main.rb:108-110 | moving by dx and back by -dx restores the player |
| LaurenceMain.DeleteAt | mygame/app/laurence_main.rb:120-124 | inside the list the slot is returned and the rest keep their order; outside it, nil comes back and nothing changes |
| LaurenceMain.SwitchRoot | mygame/app/laurence_main.rb:126-130 | inside the list the first slot and slot i swap and the rest stay; past the end the list grows to i + 1 with nil in front; before the start it raises |
| LaurenceMain.SwitchRootInvolution | mygame/app/laurence_main.rb:126-130 | swapping twice with an index inside the list restores it |
| LaurenceMain.Pull | mygame/app/laurence_main.rb:133-141 | a pull changes only a follower's motion; a follower resting on its leader's x, or one sprite above it, stays there; released from rest, its sideways gap to the leader scales by 1 - cs for its link |
| LaurenceMain.TickFrom | mygame/app/laurence_main.rb:133-141 | from pair i on, the walk raises exactly when a later slot is nil; it keeps the length, the leading slots and every colour |
| LaurenceMain.Tick | mygame/app/laurence_main.rb:132-142 | a tick raises exactly when a nil is among two or more slots; it keeps the length and the first ship |
| LaurenceMain.RestingChainStays | mygame/app/laurence_main.rb:132-142 | a chain with each ship at rest one sprite straight over its leader does not move |
| LaurenceMain.Perform | mygame/app/laurence_main.rb:163-188 | each key changes only the ship list; a delete never raises and removes one slot exactly when there is one there |
| LaurenceMain.PerformAll | mygame/app/laurence_main.rb:163-188 | no keys leave the player alone, and the keys change only the ship list |
| LaurenceMain.Commands | mygame/app/laurence_main.rb:163-188 | there is a call exactly when some key is pressed |
| LaurenceMain.LaurenceTick | mygame/app/laurence_main.rb:150-198 | with no keys a frame is the chain tick; a frame never changes the sprite size or springs |
| LaurenceMain.SwitchPastEndBreaksChain | mygame/app/laurence_main.rb:179-191 | with three ships, K writes nil into the first slot and the next tick raises |
| Rings.Shl | samples/07_advanced_rendering/20_rings/app/main.rb:18-23 | shifting left never shrinks a value and keeps zero and non-zero apart |
| Rings.Or | samples/07_advanced_rendering/20_rings/app/main.rb:18-23 | an or is at least each operand and at most their sum |
| Rings.OrCommutes | samples/07_advanced_rendering/20_rings/app/main.rb:18-23 | or is symmetric |
| Rings.OrDisjoint | samples/07_advanced_rendering/20_rings/app/main.rb:18-23 | an or of a value below 2^k with a multiple of 2^k is their sum |
| Rings.ShrUndoesShl | samples/07_advanced_rendering/20_rings/app/main.rb:18-23 | shifting right by k undoes a left shift by k and drops the bits below it |
| Rings.Field | samples/07_advanced_rendering/20_rings/app/main.rb:17-24 | a decoded field fits four bits |
| Rings.ComposeBlendmode | samples/07_advanced_rendering/20_rings/app/main.rb:17-24 | the packed value is at least every shifted field and at most their sum, since or never loses or adds digits |
| Rings.ComposeIsSum | samples/07_advanced_rendering/20_rings/app/main.rb:17-24 | with every field below 16, the chain of ors is the sum of the shifted fields |
| Rings.ColorFieldsDecode | samples/07_advanced_rendering/20_rings/app/main.rb:18-20 | the colour operation and factors come back from bits 0, 4 and 8, and bits 12 to 15 are clear |
| Rings.AlphaFieldsDecode | samples/07_advanced_rendering/20_rings/app/main.rb:21-23 | the alpha operation and factors come back from bits 16, 20 and 24, and nothing is set from bit 28 up |
| Rings.DecodeRoundTrip | samples/07_advanced_rendering/20_rings/app/main.rb:17-24 | every field below 16 comes back out of its four bits of the packed mode |
| Rings.ComposeInjective | samples/07_advanced_rendering/20_rings/app/main.rb:17-24 | different fields below 16 give different blend modes |
| Rings.ConstantsFitFields | samples/07_advanced_rendering/20_rings/app/main.rb:1-15 | the operations are 1 to 5 and the factors 1 to 10, pairwise distinct, all within four bits |
| Rings.HolePunchBlendmode | samples/07_advanced_rendering/20_rings/app/main.rb:26-31 | the hole-punch mode adds, with a zero source factor and a one-minus-source-alpha destination factor, for colour and alpha alike |
| Rings.HolePunchValue | samples/07_advanced_rendering/20_rings/app/main.rb:26-31 | the hole-punch mode is 0x06110611 |
| Rings.WideFieldSpills | samples/07_advanced_rendering/20_rings/app/main.rb:18-20 | a field of 16 spills into its neighbour's bits, so the round trip needs fields below 16 |
| BlendModes.BackgroundColor | samples/07_advanced_rendering/11_blend_modes/app/main.rb:30-38 | the `bg_color` chain; `ColorQuarters` gives its four ramps, `ColorIsValid` bytes with one zero component, `NeighbourColors` steps of at most one |
| BlendModes.BackgroundAt | samples/07_advanced_rendering/11_blend_modes/app/main.rb:29-38 | the colour shown at a tick; `ColorPeriodic` gives its period of 1020 and `ColorChangesSmoothly` steps of at most one per tick, across the wrap |
| BlendModes.ColorTick | samples/07_advanced_rendering/11_blend_modes/app/main.rb:29 | the colour tick lies in 0..1019, negative ticks included |
| BlendModes.FloorModShift | samples/07_advanced_rendering/11_blend_modes/app/main.rb:29 | adding the divisor leaves the floored remainder alone |
| BlendModes.QuarterOffset | samples/07_advanced_rendering/11_blend_modes/app/main.rb:30-38 | the remainder by 255 within a quarter is the offset into that quarter |
| BlendModes.ColorQuarters | samples/07_advanced_rendering/11_blend_modes/app/main.rb:28-38 | red rises, then red falls as green rises, then green falls as blue rises, then blue falls |
| BlendModes.ColorIsValid | samples/07_advanced_rendering/11_blend_modes/app/main.rb:29-40 | every component is a byte and at least one is zero at every tick |
| BlendModes.ColorPeriodic | samples/07_advanced_rendering/11_blend_modes/app/main.rb:29-40 | the background repeats every 1020 ticks |
| BlendModes.NextColorTick | samples/07_advanced_rendering/11_blend_modes/app/main.rb:29 | the colour tick counts up by one and wraps from 1019 to 0 |
| BlendModes.ColorChangesSmoothly | samples/07_advanced_rendering/11_blend_modes/app/main.rb:28-40 | from one tick to the next each component moves by at most one, across the wrap too |
| BlendModes.BlendmodePrefab | samples/07_advanced_rendering/11_blend_modes/app/main.rb:7-22 | a panel keeps the given box, blend mode and name, and its label sits at the box centre, halved as integers |
| BlendModes.Panels | samples/07_advanced_rendering/11_blend_modes/app/main.rb:52-56 | there are five panels |
| BlendModes.PanelsLayout | samples/07_advanced_rendering/11_blend_modes/app/main.rb:52-56 | the panels sit edge to edge on one row across the middle 640 pixels, each with its own blend mode and its label centred |
| ProgressBar.Start | samples/09_ui_controls/07_progress_bar/app/main.rb:5-7 | the first tick starts at full health with a full bar |
| ProgressBar.Lerp | samples/09_ui_controls/07_progress_bar/app/main.rb:10 | a step closes the given fraction of the gap to the target |
| ProgressBar.Press | samples/09_ui_controls/07_progress_bar/app/main.rb:13-19 | an empty counter refills to 100, any other loses 10 |
| ProgressBar.PressKeepsValid | samples/09_ui_controls/07_progress_bar/app/main.rb:13-19 | a press keeps the counter a multiple of 10 between 0 and 100 |
| ProgressBar.Presses | samples/09_ui_controls/07_progress_bar/app/main.rb:13-19 | any number of presses keeps the counter valid |
| ProgressBar.PressesCompose | samples/09_ui_controls/07_progress_bar/app/main.rb:13-19 | a + b presses are a presses followed by b |
| ProgressBar.PressesCountDown | samples/09_ui_controls/07_progress_bar/app/main.rb:17 | k presses from at least 10·k just count down by 10·k |
| ProgressBar.ElevenPressesReturn | samples/09_ui_controls/07_progress_bar/app/main.rb:13-19 | from any valid value, eleven presses come back to it |
| ProgressBar.TargetAsWritten | samples/09_ui_controls/07_progress_bar/app/main.rb:10 | the integer quotient is 1 from 100 up to 199 |
| ProgressBar.Target | samples/09_ui_controls/07_progress_bar/app/main.rb:9-10 | the target times 100 is the health, so a valid health gives a target in [0, 1] |
| ProgressBar.TickAsWritten | samples/09_ui_controls/07_progress_bar/app/main.rb:1-19 | without a press the health stays |
| ProgressBar.Tick | samples/09_ui_controls/07_progress_bar/app/main.rb:1-19 | the first tick starts full; a press applies to the health; the fill closes a tenth of its gap to the health fraction |
| ProgressBar.TickKeepsValid | samples/09_ui_controls/07_progress_bar/app/main.rb:1-19 | ticks keep the health valid and the fill between empty and full |
| ProgressBar.FillSettles | samples/09_ui_controls/07_progress_bar/app/main.rb:10 | once the fill equals the health fraction it stays put until a press |
| ProgressBar.FillWidth | samples/09_ui_controls/07_progress_bar/app/main.rb:51-59 | the health fill of a valid bar is between 0 and 124 wide |
| ProgressBar.IntegerFractionDrains | samples/09_ui_controls/07_progress_bar/app/main.rb:10 | as written every health below 100 targets 0, so at 90 the bar drains where the real fraction holds it at 0.9 |
| Circles.Circle | samples/07_advanced_rendering/20_circles/app/main.rb:16-23 | a circle is four quarters of half the width and height, all in the given colour |
| Circles.WhiteCircle | samples/07_advanced_rendering/20_circles/app/main.rb:16 | the colour defaults to white |
| Circles.QuartersTile | samples/07_advanced_rendering/20_circles/app/main.rb:17-22 | a point lies in the circle's box exactly when it lies in some quarter, and then in one only |
| Circles.FlipsDistinct | samples/07_advanced_rendering/20_circles/app/main.rb:17-22 | the four quarters carry the four different flip pairs |
| Circles.Frame | samples/07_advanced_rendering/20_circles/app/main.rb:5-14 | at every angle the box is a square of side 0 to 720 centred on the screen, the top-right quarter starting at the centre |
| InputRemap.KeysOf | samples/09_ui_controls/06_input_remapping/app/main.rb:111-114 | the keys of a table, one per entry, in order |
| InputRemap.Get | samples/09_ui_controls/06_input_remapping/app/main.rb:106 | reading a key gives nil exactly when it is absent, and otherwise the value of one of its entries |
| InputRemap.Put | samples/09_ui_controls/06_input_remapping/app/main.rb:88 | assigning keeps an existing key in its place and adds a new key last |
| InputRemap.GetPutSame | samples/09_ui_controls/06_input_remapping/app/main.rb:88 | after an assignment the key reads back the value assigned |
| InputRemap.GetPutOther | samples/09_ui_controls/06_input_remapping/app/main.rb:88 | an assignment leaves every other key's value alone |
| InputRemap.InitialMappings | samples/09_ui_controls/06_input_remapping/app/main.rb:10-19 | the table starts with the keyboard, then controller one |
| InputRemap.InitialLookups | samples/09_ui_controls/06_input_remapping/app/main.rb:10-19 | the keyboard moves on the arrow keys and controller one on its left and right buttons |
| InputRemap.Remap | samples/09_ui_controls/06_input_remapping/app/main.rb:88 | a remap raises exactly when the device is missing, and keeps the devices |
| InputRemap.RemapPuts | samples/09_ui_controls/06_input_remapping/app/main.rb:88 | a remap replaces the device's table with that table plus the one assignment |
| InputRemap.RemapReplacesOnlyItsEntry | samples/09_ui_controls/06_input_remapping/app/main.rb:88 | a remap reads back the new keys for its entry and leaves every other entry as it was |
| InputRemap.CompleteHasDevices | samples/09_ui_controls/06_input_remapping/app/main.rb:106 | a complete table has both devices |
| InputRemap.RemapKeepsComplete | samples/09_ui_controls/06_input_remapping/app/main.rb:88 | remapping a device in a complete table keeps it complete |
| InputRemap.TableButtons | samples/09_ui_controls/06_input_remapping/app/main.rb:114-120 | one button per entry of a device's table, numbered on from the first row |
| InputRemap.ButtonsFrom | samples/09_ui_controls/06_input_remapping/app/main.rb:109-130 | the buttons are numbered on from the first row without gaps |
| InputRemap.RemapButtons | samples/09_ui_controls/06_input_remapping/app/main.rb:109-130 | the buttons are numbered 0, 1, 2, … in order |
| InputRemap.HasButtonConcat | samples/09_ui_controls/06_input_remapping/app/main.rb:111 | a button is in a joined list exactly when it is in one part |
| InputRemap.TableButtonsMatch | samples/09_ui_controls/06_input_remapping/app/main.rb:114-120 | a device's buttons show exactly that device's entries |
| InputRemap.HasEntryCons | samples/09_ui_controls/06_input_remapping/app/main.rb:111 | an entry is in the table exactly when it is in the first device's table or in the rest |
| InputRemap.ButtonsMatchEntries | samples/09_ui_controls/06_input_remapping/app/main.rb:109-130 | every table entry has a button and every button shows a table entry |
| InputRemap.InitialButtons | samples/09_ui_controls/06_input_remapping/app/main.rb:109-130 | the default table gives four buttons: keyboard left and right, then controller left and right |
| InputRemap.FirstInside | samples/09_ui_controls/06_input_remapping/app/main.rb:71 | the button found is under the mouse and none before it is; when none is found, no button is under the mouse |
| InputRemap.NewGame | samples/09_ui_controls/06_input_remapping/app/main.rb:8-35 | a new game has the default table, the keyboard, play mode and the square at x 640 |
| InputRemap.Activated | samples/09_ui_controls/06_input_remapping/app/main.rb:94-107 | the check raises exactly when the current device has no keys for the action, and otherwise reads those keys |
| InputRemap.FollowInput | samples/09_ui_controls/06_input_remapping/app/main.rb:53-58 | the controller or keyboard, whichever was used last, becomes current; the mouse leaves it alone |
| InputRemap.Move | samples/09_ui_controls/06_input_remapping/app/main.rb:60-65 | left wins and moves 5 left; right is asked only when left is off and moves 5 right; otherwise x stays |
| InputRemap.Click | samples/09_ui_controls/06_input_remapping/app/main.rb:67-77 | a click over a button switches to remapping that button's entry; otherwise the mode stays |
| InputRemap.Tick | samples/09_ui_controls/06_input_remapping/app/main.rb:37-44 | a frame moves the square only in play, by at most one step, and changes the table only while remapping |
| InputRemap.TickGame | samples/09_ui_controls/06_input_remapping/app/main.rb:52-78 | play follows the last used device, never raises when both moves are mapped and always raises when the left move is not, keeps the table, moves by at most one step, and changes mode only on a click |
| InputRemap.TickRemap | samples/09_ui_controls/06_input_remapping/app/main.rb:80-91 | with no keys down nothing changes; otherwise the keys become the entry and play resumes, raising only when the device is missing |
| InputRemap.PlayTickSucceeds | samples/09_ui_controls/06_input_remapping/app/main.rb:37-78 | in play with a complete table the frame does not raise, keeps the table and moves the square by at most a step |
| InputRemap.CompleteLookups | samples/09_ui_controls/06_input_remapping/app/main.rb:106 | a complete table has both moves for either device |
| InputRemap.MoveSucceeds | samples/09_ui_controls/06_input_remapping/app/main.rb:60-65 | with both moves mapped, moving does not raise and changes only x, by at most a step |
| InputRemap.RemapTickSucceeds | samples/09_ui_controls/06_input_remapping/app/main.rb:80-91 | remapping with a complete table does not raise, keeps it complete, leaves the square, and resumes play exactly when a key went down |
| InputRemap.TickKeepsComplete | samples/09_ui_controls/06_input_remapping/app/main.rb:37-91 | a frame with a complete table never raises and keeps the table complete |
| InputRemap.RemappedKeysActivate | samples/09_ui_controls/06_input_remapping/app/main.rb:80-107 | after a remap, the action fires on exactly the new keys |
| InputRemap.ActivatedReads | samples/09_ui_controls/06_input_remapping/app/main.rb:106 | the check is true exactly when some key of the current device's entry is down or held |
| InputRemap.ClickHighlightsButton | samples/09_ui_controls/06_input_remapping/app/main.rb:70-77 | clicking a button in play highlights it and leaves the table alone |

## Left out

- Drawing, sound and window calls are not modelled: sprites, labels, borders, lines, `background_color`, render targets, `args.audio` and fullscreen. This covers `test-first-game/app/rendering/ui_renderer.rb` (labels only), `mk_music`, `mk_road`, `tick_start_screen`, `tick_end_screen` and the drawing halves of every `tick`. `RoadRenderer.RenderDividers` and `RunnerRenderer.Render` keep only the geometry those calls are given.
- `docs/oss/dragon/runtime/messages.rb` holds help text with no logic.
- The lighting sample depends on the engine's `Easing.spline` and on render-target blending.
- `mygame/app/rave.rb` is an animation schedule keyed on a Float modulus of 21.343741 seconds.
- The twenty sample ravers of the end screen are created only for drawing. The `Numeric.srand` seed is engine state.
- Float rounding is not modelled. Coordinates, speeds and spring values are exact reals, and `to_i`, `floor` and `ceil` are the exact functions on reals.
- `Math.sin` and `Math.cos` are parameters in [-1, 1]. The rings sample uses `sin` only for the size of the drawn hole, so that size is left out with the drawing.
- The random sources (`rand`, `Numeric.rand`, `.sample`) are parameters, each constrained to the range Ruby returns. The results therefore hold for every possible draw.
- `Geometry.find_intersect_rect` and `intersect_rect?` are one parameter, `hit`, which every caller uses consistently.
- `Geometry.distance` is replaced by the squared distance. A minimum, and a comparison with 100 (as one with 10000), come out the same.
- `Layout.rect(row: i, ...)` is represented by its row `i`, and the mouse test by a predicate on rows.
- Ruby object identity becomes a raver `id` or a list position. `delete(obj)` removes that element.
- `Ravers.Index`: the walk up the targets takes a step bound (`fuel`). It is `None` when the bound runs out. With the chain invariant and a bound of at least the chain position, it returns that position, which `Ravers.IndexIsChainPosition` proves. The raver tick passes the group size.
- `Ravers.Spring` and `LaurenceMain.Step` describe one step of the spring. The full trajectory of the jiggle (convergence, overshoot) is not modelled.
- `RunnerRenderer.DrawOrder`: Ruby's `sort_by` is not stable, so objects at equal depth may come out in any order. The model fixes one order, an insertion sort. Its contract and lemmas state only what the source guarantees: a far-first order that is a permutation of the collected entries, with the player (depth 0) last.
- Skip-on-delete is modelled as written, not corrected, in these places:
  - the mygame platform, lone-raver, window and coin spawners;
  - the snatch pass of `mygame/app/main.rb`.

  Only the runner's collision check and the background recycle are corrected, because there the skipped element changes the outcome in a way the authors evidently did not intend. `Platformer.AdjacentSnatchSkips`, `Coins.Collect` and `RubyArray.AdjacentDeletionSkips` state the skip where it stays.
- `Platformer.Advance` uses the corrected background recycle (`Backgrounds.TickIntended`). `Backgrounds.Tick` keeps the recycle as written, and `Backgrounds.RecycleSkipsNeighbour` and `Backgrounds.SecondRecycleRestoresSeam` show its effect: the upper tile stays put for one frame and the tiles overlap by two rows, with the top two screen rows bare in the last frames, until the next recycle skips again and restores the seam; the pattern repeats every 1440 ticks (`Backgrounds.RecyclePeriod`).
- `Rings.ComposeBlendmode` is defined over non-negative integers only. Ruby's `<<` and `|` on negative integers (two's complement) are not modelled, and the sample passes only the positive constants.
- `ProgressBar`: `max_hp` is set once to 100 and never written again, so it is the constant `MAX_HP`.
- The difficulty-ramp constants of `test-first-game/app/config/constants.rb:57-61` are read by no code shown. The spawner uses the literals 150 and 80, and so does the model.
- `LaurenceMain.LaurenceTick` starts from an existing player. As written, the `||=` that would build one raises, which `LaurenceMain.PlayerNeverConstructs` states.
- `Ravers.Tick`: Ruby's `clamp` raises `ArgumentError` when its lower bound exceeds its upper one. The model returns that error exactly when the group has a head and its floor `min_y` is above 720. The other callers of `clamp` always pass ordered bounds.

## Findings

| source | as written | input that shows it | evidently intended | confidence | as-written member | corrected member |
|---|---|---|---|---|---|---|
| test-first-game/app/systems/collision_detector.rb:10 | `hit_obstacle(camera)` passes one argument, but `Player#hit_obstacle` (test-first-game/app/entities/player.rb:36) takes none, so it raises ArgumentError | any frame in which an obstacle overlaps the player | the hit slows the player and the obstacle is removed | high; not executed | CollisionDetector.CheckCollisionsAsWritten | CollisionDetector.CheckCollisions |
| test-first-game/app/systems/collision_detector.rb:16-22 | the coin is deleted inside `each`, so the walk passes over the coin after it | two coins next to each other in the list, both overlapping the player | both coins collected, score +20 | high; not executed | CollisionDetector.AdjacentCoinsSkipped | CollisionDetector.CheckCollisions |
| test-first-game/app/main.rb:118-134 | `input` returns at once when the game is over, so the later R-restart branch is never reached | game over with R pressed | R restarts the run | high; not executed | MonoRunner.RestartUnreachable | MonoRunner.InputCorrected |
| test-first-game/app/systems/spawner.rb:26-42 | the lane index is passed as the world x and the span as the width | lane 0, span 1: an obstacle at x 0 (the centre lane, where the player starts), 1 unit wide | the obstacle centred on its lanes and as wide as they are | high; not executed | RunnerSpawner.LaneIndexAsX | RunnerSpawner.LaneCoverage |
| mygame/app/laurence_main.rb:100-101 | `Spring.new` is called with two arguments, but `initialize` (line 54) takes four | any `Player.new` | the player built, with springs that have equal upper and lower coefficients | high; not executed | LaurenceMain.PlayerNeverConstructs | LaurenceMain.NewPlayer |
| test-first-game/app/systems/input_handler.rb:4-8 | a restart resets the game state but keeps the one `Spawner` with its watermarks | a restart after a run whose last obstacle spawned at distance 200: at distance 150 no obstacle is due | a restart starts the spawner afresh | medium; not executed | RunnerGame.RestartKeepsWatermarks | RunnerGame.TickRestarts |
| test-first-game/app/rendering/road_renderer.rb:90-105 | the divider row is an Integer, so `world_y / world_depth` divides Integers and floors to 0 | any dash with 0 < world_y and world_y + 40 < 1000 | the Float depth ratio, so dashes recede and taper | high; not executed | RoadRenderer.IntegerDepthFlattensDashes | RoadRenderer.Divider |
| mygame/app/background.rb:28-37 | the tile that leaves is deleted inside `each`, so the tile after it is not moved, while the appended replacement is moved at once | tiles at y -720 and 0, the state after 720 ticks | both tiles move down one and the pair stays seamless | high; not executed | Backgrounds.RecycleSkipsNeighbour | Backgrounds.IntendedStaysSeamless |
| samples/09_ui_controls/07_progress_bar/app/main.rb:10 | `current_hp / max_hp` divides Integers, so every health below 100 gives a target of 0 | health 90 with a full bar: the fill eases toward 0 | the fraction 0.9 | high; not executed | ProgressBar.IntegerFractionDrains | ProgressBar.TickKeepsValid |

=== FILE: animatable.dfy ===
/**
 * The `Animatable` mixin of mygame/app/animatable.rb: which sprite frame to show at
 * a given tick. `Kernel.tick_count` is a parameter; the two attributes start unset
 * (nil) and `sprite_id` fills in their defaults the first time it runs.
 */
module Animatable {
  import opened Wrappers
  import opened Numeric

  const DEFAULT_ANIMATION_SPEED: int := 4
  const DEFAULT_SPRITE_COUNT: int := 3

  datatype Animation = Animation(animationSpeed: Option<int>, spriteCount: Option<int>)

  /** `@x ||= d`. */
  function OrDefault(v: Option<int>, d: int): (r: int)
    ensures v.None? ==> r == d
    ensures v.Some? ==> r == v.value
  {
    if v.None? then d else v.value
  }

  /**
   * `sprite_id` at tick t: the attributes with their defaults written back, and the
   * frame, which is 0 for speed 0 and `(t / speed) % count` otherwise. A count of 0
   * raises ZeroDivisionError.
   */
  function SpriteId(a: Animation, t: int): (r: (Animation, Result<int>))
    ensures r.0.animationSpeed == Some(OrDefault(a.animationSpeed, DEFAULT_ANIMATION_SPEED))
    ensures r.0.spriteCount == Some(OrDefault(a.spriteCount, DEFAULT_SPRITE_COUNT))
    ensures r.0.animationSpeed == Some(0) ==> r.1 == Success(0)
    ensures r.1.Failure? <==> r.0.animationSpeed != Some(0) && r.0.spriteCount == Some(0)
    ensures r.1.Success? && r.0.spriteCount.value > 0 ==> 0 <= r.1.value < r.0.spriteCount.value
  {
    var speed := OrDefault(a.animationSpeed, DEFAULT_ANIMATION_SPEED);
    var count := OrDefault(a.spriteCount, DEFAULT_SPRITE_COUNT);
    var filled := Animation(Some(speed), Some(count));
    if speed == 0 then (filled, Success(0))
    else if count == 0 then (filled, Failure(ZeroDivisionError("divided by 0")))
    else (filled, Success(FloorMod(FloorDiv(t, speed), count)))
  }

  /** The frame for the attribute values every sprite in the game uses: a speed of 0, 4 or 8 and the default count. */
  function Frame(speed: int, t: int): (f: int)
    requires speed >= 0
    ensures 0 <= f < DEFAULT_SPRITE_COUNT
    ensures SpriteId(Animation(Some(speed), None), t).1 == Success(f)
  {
    SpriteId(Animation(Some(speed), None), t).1.value
  }

  /** An unset speed is 4 and an unset count is 3. */
  lemma DefaultsApply(t: int)
    ensures SpriteId(Animation(None, None), t).0 == Animation(Some(4), Some(3))
    ensures SpriteId(Animation(None, None), t).1 == Success(Frame(4, t))
  {
  }

  /** The frame holds for `speed` ticks: every tick of a block shows the block's first frame. */
  lemma FrameConstantWithinBlock(speed: int, q: int, k: int)
    requires speed > 0 && 0 <= k < speed
    ensures Frame(speed, q * speed + k) == Frame(speed, q * speed)
  {
    FloorDivUnique(q * speed + k, speed, q);
    FloorDivUnique(q * speed, speed, q);
  }

  /** The animation repeats every speed·count ticks. */
  lemma FramePeriodic(speed: int, t: int)
    requires speed > 0
    ensures Frame(speed, t + speed * DEFAULT_SPRITE_COUNT) == Frame(speed, t)
  {
    var q := FloorDiv(t, speed);
    FloorDivUnique(t + speed * DEFAULT_SPRITE_COUNT, speed, q + DEFAULT_SPRITE_COUNT);
    FloorShift(q, DEFAULT_SPRITE_COUNT);
  }

  /** With speed 0 every tick shows frame 0. */
  lemma StillFrame(t: int)
    ensures Frame(0, t) == 0
  {
  }
}

=== FILE: backgrounds.dfy ===
/**
 * `Background` and `BackgroundSpawner` of mygame/app/background.rb: two 1280×720
 * tiles of the same picture stacked on top of each other and scrolled down one
 * pixel a tick; a tile that has left the screen is replaced by a fresh one above
 * the other.
 *
 * The tick deletes the tile it is visiting and appends its replacement inside one
 * `each`. Ruby's cursor then skips the tile that slid into the freed slot and visits
 * the appended one instead, so on a recycling tick the other tile stands still
 * while the new tile moves. `Tick` is that walk; `TickIntended` moves every tile
 * exactly once and keeps the two tiles exactly one height apart.
 */
module Backgrounds {
  import RubyArray

  const TILE_W: int := 1280
  const TILE_H: int := 720
  /** A tile whose y falls below this has scrolled off the bottom. */
  const RECYCLE_Y: int := -720

  datatype Tile = Tile(x: int, y: int)

  /** The drawn box of `prefab`. */
  datatype Sprite = Sprite(x: int, y: int, w: int, h: int, path: string)

  function Prefab(t: Tile): (s: Sprite)
    ensures s.x == t.x && s.y == t.y && s.w == TILE_W && s.h == TILE_H
  {
    Sprite(t.x, t.y, TILE_W, TILE_H, "sprites/bg_1.png")
  }

  /** `BackgroundSpawner.new`: one tile on screen and one right above it. */
  function NewBackgrounds(): (ts: seq<Tile>)
    ensures |ts| == 2 && ts[0] == Tile(0, 0) && ts[1] == Tile(0, TILE_H)
  {
    [Tile(0, 0), Tile(0, TILE_H)]
  }

  /** One pixel down. */
  function Down(t: Tile): (r: Tile)
    ensures r.x == t.x && r.y == t.y - 1
  {
    t.(y := t.y - 1)
  }

  predicate OffScreen(t: Tile)
  {
    t.y < RECYCLE_Y
  }

  /** The replacement for a tile that left the screen: two heights further up, at x 0. */
  function Replacement(t: Tile): (r: Tile)
    ensures r.x == 0 && r.y == t.y + 2 * TILE_H
  {
    Tile(0, t.y + 2 * TILE_H)
  }

  /**
   * The `each` walk from cursor i over the live array: the visited tile moves down;
   * if it left the screen it is deleted and its replacement appended, and the cursor
   * still moves on by one.
   */
  function Walk(ts: seq<Tile>, i: nat): (r: seq<Tile>)
    ensures |r| == |ts|
    decreases |ts| - i
  {
    if i >= |ts| then ts
    else
      var t := Down(ts[i]);
      if OffScreen(t) then Walk(ts[..i] + ts[i + 1..] + [Replacement(t)], i + 1)
      else Walk(ts[i := t], i + 1)
  }

  /** `BackgroundSpawner#tick` as Ruby runs it. */
  function Tick(ts: seq<Tile>): (r: seq<Tile>)
    ensures |r| == |ts|
  {
    Walk(ts, 0)
  }

  /** While no tile leaves the screen, the walk moves every tile from the cursor on by one pixel. */
  lemma {:induction false} SteadyWalk(ts: seq<Tile>, i: nat)
    requires i <= |ts|
    requires forall j :: i <= j < |ts| ==> !OffScreen(Down(ts[j]))
    ensures |Walk(ts, i)| == |ts|
    ensures forall j :: 0 <= j < i ==> Walk(ts, i)[j] == ts[j]
    ensures forall j :: i <= j < |ts| ==> Walk(ts, i)[j] == Down(ts[j])
    decreases |ts| - i
  {
    if i < |ts| {
      var next := ts[i := Down(ts[i])];
      SteadyWalk(next, i + 1);
    }
  }

  /** A tick in which no tile leaves the screen scrolls both tiles down by one. */
  lemma SteadyTick(ts: seq<Tile>)
    requires forall j :: 0 <= j < |ts| ==> ts[j].y > RECYCLE_Y
    ensures |Tick(ts)| == |ts| && forall j :: 0 <= j < |ts| ==> Tick(ts)[j] == Down(ts[j])
  {
    SteadyWalk(ts, 0);
  }

  /** The tiles the intended tick leaves, and the replacements it appends after them. */
  function Same(): Tile -> Tile
  {
    (t: Tile) => t
  }

  function Recycle(): (seq<Tile>, Tile) -> seq<Tile>
  {
    (born: seq<Tile>, t: Tile) => born + [Replacement(t)]
  }

  /** Every tile moves exactly once; the replacements of the tiles that left go to the end. */
  function TickIntended(ts: seq<Tile>): (r: seq<Tile>)
    ensures |r| == |ts|
  {
    var moved := RubyArray.MapSeq(ts, (t: Tile) => Down(t));
    var pass := RubyArray.Sweep(moved, [], Same(), (t: Tile) => OffScreen(t), Recycle());
    RecycledCount(moved, []);
    pass.kept + pass.acc
  }

  /** The accumulated replacements: one per tile the sweep drops. */
  lemma {:induction false} RecycledCount(ts: seq<Tile>, born: seq<Tile>)
    ensures |RubyArray.Sweep(ts, born, Same(), (t: Tile) => OffScreen(t), Recycle()).acc| ==
            |born| + RubyArray.Sweep(ts, born, Same(), (t: Tile) => OffScreen(t), Recycle()).removed
    decreases |ts|
  {
    if |ts| > 0 {
      RecycledCount(ts[1..], born);
      RecycledCount(ts[1..], born + [Replacement(ts[0])]);
    }
  }

  /**
   * Two tiles at x 0, the upper exactly one height above the lower, and the lower
   * covering the bottom of the screen: the picture repeats with no seam and no gap.
   */
  predicate Seamless(ts: seq<Tile>)
  {
    |ts| == 2 && ts[0].x == 0 && ts[1].x == 0 &&
    ts[1].y == ts[0].y + TILE_H && RECYCLE_Y <= ts[0].y <= 0
  }

  /** Some tile is drawn over the given screen row. */
  predicate Covers(ts: seq<Tile>, row: int)
  {
    exists k :: 0 <= k < |ts| && ts[k].y <= row < ts[k].y + TILE_H
  }

  /** A seamless pair covers every screen row from 0 to 720. */
  lemma SeamlessCovers(ts: seq<Tile>, row: int)
    requires Seamless(ts) && 0 <= row < TILE_H
    ensures Covers(ts, row)
  {
    if row < ts[0].y + TILE_H {
      assert ts[0].y <= row < ts[0].y + TILE_H;
    } else {
      assert ts[1].y <= row < ts[1].y + TILE_H;
    }
  }

  lemma NewIsSeamless()
    ensures Seamless(NewBackgrounds())
  {
  }

  /** The intended tick on a seamless pair whose lower tile is at the recycle line: the upper tile moves down, a replacement follows it. */
  lemma IntendedRecycles(ts: seq<Tile>)
    requires Seamless(ts) && ts[0].y == RECYCLE_Y
    ensures TickIntended(ts) == [Down(ts[1]), Replacement(Down(ts[0]))]
  {
    var moved := RubyArray.MapSeq(ts, (t: Tile) => Down(t));
    assert moved == [Down(ts[0]), Down(ts[1])];
    assert moved[1..] == [Down(ts[1])];
    assert moved[1..][1..] == [];
    var off := (t: Tile) => OffScreen(t);
    var born := [Replacement(Down(ts[0]))];
    assert Recycle()([], Down(ts[0])) == [] + born == born;
    assert RubyArray.Sweep(moved[1..][1..], born, Same(), off, Recycle()) == RubyArray.Pass([], born, 0);
    assert RubyArray.Sweep(moved[1..], born, Same(), off, Recycle()) == RubyArray.Pass([Down(ts[1])], born, 0);
    assert RubyArray.Sweep(moved, [], Same(), off, Recycle()) == RubyArray.Pass([Down(ts[1])], born, 1);
  }

  /** The intended tick on a seamless pair above the recycle line: both tiles move down by one. */
  lemma IntendedScrolls(ts: seq<Tile>)
    requires Seamless(ts) && ts[0].y != RECYCLE_Y
    ensures TickIntended(ts) == [Down(ts[0]), Down(ts[1])]
  {
    var moved := RubyArray.MapSeq(ts, (t: Tile) => Down(t));
    assert moved == [Down(ts[0]), Down(ts[1])];
    assert moved[1..] == [Down(ts[1])];
    assert moved[1..][1..] == [];
  }

  /** The intended tick keeps the pair seamless, whether or not a tile is recycled. */
  lemma IntendedStaysSeamless(ts: seq<Tile>)
    requires Seamless(ts)
    ensures Seamless(TickIntended(ts))
  {
    if ts[0].y == RECYCLE_Y {
      IntendedRecycles(ts);
    } else {
      IntendedScrolls(ts);
    }
  }

  /** `n` ticks of the source's walk. */
  function Ticks(ts: seq<Tile>, n: nat): (r: seq<Tile>)
    ensures |r| == |ts|
    decreases n
  {
    if n == 0 then ts else Tick(Ticks(ts, n - 1))
  }

  /** For the first 720 ticks both tiles just scroll. */
  lemma {:induction false} FirstTicksScroll(n: nat)
    requires n <= TILE_H
    ensures Ticks(NewBackgrounds(), n) == [Tile(0, -(n as int)), Tile(0, TILE_H - n)]
  {
    if n > 0 {
      FirstTicksScroll(n - 1);
      var ts := [Tile(0, -((n - 1) as int)), Tile(0, TILE_H - (n - 1))];
      SteadyTick(ts);
    }
  }

  /**
   * Tick 721 recycles the lower tile: the upper one, which slid into its slot, is
   * skipped and stays at 0, while the replacement is moved, landing at 718. The
   * tiles now overlap by two rows, where the intended tick would leave them at -1
   * and 719.
   */
  lemma RecycleSkipsNeighbour()
    ensures Ticks(NewBackgrounds(), TILE_H) == [Tile(0, RECYCLE_Y), Tile(0, 0)]
    ensures Seamless(Ticks(NewBackgrounds(), TILE_H))
    ensures Tick([Tile(0, RECYCLE_Y), Tile(0, 0)]) == [Tile(0, 0), Tile(0, TILE_H - 2)]
    ensures !Seamless(Tick([Tile(0, RECYCLE_Y), Tile(0, 0)]))
    ensures TickIntended([Tile(0, RECYCLE_Y), Tile(0, 0)]) == [Tile(0, -1), Tile(0, TILE_H - 1)]
  {
    FirstTicksScroll(TILE_H);
    var ts := [Tile(0, RECYCLE_Y), Tile(0, 0)];
    var after := [Tile(0, 0), Tile(0, TILE_H - 1)];
    assert ts[..0] + ts[1..] + [Replacement(Down(ts[0]))] == after;
    assert Walk(after, 1) == [Tile(0, 0), Tile(0, TILE_H - 2)];
    IntendedRecycles(ts);
  }

  /** n ticks after m ticks are m + n ticks. */
  lemma {:induction false} TicksCompose(ts: seq<Tile>, m: nat, n: nat)
    ensures Ticks(Ticks(ts, m), n) == Ticks(ts, m + n)
    decreases n
  {
    if n > 0 {
      TicksCompose(ts, m, n - 1);
    }
  }

  /** While neither tile reaches the recycle line, n ticks scroll a pair down by n. */
  lemma {:induction false} PairScrolls(a: int, b: int, n: nat)
    requires a - n >= RECYCLE_Y && b - n >= RECYCLE_Y
    ensures Ticks([Tile(0, a), Tile(0, b)], n) == [Tile(0, a - n), Tile(0, b - n)]
    decreases n
  {
    if n > 0 {
      PairScrolls(a, b, n - 1);
      SteadyTick([Tile(0, a - (n - 1)), Tile(0, b - (n - 1))]);
    }
  }

  /**
   * The overlapping pair left by the first recycle scrolls for 720 ticks, and in its
   * last frames the top rows of the screen are bare: at -720 and -2 no tile covers
   * rows 718 and 719. The next recycle skips the upper tile again, which puts the
   * pair back one height apart, and 718 ticks later it is where the first recycle
   * found it.
   */
  lemma SecondRecycleRestoresSeam()
    ensures Ticks([Tile(0, 0), Tile(0, TILE_H - 2)], TILE_H) == [Tile(0, RECYCLE_Y), Tile(0, -2)]
    ensures !Covers([Tile(0, RECYCLE_Y), Tile(0, -2)], TILE_H - 2) && !Covers([Tile(0, RECYCLE_Y), Tile(0, -2)], TILE_H - 1)
    ensures Tick([Tile(0, RECYCLE_Y), Tile(0, -2)]) == [Tile(0, -2), Tile(0, TILE_H - 2)]
    ensures Seamless(Tick([Tile(0, RECYCLE_Y), Tile(0, -2)]))
    ensures Ticks([Tile(0, -2), Tile(0, TILE_H - 2)], TILE_H - 2) == [Tile(0, RECYCLE_Y), Tile(0, 0)]
  {
    PairScrolls(0, TILE_H - 2, TILE_H);
    var ts := [Tile(0, RECYCLE_Y), Tile(0, -2)];
    var after := [Tile(0, -2), Tile(0, TILE_H - 1)];
    assert ts[..0] + ts[1..] + [Replacement(Down(ts[0]))] == after;
    assert Walk(after, 1) == [Tile(0, -2), Tile(0, TILE_H - 2)];
    PairScrolls(-2, TILE_H - 2, TILE_H - 2);
  }

  /**
   * As written the background repeats every 1440 ticks after the first 720: a tick
   * that breaks the seam, 720 ticks of overlap, a tick that restores it, and 718
   * seamless ticks.
   */
  lemma RecyclePeriod()
    ensures Ticks(NewBackgrounds(), TILE_H + 2 * TILE_H) == Ticks(NewBackgrounds(), TILE_H)
  {
    var start := Ticks(NewBackgrounds(), TILE_H);
    RecycleSkipsNeighbour();
    SecondRecycleRestoresSeam();
    assert Ticks(start, 1) == [Tile(0, 0), Tile(0, TILE_H - 2)];
    TicksCompose(start, 1, TILE_H);
    assert Ticks(start, 1 + TILE_H) == [Tile(0, RECYCLE_Y), Tile(0, -2)];
    assert Ticks(start, 1 + TILE_H + 1) == [Tile(0, -2), Tile(0, TILE_H - 2)];
    TicksCompose(start, 1 + TILE_H + 1, TILE_H - 2);
    TicksCompose(NewBackgrounds(), TILE_H, 2 * TILE_H);
  }
}

=== FILE: blend_modes.dfy ===
/**
 * The blend-modes sample (samples/07_advanced_rendering/11_blend_modes/app/main.rb):
 * a background colour that cycles red, green, blue and back to black every 1020
 * ticks, and five labelled panels side by side, one per blend mode.
 */
module BlendModes {
  import opened Numeric

  /** Ticks in one colour cycle: four ramps of 255. */
  const CYCLE: int := 1020
  const RAMP: int := 255

  datatype Color = Color(r: int, g: int, b: int)

  /** `Kernel.tick_count % 1020`, with Ruby's floored remainder. */
  function ColorTick(tick: int): (t: int)
    ensures 0 <= t < CYCLE
  {
    FloorMod(tick, CYCLE)
  }

  /** Adding one divisor leaves the floored remainder alone. */
  lemma FloorModShift(a: int, b: int)
    requires b > 0
    ensures FloorMod(a + b, b) == FloorMod(a, b)
  {
    var q := FloorDiv(a, b);
    FloorDivUnique(a + b, b, q + 1);
  }

  /** The four arms of the `if` chain that picks `bg_color`. */
  function BackgroundColor(t: int): (c: Color)
    requires 0 <= t < CYCLE
  {
    if t < 255 then Color(t, 0, 0)
    else if t < 510 then Color(255 - FloorMod(t, 255), t - 255, 0)
    else if t < 765 then Color(0, 255 - FloorMod(t, 255), t - 255 - 255)
    else Color(0, 0, 255 - FloorMod(t, 255))
  }

  /** The colour shown at a tick. */
  function BackgroundAt(tick: int): (c: Color)
  {
    BackgroundColor(ColorTick(tick))
  }

  predicate InByteRange(c: Color)
  {
    0 <= c.r <= 255 && 0 <= c.g <= 255 && 0 <= c.b <= 255
  }

  /** The remainder by 255 in each quarter is the offset into that quarter. */
  lemma QuarterOffset(t: int, k: int)
    requires 0 <= k && RAMP * k <= t < RAMP * k + RAMP
    ensures FloorMod(t, RAMP) == t - RAMP * k
  {
    FloorDivUnique(t, RAMP, k);
  }

  /**
   * Each quarter is a ramp between two primaries: the first rises, the second has
   * red fall while green rises, the third green falls while blue rises, the last blue
   * falls. Which component is zero in each quarter is part of the statement.
   */
  lemma ColorQuarters(t: int)
    requires 0 <= t < CYCLE
    ensures t < 255 ==> BackgroundColor(t) == Color(t, 0, 0)
    ensures 255 <= t < 510 ==> BackgroundColor(t) == Color(510 - t, t - 255, 0)
    ensures 510 <= t < 765 ==> BackgroundColor(t) == Color(0, 765 - t, t - 510)
    ensures 765 <= t ==> BackgroundColor(t) == Color(0, 0, 1020 - t)
  {
    if 255 <= t < 510 {
      QuarterOffset(t, 1);
    } else if 510 <= t < 765 {
      QuarterOffset(t, 2);
    } else if 765 <= t {
      QuarterOffset(t, 3);
    }
  }

  /** Every component stays a byte, and at most two are non-zero at any tick. */
  lemma ColorIsValid(tick: int)
    ensures InByteRange(BackgroundAt(tick))
    ensures var c := BackgroundAt(tick); c.r == 0 || c.g == 0 || c.b == 0
  {
    ColorQuarters(ColorTick(tick));
  }

  /** The background repeats every 1020 ticks. */
  lemma ColorPeriodic(tick: int)
    ensures BackgroundAt(tick + CYCLE) == BackgroundAt(tick)
  {
    FloorModShift(tick, CYCLE);
  }

  function Dist(a: int, b: int): (d: nat)
    ensures d == a - b || d == b - a
  {
    if a >= b then a - b else b - a
  }

  /** Consecutive colour ticks, including the wrap from 1019 to 0. */
  lemma NextColorTick(tick: int)
    ensures ColorTick(tick + 1) == (if ColorTick(tick) == CYCLE - 1 then 0 else ColorTick(tick) + 1)
  {
    var t := ColorTick(tick);
    var q := FloorDiv(tick, CYCLE);
    if t == CYCLE - 1 {
      FloorDivUnique(tick + 1, CYCLE, q + 1);
    } else {
      FloorDivUnique(tick + 1, CYCLE, q);
    }
  }

  /** From one tick to the next, every component moves by at most one, even across the wrap. */
  lemma ColorChangesSmoothly(tick: int)
    ensures var a := BackgroundAt(tick);
            var b := BackgroundAt(tick + 1);
            Dist(a.r, b.r) <= 1 && Dist(a.g, b.g) <= 1 && Dist(a.b, b.b) <= 1
  {
    NextColorTick(tick);
    NeighbourColors(ColorTick(tick));
  }

  /** The colours of one colour tick and the next, wrapping 1019 to 0, differ by at most one per component. */
  lemma NeighbourColors(t: int)
    requires 0 <= t < CYCLE
    ensures var a := BackgroundColor(t);
            var b := BackgroundColor(if t == CYCLE - 1 then 0 else t + 1);
            Dist(a.r, b.r) <= 1 && Dist(a.g, b.g) <= 1 && Dist(a.b, b.b) <= 1
  {
    ColorQuarters(t);
    ColorQuarters(if t == CYCLE - 1 then 0 else t + 1);
  }

  /** The sprite and label `blendmode_prefab` returns. */
  datatype Panel = Panel(x: int, y: int, w: int, h: int, path: string, blendmode: int,
                         labelX: int, labelY: int, text: string)

  /** `blendmode_prefab`: the sprite at the given box, its label centred on it (Ruby's integer halving). */
  function BlendmodePrefab(name: string, x: int, y: int, w: int, h: int, blendmode: int): (p: Panel)
    ensures p.x == x && p.y == y && p.w == w && p.h == h && p.blendmode == blendmode && p.text == name
    ensures 2 * (p.labelX - x) <= w < 2 * (p.labelX - x) + 2
    ensures 2 * (p.labelY - y) <= h < 2 * (p.labelY - y) + 2
  {
    Panel(x, y, w, h, "sprites/blue-feathered.png", blendmode,
          x + FloorDiv(w, 2), y + FloorDiv(h, 2), name)
  }

  /** The five panels of `tick`, left to right. */
  function Panels(): (ps: seq<Panel>)
    ensures |ps| == 5
  {
    [BlendmodePrefab("none", 320 + 0, 296, 128, 128, 0),
     BlendmodePrefab("alpha", 320 + 128, 296, 128, 128, 1),
     BlendmodePrefab("add", 320 + 256, 296, 128, 128, 2),
     BlendmodePrefab("mod", 320 + 384, 296, 128, 128, 4),
     BlendmodePrefab("mul", 320 + 512, 296, 128, 128, 8)]
  }

  /**
   * The panels sit edge to edge on one row, span the middle 640 pixels of the
   * 1280-wide screen, carry pairwise different blend modes, and each label is at
   * its panel's centre.
   */
  lemma PanelsLayout()
    ensures var ps := Panels();
            (forall i :: 0 <= i < 4 ==> ps[i + 1].x == ps[i].x + ps[i].w && ps[i + 1].y == ps[i].y) &&
            ps[0].x == 320 && ps[4].x + ps[4].w == 1280 - 320 &&
            (forall i, j :: 0 <= i < j < 5 ==> ps[i].blendmode != ps[j].blendmode) &&
            (forall i :: 0 <= i < 5 ==> ps[i].labelX == ps[i].x + 64 && ps[i].labelY == 360)
  {
  }
}

=== FILE: circles.dfy ===
/**
 * The circles sample (samples/07_advanced_rendering/20_circles/app/main.rb): a
 * circle drawn as four copies of one quarter-circle sprite, mirrored into the four
 * corners of its bounding box, pulsing about the centre of the 1280×720 screen.
 *
 * The radius is a Float in the source (`cos(...).abs * 360`), so coordinates are
 * reals here; the cosine arrives as a parameter.
 */
module Circles {

  const CENTER_X: real := 640.0
  const CENTER_Y: real := 360.0
  const MAX_RADIUS: real := 360.0

  datatype Quarter = Quarter(x: real, y: real, w: real, h: real, r: int, g: int, b: int,
                             path: string, flipHorizontally: bool, flipVertically: bool)

  /** `circle(x:, y:, w:, h:, r:, g:, b:)`: bottom-left, bottom-right, top-left, top-right. */
  function Circle(x: real, y: real, w: real, h: real, r: int, g: int, b: int): (qs: seq<Quarter>)
    ensures |qs| == 4
    ensures forall i :: 0 <= i < 4 ==> qs[i].w * 2.0 == w && qs[i].h * 2.0 == h
    ensures forall i :: 0 <= i < 4 ==> qs[i].r == r && qs[i].g == g && qs[i].b == b
  {
    var path := "sprites/quarter-circle.png";
    [Quarter(x, y, w / 2.0, h / 2.0, r, g, b, path, false, false),
     Quarter(x + w / 2.0, y, w / 2.0, h / 2.0, r, g, b, path, true, false),
     Quarter(x, y + h / 2.0, w / 2.0, h / 2.0, r, g, b, path, false, true),
     Quarter(x + w / 2.0, y + h / 2.0, w / 2.0, h / 2.0, r, g, b, path, true, true)]
  }

  /** `circle` with its colour keywords left at their default of white. */
  function WhiteCircle(x: real, y: real, w: real, h: real): (qs: seq<Quarter>)
    ensures forall i :: 0 <= i < |qs| ==> qs[i].r == 255 && qs[i].g == 255 && qs[i].b == 255
  {
    Circle(x, y, w, h, 255, 255, 255)
  }

  /** Half-open containment of a point in a quarter's box. */
  predicate Covers(q: Quarter, px: real, py: real)
  {
    q.x <= px < q.x + q.w && q.y <= py < q.y + q.h
  }

  /**
   * The quarters tile their box: a point lies in the box exactly when it lies in some
   * quarter, and then in one quarter only.
   */
  lemma QuartersTile(x: real, y: real, w: real, h: real, r: int, g: int, b: int, px: real, py: real)
    ensures var qs := Circle(x, y, w, h, r, g, b);
            (x <= px < x + w && y <= py < y + h) <==> exists i :: 0 <= i < 4 && Covers(qs[i], px, py)
    ensures var qs := Circle(x, y, w, h, r, g, b);
            forall i, j :: 0 <= i < j < 4 ==> !(Covers(qs[i], px, py) && Covers(qs[j], px, py))
  {
    var qs := Circle(x, y, w, h, r, g, b);
    if x <= px < x + w && y <= py < y + h {
      var i := (if px < x + w / 2.0 then 0 else 1) + (if py < y + h / 2.0 then 0 else 2);
      assert Covers(qs[i], px, py);
    }
  }

  /** The (horizontal, vertical) flip pair of a quarter. */
  function Flips(q: Quarter): (bool, bool)
  {
    (q.flipHorizontally, q.flipVertically)
  }

  /** Each pair of flips appears once, so the four mirror images make the whole circle. */
  lemma FlipsDistinct(x: real, y: real, w: real, h: real, r: int, g: int, b: int)
    ensures var qs := Circle(x, y, w, h, r, g, b);
            (set i | 0 <= i < 4 :: Flips(qs[i])) == {(false, false), (true, false), (false, true), (true, true)}
    ensures var qs := Circle(x, y, w, h, r, g, b);
            forall i, j :: 0 <= i < j < 4 ==> Flips(qs[i]) != Flips(qs[j])
  {
    var qs := Circle(x, y, w, h, r, g, b);
    assert Flips(qs[0]) == (false, false) && Flips(qs[1]) == (true, false);
    assert Flips(qs[2]) == (false, true) && Flips(qs[3]) == (true, true);
  }

  /**
   * `tick`: `cos` of the tick's angle, taken as a parameter, sets the radius of a grey
   * circle. Whatever the angle, the circle's box is a square of side between 0 and 720
   * centred on the middle of the screen, and the top-right quarter starts there.
   */
  function Frame(cosine: real): (qs: seq<Quarter>)
    requires -1.0 <= cosine <= 1.0
    ensures |qs| == 4
    ensures var side := qs[0].w * 2.0;
            0.0 <= side <= 2.0 * MAX_RADIUS && qs[0].h == qs[0].w &&
            qs[0].x + side / 2.0 == CENTER_X && qs[0].y + side / 2.0 == CENTER_Y &&
            qs[3].x == CENTER_X && qs[3].y == CENTER_Y
  {
    var radius := (if cosine >= 0.0 then cosine else -cosine) * MAX_RADIUS;
    Circle(CENTER_X - radius, CENTER_Y - radius, radius * 2.0, radius * 2.0, 80, 80, 80)
  }
}

=== FILE: coins.dfy ===
/**
 * `Coin` and `CoinSpawner` of mygame/app/coin.rb: pickups that drift down and
 * vanish when a raver touches them. Touching one awards nothing: the spawner never
 * sees the score. `hit` stands for the engine's `intersect_rect?`.
 */
module Coins {
  import opened Ravers
  import RubyArray

  datatype CoinType = CoinKind | Drink | Kebab | Sunglasses

  /** `COIN_TYPES`. */
  const COIN_TYPES: seq<CoinType> := [CoinKind, Drink, Kebab, Sunglasses]

  const COIN_SIZE: real := 100.0
  const SPAWN_INTERVAL: int := 480
  const SPAWN_Y: real := 700.0
  const COIN_ANIMATION_SPEED: int := 8

  datatype Coin = Coin(x: real, y: real, kind: CoinType, animationSpeed: int)

  /** `Coin.new(x:, y:)` with `COIN_TYPES.sample` drawn by the caller. */
  function NewCoin(x: real, y: real, kind: CoinType): (c: Coin)
    ensures c.x == x && c.y == y && c.kind == kind && c.animationSpeed == COIN_ANIMATION_SPEED
  {
    Coin(x, y, kind, COIN_ANIMATION_SPEED)
  }

  /** `COIN_TYPES.sample` can give every kind of coin, so any drawn kind is a listed one. */
  lemma EveryKindListed(k: CoinType)
    ensures k in COIN_TYPES
  {
    match k
    case CoinKind => assert COIN_TYPES[0] == k;
    case Drink => assert COIN_TYPES[1] == k;
    case Kebab => assert COIN_TYPES[2] == k;
    case Sunglasses => assert COIN_TYPES[3] == k;
  }

  /** The drawn box of `prefab`. */
  function Prefab(c: Coin): (r: Rect)
    ensures r.x == c.x && r.y == c.y && r.w == COIN_SIZE && r.h == COIN_SIZE
  {
    Rect(c.x, c.y, COIN_SIZE, COIN_SIZE)
  }

  /** `rect`: the collision box. */
  function CoinRect(c: Coin): (r: Rect)
    ensures r.x == c.x && r.y == c.y && r.w == COIN_SIZE && r.h == COIN_SIZE
  {
    Rect(c.x, c.y, COIN_SIZE, COIN_SIZE)
  }

  /** A coin is hit exactly where it is drawn. */
  lemma RectIsPrefab(c: Coin)
    ensures CoinRect(c) == Prefab(c)
  {
  }

  datatype CoinSpawner = CoinSpawner(coins: seq<Coin>, lastSpawnAt: int, spawnInterval: int)

  function NewCoinSpawner(): (s: CoinSpawner)
    ensures s.coins == [] && s.lastSpawnAt == 0 && s.spawnInterval == SPAWN_INTERVAL
  {
    CoinSpawner([], 0, SPAWN_INTERVAL)
  }

  /** The draws for one spawn: `rand(100..1000)` and `COIN_TYPES.sample`. */
  datatype CoinRoll = CoinRoll(x: int, kind: CoinType)

  predicate RollInRange(roll: CoinRoll)
  {
    100 <= roll.x <= 1000
  }

  function Spawn(s: CoinSpawner, tick: int, roll: CoinRoll): (r: CoinSpawner)
    ensures r.spawnInterval == s.spawnInterval
    ensures s.spawnInterval < tick - s.lastSpawnAt ==>
              r.lastSpawnAt == tick && r.coins == s.coins + [NewCoin(roll.x as real, SPAWN_Y, roll.kind)]
    ensures s.spawnInterval >= tick - s.lastSpawnAt ==> r == s
  {
    if s.spawnInterval < tick - s.lastSpawnAt then
      s.(lastSpawnAt := tick, coins := s.coins + [NewCoin(roll.x as real, SPAWN_Y, roll.kind)])
    else s
  }

  /** A spawned coin appears at height 700 between x 100 and 1000. */
  lemma SpawnPlacement(s: CoinSpawner, tick: int, roll: CoinRoll)
    requires RollInRange(roll) && s.spawnInterval < tick - s.lastSpawnAt
    ensures var c := Spawn(s, tick, roll).coins[|s.coins|];
            c.y == SPAWN_Y && 100.0 <= c.x <= 1000.0 && c.animationSpeed == COIN_ANIMATION_SPEED
  {
  }

  function Same(): Coin -> Coin
  {
    (c: Coin) => c
  }

  function Touches(r: Raver, hit: (Rect, Rect) -> bool): Coin -> bool
  {
    (c: Coin) => hit(CoinRect(c), RaverRect(r))
  }

  function Keep(): ((), Coin) -> ()
  {
    RubyArray.Ignore((u: ()) => u)
  }

  /** One raver's `@coins.each` pass: coins it touches are deleted, as Ruby's `each` does it. */
  function TouchedBy(cs: seq<Coin>, r: Raver, hit: (Rect, Rect) -> bool): seq<Coin>
  {
    RubyArray.EachDelete(cs, (), Same(), Touches(r, hit), Keep()).kept
  }

  /** The pickup passes, one per raver in group order. */
  function Collect(cs: seq<Coin>, rs: seq<Raver>, hit: (Rect, Rect) -> bool): (r: seq<Coin>)
    ensures |r| <= |cs|
    decreases |rs|
  {
    if |rs| == 0 then cs else Collect(TouchedBy(cs, rs[0], hit), rs[1..], hit)
  }

  /** A pickup pass only removes: every coin left was already there. */
  lemma {:induction false} CollectOnlyRemoves(cs: seq<Coin>, rs: seq<Raver>, hit: (Rect, Rect) -> bool)
    ensures forall i :: 0 <= i < |Collect(cs, rs, hit)| ==> Collect(cs, rs, hit)[i] in cs
    decreases |rs|
  {
    if |rs| > 0 {
      var p := (c: Coin) => c in cs;
      RubyArray.KeptPreserves(cs, (), Same(), Touches(rs[0], hit), Keep(), p);
      var next := TouchedBy(cs, rs[0], hit);
      CollectOnlyRemoves(next, rs[1..], hit);
      assert forall i :: 0 <= i < |next| ==> next[i] in cs;
    }
  }

  /** When no raver touches any coin, every coin stays. */
  lemma {:induction false} UntouchedCoinsStay(cs: seq<Coin>, rs: seq<Raver>, hit: (Rect, Rect) -> bool)
    requires forall i, j :: 0 <= i < |cs| && 0 <= j < |rs| ==> !hit(CoinRect(cs[i]), RaverRect(rs[j]))
    ensures Collect(cs, rs, hit) == cs
    decreases |rs|
  {
    if |rs| > 0 {
      RubyArray.NoDeletionAgrees(cs, (), Same(), Touches(rs[0], hit), Keep());
      assert RubyArray.MapSeq(cs, Same()) == cs;
      UntouchedCoinsStay(cs, rs[1..], hit);
    }
  }

  /** A lone coin is visited, so a raver touching it takes it. */
  lemma LoneCoinTaken(c: Coin, r: Raver, hit: (Rect, Rect) -> bool)
    requires hit(CoinRect(c), RaverRect(r))
    ensures TouchedBy([c], r, hit) == []
  {
  }

  /** Once the first raver has taken every coin, the rest find none. */
  lemma FirstRaverTakesAll(cs: seq<Coin>, rs: seq<Raver>, hit: (Rect, Rect) -> bool)
    requires |rs| > 0 && TouchedBy(cs, rs[0], hit) == []
    ensures Collect(cs, rs, hit) == []
  {
    EmptyStaysEmpty(rs[1..], hit);
  }

  /** A single coin touching the first raver is taken. */
  lemma TouchedCoinTaken(c: Coin, rs: seq<Raver>, hit: (Rect, Rect) -> bool)
    requires |rs| > 0 && hit(CoinRect(c), RaverRect(rs[0]))
    ensures Collect([c], rs, hit) == []
  {
    LoneCoinTaken(c, rs[0], hit);
    FirstRaverTakesAll([c], rs, hit);
  }

  lemma {:induction false} EmptyStaysEmpty(rs: seq<Raver>, hit: (Rect, Rect) -> bool)
    ensures Collect([], rs, hit) == []
    decreases |rs|
  {
    if |rs| > 0 {
      EmptyStaysEmpty(rs[1..], hit);
    }
  }

  function Sink(): Coin -> Coin
  {
    (c: Coin) => c.(y := c.y - 1.0)
  }

  function Gone(): Coin -> bool
  {
    (c: Coin) => c.y < 0.0
  }

  function Scroll(cs: seq<Coin>): RubyArray.Pass<Coin, ()>
  {
    RubyArray.EachDelete(cs, (), Sink(), Gone(), Keep())
  }

  /** Coins at least one up all sink by one and none leaves. */
  lemma HighCoinsSink(cs: seq<Coin>)
    requires forall i :: 0 <= i < |cs| ==> cs[i].y >= 1.0
    ensures var p := Scroll(cs);
            p.removed == 0 && |p.kept| == |cs| && forall i :: 0 <= i < |cs| ==> p.kept[i] == cs[i].(y := cs[i].y - 1.0)
  {
    RubyArray.NoDeletionAgrees(cs, (), Sink(), Gone(), Keep());
  }

  /** A coin sinking below zero is dropped. */
  lemma LowCoinDropped(c: Coin)
    requires c.y < 1.0
    ensures Scroll([c]).kept == [] && Scroll([c]).removed == 1
  {
  }

  /** `CoinSpawner#tick`: maybe spawn, take the coins the ravers touch, then let the rest sink. */
  function Tick(s: CoinSpawner, rs: seq<Raver>, hit: (Rect, Rect) -> bool, tick: int, roll: CoinRoll): (r: CoinSpawner)
    ensures var spawned := Spawn(s, tick, roll);
            r == spawned.(coins := Scroll(Collect(spawned.coins, rs, hit)).kept)
    ensures |r.coins| <= |s.coins| + 1
  {
    var spawned := Spawn(s, tick, roll);
    spawned.(coins := Scroll(Collect(spawned.coins, rs, hit)).kept)
  }
}

=== FILE: collision_detector.dfy ===
/**
 * The endless runner's CollisionDetector (test-first-game/app/systems/collision_detector.rb).
 *
 * Three readings of `check_collisions`:
 *  - `CheckCollisionsAsWritten`: line 10 calls the zero-argument `hit_obstacle`
 *    with one argument, so the first overlapping obstacle raises ArgumentError;
 *  - `CheckCollisionsRuby`: the call fixed, but deletion inside `each` still skips
 *    the element after each removed one;
 *  - `CheckCollisions`: the intended pass, every entity checked once against the
 *    player bounds taken before both loops. The game tick uses this one.
 */
module CollisionDetector {
  import opened Wrappers
  import opened RunnerConfig
  import opened Numeric
  import opened RunnerEntities
  import opened RunnerGameState
  import RubyArray

  /** `boxes_overlap?`: centre/half-extent test, x the centre, y the near edge. */
  predicate BoxesOverlap(a: Box, b: Box)
  {
    AbsR(a.x - b.x) < a.w / 2.0 + b.w / 2.0 &&
    AbsR((a.y + a.h / 2.0) - (b.y + b.h / 2.0)) < a.h / 2.0 + b.h / 2.0
  }

  /** The same boxes as open edge intervals: [x - w/2, x + w/2] sideways, [y, y + h] in depth. */
  predicate EdgesOverlap(a: Box, b: Box)
  {
    a.x - a.w / 2.0 < b.x + b.w / 2.0 && b.x - b.w / 2.0 < a.x + a.w / 2.0 &&
    a.y < b.y + b.h && b.y < a.y + a.h
  }

  lemma OverlapIsEdgeOverlap(a: Box, b: Box)
    ensures BoxesOverlap(a, b) <==> EdgesOverlap(a, b)
  {
  }

  lemma OverlapSymmetric(a: Box, b: Box)
    ensures BoxesOverlap(a, b) <==> BoxesOverlap(b, a)
  {
  }

  /** Boxes that exactly touch, sideways or in depth, do not overlap. */
  lemma TouchingIsNotOverlap(a: Box, b: Box)
    requires b.x - a.x == (a.w + b.w) / 2.0 || b.y == a.y + a.h
    ensures !BoxesOverlap(a, b)
  {
  }

  function ObstacleHit(pb: Box): Obstacle -> bool
  {
    (o: Obstacle) => BoxesOverlap(pb, ObstacleBounds(o))
  }

  function CoinHit(pb: Box): Coin -> bool
  {
    (c: Coin) => BoxesOverlap(pb, CoinBounds(c))
  }

  function SameObstacle(): Obstacle -> Obstacle { (o: Obstacle) => o }
  function SameCoin(): Coin -> Coin { (c: Coin) => c }

  /** One corrected `hit_obstacle` per deleted obstacle. */
  function HitEffect(): Player -> Player { (p: Player) => HitObstacle(p) }

  /** `collect_coin` and `score += COIN_SCORE_VALUE` per deleted coin. */
  function CoinEffect(): ((Player, int)) -> (Player, int)
  {
    (ps: (Player, int)) => (CollectCoin(ps.0), ps.1 + COIN_SCORE_VALUE)
  }

  lemma {:induction false} RepeatedHits(p: Player, k: nat)
    ensures RubyArray.Iterate(HitEffect(), p, k) ==
            (if k == 0 then p else p.(speed := MaxR(p.speed - SPEED_DECAY_ON_HIT * k as real, 0.0)))
    decreases k
  {
    if k > 0 {
      RepeatedHits(HitObstacle(p), k - 1);
    }
  }

  lemma {:induction false} RepeatedCoins(p: Player, score: int, k: nat)
    ensures RubyArray.Iterate(CoinEffect(), (p, score), k) ==
            (p.(speed := p.speed + COIN_SPEED_BOOST * k as real), score + COIN_SCORE_VALUE * k)
    decreases k
  {
    if k > 0 {
      RepeatedCoins(CollectCoin(p), score + COIN_SCORE_VALUE, k - 1);
    }
  }

  /** The player after k obstacle hits. */
  function Hits(p: Player, k: nat): Player
  {
    if k == 0 then p else p.(speed := MaxR(p.speed - SPEED_DECAY_ON_HIT * k as real, 0.0))
  }

  /** The player after m coins. */
  function Boosts(p: Player, m: nat): Player
  {
    p.(speed := p.speed + COIN_SPEED_BOOST * m as real)
  }

  /** The player after k obstacle hits and then m coins. */
  function AfterHits(p: Player, k: nat, m: nat): Player
  {
    Boosts(Hits(p, k), m)
  }

  /** The obstacle loop of the intended pass: each obstacle is checked once against `pb`. */
  function CheckObstacles(g: GameState, pb: Box): (r: GameState)
    ensures var k := RubyArray.CountGone(g.obstacles, SameObstacle(), ObstacleHit(pb));
            r == g.(player := Hits(g.player, k), obstacles := r.obstacles) && |r.obstacles| == |g.obstacles| - k
    ensures forall i :: 0 <= i < |r.obstacles| ==>
              r.obstacles[i] in g.obstacles && !BoxesOverlap(pb, ObstacleBounds(r.obstacles[i]))
    ensures forall j :: 0 <= j < |g.obstacles| && !BoxesOverlap(pb, ObstacleBounds(g.obstacles[j])) ==>
              g.obstacles[j] in r.obstacles
  {
    var os := RubyArray.Sweep(g.obstacles, g.player, SameObstacle(), ObstacleHit(pb), RubyArray.Ignore(HitEffect()));
    RubyArray.SweepRemovesCondemned(g.obstacles, g.player, SameObstacle(), ObstacleHit(pb), RubyArray.Ignore(HitEffect()));
    RubyArray.SweepIsIterate(g.obstacles, g.player, SameObstacle(), ObstacleHit(pb), HitEffect());
    RepeatedHits(g.player, os.removed);
    g.(player := os.acc, obstacles := os.kept)
  }

  /** The coin loop of the intended pass: each coin is checked once against `pb`. */
  function CheckCoins(g: GameState, pb: Box): (r: GameState)
    ensures var m := RubyArray.CountGone(g.coins, SameCoin(), CoinHit(pb));
            r == g.(player := Boosts(g.player, m), score := g.score + COIN_SCORE_VALUE * m, coins := r.coins) &&
            |r.coins| == |g.coins| - m
    ensures forall i :: 0 <= i < |r.coins| ==>
              r.coins[i] in g.coins && !BoxesOverlap(pb, CoinBounds(r.coins[i]))
    ensures forall j :: 0 <= j < |g.coins| && !BoxesOverlap(pb, CoinBounds(g.coins[j])) ==>
              g.coins[j] in r.coins
  {
    var cs := RubyArray.Sweep(g.coins, (g.player, g.score), SameCoin(), CoinHit(pb), RubyArray.Ignore(CoinEffect()));
    RubyArray.SweepRemovesCondemned(g.coins, (g.player, g.score), SameCoin(), CoinHit(pb), RubyArray.Ignore(CoinEffect()));
    RubyArray.SweepIsIterate(g.coins, (g.player, g.score), SameCoin(), CoinHit(pb), CoinEffect());
    RepeatedCoins(g.player, g.score, cs.removed);
    g.(player := cs.acc.0, score := cs.acc.1, coins := cs.kept)
  }

  /** The intended `check_collisions`: every obstacle and coin is checked once against the player's starting bounds. */
  function CheckCollisions(g: GameState): (r: GameState)
    ensures var pb := PlayerBounds(g.player);
            var k := RubyArray.CountGone(g.obstacles, SameObstacle(), ObstacleHit(pb));
            var m := RubyArray.CountGone(g.coins, SameCoin(), CoinHit(pb));
            r.player == AfterHits(g.player, k, m) &&
            r.score == g.score + COIN_SCORE_VALUE * m &&
            |r.obstacles| == |g.obstacles| - k && |r.coins| == |g.coins| - m
    ensures var pb := PlayerBounds(g.player);
            (forall i :: 0 <= i < |r.obstacles| ==>
               r.obstacles[i] in g.obstacles && !BoxesOverlap(pb, ObstacleBounds(r.obstacles[i]))) &&
            (forall j :: 0 <= j < |g.obstacles| && !BoxesOverlap(pb, ObstacleBounds(g.obstacles[j])) ==>
               g.obstacles[j] in r.obstacles)
    ensures var pb := PlayerBounds(g.player);
            (forall i :: 0 <= i < |r.coins| ==>
               r.coins[i] in g.coins && !BoxesOverlap(pb, CoinBounds(r.coins[i]))) &&
            (forall j :: 0 <= j < |g.coins| && !BoxesOverlap(pb, CoinBounds(g.coins[j])) ==>
               g.coins[j] in r.coins)
    ensures r.distance == g.distance && r.roadOffset == g.roadOffset && r.gameOver == g.gameOver
  {
    var pb := PlayerBounds(g.player);
    CheckCoins(CheckObstacles(g, pb), pb)
  }

  /** `check_collisions` with the arity fixed but Ruby's `each` + `delete` kept. */
  function CheckCollisionsRuby(g: GameState): (r: GameState)
    ensures var pb := PlayerBounds(g.player);
            var os := RubyArray.EachDelete(g.obstacles, g.player, SameObstacle(), ObstacleHit(pb), RubyArray.Ignore(HitEffect()));
            var cs := RubyArray.EachDelete(g.coins, (os.acc, g.score), SameCoin(), CoinHit(pb), RubyArray.Ignore(CoinEffect()));
            r.player == AfterHits(g.player, os.removed, cs.removed) &&
            r.score == g.score + COIN_SCORE_VALUE * cs.removed &&
            r.obstacles == os.kept && r.coins == cs.kept
    ensures r.distance == g.distance && r.roadOffset == g.roadOffset && r.gameOver == g.gameOver
  {
    var pb := PlayerBounds(g.player);
    var os := RubyArray.EachDelete(g.obstacles, g.player, SameObstacle(), ObstacleHit(pb), RubyArray.Ignore(HitEffect()));
    var cs := RubyArray.EachDelete(g.coins, (os.acc, g.score), SameCoin(), CoinHit(pb), RubyArray.Ignore(CoinEffect()));
    RubyArray.EffectIsIterate(g.obstacles, g.player, SameObstacle(), ObstacleHit(pb), HitEffect());
    RubyArray.EffectIsIterate(g.coins, (os.acc, g.score), SameCoin(), CoinHit(pb), CoinEffect());
    RepeatedHits(g.player, os.removed);
    RepeatedCoins(os.acc, g.score, cs.removed);
    g.(player := cs.acc.0, score := cs.acc.1, obstacles := os.kept, coins := cs.kept)
  }

  /** `check_collisions` as written: an overlapping obstacle makes `hit_obstacle(camera)` raise. */
  function CheckCollisionsAsWritten(g: GameState): (r: Result<GameState>)
    ensures r.Failure? <==> exists i :: 0 <= i < |g.obstacles| && BoxesOverlap(PlayerBounds(g.player), ObstacleBounds(g.obstacles[i]))
    ensures r.Success? ==> r.value == CheckCollisionsRuby(g)
  {
    var pb := PlayerBounds(g.player);
    if exists i :: 0 <= i < |g.obstacles| && BoxesOverlap(pb, ObstacleBounds(g.obstacles[i])) then
      Failure(ArgumentError("wrong number of arguments (given 1, expected 0)"))
    else
      RubyArray.NoDeletionAgrees(g.obstacles, g.player, SameObstacle(), ObstacleHit(pb), RubyArray.Ignore(HitEffect()));
      Success(CheckCollisionsRuby(g))
  }

  /**
   * Two coins stacked on the player: the intended pass collects both; Ruby's walk
   * deletes the first, skips the second and leaves it in the list.
   */
  lemma AdjacentCoinsSkipped(g: GameState, c1: Coin, c2: Coin)
    requires g.coins == [c1, c2]
    requires BoxesOverlap(PlayerBounds(g.player), CoinBounds(c1))
    requires BoxesOverlap(PlayerBounds(g.player), CoinBounds(c2))
    ensures CheckCollisionsRuby(g).coins == [c2]
    ensures CheckCollisionsRuby(g).score == g.score + COIN_SCORE_VALUE
    ensures CheckCollisions(g).coins == []
    ensures CheckCollisions(g).score == g.score + 2 * COIN_SCORE_VALUE
  {
    var pb := PlayerBounds(g.player);
    var os := RubyArray.EachDelete(g.obstacles, g.player, SameObstacle(), ObstacleHit(pb), RubyArray.Ignore(HitEffect()));
    var ss := RubyArray.Sweep(g.obstacles, g.player, SameObstacle(), ObstacleHit(pb), RubyArray.Ignore(HitEffect()));
    RubyArray.AdjacentDeletionSkips(c1, c2, (os.acc, g.score), SameCoin(), CoinHit(pb), RubyArray.Ignore(CoinEffect()));
    RubyArray.AdjacentDeletionSkips(c1, c2, (ss.acc, g.score), SameCoin(), CoinHit(pb), RubyArray.Ignore(CoinEffect()));
    assert [c2][1..] == [];
    assert [c1, c2][1..] == [c2];
  }

  predicate NothingOverlaps(g: GameState)
  {
    (forall i :: 0 <= i < |g.obstacles| ==> !BoxesOverlap(PlayerBounds(g.player), ObstacleBounds(g.obstacles[i]))) &&
    (forall i :: 0 <= i < |g.coins| ==> !BoxesOverlap(PlayerBounds(g.player), CoinBounds(g.coins[i])))
  }

  lemma NothingHitRuby(g: GameState)
    requires NothingOverlaps(g)
    ensures CheckCollisionsRuby(g) == g
  {
    var pb := PlayerBounds(g.player);
    RubyArray.KeepAll(g.obstacles, g.player, SameObstacle(), ObstacleHit(pb), RubyArray.Ignore(HitEffect()));
    RubyArray.KeepAll(g.coins, (g.player, g.score), SameCoin(), CoinHit(pb), RubyArray.Ignore(CoinEffect()));
  }

  lemma ObstaclesUntouched(g: GameState, pb: Box)
    requires forall i :: 0 <= i < |g.obstacles| ==> !BoxesOverlap(pb, ObstacleBounds(g.obstacles[i]))
    ensures CheckObstacles(g, pb) == g
  {
    RubyArray.KeepAll(g.obstacles, g.player, SameObstacle(), ObstacleHit(pb), RubyArray.Ignore(HitEffect()));
  }

  lemma CoinsUntouched(g: GameState, pb: Box)
    requires forall i :: 0 <= i < |g.coins| ==> !BoxesOverlap(pb, CoinBounds(g.coins[i]))
    ensures CheckCoins(g, pb) == g
  {
    RubyArray.KeepAll(g.coins, (g.player, g.score), SameCoin(), CoinHit(pb), RubyArray.Ignore(CoinEffect()));
  }

  lemma NothingHitSweep(g: GameState)
    requires NothingOverlaps(g)
    ensures CheckCollisions(g) == g
  {
    var pb := PlayerBounds(g.player);
    ObstaclesUntouched(g, pb);
    CoinsUntouched(g, pb);
  }

  /** When nothing overlaps the player, both walks agree and the state is unchanged. */
  lemma NothingHitAgrees(g: GameState)
    requires forall i :: 0 <= i < |g.obstacles| ==> !BoxesOverlap(PlayerBounds(g.player), ObstacleBounds(g.obstacles[i]))
    requires forall i :: 0 <= i < |g.coins| ==> !BoxesOverlap(PlayerBounds(g.player), CoinBounds(g.coins[i]))
    ensures CheckCollisionsRuby(g) == CheckCollisions(g) == g
  {
    NothingHitRuby(g);
    NothingHitSweep(g);
  }
}

=== FILE: input_remap.dfy ===
/**
 * The input-remapping sample (samples/09_ui_controls/06_input_remapping/app/main.rb):
 * a table from input device and action name to the keys that trigger the action, a
 * player square moved by those actions, and a column of buttons, one per table
 * entry, that switch the game into a mode where the next keys pressed on that
 * device replace the entry.
 *
 * Ruby hashes keep insertion order and assigning to an existing key keeps its place;
 * they are association lists here. `@remap_input_name` and `@remap_input_type` are
 * only read while the mode is `:remap`, so they travel inside the `Remapping` mode.
 */
module InputRemap {
  import opened Wrappers

  datatype Device = Keyboard | ControllerOne

  /** The action names the table holds: `:move_left` and `:move_right`. */
  datatype Action = MoveLeft | MoveRight
  /** A key alias such as `:left_arrow`. */
  type Key = string

  // ---------------------------------------------------------------------------
  // Ordered hashes

  function KeysOf<K, V>(t: seq<(K, V)>): (ks: seq<K>)
    ensures |ks| == |t| && forall i :: 0 <= i < |t| ==> ks[i] == t[i].0
  {
    if |t| == 0 then [] else [t[0].0] + KeysOf(t[1..])
  }

  /** `hash[k]`: the value of the first entry with key k, or nil. */
  function Get<K(==), V>(t: seq<(K, V)>, k: K): (r: Option<V>)
    ensures r.None? <==> k !in KeysOf(t)
    ensures r.Some? ==> exists i :: 0 <= i < |t| && t[i] == (k, r.value)
  {
    if |t| == 0 then None
    else if t[0].0 == k then Some(t[0].1)
    else
      var r := Get(t[1..], k);
      assert KeysOf(t) == [t[0].0] + KeysOf(t[1..]);
      r
  }

  /** `hash[k] = v`: an existing key keeps its place and takes the value; a new key goes last. */
  function Put<K(==), V>(t: seq<(K, V)>, k: K, v: V): (r: seq<(K, V)>)
    ensures KeysOf(r) == if k in KeysOf(t) then KeysOf(t) else KeysOf(t) + [k]
  {
    if |t| == 0 then [(k, v)]
    else if t[0].0 == k then [(k, v)] + t[1..]
    else
      var rest := Put(t[1..], k, v);
      assert KeysOf(t) == [t[0].0] + KeysOf(t[1..]);
      assert KeysOf([t[0]] + rest) == [t[0].0] + KeysOf(rest);
      [t[0]] + rest
  }

  /** After an assignment the key reads back the value assigned. */
  lemma {:induction false} GetPutSame<K, V>(t: seq<(K, V)>, k: K, v: V)
    ensures Get(Put(t, k, v), k) == Some(v)
  {
    if |t| > 0 && t[0].0 != k {
      GetPutSame(t[1..], k, v);
      assert Put(t, k, v)[1..] == Put(t[1..], k, v);
    }
  }

  /** An assignment leaves every other key's value alone. */
  lemma {:induction false} GetPutOther<K, V>(t: seq<(K, V)>, k: K, v: V, k': K)
    requires k' != k
    ensures Get(Put(t, k, v), k') == Get(t, k')
  {
    if |t| > 0 {
      if t[0].0 == k {
        assert Put(t, k, v)[1..] == t[1..];
      } else if t[0].0 != k' {
        GetPutOther(t[1..], k, v, k');
        assert Put(t, k, v)[1..] == Put(t[1..], k, v);
      }
    }
  }

  // ---------------------------------------------------------------------------
  // The mapping table

  type Table = seq<(Action, seq<Key>)>
  type Mappings = seq<(Device, Table)>

  /** The defaults of `initialize`. */
  function InitialMappings(): (m: Mappings)
    ensures KeysOf(m) == [Keyboard, ControllerOne]
  {
    [(Keyboard, [(MoveLeft, ["left_arrow"]), (MoveRight, ["right_arrow"])]),
     (ControllerOne, [(MoveLeft, ["left"]), (MoveRight, ["right"])])]
  }

  /** `@input_mappings[device][name]`, nil when either level is missing. */
  function Lookup(m: Mappings, d: Device, name: Action): (r: Option<seq<Key>>)
  {
    match Get(m, d)
    case None => None
    case Some(t) => Get(t, name)
  }

  /** The initial table maps each device's two moves to one key each. */
  lemma InitialLookups()
    ensures Lookup(InitialMappings(), Keyboard, MoveLeft) == Some(["left_arrow"])
    ensures Lookup(InitialMappings(), Keyboard, MoveRight) == Some(["right_arrow"])
    ensures Lookup(InitialMappings(), ControllerOne, MoveLeft) == Some(["left"])
    ensures Lookup(InitialMappings(), ControllerOne, MoveRight) == Some(["right"])
  {
  }

  /** `@input_mappings[device][name] = keys`; a device missing from the table raises. */
  function Remap(m: Mappings, d: Device, name: Action, keys: seq<Key>): (r: Result<Mappings>)
    ensures r.Failure? <==> Get(m, d).None?
    ensures r.Success? ==> KeysOf(r.value) == KeysOf(m)
  {
    match Get(m, d)
    case None => Failure(NoMethodError("undefined method '[]=' for nil"))
    case Some(t) => Success(Put(m, d, Put(t, name, keys)))
  }

  /** The table after a remap of a device it has: that device's table with the one entry put. */
  lemma RemapPuts(m: Mappings, d: Device, name: Action, keys: seq<Key>)
    requires Get(m, d).Some?
    ensures var m' := Remap(m, d, name, keys).value;
            Get(m', d) == Some(Put(Get(m, d).value, name, keys)) &&
            forall d' :: d' != d ==> Get(m', d') == Get(m, d')
  {
    var t' := Put(Get(m, d).value, name, keys);
    GetPutSame(m, d, t');
    forall d' | d' != d
      ensures Get(Put(m, d, t'), d') == Get(m, d')
    {
      GetPutOther(m, d, t', d');
    }
  }

  /** A remap replaces exactly the one entry: it reads back the new keys, and every other entry reads as before. */
  lemma RemapReplacesOnlyItsEntry(m: Mappings, d: Device, name: Action, keys: seq<Key>, d': Device, name': Action)
    requires Get(m, d).Some?
    ensures Lookup(Remap(m, d, name, keys).value, d, name) == Some(keys)
    ensures (d', name') != (d, name) ==> Lookup(Remap(m, d, name, keys).value, d', name') == Lookup(m, d', name')
  {
    var t := Get(m, d).value;
    RemapPuts(m, d, name, keys);
    GetPutSame(t, name, keys);
    if d' == d && name' != name {
      GetPutOther(t, name, keys, name');
    }
  }

  /** Both devices are in the table, each with both moves: what `tick_game` reads. */
  predicate Complete(m: Mappings)
  {
    Lookup(m, Keyboard, MoveLeft).Some? && Lookup(m, Keyboard, MoveRight).Some? &&
    Lookup(m, ControllerOne, MoveLeft).Some? && Lookup(m, ControllerOne, MoveRight).Some?
  }

  /** A complete table has both devices. */
  lemma CompleteHasDevices(m: Mappings, d: Device)
    requires Complete(m)
    ensures Get(m, d).Some?
  {
    assert Lookup(m, d, MoveLeft).Some?;
  }

  /** Remapping a device that is in the table keeps every entry present. */
  lemma RemapKeepsComplete(m: Mappings, d: Device, name: Action, keys: seq<Key>)
    requires Complete(m) && Get(m, d).Some?
    ensures Complete(Remap(m, d, name, keys).value)
  {
    RemapReplacesOnlyItsEntry(m, d, name, keys, Keyboard, MoveLeft);
    RemapReplacesOnlyItsEntry(m, d, name, keys, Keyboard, MoveRight);
    RemapReplacesOnlyItsEntry(m, d, name, keys, ControllerOne, MoveLeft);
    RemapReplacesOnlyItsEntry(m, d, name, keys, ControllerOne, MoveRight);
  }

  // ---------------------------------------------------------------------------
  // Buttons

  /** One `remap_buttons` entry; `Layout.rect(row: i, ...)` is determined by the row. */
  datatype Button = Button(row: nat, device: Device, name: Action, keys: seq<Key>)

  /** The buttons of one device's table, rows counted from `first`. */
  function TableButtons(d: Device, t: Table, first: nat): (bs: seq<Button>)
    ensures |bs| == |t|
    ensures forall i :: 0 <= i < |t| ==> bs[i] == Button(first + i, d, t[i].0, t[i].1)
  {
    if |t| == 0 then [] else [Button(first, d, t[0].0, t[0].1)] + TableButtons(d, t[1..], first + 1)
  }

  /** `remap_buttons` from row `first` on: `flat_map` over devices, then names, numbered in order. */
  function ButtonsFrom(m: Mappings, first: nat): (bs: seq<Button>)
    ensures forall i :: 0 <= i < |bs| ==> bs[i].row == first + i
    decreases |m|
  {
    if |m| == 0 then []
    else
      var head := TableButtons(m[0].0, m[0].1, first);
      head + ButtonsFrom(m[1..], first + |head|)
  }

  function RemapButtons(m: Mappings): (bs: seq<Button>)
    ensures forall i :: 0 <= i < |bs| ==> bs[i].row == i
  {
    ButtonsFrom(m, 0)
  }

  /** Some button of the list shows the given entry. */
  predicate HasButton(bs: seq<Button>, d: Device, name: Action, keys: seq<Key>)
  {
    exists i :: 0 <= i < |bs| && bs[i].device == d && bs[i].name == name && bs[i].keys == keys
  }

  /** The table of device d holds the given entry. */
  predicate HasEntry(m: Mappings, d: Device, name: Action, keys: seq<Key>)
  {
    exists a :: 0 <= a < |m| && m[a].0 == d && (name, keys) in m[a].1
  }

  lemma HasButtonConcat(xs: seq<Button>, ys: seq<Button>, d: Device, name: Action, keys: seq<Key>)
    ensures HasButton(xs + ys, d, name, keys) <==> HasButton(xs, d, name, keys) || HasButton(ys, d, name, keys)
  {
    if HasButton(xs, d, name, keys) {
      var i :| 0 <= i < |xs| && xs[i].device == d && xs[i].name == name && xs[i].keys == keys;
      assert (xs + ys)[i] == xs[i];
    }
    if HasButton(ys, d, name, keys) {
      var i :| 0 <= i < |ys| && ys[i].device == d && ys[i].name == name && ys[i].keys == keys;
      assert (xs + ys)[|xs| + i] == ys[i];
    }
    if HasButton(xs + ys, d, name, keys) {
      var i :| 0 <= i < |xs + ys| && (xs + ys)[i].device == d && (xs + ys)[i].name == name && (xs + ys)[i].keys == keys;
      if i >= |xs| {
        assert ys[i - |xs|] == (xs + ys)[i];
      } else {
        assert xs[i] == (xs + ys)[i];
      }
    }
  }

  lemma TableButtonsMatch(d': Device, t: Table, first: nat, d: Device, name: Action, keys: seq<Key>)
    ensures HasButton(TableButtons(d', t, first), d, name, keys) <==> d' == d && (name, keys) in t
  {
    var bs := TableButtons(d', t, first);
    if d' == d && (name, keys) in t {
      var i :| 0 <= i < |t| && t[i] == (name, keys);
      assert bs[i].device == d && bs[i].name == name && bs[i].keys == keys;
    }
  }

  lemma HasEntryCons(m: Mappings, d: Device, name: Action, keys: seq<Key>)
    requires |m| > 0
    ensures HasEntry(m, d, name, keys) <==> (m[0].0 == d && (name, keys) in m[0].1) || HasEntry(m[1..], d, name, keys)
  {
    if HasEntry(m[1..], d, name, keys) {
      var a :| 0 <= a < |m[1..]| && m[1..][a].0 == d && (name, keys) in m[1..][a].1;
      assert m[a + 1] == m[1..][a];
    }
    if HasEntry(m, d, name, keys) {
      var a :| 0 <= a < |m| && m[a].0 == d && (name, keys) in m[a].1;
      if a > 0 {
        assert m[1..][a - 1] == m[a];
      }
    }
  }

  /** Every table entry has a button and every button shows a table entry. */
  lemma {:induction false} ButtonsMatchEntries(m: Mappings, first: nat, d: Device, name: Action, keys: seq<Key>)
    ensures HasButton(ButtonsFrom(m, first), d, name, keys) <==> HasEntry(m, d, name, keys)
    decreases |m|
  {
    if |m| > 0 {
      var head := TableButtons(m[0].0, m[0].1, first);
      ButtonsMatchEntries(m[1..], first + |head|, d, name, keys);
      HasButtonConcat(head, ButtonsFrom(m[1..], first + |head|), d, name, keys);
      TableButtonsMatch(m[0].0, m[0].1, first, d, name, keys);
      HasEntryCons(m, d, name, keys);
    }
  }

  /** The defaults give four buttons: keyboard left and right, then controller left and right. */
  lemma InitialButtons()
    ensures RemapButtons(InitialMappings()) ==
            [Button(0, Keyboard, MoveLeft, ["left_arrow"]), Button(1, Keyboard, MoveRight, ["right_arrow"]),
             Button(2, ControllerOne, MoveLeft, ["left"]), Button(3, ControllerOne, MoveRight, ["right"])]
  {
    var m := InitialMappings();
    assert ButtonsFrom(m[1..][1..], 4) == [];
  }

  /** `find { |b| mouse.inside_rect?(b.rect) }`: the first button whose row the mouse is over. */
  function FirstInside(bs: seq<Button>, insideRow: nat -> bool): (k: Option<nat>)
    ensures k.Some? ==> k.value < |bs| && insideRow(bs[k.value].row) &&
                        forall j :: 0 <= j < k.value ==> !insideRow(bs[j].row)
    ensures k.None? ==> forall j :: 0 <= j < |bs| ==> !insideRow(bs[j].row)
  {
    if |bs| == 0 then None
    else if insideRow(bs[0].row) then Some(0)
    else
      var rest := FirstInside(bs[1..], insideRow);
      if rest.None? then None else Some(rest.value + 1)
  }

  // ---------------------------------------------------------------------------
  // The game

  datatype Mode = Playing | Remapping(name: Action, device: Device)

  datatype Game = Game(mappings: Mappings, current: Device, mode: Mode, playerX: int)

  const PLAYER_X: int := 640
  const STEP: int := 5

  function NewGame(): (g: Game)
    ensures g.mappings == InitialMappings() && g.current == Keyboard && g.mode == Playing && g.playerX == PLAYER_X
  {
    Game(InitialMappings(), Keyboard, Playing, PLAYER_X)
  }

  /** `inputs.last_active`. */
  datatype LastActive = ControllerActive | KeyboardActive | MouseActive

  /**
   * One frame of input: the last active device, whether a key of a device is down
   * or held, the keys that went down this frame on each device, a left click, and
   * whether the mouse is over a given button row.
   */
  datatype Inputs = Inputs(lastActive: LastActive, held: (Device, Key) -> bool, keyDown: Device -> seq<Key>,
                           click: bool, insideRow: nat -> bool)

  /** `activated?`: some key mapped to the action on the current device is down or held. */
  function Activated(g: Game, name: Action, held: (Device, Key) -> bool): (r: Result<bool>)
    ensures r.Failure? <==> Lookup(g.mappings, g.current, name).None?
    ensures r.Success? ==> var keys := Lookup(g.mappings, g.current, name).value;
              (r.value <==> exists i :: 0 <= i < |keys| && held(g.current, keys[i]))
  {
    match Lookup(g.mappings, g.current, name)
    case None => Failure(NoMethodError("undefined method 'any?' for nil"))
    case Some(keys) => Success(exists i :: 0 <= i < |keys| && held(g.current, keys[i]))
  }

  /** The input method follows whatever was used last; the mouse leaves it alone. */
  function FollowInput(g: Game, last: LastActive): (r: Game)
    ensures r == g.(current := r.current)
    ensures last == ControllerActive ==> r.current == ControllerOne
    ensures last == KeyboardActive ==> r.current == Keyboard
    ensures last == MouseActive ==> r.current == g.current
  {
    match last
    case ControllerActive => g.(current := ControllerOne)
    case KeyboardActive => g.(current := Keyboard)
    case MouseActive => g
  }

  /** The `if/elsif` on the moves: left wins over right, and right is only asked when left is off. */
  function Move(g: Game, held: (Device, Key) -> bool): (r: Result<Game>)
    ensures r.Failure? <==> Activated(g, MoveLeft, held).Failure? ||
                            (Activated(g, MoveLeft, held) == Success(false) && Activated(g, MoveRight, held).Failure?)
    ensures r.Success? ==> r.value == g.(playerX := r.value.playerX)
    ensures r.Success? ==> Activated(g, MoveLeft, held) == Success(true) ==> r.value.playerX == g.playerX - STEP
    ensures r.Success? ==> Activated(g, MoveLeft, held) == Success(false) ==>
              r.value.playerX == g.playerX + (if Activated(g, MoveRight, held).value then STEP else 0)
  {
    match Activated(g, MoveLeft, held)
    case Failure(e) => Failure(e)
    case Success(left) =>
      if left then Success(g.(playerX := g.playerX - STEP))
      else
        match Activated(g, MoveRight, held)
        case Failure(e) => Failure(e)
        case Success(right) => Success(if right then g.(playerX := g.playerX + STEP) else g)
  }

  /** A left click over a button switches to remapping that button's entry. */
  function Click(g: Game, click: bool, insideRow: nat -> bool): (r: Game)
    ensures r == g.(mode := r.mode)
    ensures var k := FirstInside(RemapButtons(g.mappings), insideRow);
            if click && k.Some? then
              var b := RemapButtons(g.mappings)[k.value];
              r.mode == Remapping(b.name, b.device)
            else r.mode == g.mode
  {
    var bs := RemapButtons(g.mappings);
    if !click then g
    else
      match FirstInside(bs, insideRow)
      case None => g
      case Some(k) => g.(mode := Remapping(bs[k].name, bs[k].device))
  }

  /** `tick_game`. */
  function TickGame(g: Game, i: Inputs): (r: Result<Game>)
    ensures var c := FollowInput(g, i.lastActive).current;
            Lookup(g.mappings, c, MoveLeft).Some? && Lookup(g.mappings, c, MoveRight).Some? ==> r.Success?
    ensures Lookup(g.mappings, FollowInput(g, i.lastActive).current, MoveLeft).None? ==> r.Failure?
    ensures r.Success? ==> r.value.mappings == g.mappings && r.value.current == FollowInput(g, i.lastActive).current
    ensures r.Success? ==> var dx := r.value.playerX - g.playerX; dx == -STEP || dx == 0 || dx == STEP
    ensures r.Success? && !i.click ==> r.value.mode == g.mode
  {
    match Move(FollowInput(g, i.lastActive), i.held)
    case Failure(e) => Failure(e)
    case Success(moved) => Success(Click(moved, i.click, i.insideRow))
  }

  /** `tick_remap`: the keys that went down on the device, if any, become the entry, and play resumes. */
  function TickRemap(g: Game, name: Action, d: Device, i: Inputs): (r: Result<Game>)
    ensures |i.keyDown(d)| == 0 ==> r == Success(g)
    ensures |i.keyDown(d)| > 0 ==> (r.Failure? <==> Get(g.mappings, d).None?)
    ensures |i.keyDown(d)| > 0 && r.Success? ==>
              r.value == g.(mappings := r.value.mappings, mode := Playing) &&
              Lookup(r.value.mappings, d, name) == Some(i.keyDown(d))
  {
    var keys := i.keyDown(d);
    if |keys| == 0 then Success(g)
    else
      match Remap(g.mappings, d, name, keys)
      case Failure(e) => Failure(e)
      case Success(m) =>
        RemapReplacesOnlyItsEntry(g.mappings, d, name, keys, d, name);
        Success(g.(mappings := m, mode := Playing))
  }

  /** `Game#tick` without the drawing. */
  function Tick(g: Game, i: Inputs): (r: Result<Game>)
    ensures r.Success? && r.value.playerX != g.playerX ==> g.mode.Playing?
    ensures r.Success? && r.value.mappings != g.mappings ==> g.mode.Remapping?
    ensures r.Success? && g.mode.Remapping? ==> r.value.current == g.current
    ensures r.Success? ==> var dx := r.value.playerX - g.playerX; dx == -STEP || dx == 0 || dx == STEP
  {
    match g.mode
    case Playing => TickGame(g, i)
    case Remapping(name, d) => TickRemap(g, name, d, i)
  }

  /** In play with a complete table, the moves are read without raising and shift the square by at most a step. */
  lemma PlayTickSucceeds(g: Game, i: Inputs)
    requires Complete(g.mappings) && g.mode.Playing?
    ensures Tick(g, i).Success? && Tick(g, i).value.mappings == g.mappings
    ensures var dx := Tick(g, i).value.playerX - g.playerX; dx == -STEP || dx == 0 || dx == STEP
  {
    var f := FollowInput(g, i.lastActive);
    CompleteLookups(f.mappings, f.current);
    MoveSucceeds(f, i.held);
  }

  /** A complete table has both moves for the given device. */
  lemma CompleteLookups(m: Mappings, d: Device)
    requires Complete(m)
    ensures Lookup(m, d, MoveLeft).Some? && Lookup(m, d, MoveRight).Some?
  {
  }

  /** With both moves mapped for the current device, moving never raises and changes only x, by at most a step. */
  lemma MoveSucceeds(g: Game, held: (Device, Key) -> bool)
    requires Lookup(g.mappings, g.current, MoveLeft).Some? && Lookup(g.mappings, g.current, MoveRight).Some?
    ensures Move(g, held).Success? && Move(g, held).value == g.(playerX := Move(g, held).value.playerX)
    ensures var dx := Move(g, held).value.playerX - g.playerX; dx == -STEP || dx == 0 || dx == STEP
  {
    var left := Activated(g, MoveLeft, held);
    var right := Activated(g, MoveRight, held);
    assert left.Success? && right.Success?;
    if left.value {
      assert Move(g, held) == Success(g.(playerX := g.playerX - STEP));
    } else {
      assert Move(g, held) == Success(if right.value then g.(playerX := g.playerX + STEP) else g);
    }
  }

  /** A remap with keys down on a device of a complete table succeeds, keeps the table complete and resumes play. */
  lemma RemapTickSucceeds(g: Game, i: Inputs)
    requires Complete(g.mappings) && g.mode.Remapping?
    ensures Tick(g, i).Success? && Complete(Tick(g, i).value.mappings)
    ensures Tick(g, i).value.playerX == g.playerX
    ensures Tick(g, i).value.mode.Playing? <==> |i.keyDown(g.mode.device)| > 0
  {
    var d := g.mode.device;
    CompleteHasDevices(g.mappings, d);
    if |i.keyDown(d)| > 0 {
      RemapKeepsComplete(g.mappings, d, g.mode.name, i.keyDown(d));
    }
  }

  /**
   * With the table complete nothing raises, the table stays complete, and play and
   * remapping alternate as the source describes: remapping ends only once a key goes
   * down, and play moves the square by at most one step.
   */
  lemma TickKeepsComplete(g: Game, i: Inputs)
    requires Complete(g.mappings)
    ensures Tick(g, i).Success? && Complete(Tick(g, i).value.mappings)
    ensures g.mode.Playing? ==> Tick(g, i).value.mappings == g.mappings &&
                                (var dx := Tick(g, i).value.playerX - g.playerX; dx == -STEP || dx == 0 || dx == STEP)
    ensures g.mode.Remapping? ==> Tick(g, i).value.playerX == g.playerX &&
                                  (Tick(g, i).value.mode.Playing? <==> |i.keyDown(g.mode.device)| > 0)
  {
    if g.mode.Playing? {
      PlayTickSucceeds(g, i);
    } else {
      RemapTickSucceeds(g, i);
    }
  }

  /** After a remap the action fires on exactly the new keys. */
  lemma RemappedKeysActivate(g: Game, i: Inputs, held: (Device, Key) -> bool)
    requires Complete(g.mappings) && g.mode.Remapping? && |i.keyDown(g.mode.device)| > 0
    ensures Tick(g, i).Success? &&
            var r := Tick(g, i).value.(current := g.mode.device);
            var keys := i.keyDown(g.mode.device);
            Activated(r, g.mode.name, held) ==
              Success(exists k :: 0 <= k < |keys| && held(g.mode.device, keys[k]))
  {
    var d := g.mode.device;
    CompleteHasDevices(g.mappings, d);
    var r := TickRemap(g, g.mode.name, d, i);
    assert Tick(g, i) == r;
    assert r.Success?;
    ActivatedReads(r.value.(current := d), g.mode.name, held, i.keyDown(d));
  }

  /** `activated?` answers from exactly the keys the table holds for the current device. */
  lemma ActivatedReads(g: Game, name: Action, held: (Device, Key) -> bool, keys: seq<Key>)
    requires Lookup(g.mappings, g.current, name) == Some(keys)
    ensures Activated(g, name, held) == Success(exists k :: 0 <= k < |keys| && held(g.current, keys[k]))
  {
  }

  /** A button is drawn highlighted while its entry is the one being remapped. */
  predicate Highlighted(g: Game, b: Button)
  {
    g.mode == Remapping(b.name, b.device)
  }

  /** Clicking the button under the mouse in play highlights it and leaves the table alone. */
  lemma ClickHighlightsButton(g: Game, i: Inputs)
    requires Complete(g.mappings) && g.mode.Playing? && i.click
    requires FirstInside(RemapButtons(g.mappings), i.insideRow).Some?
    ensures var b := RemapButtons(g.mappings)[FirstInside(RemapButtons(g.mappings), i.insideRow).value];
            Tick(g, i).Success? && Highlighted(Tick(g, i).value, b) &&
            Tick(g, i).value.mappings == g.mappings
  {
    PlayTickSucceeds(g, i);
  }
}

=== FILE: laurence_main.dfy ===
/**
 * The spring-chain prototype of mygame/app/laurence_main.rb: `round_towards_sign`,
 * the `Spring` integrator over reals, and the `Player` list of chained ships with
 * its list operations. The ship list holds `nil` slots once `switch_root` writes past
 * its end, so a slot is an `Option<Ship>` and touching a `nil` slot is a NoMethodError.
 */
module LaurenceMain {
  import opened Wrappers
  import opened Numeric

  const SCREEN_HEIGHT: int := 720
  const SCREEN_WIDTH: int := 1280

  /** `round_towards_sign`: away from zero for positive n, down otherwise. */
  function RoundTowardsSign(n: real): (r: int)
    ensures n > 0.0 ==> r > 0 && n <= r as real < n + 1.0
    ensures n <= 0.0 ==> r <= 0 && n - 1.0 < r as real <= n
  {
    if n > 0.0 then Ceil(n) else Floor(n)
  }

  /** Rounding towards the sign never shrinks the magnitude, moves by less than one, and fixes integers. */
  lemma RoundTowardsSignMagnitude(n: real)
    ensures AbsR(RoundTowardsSign(n) as real) >= AbsR(n)
    ensures AbsR(RoundTowardsSign(n) as real - n) < 1.0
  {
  }

  /** Integers are fixed points. */
  lemma RoundTowardsSignFixesIntegers(k: int)
    ensures RoundTowardsSign(k as real) == k
  {
  }

  // ---------------------------------------------------------------------------
  // Spring

  /** `1.0 / 60.0`, and the derived `s_max = 1 / dt**2` and `c_max = 1 / dt`. */
  const DT: real := 1.0 / 60.0
  const S_MAX: real := 3600.0
  const C_MAX: real := 60.0

  lemma SpringConstants()
    ensures S_MAX == 1.0 / (DT * DT) && C_MAX == 1.0 / DT
  {
  }

  datatype Spring = Spring(csUpper: real, csLower: real, cdUpper: real, cdLower: real)

  /** The `{d:, v:}` hash `spring` returns. */
  datatype Motion = Motion(d: real, v: real)

  /** `lower + (upper - lower) / (1.0 + i)`: upper at i = 0, tending to lower as i grows. */
  function Coefficient(upper: real, lower: real, i: real): (c: real)
    requires i >= 0.0
    ensures i == 0.0 ==> c == upper
    ensures MinR(lower, upper) <= c <= MaxR(lower, upper)
    ensures (c - lower) * (1.0 + i) == upper - lower
  {
    QuotientBounds(upper - lower, 1.0 + i);
    lower + (upper - lower) / (1.0 + i)
  }

  /** Dividing by a factor of at least one shrinks toward zero without changing sign. */
  lemma QuotientBounds(a: real, b: real)
    requires b >= 1.0
    ensures a / b * b == a
    ensures a >= 0.0 ==> 0.0 <= a / b <= a
    ensures a < 0.0 ==> a <= a / b < 0.0
  {
    if a >= 0.0 {
      assert a / b * b >= a / b;
    } else {
      assert (-a) / b * b >= (-a) / b;
      assert a / b == -((-a) / b);
    }
  }

  /** A later link is never stiffer or more damped than an earlier one (nearer to the lower value). */
  lemma {:induction false} CoefficientApproachesLower(upper: real, lower: real, i: real, j: real)
    requires 0.0 <= i <= j
    ensures AbsR(Coefficient(upper, lower, j) - lower) <= AbsR(Coefficient(upper, lower, i) - lower)
  {
    var a := Coefficient(upper, lower, i) - lower;
    var b := Coefficient(upper, lower, j) - lower;
    assert a * (1.0 + i) == b * (1.0 + j);
    ScaledDown(a, b, 1.0 + i, 1.0 + j);
  }

  /** a·ci = b·cj with 0 < ci <= cj: b has a's sign and no larger a magnitude. */
  lemma ScaledDown(a: real, b: real, ci: real, cj: real)
    requires 0.0 < ci <= cj && a * ci == b * cj
    ensures AbsR(b) <= AbsR(a)
  {
    if a >= 0.0 {
      ScaledDownNonneg(a, b, ci, cj);
    } else {
      ScaledDownNonneg(-a, -b, ci, cj);
    }
  }

  lemma ScaledDownNonneg(a: real, b: real, ci: real, cj: real)
    requires 0.0 < ci <= cj && a * ci == b * cj && a >= 0.0
    ensures 0.0 <= b <= a
  {
    if b < 0.0 {
      MulLess(b, 0.0, cj);
      MulLess(0.0, a, ci);
    } else if b > a {
      MulLess(a, b, ci);
      MulGrows(b, ci, cj);
    }
  }

  /** Multiplying by a positive factor keeps a strict order (or, for equal sides, equality). */
  lemma MulLess(x: real, y: real, c: real)
    requires x <= y && c > 0.0
    ensures x * c <= y * c && (x < y ==> x * c < y * c)
  {
  }

  lemma MulNonneg(x: real, y: real)
    requires x >= 0.0 && y >= 0.0
    ensures x * y >= 0.0
  {
  }

  /** A non-negative number times the larger factor is no smaller. */
  lemma MulGrows(x: real, ci: real, cj: real)
    requires x >= 0.0 && 0.0 < ci <= cj
    ensures x * ci <= x * cj && (-x) * ci >= (-x) * cj
  {
  }

  /**
   * `spring(d0, d1, v1, i)`: one explicit Euler step of a damped spring pulling
   * position d1 (velocity v1) toward d0, with the link's coefficients.
   */
  function Step(s: Spring, d0: real, d1: real, v1: real, i: real): (m: Motion)
    requires i >= 0.0
    ensures var cs := Coefficient(s.csUpper, s.csLower, i);
            var cd := Coefficient(s.cdUpper, s.cdLower, i);
            m.v == (1.0 - cd) * v1 - 60.0 * cs * (d1 - d0) && m.d * 60.0 == d1 * 60.0 + m.v
  {
    var dx := d1 - d0;
    var cs := Coefficient(s.csUpper, s.csLower, i);
    var cd := Coefficient(s.cdUpper, s.cdLower, i);
    var f := -(cs * S_MAX * dx) - (cd * C_MAX * v1);
    var v := v1 + f * DT;
    var d := d1 + v * DT;
    Motion(d, v)
  }

  /** A link already at its rest position and at rest stays there. */
  lemma SpringEquilibrium(s: Spring, d0: real, i: real)
    requires i >= 0.0
    ensures Step(s, d0, d0, 0.0, i) == Motion(d0, 0.0)
  {
  }

  /**
   * Released from rest, a link with a stable stiffness in [0, 1] lands between its
   * old position and its rest position: the displacement scales by 1 - cs.
   */
  lemma SpringFromRestContracts(s: Spring, d0: real, d1: real, i: real)
    requires i >= 0.0
    requires 0.0 <= s.csLower <= 1.0 && 0.0 <= s.csUpper <= 1.0
    ensures Step(s, d0, d1, 0.0, i).d - d0 == (1.0 - Coefficient(s.csUpper, s.csLower, i)) * (d1 - d0)
    ensures AbsR(Step(s, d0, d1, 0.0, i).d - d0) <= AbsR(d1 - d0)
  {
    var cs := Coefficient(s.csUpper, s.csLower, i);
    var m := Step(s, d0, d1, 0.0, i);
    assert m.v == -60.0 * cs * (d1 - d0);
    assert m.d - d0 == (1.0 - cs) * (d1 - d0);
    assert 0.0 <= 1.0 - cs <= 1.0;
    var dx := d1 - d0;
    assert (1.0 - cs) * dx == dx - cs * dx;
    if dx >= 0.0 {
      MulNonneg(cs, dx);
      MulNonneg(1.0 - cs, dx);
    } else {
      MulNonneg(cs, -dx);
      MulNonneg(1.0 - cs, -dx);
    }
  }

  /** Decimal digits of a natural number, for Ruby's error messages. */
  function NatToString(n: nat): (r: string)
    ensures |r| >= 1
    decreases n
  {
    var digit := ['0', '1', '2', '3', '4', '5', '6', '7', '8', '9'][n % 10];
    if n < 10 then [digit] else NatToString(n / 10) + [digit]
  }

  /** `Spring.new(*args)`: `initialize` takes exactly four positional arguments. */
  function NewSpring(args: seq<real>): (r: Result<Spring>)
    ensures r.Success? <==> |args| == 4
    ensures r.Success? ==> r.value == Spring(args[0], args[1], args[2], args[3])
    ensures r.Failure? ==> r.error.ArgumentError?
  {
    if |args| == 4 then Success(Spring(args[0], args[1], args[2], args[3]))
    else Failure(ArgumentError("wrong number of arguments (given " + NatToString(|args|) + ", expected 4)"))
  }

  // ---------------------------------------------------------------------------
  // Player: a chain of ships

  datatype ShipColor = Red | Blue

  /** One `{x:, y:, xv:, yv:, color:}` entry. */
  datatype Ship = Ship(x: real, y: real, xv: real, yv: real, color: ShipColor)

  type Slot = Option<Ship>

  datatype Player = Player(ships: seq<Slot>, spriteSize: real, springX: Spring, springY: Spring)

  /** The `cnt` ships stacked upward from (x, y), the fourth one red. */
  function InitialShips(x: real, y: real, cnt: nat, size: real): (ss: seq<Slot>)
    ensures |ss| == cnt
    ensures forall i :: 0 <= i < cnt ==>
              (ss[i].Some? && ss[i].value.x == x && ss[i].value.y == y + i as real * size &&
               ss[i].value.xv == 0.0 && ss[i].value.yv == 0.0)
    ensures forall i :: 0 <= i < cnt ==> (ss[i].value.color == Red <==> i == 3)
  {
    seq(cnt, i requires 0 <= i < cnt => Some(Ship(x, y + i as real * size, 0.0, 0.0, if i == 3 then Red else Blue)))
  }

  /** `Player.new` as written: both springs are built with two arguments, so construction always raises. */
  function NewPlayerAsWritten(x: real, y: real, cnt: nat, size: real): (r: Result<Player>)
    ensures r.Failure? && r.error.ArgumentError?
  {
    var ships := InitialShips(x, y, cnt, size);
    match (NewSpring([0.3, 0.4]), NewSpring([0.35, 0.55]))
    case (Failure(e), _) => Failure(e)
    case (_, Failure(e)) => Failure(e)
    case (Success(sx), Success(sy)) => Success(Player(ships, size, sx, sy))
  }

  /**
   * The two-argument `Spring.new(stiffness, damping)` the call sites were written
   * for, as the four-argument constructor with equal upper and lower values (the
   * form raver.rb uses for its global springs).
   */
  function ConstantSpring(cs: real, cd: real): (r: Spring)
    ensures NewSpring([cs, cs, cd, cd]) == Success(r)
    ensures forall i: real :: i >= 0.0 ==> Coefficient(r.csUpper, r.csLower, i) == cs && Coefficient(r.cdUpper, r.cdLower, i) == cd
  {
    Spring(cs, cs, cd, cd)
  }

  /** `Player.new` with springs that can be constructed. */
  function NewPlayer(x: real, y: real, cnt: nat, size: real): (r: Result<Player>)
    ensures r.Success? && r.value.ships == InitialShips(x, y, cnt, size) && r.value.spriteSize == size
    ensures r.value.springX == ConstantSpring(0.3, 0.4) && r.value.springY == ConstantSpring(0.35, 0.55)
  {
    var sx := NewSpring([0.3, 0.3, 0.4, 0.4]);
    var sy := NewSpring([0.35, 0.35, 0.55, 0.55]);
    if sx.Failure? || sy.Failure? then Failure(ArgumentError("unreachable"))
    else Success(Player(InitialShips(x, y, cnt, size), size, sx.value, sy.value))
  }

  /** `Player.new` fails as written for every argument, and the corrected constructor never does. */
  lemma PlayerNeverConstructs(x: real, y: real, cnt: nat, size: real)
    ensures NewPlayerAsWritten(x, y, cnt, size).Failure?
    ensures NewPlayerAsWritten(x, y, cnt, size).error == ArgumentError("wrong number of arguments (given 2, expected 4)")
    ensures NewPlayer(x, y, cnt, size).Success?
  {
  }

  // ---------------------------------------------------------------------------
  // Ruby Array indexing on the ship list

  /** A negative Ruby index counts from the end. */
  function Position(n: nat, i: int): (k: int)
    ensures i < 0 ==> k == i + n
    ensures i >= 0 ==> k == i
  {
    if i < 0 then i + n else i
  }

  /** `a[i]`: nil outside the array. */
  function Fetch(ss: seq<Slot>, i: int): (r: Slot)
    ensures 0 <= Position(|ss|, i) < |ss| ==> r == ss[Position(|ss|, i)]
    ensures !(0 <= Position(|ss|, i) < |ss|) ==> r == None
  {
    var k := Position(|ss|, i);
    if 0 <= k < |ss| then ss[k] else None
  }

  /** `a[i] = v`: past the end pads with nil; before the start raises IndexError. */
  function Store(ss: seq<Slot>, i: int, v: Slot): (r: Result<seq<Slot>>)
    ensures r.Success? <==> Position(|ss|, i) >= 0
    ensures r.Success? ==> var k := Position(|ss|, i);
              |r.value| == (if k < |ss| then |ss| else k + 1) && r.value[k] == v &&
              (forall j :: 0 <= j < |r.value| && j != k ==> r.value[j] == Fetch(ss, j))
  {
    var k := Position(|ss|, i);
    if k < 0 then Failure(IndexError("index -" + NatToString(-i) + " too small for array"))
    else if k < |ss| then Success(ss[k := v])
    else Success(ss + seq(k - |ss|, _ => None) + [v])
  }

  /** The entry `set_x`/`move_x`/`set_y`/`move_y` change: the first slot, nil on an empty list. */
  function WithFirst(p: Player, f: Ship -> Ship): (r: Result<Player>)
    ensures r.Success? <==> |p.ships| > 0 && p.ships[0].Some?
    ensures r.Success? ==>
              (|r.value.ships| == |p.ships| && r.value.ships[1..] == p.ships[1..] &&
               r.value.ships[0] == Some(f(p.ships[0].value)) && r.value == p.(ships := r.value.ships))
  {
    if |p.ships| == 0 || p.ships[0].None? then Failure(NoMethodError("undefined method for nil"))
    else Success(p.(ships := p.ships[0 := Some(f(p.ships[0].value))]))
  }

  function SetX(p: Player, x: real): (r: Result<Player>)
    ensures r.Success? <==> |p.ships| > 0 && p.ships[0].Some?
    ensures r.Success? ==> |r.value.ships| == |p.ships| && r.value == p.(ships := r.value.ships)
    ensures r.Success? ==> r.value.ships[0] == Some(p.ships[0].value.(x := x)) && r.value.ships[1..] == p.ships[1..]
  {
    WithFirst(p, (s: Ship) => s.(x := x))
  }

  function MoveX(p: Player, dx: real): (r: Result<Player>)
    ensures r.Success? <==> |p.ships| > 0 && p.ships[0].Some?
    ensures r.Success? ==> |r.value.ships| == |p.ships| && r.value == p.(ships := r.value.ships)
    ensures r.Success? ==> r.value.ships[0] == Some(p.ships[0].value.(x := p.ships[0].value.x + dx))
    ensures r.Success? ==> r.value.ships[1..] == p.ships[1..]
  {
    WithFirst(p, (s: Ship) => s.(x := s.x + dx))
  }

  function SetY(p: Player, y: real): (r: Result<Player>)
    ensures r.Success? <==> |p.ships| > 0 && p.ships[0].Some?
    ensures r.Success? ==> |r.value.ships| == |p.ships| && r.value == p.(ships := r.value.ships)
    ensures r.Success? ==> r.value.ships[0] == Some(p.ships[0].value.(y := y)) && r.value.ships[1..] == p.ships[1..]
  {
    WithFirst(p, (s: Ship) => s.(y := y))
  }

  function MoveY(p: Player, dy: real): (r: Result<Player>)
    ensures r.Success? <==> |p.ships| > 0 && p.ships[0].Some?
    ensures r.Success? ==> |r.value.ships| == |p.ships| && r.value == p.(ships := r.value.ships)
    ensures r.Success? ==> r.value.ships[0] == Some(p.ships[0].value.(y := p.ships[0].value.y + dy))
    ensures r.Success? ==> r.value.ships[1..] == p.ships[1..]
  {
    WithFirst(p, (s: Ship) => s.(y := s.y + dy))
  }

  /** Moving the first ship by dx and then by -dx puts it back. */
  lemma MoveXInverse(p: Player, dx: real)
    requires |p.ships| > 0 && p.ships[0].Some?
    ensures MoveX(p, dx).Success? && MoveX(MoveX(p, dx).value, -dx) == Success(p)
  {
    var q := MoveX(p, dx).value;
    var r := MoveX(q, -dx).value;
    assert r.ships[0] == p.ships[0];
    assert r.ships == [r.ships[0]] + r.ships[1..];
    assert p.ships == [p.ships[0]] + p.ships[1..];
  }

  /** `delete_at(i)`: the removed slot (nil when i is out of range) and the list without it. */
  function DeleteAt(p: Player, i: int): (r: (Slot, Player))
    ensures var k := Position(|p.ships|, i);
            if 0 <= k < |p.ships| then
              r.0 == p.ships[k] && |r.1.ships| == |p.ships| - 1 &&
              r.1.ships[..k] + [r.0] + r.1.ships[k..] == p.ships
            else r.0 == None && r.1 == p
    ensures r.1 == p.(ships := r.1.ships)
  {
    var k := Position(|p.ships|, i);
    if 0 <= k < |p.ships| then
      var rest := p.ships[..k] + p.ships[k + 1..];
      assert rest[..k] + [p.ships[k]] + rest[k..] == p.ships;
      (p.ships[k], p.(ships := rest))
    else (None, p)
  }

  /** `switch_root(i)`: `p = a[i]; a[i] = a[0]; a[0] = p`. */
  function SwitchRoot(p: Player, i: int): (r: Result<Player>)
    ensures r.Success? <==> Position(|p.ships|, i) >= 0
    ensures r.Success? ==> r.value == p.(ships := r.value.ships)
    ensures var k := Position(|p.ships|, i);
            0 <= k < |p.ships| ==>
              (r.Success? && |r.value.ships| == |p.ships| &&
               r.value.ships[0] == p.ships[k] && r.value.ships[k] == p.ships[0] &&
               (forall j :: 0 < j < |p.ships| && j != k ==> r.value.ships[j] == p.ships[j]))
    ensures var k := Position(|p.ships|, i);
            k >= |p.ships| ==>
              (r.Success? && |r.value.ships| == k + 1 &&
               r.value.ships[0] == None && r.value.ships[k] == Fetch(p.ships, 0))
  {
    var first := Fetch(p.ships, i);
    var a := Store(p.ships, i, Fetch(p.ships, 0));
    if a.Failure? then Failure(a.error)
    else
      Success(p.(ships := Store(a.value, 0, first).value))
  }

  /** Switching the root with an in-range index twice restores the list. */
  lemma SwitchRootInvolution(p: Player, i: int)
    requires 0 <= Position(|p.ships|, i) < |p.ships|
    ensures SwitchRoot(p, i).Success? && SwitchRoot(SwitchRoot(p, i).value, i) == Success(p)
  {
    var q := SwitchRoot(p, i).value;
    var r := SwitchRoot(q, i).value;
    assert |r.ships| == |p.ships|;
    var k := Position(|p.ships|, i);
    forall j | 0 <= j < |p.ships|
      ensures r.ships[j] == p.ships[j]
    {
      if j == 0 {
      } else if j == k {
      } else {
      }
    }
    assert r.ships == p.ships;
  }

  // ---------------------------------------------------------------------------
  // Chain tick

  /**
   * Ship `s1` pulled toward its leader `s0`: sideways toward the leader's x with the
   * link index as the coefficient index, upward toward one sprite above the leader
   * with index 0.99. Only the motion changes; a follower resting where it belongs
   * stays there; released from rest, its sideways gap to the leader scales by 1 - cs.
   */
  function Pull(p: Player, s0: Ship, s1: Ship, i: nat): (r: Ship)
    ensures r == s1.(x := r.x, xv := r.xv, y := r.y, yv := r.yv)
    ensures s1.x == s0.x && s1.xv == 0.0 ==> r.x == s1.x && r.xv == 0.0
    ensures s1.y == s0.y + p.spriteSize && s1.yv == 0.0 ==> r.y == s1.y && r.yv == 0.0
    ensures s1.xv == 0.0 ==>
              r.x - s0.x == (1.0 - Coefficient(p.springX.csUpper, p.springX.csLower, i as real)) * (s1.x - s0.x)
  {
    var sx := Step(p.springX, s0.x, s1.x, s1.xv, i as real);
    var sy := Step(p.springY, s0.y + p.spriteSize, s1.y, s1.yv, 0.99);
    SpringEquilibrium(p.springX, s0.x, i as real);
    SpringEquilibrium(p.springY, s0.y + p.spriteSize, 0.99);
    s1.(x := sx.d, xv := sx.v, y := sy.d, yv := sy.v)
  }

  /** Every slot from i on holds a ship. */
  predicate ShipsFrom(ss: seq<Slot>, i: nat)
  {
    forall j :: i <= j < |ss| ==> ss[j].Some?
  }

  /**
   * `each_cons(2).with_index` from pair i on: each pair updates its second ship,
   * which the next pair then reads as its leader. A nil in a visited pair raises.
   */
  function TickFrom(p: Player, ss: seq<Slot>, i: nat): (r: Result<seq<Slot>>)
    requires i < |ss|
    ensures r.Success? <==> i + 1 == |ss| || ShipsFrom(ss, i)
    ensures r.Success? ==> |r.value| == |ss| && r.value[..i + 1] == ss[..i + 1]
    ensures r.Success? ==> forall j :: i < j < |ss| ==> r.value[j].Some? && r.value[j].value.color == ss[j].value.color
    decreases |ss| - i
  {
    if i + 1 == |ss| then Success(ss)
    else if ss[i].None? || ss[i + 1].None? then
      assert !ShipsFrom(ss, i) by {
        if ss[i].None? { assert !ss[i].Some?; } else { assert !ss[i + 1].Some?; }
      }
      Failure(NoMethodError("undefined method for nil"))
    else
      var moved := ss[i + 1 := Some(Pull(p, ss[i].value, ss[i + 1].value, i))];
      assert ShipsFrom(moved, i + 1) <==> ShipsFrom(ss, i) by {
        if ShipsFrom(moved, i + 1) {
          forall j | i <= j < |ss| ensures ss[j].Some? {
            if j > i + 1 { assert moved[j] == ss[j]; }
          }
        }
        if ShipsFrom(ss, i) {
          forall j | i + 1 <= j < |ss| ensures moved[j].Some? {
            if j > i + 1 { assert moved[j] == ss[j]; }
          }
        }
      }
      var rest := TickFrom(p, moved, i + 1);
      if rest.Success? then
        assert moved[..i + 1] == ss[..i + 1];
        assert rest.value[..i + 1] == rest.value[..i + 2][..i + 1];
        assert rest.value[i + 1] == moved[i + 1];
        Success(rest.value)
      else rest
  }

  /** `tick` as written: a list of at most one slot is left alone, and otherwise a nil anywhere raises. */
  function Tick(p: Player): (r: Result<Player>)
    ensures r.Success? <==> |p.ships| <= 1 || ShipsFrom(p.ships, 0)
    ensures r.Success? ==> r.value == p.(ships := r.value.ships) && |r.value.ships| == |p.ships|
    ensures r.Success? && |p.ships| > 0 ==> r.value.ships[0] == p.ships[0]
  {
    if |p.ships| == 0 then Success(p)
    else
      var t := TickFrom(p, p.ships, 0);
      if t.Success? then Success(p.(ships := t.value)) else Failure(t.error)
  }

  /** Every ship from i on sits one sprite above its leader, straight over it, and at rest. */
  predicate RestingFrom(p: Player, ss: seq<Slot>, i: nat)
  {
    (forall j :: i <= j < |ss| ==> ss[j].Some?) &&
    (forall j :: i < j < |ss| ==> ss[j].value.x == ss[j - 1].value.x &&
                                  ss[j].value.y == ss[j - 1].value.y + p.spriteSize &&
                                  ss[j].value.xv == 0.0 && ss[j].value.yv == 0.0)
  }

  /** A resting chain is a fixed point of the tick. */
  lemma {:induction false} RestingChainStays(p: Player, ss: seq<Slot>, i: nat)
    requires i < |ss| && RestingFrom(p, ss, i)
    ensures TickFrom(p, ss, i) == Success(ss)
    decreases |ss| - i
  {
    if i + 1 < |ss| {
      var s0 := ss[i].value;
      var s1 := ss[i + 1].value;
      SpringEquilibrium(p.springX, s0.x, i as real);
      SpringEquilibrium(p.springY, s0.y + p.spriteSize, 0.99);
      assert Pull(p, s0, s1, i) == s1;
      assert ss[i + 1 := Some(s1)] == ss;
      RestingChainStays(p, ss, i + 1);
    }
  }

  /** The key-driven calls of `laurence_tick`, in the order it makes them. */
  datatype Command = Up | Down | Right | Left | SwitchThree | DeleteThree | DeleteFirst

  /** One key's call: the moves are by 20, K switches the root with slot 3, J and L delete slots 3 and 0. */
  function Perform(p: Player, c: Command): (r: Result<Player>)
    ensures r.Success? ==> r.value == p.(ships := r.value.ships)
    ensures c.DeleteThree? || c.DeleteFirst? ==> r.Success? && |r.value.ships| == |p.ships| - (if Fetch(p.ships, if c.DeleteThree? then 3 else 0).Some? || (c.DeleteThree? && 3 < |p.ships|) || (c.DeleteFirst? && 0 < |p.ships|) then 1 else 0)
  {
    match c
    case Up => MoveY(p, 20.0)
    case Down => MoveY(p, -20.0)
    case Right => MoveX(p, 20.0)
    case Left => MoveX(p, -20.0)
    case SwitchThree => SwitchRoot(p, 3)
    case DeleteThree => Success(DeleteAt(p, 3).1)
    case DeleteFirst => Success(DeleteAt(p, 0).1)
  }

  /** The calls in order, stopping at the first that raises. */
  function PerformAll(p: Player, cs: seq<Command>): (r: Result<Player>)
    ensures cs == [] ==> r == Success(p)
    ensures r.Success? ==> r.value == p.(ships := r.value.ships)
    decreases |cs|
  {
    if cs == [] then Success(p)
    else
      var q := Perform(p, cs[0]);
      if q.Failure? then q else PerformAll(q.value, cs[1..])
  }

  /** The keys `laurence_tick` reads. */
  datatype Keys = Keys(up: bool, down: bool, right: bool, left: bool, k: bool, j: bool, l: bool)

  function Commands(keys: Keys): (cs: seq<Command>)
    ensures !keys.up && !keys.down && !keys.right && !keys.left && !keys.k && !keys.j && !keys.l <==> cs == []
  {
    (if keys.up then [Up] else []) + (if keys.down then [Down] else []) +
    (if keys.right then [Right] else []) + (if keys.left then [Left] else []) +
    (if keys.k then [SwitchThree] else []) + (if keys.j then [DeleteThree] else []) +
    (if keys.l then [DeleteFirst] else [])
  }

  /** `laurence_tick` on an existing player: the key-driven calls, then the chain tick. */
  function LaurenceTick(p: Player, keys: Keys): (r: Result<Player>)
    ensures Commands(keys) == [] ==> r == Tick(p)
    ensures r.Success? ==> r.value.spriteSize == p.spriteSize && r.value.springX == p.springX && r.value.springY == p.springY
  {
    var q := PerformAll(p, Commands(keys));
    if q.Failure? then q else Tick(q.value)
  }

  /** Deleting slot 3 until fewer than four ships remain and then pressing K writes nil into slot 0, and the next tick raises. */
  lemma SwitchPastEndBreaksChain(p: Player)
    requires |p.ships| == 3 && forall j :: 0 <= j < 3 ==> p.ships[j].Some?
    ensures SwitchRoot(p, 3).Success? && SwitchRoot(p, 3).value.ships[0] == None
    ensures Tick(SwitchRoot(p, 3).value).Failure?
  {
    var q := SwitchRoot(p, 3).value;
    assert q.ships[0] == None;
  }
}

=== FILE: lone_ravers.dfy ===
/**
 * `LoneRaver` and `LoneRaverSpawner` of mygame/app/lone_raver.rb: stray ravers
 * floating down past the group, which can be snatched while some raver is within
 * 100 of them.
 *
 * `Geometry.distance` is Euclidean; "distance < 100" is decided on its square, which
 * is the same test without the square root.
 */
module LoneRavers {
  import opened Wrappers
  import opened Ravers
  import RubyArray

  const LONE_SIZE: real := 120.0
  const SNATCH_DISTANCE: real := 100.0
  const SPAWN_INTERVAL: int := 180
  const SPAWN_Y: real := 800.0
  const LONE_ANIMATION_SPEED: int := 4

  datatype LoneRaver = LoneRaver(x: real, y: real, w: real, h: real, kind: RaverType,
                                 canBeSnatched: bool, animationSpeed: int)

  /** `LoneRaver.new(x:, y:, type:)` with the default size. */
  function NewLoneRaver(x: real, y: real, kind: RaverType): (l: LoneRaver)
    ensures l.x == x && l.y == y && l.kind == kind
    ensures l.w == LONE_SIZE && l.h == LONE_SIZE && !l.canBeSnatched && l.animationSpeed == LONE_ANIMATION_SPEED
  {
    LoneRaver(x, y, LONE_SIZE, LONE_SIZE, kind, false, LONE_ANIMATION_SPEED)
  }

  /** `create_raver`: a new head raver where the lone raver floats, of its kind. */
  function CreateRaver(l: LoneRaver, id: nat): (r: Raver)
    ensures r.target.None? && r.x == l.x && r.y == l.y && r.kind == l.kind && r.id == id
    ensures r.vx == 0.0 && r.vy == 0.0
  {
    NewRaver(id, None, l.kind, l.x, l.y)
  }

  /** Joining the group puts exactly the raver `create_raver` builds at the end, aimed at the closest raver. */
  lemma SnatchedRaverJoins(g: Group, l: LoneRaver)
    ensures var r := AddNewRaver(g, l.kind, l.x, l.y);
            r.ravers[|g.ravers|] == CreateRaver(l, g.nextId).(target := r.ravers[|g.ravers|].target)
  {
  }

  /** The least squared distance from (x, y) to a raver of a non-empty list. */
  function MinSqDistance(rs: seq<Raver>, x: real, y: real): (m: real)
    requires |rs| > 0
    ensures forall i :: 0 <= i < |rs| ==> m <= SqDistance(rs[i], x, y)
    ensures exists i :: 0 <= i < |rs| && m == SqDistance(rs[i], x, y)
  {
    if |rs| == 1 then SqDistance(rs[0], x, y)
    else
      var rest := MinSqDistance(rs[1..], x, y);
      assert forall i :: 1 <= i < |rs| ==> rs[i] == rs[1..][i - 1];
      var j :| 0 <= j < |rs[1..]| && rest == SqDistance(rs[1..][j], x, y);
      assert rest == SqDistance(rs[j + 1], x, y);
      if SqDistance(rs[0], x, y) <= rest then SqDistance(rs[0], x, y) else rest
  }

  /** The snatch test on a non-empty group. */
  predicate Near(l: LoneRaver, rs: seq<Raver>)
  {
    |rs| > 0 && MinSqDistance(rs, l.x, l.y) < SNATCH_DISTANCE * SNATCH_DISTANCE
  }

  /** The minimum is under 100 exactly when some raver is closer than 100. */
  lemma NearIffSomeRaverClose(l: LoneRaver, rs: seq<Raver>)
    requires |rs| > 0
    ensures Near(l, rs) <==> exists i :: 0 <= i < |rs| && SqDistance(rs[i], l.x, l.y) < SNATCH_DISTANCE * SNATCH_DISTANCE
  {
  }

  /** `update_can_be_snatched`: `[].min` is nil, and `nil < 100` raises. */
  function UpdateCanBeSnatched(l: LoneRaver, rs: seq<Raver>): (r: Result<LoneRaver>)
    ensures r.Failure? <==> |rs| == 0
    ensures r.Success? ==> (r.value == l.(canBeSnatched := r.value.canBeSnatched) &&
              (r.value.canBeSnatched <==> exists i :: 0 <= i < |rs| && SqDistance(rs[i], l.x, l.y) < SNATCH_DISTANCE * SNATCH_DISTANCE))
  {
    if |rs| == 0 then Failure(NoMethodError("undefined method '<' for nil"))
    else
      NearIffSomeRaverClose(l, rs);
      Success(l.(canBeSnatched := Near(l, rs)))
  }

  datatype LoneRaverSpawner = LoneRaverSpawner(loneRavers: seq<LoneRaver>, lastSpawnAt: int, spawnInterval: int)

  function NewLoneRaverSpawner(): (s: LoneRaverSpawner)
    ensures s.loneRavers == [] && s.lastSpawnAt == 0 && s.spawnInterval == SPAWN_INTERVAL
  {
    LoneRaverSpawner([], 0, SPAWN_INTERVAL)
  }

  /** The draws for one spawn: `rand(100..1000)` and `RAVER_TYPES.sample`. */
  datatype LoneRoll = LoneRoll(x: int, kind: RaverType)

  predicate RollInRange(roll: LoneRoll)
  {
    100 <= roll.x <= 1000
  }

  function Spawn(s: LoneRaverSpawner, tick: int, roll: LoneRoll): (r: LoneRaverSpawner)
    ensures r.spawnInterval == s.spawnInterval
    ensures s.spawnInterval < tick - s.lastSpawnAt ==>
              r.lastSpawnAt == tick && r.loneRavers == s.loneRavers + [NewLoneRaver(roll.x as real, SPAWN_Y, roll.kind)]
    ensures s.spawnInterval >= tick - s.lastSpawnAt ==> r == s
  {
    if s.spawnInterval < tick - s.lastSpawnAt then
      s.(lastSpawnAt := tick, loneRavers := s.loneRavers + [NewLoneRaver(roll.x as real, SPAWN_Y, roll.kind)])
    else s
  }

  /** The block of the `lone_ravers.each` pass before the deletion test. */
  function Drift(rs: seq<Raver>): LoneRaver -> LoneRaver
  {
    (l: LoneRaver) => l.(canBeSnatched := Near(l, rs), y := l.y - 1.0)
  }

  function Gone(): LoneRaver -> bool
  {
    (l: LoneRaver) => l.y < 0.0
  }

  function Keep(): ((), LoneRaver) -> ()
  {
    RubyArray.Ignore((u: ()) => u)
  }

  function Scroll(ls: seq<LoneRaver>, rs: seq<Raver>): RubyArray.Pass<LoneRaver, ()>
  {
    RubyArray.EachDelete(ls, (), Drift(rs), Gone(), Keep())
  }

  /**
   * `LoneRaverSpawner#tick`: maybe spawn, then let every lone raver drift. With no
   * ravers to measure against, the first lone raver the pass visits raises.
   */
  function Tick(s: LoneRaverSpawner, rs: seq<Raver>, tick: int, roll: LoneRoll): (r: Result<LoneRaverSpawner>)
    ensures r.Failure? <==> |rs| == 0 && |Spawn(s, tick, roll).loneRavers| > 0
    ensures r.Success? ==> var spawned := Spawn(s, tick, roll);
              r.value == spawned.(loneRavers := Scroll(spawned.loneRavers, rs).kept)
  {
    var spawned := Spawn(s, tick, roll);
    if |rs| == 0 && |spawned.loneRavers| > 0 then Failure(NoMethodError("undefined method '<' for nil"))
    else Success(spawned.(loneRavers := Scroll(spawned.loneRavers, rs).kept))
  }

  /** A spawned lone raver appears at height 800 between x 100 and 1000, 120 square, not yet snatchable. */
  lemma SpawnPlacement(s: LoneRaverSpawner, tick: int, roll: LoneRoll)
    requires RollInRange(roll) && s.spawnInterval < tick - s.lastSpawnAt
    ensures var l := Spawn(s, tick, roll).loneRavers[|s.loneRavers|];
            l.y == SPAWN_Y && 100.0 <= l.x <= 1000.0 && !l.canBeSnatched && l.w == LONE_SIZE
  {
  }

  /** Lone ravers at least one up all drift down by one, their snatch flag refreshed, and none leaves. */
  lemma HighLoneRaversDrift(ls: seq<LoneRaver>, rs: seq<Raver>)
    requires forall i :: 0 <= i < |ls| ==> ls[i].y >= 1.0
    ensures var p := Scroll(ls, rs);
            p.removed == 0 && |p.kept| == |ls| &&
            forall i :: 0 <= i < |ls| ==> p.kept[i] == ls[i].(canBeSnatched := Near(ls[i], rs), y := ls[i].y - 1.0)
  {
    RubyArray.NoDeletionAgrees(ls, (), Drift(rs), Gone(), Keep());
  }

  /** `pick_up`: exactly the given lone raver leaves the list. */
  function PickUp(s: LoneRaverSpawner, i: nat): (r: LoneRaverSpawner)
    requires i < |s.loneRavers|
    ensures r == s.(loneRavers := r.loneRavers) && |r.loneRavers| == |s.loneRavers| - 1
    ensures forall j :: 0 <= j < i ==> r.loneRavers[j] == s.loneRavers[j]
    ensures forall j :: i <= j < |r.loneRavers| ==> r.loneRavers[j] == s.loneRavers[j + 1]
  {
    s.(loneRavers := s.loneRavers[..i] + s.loneRavers[i + 1..])
  }
}

=== FILE: mono_runner.dfy ===
/**
 * The earlier single-file runner, test-first-game/app/main.rb: three integer lanes,
 * frame-count spawn timers, a proximity collision test and its own constants, all
 * kept in `args.state`. Lane and x positions are Integers there; depth, speed and
 * distance become Floats after the first frame and are reals here. `rand(3)` is a
 * parameter.
 */
module MonoRunner {
  import opened Numeric
  import RubyArray

  const LANES: seq<int> := [-200, 0, 200]
  const WORLD_DEPTH: int := 1000
  const VANISHING_POINT_X: real := 640.0
  const VANISHING_POINT_Y: real := 600.0
  const PERSPECTIVE_STRENGTH: real := 0.7
  const CAMERA_Y_OFFSET: real := 150.0
  const LANE_STEP: int := 10
  const START_SPEED: real := 8.0
  const MIN_SPEED: real := 2.0
  const SPEED_DECAY: real := 0.002
  const OBSTACLE_SPEED_PENALTY: real := 2.5
  const COIN_SPEED_BOOST: real := 0.5
  const COIN_BONUS: int := 10
  const GAME_OVER_THRESHOLD: real := 1.5
  const OBSTACLE_SPAWN_INTERVAL: int := 60
  const COIN_SPAWN_INTERVAL: int := 40
  const CULL_Y: real := -100.0
  const COLLISION_DEPTH_THRESHOLD: real := 80.0
  const COLLISION_LANE_THRESHOLD: int := 80
  const ENTITY_SPEED_FACTOR: real := 1.5

  datatype Player = Player(x: int, y: real, w: int, h: int, laneIndex: int, speed: real, targetLane: int)

  /** An obstacle or a coin; the `hit`/`collected` marks never outlive the frame that sets them. */
  datatype Entity = Entity(x: int, y: real, w: int, h: int, laneIndex: int)

  datatype State = State(player: Player, obstacles: seq<Entity>, coins: seq<Entity>,
                         obstacleTimer: int, coinTimer: int, score: int, distance: real, gameOver: bool)

  /** The `||=` defaults of the first frame. */
  function Defaults(): (s: State)
    ensures s.player.x == LANES[1] && s.player.laneIndex == 1 && s.player.targetLane == 1
    ensures s.player.speed == START_SPEED && s.player.w == 60 && s.player.h == 80
    ensures s.obstacles == [] && s.coins == [] && s.obstacleTimer == 0 && s.coinTimer == 0
    ensures s.score == 0 && s.distance == 0.0 && !s.gameOver
  {
    State(Player(LANES[1], 0.0, 60, 80, 1, START_SPEED, 1), [], [], 0, 0, 0, 0.0, false)
  }

  // ---------------------------------------------------------------------------
  // Projection helpers (Float depth)

  function PerspectiveScale(worldY: real): (s: real)
    ensures PERSPECTIVE_STRENGTH <= s <= 1.0
    ensures worldY <= 0.0 ==> s == 1.0
    ensures worldY >= WORLD_DEPTH as real ==> s == PERSPECTIVE_STRENGTH
  {
    var t := MaxMin(worldY / WORLD_DEPTH as real, 0.0, 1.0);
    1.0 - t * (1.0 - PERSPECTIVE_STRENGTH)
  }

  datatype ScreenRect = ScreenRect(x: real, y: real, w: real, h: real, scale: real)

  function WorldRectToScreen(worldX: real, worldY: real, worldW: real, worldH: real): (r: ScreenRect)
    ensures r.scale == PerspectiveScale(worldY)
    ensures r.x + r.w / 2.0 == VANISHING_POINT_X + worldX * r.scale
    ensures r.w / r.scale == worldW && r.h / r.scale == worldH
    ensures CAMERA_Y_OFFSET <= r.y <= VANISHING_POINT_Y
    ensures worldY <= 0.0 ==> r.y == CAMERA_Y_OFFSET
    ensures worldY >= WORLD_DEPTH as real ==> r.y == VANISHING_POINT_Y
  {
    var scale := PerspectiveScale(worldY);
    var t := MaxMin(worldY / WORLD_DEPTH as real, 0.0, 1.0);
    var w := worldW * scale;
    var h := worldH * scale;
    ScreenRect(VANISHING_POINT_X + worldX * scale - w / 2.0,
               CAMERA_Y_OFFSET + t * (VANISHING_POINT_Y - CAMERA_Y_OFFSET), w, h, scale)
  }

  // ---------------------------------------------------------------------------
  // input

  /** `key_down` of left, a, right, d and r. */
  datatype Keys = Keys(left: bool, a: bool, right: bool, d: bool, restart: bool)

  function ChooseLane(target: int, k: Keys): (t: int)
    requires 0 <= target < |LANES|
    ensures 0 <= t < |LANES|
    ensures (k.left || k.a) ==> t == (if target == 0 then 0 else target - 1)
    ensures !(k.left || k.a) && (k.right || k.d) ==> t == (if target == |LANES| - 1 then target else target + 1)
    ensures !(k.left || k.a || k.right || k.d) ==> t == target
  {
    if k.left || k.a then (if target - 1 > 0 then target - 1 else 0)
    else if k.right || k.d then (if target + 1 < 2 then target + 1 else 2)
    else target
  }

  /**
   * `input` as written: it returns at once when the game is over, so its restart
   * test, which needs the game to be over, can never succeed.
   */
  function Input(s: State, k: Keys): (r: State)
    requires 0 <= s.player.targetLane < |LANES|
    ensures s.gameOver ==> r == s
    ensures !s.gameOver ==> r == s.(player := s.player.(targetLane := ChooseLane(s.player.targetLane, k)))
  {
    if s.gameOver then s
    else
      var r := s.(player := s.player.(targetLane := ChooseLane(s.player.targetLane, k)));
      if r.gameOver && k.restart then Reset(r) else r
  }

  /** `input` with the restart test placed before the early return. */
  function InputCorrected(s: State, k: Keys): (r: State)
    requires 0 <= s.player.targetLane < |LANES|
    ensures s.gameOver && k.restart ==> r == Reset(s)
    ensures s.gameOver && !k.restart ==> r == s
    ensures !s.gameOver ==> r == Input(s, k)
  {
    if s.gameOver then (if k.restart then Reset(s) else s)
    else s.(player := s.player.(targetLane := ChooseLane(s.player.targetLane, k)))
  }

  /** `reset_game`: middle lane, start speed, empty lists, zeroed timers, score and distance. */
  function Reset(s: State): (r: State)
    ensures r == Defaults().(player := Defaults().player.(w := s.player.w, h := s.player.h))
  {
    State(Player(LANES[1], 0.0, s.player.w, s.player.h, 1, START_SPEED, 1), [], [], 0, 0, 0, 0.0, false)
  }

  // ---------------------------------------------------------------------------
  // calc

  /** The player's x moves toward the target lane by at most LANE_STEP, never past it. */
  function StepToward(x: int, target: int): (r: int)
    ensures x <= target ==> x <= r <= target
    ensures target <= x ==> target <= r <= x
    ensures -LANE_STEP <= r - x <= LANE_STEP
    ensures r == target <==> -LANE_STEP <= target - x <= LANE_STEP
  {
    if x < target then (if x + LANE_STEP < target then x + LANE_STEP else target)
    else if x > target then (if x - LANE_STEP > target then x - LANE_STEP else target)
    else x
  }

  function MovePlayer(p: Player): (r: Player)
    requires 0 <= p.targetLane < |LANES|
    ensures r == p.(x := r.x, laneIndex := r.laneIndex)
    ensures r.x == StepToward(p.x, LANES[p.targetLane])
    ensures r.laneIndex == if r.x == LANES[p.targetLane] then p.targetLane else p.laneIndex
  {
    var x := StepToward(p.x, LANES[p.targetLane]);
    p.(x := x, laneIndex := if x == LANES[p.targetLane] then p.targetLane else p.laneIndex)
  }

  /** Per-frame decay, floored at MIN_SPEED. */
  function Decay(speed: real): (r: real)
    ensures r >= MIN_SPEED
    ensures speed - SPEED_DECAY >= MIN_SPEED ==> r == speed - SPEED_DECAY
    ensures speed - SPEED_DECAY < MIN_SPEED ==> r == MIN_SPEED
  {
    MaxR(speed - SPEED_DECAY, MIN_SPEED)
  }

  function NewObstacle(lane: nat): (e: Entity)
    requires lane < |LANES|
    ensures e.x == LANES[lane] && e.laneIndex == lane && e.y == WORLD_DEPTH as real
    ensures e.w == 80 && e.h == 120
  {
    Entity(LANES[lane], WORLD_DEPTH as real, 80, 120, lane)
  }

  function NewCoin(lane: nat): (e: Entity)
    requires lane < |LANES|
    ensures e.x == LANES[lane] && e.laneIndex == lane && e.y == WORLD_DEPTH as real
    ensures e.w == 30 && e.h == 30
  {
    Entity(LANES[lane], WORLD_DEPTH as real, 30, 30, lane)
  }

  /** A frame timer: count the frame, and fire and restart once it reaches the interval. */
  function Timer(t: int, interval: int): (r: (int, bool))
    ensures r.1 <==> t + 1 >= interval
    ensures r.0 == if r.1 then 0 else t + 1
  {
    if t + 1 >= interval then (0, true) else (t + 1, false)
  }

  /** `obs.y -= player.speed * 1.5`. */
  function Advance(speed: real): Entity -> Entity
  {
    (e: Entity) => e.(y := e.y - speed * ENTITY_SPEED_FACTOR)
  }

  function Passed(): Entity -> bool { (e: Entity) => e.y < CULL_Y }

  function Same(): Entity -> Entity { (e: Entity) => e }

  /** The proximity test as a block over the player's position, which neither pass changes. */
  function Touches(px: int, py: real): Entity -> bool
  {
    (e: Entity) => AbsR(e.y - py) < COLLISION_DEPTH_THRESHOLD && -COLLISION_LANE_THRESHOLD < e.x - px < COLLISION_LANE_THRESHOLD
  }

  /** The proximity test: depth and x both within 80 of the player. */
  predicate Near(p: Player, e: Entity)
  {
    Touches(p.x, p.y)(e)
  }

  /** How many of `es` are near the player; `HitObstacles` and `CollectCoins` charge one penalty or bonus per such entity. */
  function HitCount(p: Player, es: seq<Entity>): (n: nat)
    ensures n <= |es|
  {
    RubyArray.CountGone(es, Same(), Touches(p.x, p.y))
  }

  /** `player.speed -= penalty; player.speed = [player.speed, 0].max`. */
  function Penalty(): real -> real { (v: real) => MaxR(v - OBSTACLE_SPEED_PENALTY, 0.0) }

  /** `player.speed += boost; score += 10`. */
  function Bonus(): ((real, int)) -> (real, int)
  {
    (vs: (real, int)) => (vs.0 + COIN_SPEED_BOOST, vs.1 + COIN_BONUS)
  }

  lemma {:induction false} RepeatedPenalty(v: real, k: nat)
    requires v >= 0.0
    ensures RubyArray.Iterate(Penalty(), v, k) == MaxR(v - OBSTACLE_SPEED_PENALTY * k as real, 0.0)
    decreases k
  {
    if k > 0 {
      RepeatedPenalty(MaxR(v - OBSTACLE_SPEED_PENALTY, 0.0), k - 1);
    }
  }

  lemma {:induction false} RepeatedBonus(v: real, score: int, m: nat)
    ensures RubyArray.Iterate(Bonus(), (v, score), m) ==
            (v + COIN_SPEED_BOOST * m as real, score + COIN_BONUS * m)
    decreases m
  {
    if m > 0 {
      RepeatedBonus(v + COIN_SPEED_BOOST, score + COIN_BONUS, m - 1);
    }
  }

  /** `each { y -= ... }` then `reject! { y < -100 }`: moved, culled, order kept. */
  function MoveAll(es: seq<Entity>, speed: real): (r: seq<Entity>)
    ensures forall e :: e in r ==> e.y >= CULL_Y
    ensures forall i :: 0 <= i < |r| ==> exists j :: 0 <= j < |es| && r[i] == Advance(speed)(es[j])
    ensures forall j :: 0 <= j < |es| && Advance(speed)(es[j]).y >= CULL_Y ==> Advance(speed)(es[j]) in r
  {
    RubyArray.Sweep(es, 0, Advance(speed), Passed(), (n: int, e: Entity) => n).kept
  }

  /** The obstacle pass: mark each obstacle near the player, paying the penalty, then drop the marked ones. */
  function HitObstacles(p: Player, os: seq<Entity>): (r: (Player, seq<Entity>))
    requires p.speed >= 0.0
    ensures r.0 == p.(speed := MaxR(p.speed - OBSTACLE_SPEED_PENALTY * HitCount(p, os) as real, 0.0))
    ensures forall i :: 0 <= i < |r.1| ==> r.1[i] in os && !Near(p, r.1[i])
    ensures forall o :: o in os && !Near(p, o) ==> o in r.1
  {
    var pass := RubyArray.Sweep(os, p.speed, Same(), Touches(p.x, p.y), RubyArray.Ignore(Penalty()));
    RubyArray.SweepIsIterate(os, p.speed, Same(), Touches(p.x, p.y), Penalty());
    RubyArray.SweepRemovesCondemned(os, p.speed, Same(), Touches(p.x, p.y), RubyArray.Ignore(Penalty()));
    RubyArray.SweepFilters(os, p.speed, Same(), Touches(p.x, p.y), RubyArray.Ignore(Penalty()));
    RepeatedPenalty(p.speed, pass.removed);
    (p.(speed := pass.acc), pass.kept)
  }

  /** The coin pass: each coin near the player adds the boost and 10 points, then is dropped. */
  function CollectCoins(p: Player, score: int, cs: seq<Entity>): (r: (Player, int, seq<Entity>))
    ensures var m := HitCount(p, cs);
            r.0 == p.(speed := p.speed + COIN_SPEED_BOOST * m as real) && r.1 == score + COIN_BONUS * m
    ensures forall i :: 0 <= i < |r.2| ==> r.2[i] in cs && !Near(p, r.2[i])
    ensures forall c :: c in cs && !Near(p, c) ==> c in r.2
  {
    var pass := RubyArray.Sweep(cs, (p.speed, score), Same(), Touches(p.x, p.y), RubyArray.Ignore(Bonus()));
    RubyArray.SweepIsIterate(cs, (p.speed, score), Same(), Touches(p.x, p.y), Bonus());
    RubyArray.SweepRemovesCondemned(cs, (p.speed, score), Same(), Touches(p.x, p.y), RubyArray.Ignore(Bonus()));
    RubyArray.SweepFilters(cs, (p.speed, score), Same(), Touches(p.x, p.y), RubyArray.Ignore(Bonus()));
    RepeatedBonus(p.speed, score, pass.removed);
    (p.(speed := pass.acc.0), pass.acc.1, pass.kept)
  }

  /** Everything of `calc` up to the collision passes: steer, decay, distance, score, timers, spawns. */
  function Advance1(s: State, obstacleLane: nat, coinLane: nat): (r: State)
    requires 0 <= s.player.targetLane < |LANES| && obstacleLane < |LANES| && coinLane < |LANES|
    ensures r.player == MovePlayer(s.player).(speed := Decay(s.player.speed))
    ensures r.distance == s.distance + Decay(s.player.speed)
    ensures r.score == Trunc(r.distance) && r.gameOver == s.gameOver
    ensures (r.obstacleTimer, |r.obstacles| == |s.obstacles| + 1) == Timer(s.obstacleTimer, OBSTACLE_SPAWN_INTERVAL)
    ensures (r.coinTimer, |r.coins| == |s.coins| + 1) == Timer(s.coinTimer, COIN_SPAWN_INTERVAL)
    ensures r.obstacles == s.obstacles || r.obstacles == s.obstacles + [NewObstacle(obstacleLane)]
    ensures r.coins == s.coins || r.coins == s.coins + [NewCoin(coinLane)]
  {
    var p := MovePlayer(s.player).(speed := Decay(s.player.speed));
    var distance := s.distance + p.speed;
    var (ot, spawnO) := Timer(s.obstacleTimer, OBSTACLE_SPAWN_INTERVAL);
    var (ct, spawnC) := Timer(s.coinTimer, COIN_SPAWN_INTERVAL);
    var os := if spawnO then s.obstacles + [NewObstacle(obstacleLane)] else s.obstacles;
    var cs := if spawnC then s.coins + [NewCoin(coinLane)] else s.coins;
    State(p, os, cs, ot, ct, Trunc(distance), distance, s.gameOver)
  }

  /** Move and cull the obstacles, then the obstacle collision pass. */
  function ObstaclePhase(a: State): (b: State)
    requires a.player.speed >= 0.0
    ensures b == a.(player := b.player, obstacles := b.obstacles)
    ensures b.player == a.player.(speed := MaxR(a.player.speed - OBSTACLE_SPEED_PENALTY *
                                                HitCount(a.player, MoveAll(a.obstacles, a.player.speed)) as real, 0.0))
    ensures forall e :: e in b.obstacles ==> e.y >= CULL_Y && !Near(a.player, e)
  {
    var os := MoveAll(a.obstacles, a.player.speed);
    var h := HitObstacles(a.player, os);
    a.(player := h.0, obstacles := h.1)
  }

  /** Move and cull the coins by the frame's speed `v`, then the coin collision pass. */
  function CoinPhase(b: State, v: real): (c: State)
    ensures c == b.(player := c.player, coins := c.coins, score := c.score)
    ensures var m := HitCount(b.player, MoveAll(b.coins, v));
            c.player == b.player.(speed := b.player.speed + COIN_SPEED_BOOST * m as real) &&
            c.score == b.score + COIN_BONUS * m
    ensures forall e :: e in c.coins ==> e.y >= CULL_Y && !Near(b.player, e)
  {
    var cs := MoveAll(b.coins, v);
    var k := CollectCoins(b.player, b.score, cs);
    b.(player := k.0, score := k.1, coins := k.2)
  }

  /**
   * The second half of `calc`: both lists move by the decayed speed, then the
   * obstacle pass, the coin pass and the game-over test.
   */
  function Collide(a: State): (r: State)
    requires a.player.speed >= 0.0
    ensures var k := HitCount(a.player, MoveAll(a.obstacles, a.player.speed));
            var m := HitCount(a.player, MoveAll(a.coins, a.player.speed));
            r.player.speed == MaxR(a.player.speed - OBSTACLE_SPEED_PENALTY * k as real, 0.0) + COIN_SPEED_BOOST * m as real &&
            r.score == a.score + COIN_BONUS * m
    ensures r.player == a.player.(speed := r.player.speed)
    ensures r.distance == a.distance && r.obstacleTimer == a.obstacleTimer && r.coinTimer == a.coinTimer
    ensures r.player.speed >= 0.0
    ensures r.gameOver <==> r.player.speed <= GAME_OVER_THRESHOLD
  {
    var b := ObstaclePhase(a);
    var c := CoinPhase(b, a.player.speed);
    assert HitCount(b.player, MoveAll(a.coins, a.player.speed)) == HitCount(a.player, MoveAll(a.coins, a.player.speed));
    c.(gameOver := c.player.speed <= GAME_OVER_THRESHOLD)
  }

  /**
   * Nothing that survives the frame is past the cull line or still near the
   * player's position (which the collision passes do not change).
   */
  lemma CollideSurvivors(a: State)
    requires a.player.speed >= 0.0
    ensures forall e :: e in Collide(a).obstacles ==> e.y >= CULL_Y && !Near(a.player, e)
    ensures forall e :: e in Collide(a).coins ==> e.y >= CULL_Y && !Near(a.player, e)
  {
    var b := ObstaclePhase(a);
    assert b.player.x == a.player.x && b.player.y == a.player.y;
    var c := CoinPhase(b, a.player.speed);
    assert Collide(a).obstacles == b.obstacles;
    assert Collide(a).coins == c.coins;
    assert forall e :: Near(a.player, e) == Near(b.player, e);
  }

  /** `calc`, with the two `rand(3)` lane draws as parameters. */
  function Calc(s: State, obstacleLane: nat, coinLane: nat): (r: State)
    requires 0 <= s.player.targetLane < |LANES| && obstacleLane < |LANES| && coinLane < |LANES|
    ensures s.gameOver ==> r == s
    ensures !s.gameOver ==> r.distance == s.distance + Decay(s.player.speed)
    ensures !s.gameOver ==> r.score >= Trunc(r.distance)
    ensures !s.gameOver ==> r.player.speed >= 0.0
    ensures !s.gameOver ==> (r.gameOver <==> r.player.speed <= GAME_OVER_THRESHOLD)
  {
    if s.gameOver then s else Collide(Advance1(s, obstacleLane, coinLane))
  }

  /** One frame: `input` then `calc`. */
  function Tick(s: State, k: Keys, obstacleLane: nat, coinLane: nat): (r: State)
    requires 0 <= s.player.targetLane < |LANES| && obstacleLane < |LANES| && coinLane < |LANES|
    ensures s.gameOver ==> r == s
  {
    Calc(Input(s, k), obstacleLane, coinLane)
  }

  /** Once the game is over, no key and no frame changes anything: R cannot restart it. */
  lemma RestartUnreachable(s: State, k: Keys, obstacleLane: nat, coinLane: nat)
    requires 0 <= s.player.targetLane < |LANES| && obstacleLane < |LANES| && coinLane < |LANES|
    requires s.gameOver && k.restart
    ensures Tick(s, k, obstacleLane, coinLane) == s
    ensures !InputCorrected(s, k).gameOver && InputCorrected(s, k).player.speed == START_SPEED
  {
  }

  /** The score is recomputed from the distance every frame, so a coin bonus lasts one frame. */
  lemma CoinBonusIsOverwritten(s: State, obstacleLane: nat, coinLane: nat, other: int)
    requires 0 <= s.player.targetLane < |LANES| && obstacleLane < |LANES| && coinLane < |LANES|
    ensures Calc(s.(score := other), obstacleLane, coinLane).score == Calc(s, obstacleLane, coinLane).score || s.gameOver
  {
    if !s.gameOver {
      assert Advance1(s.(score := other), obstacleLane, coinLane) == Advance1(s, obstacleLane, coinLane);
    }
  }

  /**
   * Below the interval the spawn timer just counts frames, and the frame after it
   * fires exactly when the count has reached OBSTACLE_SPAWN_INTERVAL - 1.
   */
  lemma {:induction false} TimerPeriod(t: nat, n: nat)
    requires t + n < OBSTACLE_SPAWN_INTERVAL
    ensures TimerN(t, n) == t + n
    ensures Timer(TimerN(t, n), OBSTACLE_SPAWN_INTERVAL).1 <==> t + n == OBSTACLE_SPAWN_INTERVAL - 1
    decreases n
  {
    if n > 0 {
      TimerPeriod(t + 1, n - 1);
    }
  }

  /** n + 1 frames are n frames and then one more. */
  lemma {:induction false} TimerNLast(t: int, n: nat)
    ensures TimerN(t, n + 1) == Timer(TimerN(t, n), OBSTACLE_SPAWN_INTERVAL).0
    decreases n
  {
    if n > 0 {
      TimerNLast(Timer(t, OBSTACLE_SPAWN_INTERVAL).0, n - 1);
    }
  }

  /**
   * From a fresh start the timer is back at 0 after exactly OBSTACLE_SPAWN_INTERVAL
   * frames and not before, so it fires once every OBSTACLE_SPAWN_INTERVAL frames.
   */
  lemma TimerCycle()
    ensures TimerN(0, OBSTACLE_SPAWN_INTERVAL) == 0
    ensures forall n: nat :: 0 < n < OBSTACLE_SPAWN_INTERVAL ==> TimerN(0, n) == n
  {
    TimerPeriod(0, OBSTACLE_SPAWN_INTERVAL - 1);
    TimerNLast(0, OBSTACLE_SPAWN_INTERVAL - 1);
    forall n: nat | 0 < n < OBSTACLE_SPAWN_INTERVAL
      ensures TimerN(0, n) == n
    {
      TimerPeriod(0, n);
    }
  }

  function TimerN(t: int, n: nat): int
    decreases n
  {
    if n == 0 then t else TimerN(Timer(t, OBSTACLE_SPAWN_INTERVAL).0, n - 1)
  }

  /** A newly spawned entity is moved in the frame it appears in. */
  lemma SpawnedMovesSameFrame(speed: real, lane: nat)
    requires lane < |LANES| && 0.0 <= speed <= 100.0
    ensures MoveAll([NewObstacle(lane)], speed) == [NewObstacle(lane).(y := WORLD_DEPTH as real - speed * ENTITY_SPEED_FACTOR)]
  {
    var e := NewObstacle(lane);
    assert [e][1..] == [];
    assert RubyArray.Sweep([e][1..], 0, Advance(speed), Passed(), (n: int, e: Entity) => n).kept == [];
  }
}

=== FILE: numeric.dfy ===
/** Ruby numeric helpers used by every module, stated over Dafny's unbounded int and real. */
module Numeric {

  /** `[[v, lo].max, hi].min`; with lo <= hi this is the usual clamp. */
  function MaxMin(v: real, lo: real, hi: real): (r: real)
    ensures r <= hi
    ensures lo <= hi ==> lo <= r
    ensures lo <= v <= hi ==> r == v
    ensures v < lo && lo <= hi ==> r == lo
    ensures hi < v ==> r == hi
  {
    var m := if v > lo then v else lo;
    if m < hi then m else hi
  }

  function MaxR(a: real, b: real): (r: real)
    ensures r >= a && r >= b && (r == a || r == b)
  {
    if a >= b then a else b
  }

  function MinR(a: real, b: real): (r: real)
    ensures r <= a && r <= b && (r == a || r == b)
  {
    if a <= b then a else b
  }

  function AbsR(a: real): (r: real)
    ensures r >= 0.0 && (r == a || r == -a)
  {
    if a >= 0.0 then a else -a
  }

  /** `Float#floor`. */
  function Floor(x: real): (r: int)
    ensures r as real <= x < r as real + 1.0
  {
    x.Floor
  }

  /** `Float#ceil`. */
  function Ceil(x: real): (r: int)
    ensures r as real - 1.0 < x <= r as real
  {
    -((-x).Floor)
  }

  /** `Float#to_i`: truncation toward zero. */
  function Trunc(x: real): (r: int)
    ensures x >= 0.0 ==> r as real <= x < r as real + 1.0
    ensures x < 0.0 ==> r as real - 1.0 < x <= r as real
  {
    if x >= 0.0 then x.Floor else -((-x).Floor)
  }

  /** Ruby's `Integer#/`: rounds toward negative infinity. */
  function FloorDiv(a: int, b: int): (q: int)
    requires b != 0
    ensures b > 0 ==> b * q <= a < b * q + b
    ensures b < 0 ==> b * q + b < a <= b * q
  {
    if b > 0 then a / b else (-a) / (-b)
  }

  /** Ruby's `Integer#%`: the remainder takes the divisor's sign. */
  function FloorMod(a: int, b: int): (r: int)
    requires b != 0
    ensures a == b * FloorDiv(a, b) + r
    ensures b > 0 ==> 0 <= r < b
    ensures b < 0 ==> b < r <= 0
  {
    a - b * FloorDiv(a, b)
  }

  /** The quotient is the one integer q with b·q <= a < b·q + b. */
  lemma FloorDivUnique(a: int, b: int, q: int)
    requires b > 0 && b * q <= a < b * q + b
    ensures FloorDiv(a, b) == q
  {
    var p := FloorDiv(a, b);
    assert b * (q + 1) == b * q + b && b * (p + 1) == b * p + b;
    if p > q {
      MulMono(b, q + 1, p);
    } else if p < q {
      MulMono(b, p + 1, q);
    }
  }

  lemma MulMono(b: int, x: int, y: int)
    requires b > 0 && x <= y
    ensures b * x <= b * y
  {
    assert b * y - b * x == b * (y - x);
  }

  /** Adding the divisor adds one to the quotient and leaves the remainder. */
  lemma FloorShift(a: int, b: int)
    requires b > 0
    ensures FloorDiv(a + b, b) == FloorDiv(a, b) + 1
    ensures FloorMod(a + b, b) == FloorMod(a, b)
  {
    var q := FloorDiv(a, b);
    assert b * (q + 1) == b * q + b;
    FloorDivUnique(a + b, b, q + 1);
  }
}

=== FILE: perspective_camera.dfy ===
/**
 * Single-vanishing-point projection of test-first-game/app/rendering/perspective_camera.rb.
 * The camera's only state is the shake timer and the two shake offsets; `rand`
 * becomes two parameters in [0, 1).
 */
module PerspectiveCamera {
  import opened RunnerConfig
  import opened Numeric

  datatype Camera = Camera(shakeTimer: int, shakeOffsetX: real, shakeOffsetY: real)

  datatype ScreenPoint = ScreenPoint(x: real, y: real, scale: real)

  datatype ScreenRect = ScreenRect(x: real, y: real, w: real, h: real, scale: real)

  function New(): (c: Camera)
    ensures c.shakeTimer == 0 && c.shakeOffsetX == 0.0 && c.shakeOffsetY == 0.0
  {
    Camera(0, 0.0, 0.0)
  }

  /** `trigger_shake(intensity = 5)`: six frames of shake per intensity level. */
  function TriggerShake(c: Camera, intensity: int): (r: Camera)
    ensures r.shakeTimer == 6 * intensity
    ensures r.shakeOffsetX == c.shakeOffsetX && r.shakeOffsetY == c.shakeOffsetY
  {
    c.(shakeTimer := intensity * 6)
  }

  /** The shake magnitude `(timer / 6.0).ceil`. */
  function ShakeMagnitude(timer: int): (m: int)
    requires timer > 0
    ensures m >= 1
    ensures (m - 1) * 6 < timer <= m * 6
  {
    Ceil(timer as real / 6.0)
  }

  /** `update`: a positive timer draws new offsets and counts down; a spent timer zeroes the offsets. */
  function Update(c: Camera, rand1: real, rand2: real): (r: Camera)
    requires 0.0 <= rand1 < 1.0 && 0.0 <= rand2 < 1.0
    ensures c.shakeTimer > 0 ==> r.shakeTimer == c.shakeTimer - 1
    ensures c.shakeTimer <= 0 ==> r == c.(shakeOffsetX := 0.0, shakeOffsetY := 0.0)
    ensures c.shakeTimer > 0 ==>
              WithinShake(r.shakeOffsetX, ShakeMagnitude(c.shakeTimer)) &&
              WithinShake(r.shakeOffsetY, ShakeMagnitude(c.shakeTimer))
  {
    if c.shakeTimer > 0 then
      var m := ShakeMagnitude(c.shakeTimer);
      Camera(c.shakeTimer - 1, ShakeOffset(rand1, m), ShakeOffset(rand2, m))
    else
      c.(shakeOffsetX := 0.0, shakeOffsetY := 0.0)
  }

  predicate WithinShake(offset: real, m: int)
  {
    -(m as real) <= offset < m as real
  }

  /** `(rand * m * 2) - m`. */
  function ShakeOffset(u: real, m: int): (o: real)
    requires 0.0 <= u < 1.0 && m >= 1
    ensures WithinShake(o, m)
  {
    var mr := m as real;
    assert 0.0 <= u * mr;
    assert u * mr < 1.0 * mr;
    u * mr * 2.0 - mr
  }

  /** The depth ratio `world_y / world_depth` clamped to [0, 1], for a Float depth. */
  function DepthRatio(worldY: real): (t: real)
    ensures 0.0 <= t <= 1.0
    ensures worldY <= 0.0 ==> t == 0.0
    ensures worldY >= WORLD_DEPTH as real ==> t == 1.0
    ensures 0.0 <= worldY <= WORLD_DEPTH as real ==> t * (WORLD_DEPTH as real) == worldY
  {
    MaxMin(worldY / WORLD_DEPTH as real, 0.0, 1.0)
  }

  /** Scale from 1.0 at the camera down to PERSPECTIVE_STRENGTH at the horizon. */
  function ScaleAt(t: real): real
  {
    1.0 - t * (1.0 - PERSPECTIVE_STRENGTH)
  }

  /** `perspective_scale` for a Float depth. */
  function PerspectiveScale(worldY: real): (s: real)
    ensures PERSPECTIVE_STRENGTH <= s <= 1.0
    ensures worldY <= 0.0 ==> s == 1.0
    ensures worldY >= WORLD_DEPTH as real ==> s == PERSPECTIVE_STRENGTH
  {
    ScaleAt(DepthRatio(worldY))
  }

  /** `world_to_screen`: x shrinks toward the (shaken) vanishing point; y is linear in the clamped depth ratio. */
  function WorldToScreen(c: Camera, worldX: real, worldY: real): (p: ScreenPoint)
    ensures p.scale == PerspectiveScale(worldY)
  {
    var scale := PerspectiveScale(worldY);
    var t := DepthRatio(worldY);
    var vpX := VANISHING_POINT_X + c.shakeOffsetX;
    var vpY := VANISHING_POINT_Y + c.shakeOffsetY;
    ScreenPoint(vpX + worldX * scale, CAMERA_Y_OFFSET + t * (vpY - CAMERA_Y_OFFSET), scale)
  }

  /** `world_rect_to_screen`: uniform scaling, centred horizontally on the projected x, anchored at the projected y. */
  function WorldRectToScreen(c: Camera, worldX: real, worldY: real, worldW: real, worldH: real): (r: ScreenRect)
    ensures var p := WorldToScreen(c, worldX, worldY);
            r.scale == p.scale && r.y == p.y && r.x + r.w / 2.0 == p.x
    ensures r.w / r.scale == worldW && r.h / r.scale == worldH
  {
    var p := WorldToScreen(c, worldX, worldY);
    var w := worldW * p.scale;
    var h := worldH * p.scale;
    Unscale(worldW, p.scale);
    Unscale(worldH, p.scale);
    ScreenRect(p.x - w / 2.0, p.y, w, h, p.scale)
  }

  /** Dividing a scaled length by its positive scale gives the length back. */
  lemma Unscale(x: real, s: real)
    requires s > 0.0
    ensures (x * s) / s == x
  {
  }

  // ---------------------------------------------------------------------------
  // Properties of the projection

  /** Scale endpoints: full size at depth 0, PERSPECTIVE_STRENGTH at WORLD_DEPTH. */
  lemma ScaleEndpoints()
    ensures PerspectiveScale(0.0) == 1.0
    ensures PerspectiveScale(WORLD_DEPTH as real) == PERSPECTIVE_STRENGTH
  {
  }

  /** The scale never grows with depth, and strictly shrinks inside [0, WORLD_DEPTH]. */
  lemma ScaleMonotone(a: real, b: real)
    requires a <= b
    ensures PerspectiveScale(b) <= PerspectiveScale(a)
    ensures 0.0 <= a < b <= WORLD_DEPTH as real ==> PerspectiveScale(b) < PerspectiveScale(a)
  {
    var ta, tb := DepthRatio(a), DepthRatio(b);
    assert ta <= tb;
  }

  /** Depths outside [0, WORLD_DEPTH] give the scale of the nearest endpoint: clamping first changes nothing. */
  lemma ScaleClampIdempotent(worldY: real)
    ensures PerspectiveScale(worldY) == PerspectiveScale(MaxMin(worldY, 0.0, WORLD_DEPTH as real))
    ensures DepthRatio(DepthRatio(worldY) * WORLD_DEPTH as real) == DepthRatio(worldY)
  {
  }

  /** Without shake, world x = 0 lands on the vanishing point, and x is recovered by dividing by the scale. */
  lemma ScreenXInverse(c: Camera, worldX: real, worldY: real)
    requires c.shakeOffsetX == 0.0
    ensures WorldToScreen(c, 0.0, worldY).x == VANISHING_POINT_X
    ensures (WorldToScreen(c, worldX, worldY).x - VANISHING_POINT_X) / PerspectiveScale(worldY) == worldX
  {
  }

  /** Screen y does not depend on world x and moves from the camera baseline to the vanishing point. */
  lemma ScreenYLinear(c: Camera, x1: real, x2: real, worldY: real)
    ensures WorldToScreen(c, x1, worldY).y == WorldToScreen(c, x2, worldY).y
    ensures worldY <= 0.0 ==> WorldToScreen(c, x1, worldY).y == CAMERA_Y_OFFSET
    ensures worldY >= WORLD_DEPTH as real ==>
              WorldToScreen(c, x1, worldY).y == VANISHING_POINT_Y + c.shakeOffsetY
  {
  }

  /** A spent shake timer leaves the camera unshaken after one update. */
  lemma ShakeSettles(c: Camera, rand1: real, rand2: real)
    requires 0.0 <= rand1 < 1.0 && 0.0 <= rand2 < 1.0
    requires c.shakeTimer == 0
    ensures Update(c, rand1, rand2) == New()
  {
  }

  /** While the timer has not run out, each update takes one off it. */
  lemma {:induction false} CountDown(c: Camera, m: nat, rands: seq<real>)
    requires m <= c.shakeTimer
    requires |rands| == 2 * m && forall k :: 0 <= k < |rands| ==> 0.0 <= rands[k] < 1.0
    ensures UpdateN(c, rands).shakeTimer == c.shakeTimer - m
    decreases m
  {
    if m > 0 {
      CountDown(Update(c, rands[0], rands[1]), m - 1, rands[2..]);
    }
  }

  /**
   * A shake of intensity i lasts exactly 6*i updates: a timer of n is still running
   * (at n - m) after every m < n updates, and spent after n.
   */
  lemma ShakeDuration(c: Camera, n: nat, rands: seq<real>)
    requires c.shakeTimer == n
    requires |rands| == 2 * n && forall k :: 0 <= k < |rands| ==> 0.0 <= rands[k] < 1.0
    ensures UpdateN(c, rands).shakeTimer == 0
    ensures forall m: nat :: m < n ==> UpdateN(c, rands[..2 * m]).shakeTimer == n - m > 0
  {
    CountDown(c, n, rands);
    forall m: nat | m < n
      ensures UpdateN(c, rands[..2 * m]).shakeTimer == n - m > 0
    {
      CountDown(c, m, rands[..2 * m]);
    }
  }

  /** `update` applied once per pair of random draws. */
  function UpdateN(c: Camera, rands: seq<real>): Camera
    requires |rands| % 2 == 0 && forall k :: 0 <= k < |rands| ==> 0.0 <= rands[k] < 1.0
    decreases |rands|
  {
    if |rands| == 0 then c else UpdateN(Update(c, rands[0], rands[1]), rands[2..])
  }
}

=== FILE: platformer.dfy ===
/**
 * The frame logic of mygame/app/main.rb: `setup`, the decisions of `tick_game`
 * (jump, steering, snatching lone ravers, dropping ravers off at a window, the
 * spawner ticks and the platform landing) and the scene machine of `tick`.
 *
 * The globals `$raver_group`, `$platform_spawner`, … become the fields of a `Game`
 * threaded through the step functions. Keys and pad buttons arrive in an `Input`,
 * random draws in `Rolls`, `Kernel.tick_count` as `tick`, and the engine's
 * rectangle intersection test as `hit`. Rendering and labels are not modelled.
 */
module Platformer {
  import opened Wrappers
  import opened Ravers
  import Score
  import Platforms
  import LoneRavers
  import Windows
  import Backgrounds
  import Coins
  import RubyArray

  /** The head must be at least this high over the platform's bottom edge to land. */
  const LANDING_MARGIN: real := 20.0
  /** The floor is set this far below the platform's bottom edge. */
  const LANDING_SINK: real := 4.0
  /** A head lower than this without a platform under it is dropped. */
  const DROP_HEIGHT: real := 10.0

  /** The keys and pad buttons the frame reads. */
  datatype Input = Input(space: bool, enter: bool, keyJ: bool, keyK: bool, left: bool, right: bool,
                         padA: bool, padB: bool, padX: bool)

  predicate JumpPressed(i: Input)
  {
    i.space || i.padA
  }

  predicate SnatchPressed(i: Input)
  {
    i.keyJ || i.padB
  }

  predicate DropPressed(i: Input)
  {
    i.keyK || i.padX
  }

  predicate StartPressed(i: Input)
  {
    i.enter || i.padA
  }

  /** One frame's random draws, one per spawner. */
  datatype Rolls = Rolls(platform: Platforms.PlatformRoll, lone: LoneRavers.LoneRoll,
                         window: Windows.WindowRoll, coin: Coins.CoinRoll)

  predicate RollsInRange(r: Rolls)
  {
    Platforms.RollInRange(r.platform) && LoneRavers.RollInRange(r.lone) && Coins.RollInRange(r.coin)
  }

  datatype Game = Game(group: Group, platforms: Platforms.PlatformSpawner, lones: LoneRavers.LoneRaverSpawner,
                       windows: Windows.WindowSpawner, backgrounds: seq<Backgrounds.Tile>,
                       coins: Coins.CoinSpawner, score: Score.Score)

  /** `setup`: a lone rabbit on the ground, empty spawners and a fresh score. */
  function Setup(): (g: Game)
    ensures |g.group.ravers| == 1 && g.group.ravers[0].target.None? && g.group.minY == 0.0
    ensures g.platforms.platforms == [] && g.lones.loneRavers == [] && g.windows.windows == [] && g.coins.coins == []
    ensures g.platforms.difficultyMul == 1.0 && Backgrounds.Seamless(g.backgrounds)
    ensures g.score.points == 0 && !Score.HasDied(g.score)
    ensures Sound(g.group)
  {
    var g := Game(NewGroup(), Platforms.NewPlatformSpawner(), LoneRavers.NewLoneRaverSpawner(),
                  Windows.NewWindowSpawner(), Backgrounds.NewBackgrounds(), Coins.NewCoinSpawner(),
                  Score.NewScore());
    assert ChainOf(g.group.ravers, [0]);
    g
  }

  // ---------------------------------------------------------------------------
  // Group health

  /** A group that holds together and is not empty. */
  ghost predicate Sound(g: Group)
  {
    WellFormed(g) && |g.ravers| > 0
  }

  /** A sound group has a head. */
  lemma SoundHasHead(g: Group)
    requires Sound(g)
    ensures Find(g.ravers, IsHead).Some?
  {
    var order :| ChainOf(g.ravers, order);
    HeadIsUnique(g.ravers, order);
  }

  /** Motion alone never breaks a sound group. */
  lemma MotionKeepsSound(g: Group, h: Group)
    requires Sound(g) && SameStructure(g.ravers, h.ravers) && h.nextId == g.nextId
    ensures Sound(h)
  {
    var order :| ChainOf(g.ravers, order);
    ChainOfStructure(g.ravers, h.ravers, order);
  }

  lemma AddKeepsSound(g: Group, kind: RaverType, x: real, y: real)
    requires Sound(g)
    ensures Sound(AddNewRaver(g, kind, x, y))
  {
    var order :| ChainOf(g.ravers, order);
    AddKeepsChain(g, order, kind, x, y);
  }

  lemma RemoveKeepsSound(g: Group, p: nat)
    requires Sound(g) && p < |g.ravers|
    ensures Sound(RemoveRaver(g, p))
  {
    if |g.ravers| > 1 {
      var order :| ChainOf(g.ravers, order);
      var k := PositionIn(order, p);
      RemoveKeepsChain(g, order, k);
    }
  }

  // ---------------------------------------------------------------------------
  // Steering

  /** What the pressed keys and buttons ask of `tick_game`. */
  datatype Controls = Controls(jump: bool, left: bool, right: bool, snatch: bool, drop: bool)

  /** Space or pad A jumps, J or pad B snatches, K or pad X drops off; Enter is not read. */
  function ControlsOf(i: Input): Controls
  {
    Controls(JumpPressed(i), i.left, i.right, SnatchPressed(i), DropPressed(i))
  }

  /** Only the raver at h moved: same id, target and kind, and everything else untouched. */
  predicate OnlyHeadMoved(g: Group, r: Group, h: nat)
  {
    h < |g.ravers| && |r.ravers| == |g.ravers| && r == g.(ravers := r.ravers) &&
    r.ravers[h].id == g.ravers[h].id && r.ravers[h].target == g.ravers[h].target &&
    r.ravers[h].kind == g.ravers[h].kind &&
    forall j :: 0 <= j < |g.ravers| && j != h ==> r.ravers[j] == g.ravers[j]
  }

  /** `head_raver` looks only at targets, so motion does not move it. */
  lemma {:induction false} FindUnmovedHead(a: seq<Raver>, b: seq<Raver>)
    requires SameStructure(a, b)
    ensures Find(a, IsHead) == Find(b, IsHead)
    decreases |a|
  {
    if |a| > 0 {
      assert SameStructure(a[1..], b[1..]);
      FindUnmovedHead(a[1..], b[1..]);
    }
  }

  lemma OnlyHeadMovedKeepsHead(g: Group, r: Group, h: nat)
    requires OnlyHeadMoved(g, r, h)
    ensures SameStructure(g.ravers, r.ravers) && Find(r.ravers, IsHead) == Find(g.ravers, IsHead)
  {
    FindUnmovedHead(g.ravers, r.ravers);
  }

  /** The jump, taken only on the ground. */
  function JumpStep(g: Group, jump: bool): (r: Result<Group>)
    ensures r.Failure? <==> jump && !g.isFlying && Find(g.ravers, IsHead).None?
    ensures r.Success? && Find(g.ravers, IsHead).None? ==> r.value == g
    ensures r.Success? && Find(g.ravers, IsHead).Some? ==>
              var h := Find(g.ravers, IsHead).value;
              OnlyHeadMoved(g, r.value, h) && r.value.ravers[h].vx == g.ravers[h].vx &&
              r.value.ravers[h].vy == (if jump && !g.isFlying then JUMP_VELOCITY else g.ravers[h].vy)
  {
    if jump && !g.isFlying then Jump(g) else Success(g)
  }

  function LeftStep(g: Group, left: bool): (r: Result<Group>)
    ensures r.Failure? <==> left && Find(g.ravers, IsHead).None?
    ensures r.Success? && Find(g.ravers, IsHead).None? ==> r.value == g
    ensures r.Success? && Find(g.ravers, IsHead).Some? ==>
              var h := Find(g.ravers, IsHead).value;
              OnlyHeadMoved(g, r.value, h) && r.value.ravers[h].vy == g.ravers[h].vy &&
              (left ==> r.value.ravers[h].vx >= -MAX_VELOCITY_X) &&
              (left && g.ravers[h].vx <= MAX_VELOCITY_X ==> r.value.ravers[h].vx <= MAX_VELOCITY_X) &&
              (!left ==> r.value.ravers[h].vx == g.ravers[h].vx)
  {
    if left then MoveLeft(g) else Success(g)
  }

  function RightStep(g: Group, right: bool): (r: Result<Group>)
    ensures r.Failure? <==> right && Find(g.ravers, IsHead).None?
    ensures r.Success? && Find(g.ravers, IsHead).None? ==> r.value == g
    ensures r.Success? && Find(g.ravers, IsHead).Some? ==>
              var h := Find(g.ravers, IsHead).value;
              OnlyHeadMoved(g, r.value, h) && r.value.ravers[h].vy == g.ravers[h].vy &&
              (right ==> r.value.ravers[h].vx <= MAX_VELOCITY_X) &&
              (right && g.ravers[h].vx >= -MAX_VELOCITY_X ==> r.value.ravers[h].vx >= -MAX_VELOCITY_X) &&
              (!right ==> r.value.ravers[h].vx == g.ravers[h].vx)
  {
    if right then MoveRight(g) else Success(g)
  }

  /** The jump (only on the ground) and then the left and right pushes. */
  function Steer(g: Group, c: Controls): (r: Result<Group>)
    ensures r.Failure? <==> Find(g.ravers, IsHead).None? && ((c.jump && !g.isFlying) || c.left || c.right)
    ensures r.Success? && Find(g.ravers, IsHead).None? ==> r.value == g
    ensures r.Success? && Find(g.ravers, IsHead).Some? ==>
              var h := Find(g.ravers, IsHead).value;
              OnlyHeadMoved(g, r.value, h) &&
              r.value.ravers[h].vy == (if c.jump && !g.isFlying then JUMP_VELOCITY else g.ravers[h].vy) &&
              (c.left ==> r.value.ravers[h].vx >= -MAX_VELOCITY_X) &&
              (c.right ==> r.value.ravers[h].vx <= MAX_VELOCITY_X) &&
              (!c.left && !c.right ==> r.value.ravers[h].vx == g.ravers[h].vx)
  {
    match JumpStep(g, c.jump)
    case Failure(e) => Failure(e)
    case Success(g1) =>
      assert Find(g1.ravers, IsHead) == Find(g.ravers, IsHead) by {
        if Find(g.ravers, IsHead).Some? {
          OnlyHeadMovedKeepsHead(g, g1, Find(g.ravers, IsHead).value);
        }
      }
      match LeftStep(g1, c.left)
      case Failure(e) => Failure(e)
      case Success(g2) =>
        assert Find(g2.ravers, IsHead) == Find(g.ravers, IsHead) by {
          if Find(g.ravers, IsHead).Some? {
            OnlyHeadMovedKeepsHead(g1, g2, Find(g.ravers, IsHead).value);
          }
        }
        RightStep(g2, c.right)
  }

  /** In the air the jump button does nothing. */
  lemma JumpOnlyFromTheGround(g: Group, c: Controls)
    requires g.isFlying
    ensures Steer(g, c) == Steer(g, c.(jump := false))
  {
  }

  // ---------------------------------------------------------------------------
  // Snatching lone ravers (J or B)

  function SameLone(): LoneRavers.LoneRaver -> LoneRavers.LoneRaver
  {
    (l: LoneRavers.LoneRaver) => l
  }

  function Snatchable(): LoneRavers.LoneRaver -> bool
  {
    (l: LoneRavers.LoneRaver) => l.canBeSnatched
  }

  /** `add_new_raver lone_raver.create_raver`. */
  function Join(): (Group, LoneRavers.LoneRaver) -> Group
  {
    (g: Group, l: LoneRavers.LoneRaver) => AddNewRaver(g, l.kind, l.x, l.y)
  }

  /**
   * The `lone_ravers.each` pass: a snatchable lone raver joins the group and is
   * picked up, which deletes it mid-walk, so the lone raver after it is not looked at.
   */
  function Snatch(g: Group, s: LoneRavers.LoneRaverSpawner): (r: (Group, LoneRavers.LoneRaverSpawner))
    ensures var p := RubyArray.EachDelete(s.loneRavers, g, SameLone(), Snatchable(), Join());
            r.0 == p.acc && r.1 == s.(loneRavers := p.kept)
    ensures |r.0.ravers| == |g.ravers| + (|s.loneRavers| - |r.1.loneRavers|)
    ensures r.0 == g.(ravers := r.0.ravers, nextId := r.0.nextId)
  {
    var p := RubyArray.EachDelete(s.loneRavers, g, SameLone(), Snatchable(), Join());
    SnatchJoins(s.loneRavers, g);
    (p.acc, s.(loneRavers := p.kept))
  }

  /** Each lone raver the pass takes adds one raver, and the group stays sound. */
  lemma {:induction false} SnatchJoins(ls: seq<LoneRavers.LoneRaver>, g: Group)
    ensures var p := RubyArray.EachDelete(ls, g, SameLone(), Snatchable(), Join());
            |p.acc.ravers| == |g.ravers| + p.removed && p.acc == g.(ravers := p.acc.ravers, nextId := p.acc.nextId)
    ensures Sound(g) ==> Sound(RubyArray.EachDelete(ls, g, SameLone(), Snatchable(), Join()).acc)
    decreases |ls|
  {
    if |ls| > 0 {
      var e := ls[0];
      if e.canBeSnatched {
        var g1 := AddNewRaver(g, e.kind, e.x, e.y);
        assert Join()(g, e) == g1;
        if Sound(g) {
          AddKeepsSound(g, e.kind, e.x, e.y);
        }
        if |ls| > 1 {
          SnatchJoins(ls[2..], g1);
        }
      } else {
        SnatchJoins(ls[1..], g);
      }
    }
  }

  /** Two snatchable lone ravers side by side: only the first joins, the second is passed over. */
  lemma AdjacentSnatchSkips(g: Group, s: LoneRavers.LoneRaverSpawner, a: LoneRavers.LoneRaver, b: LoneRavers.LoneRaver)
    requires s.loneRavers == [a, b] && a.canBeSnatched && b.canBeSnatched
    ensures Snatch(g, s).1.loneRavers == [b]
    ensures Snatch(g, s).0 == AddNewRaver(g, a.kind, a.x, a.y)
  {
    RubyArray.AdjacentDeletionSkips(a, b, g, SameLone(), Snatchable(), Join());
  }

  // ---------------------------------------------------------------------------
  // Dropping ravers off at a window (K or X)

  /** The first window that can be opened, as the `each` with `break` finds it. */
  function FirstOpenable(ws: seq<Windows.Window>): (r: Option<nat>)
    ensures r.Some? ==> r.value < |ws| && ws[r.value].canBeOpened &&
                        forall j :: 0 <= j < r.value ==> !ws[j].canBeOpened
    ensures r.None? ==> forall j :: 0 <= j < |ws| ==> !ws[j].canBeOpened
  {
    if |ws| == 0 then None
    else if ws[0].canBeOpened then Some(0)
    else
      var rest := FirstOpenable(ws[1..]);
      if rest.None? then None else Some(rest.value + 1)
  }

  /** `window.types.each { |type| remove_raver_with_type(type) }`. */
  function RemoveTypes(g: Group, kinds: seq<RaverType>): (r: Group)
    ensures r == g.(ravers := r.ravers)
    ensures |r.ravers| <= |g.ravers|
    ensures |g.ravers| - |kinds| <= |r.ravers|
    ensures |g.ravers| > 0 ==> |r.ravers| > 0
    decreases |kinds|
  {
    if |kinds| == 0 then g
    else
      NeverEmptyByKind(g, kinds[0]);
      RemoveTypes(RemoveRaverWithType(g, kinds[0]), kinds[1..])
  }

  lemma NeverEmptyByKind(g: Group, kind: RaverType)
    ensures var r := RemoveRaverWithType(g, kind);
            r == g.(ravers := r.ravers) && |g.ravers| - 1 <= |r.ravers| <= |g.ravers| &&
            (|g.ravers| > 0 ==> |r.ravers| > 0)
  {
  }

  lemma {:induction false} RemoveTypesKeepsSound(g: Group, kinds: seq<RaverType>)
    requires Sound(g)
    ensures Sound(RemoveTypes(g, kinds))
    decreases |kinds|
  {
    if |kinds| > 0 {
      var g1 := RemoveRaverWithType(g, kinds[0]);
      if Find(g.ravers, OfKind(kinds[0])).Some? {
        RemoveKeepsSound(g, Find(g.ravers, OfKind(kinds[0])).value);
      }
      RemoveTypesKeepsSound(g1, kinds[1..]);
    }
  }

  /**
   * The drop: the first openable window takes one raver of each type it asks for,
   * scores `10 ** types.size` and closes; no other window is looked at.
   */
  function Drop(g: Group, s: Windows.WindowSpawner, score: Score.Score): (r: (Group, Windows.WindowSpawner, Score.Score))
    ensures FirstOpenable(s.windows).None? ==> r == (g, s, score)
    ensures r.0 == g.(ravers := r.0.ravers) && r.2 == score.(points := r.2.points) && r.2.points >= score.points
    ensures |r.1.windows| <= |s.windows| && r.1.maxTypes == s.maxTypes
    ensures FirstOpenable(s.windows).Some? ==>
              var k := FirstOpenable(s.windows).value;
              r.0 == RemoveTypes(g, s.windows[k].acceptedTypes) &&
              (r.1, r.2) == Windows.CloseWindow(s, score, k)
  {
    match FirstOpenable(s.windows)
    case None => (g, s, score)
    case Some(k) =>
      var closed := Windows.CloseWindow(s, score, k);
      (RemoveTypes(g, s.windows[k].acceptedTypes), closed.0, closed.1)
  }

  /** Only the first openable window closes: every window before it and after it is still there. */
  lemma DropClosesFirstOpenable(g: Group, s: Windows.WindowSpawner, score: Score.Score)
    requires FirstOpenable(s.windows).Some?
    ensures var k := FirstOpenable(s.windows).value;
            var r := Drop(g, s, score);
            |r.1.windows| == |s.windows| - 1 &&
            (forall j :: 0 <= j < k ==> r.1.windows[j] == s.windows[j] && !r.1.windows[j].canBeOpened) &&
            (forall j :: k <= j < |r.1.windows| ==> r.1.windows[j] == s.windows[j + 1]) &&
            r.2.points == score.points + Windows.Pow10(|s.windows[k].acceptedTypes|) &&
            |g.ravers| - |s.windows[k].acceptedTypes| <= |r.0.ravers| <= |g.ravers|
  {
  }

  // ---------------------------------------------------------------------------
  // Platform landing

  /** `Geometry.find_intersect_rect`: the first platform whose collision box meets r. */
  function FirstColliding(r: Rect, ps: seq<Platforms.Platform>, hit: (Rect, Rect) -> bool): (k: Option<nat>)
    ensures k.Some? ==> k.value < |ps| && hit(r, Platforms.PlatformRect(ps[k.value])) &&
                        forall j :: 0 <= j < k.value ==> !hit(r, Platforms.PlatformRect(ps[j]))
    ensures k.None? ==> forall j :: 0 <= j < |ps| ==> !hit(r, Platforms.PlatformRect(ps[j]))
  {
    if |ps| == 0 then None
    else if hit(r, Platforms.PlatformRect(ps[0])) then Some(0)
    else
      var rest := FirstColliding(r, ps[1..], hit);
      if rest.None? then None else Some(rest.value + 1)
  }

  /** The landing test: a colliding platform, the group falling or standing, and the head high enough on it. */
  predicate Lands(g: Group, h: nat, ps: seq<Platforms.Platform>, hit: (Rect, Rect) -> bool)
    requires h < |g.ravers|
  {
    var c := FirstColliding(RaverRect(g.ravers[h]), ps, hit);
    c.Some? && (g.isFalling || g.isOnGround) &&
    g.ravers[h].y >= ps[c.value].y + ps[c.value].h - LANDING_MARGIN
  }

  /** `remove_head` and `jump`, then the floor back at 0. */
  function DropHead(g: Group, h: nat): (r: Result<Group>)
    requires h < |g.ravers| && |g.ravers| > 1
    ensures r.Success? <==> Find(RemoveRaver(g, h).ravers, IsHead).Some?
    ensures r.Success? ==> var k := Find(RemoveRaver(g, h).ravers, IsHead).value;
              r.value.minY == 0.0 && |r.value.ravers| == |g.ravers| - 1 &&
              Find(r.value.ravers, IsHead) == Some(k) && r.value.ravers[k].vy == JUMP_VELOCITY &&
              OnlyHeadMoved(RemoveRaver(g, h), r.value.(minY := RemoveRaver(g, h).minY), k)
  {
    var dropped := RemoveRaver(g, h);
    match Jump(dropped)
    case Failure(e) => Failure(e)
    case Success(jumped) =>
      var k := Find(dropped.ravers, IsHead).value;
      assert OnlyHeadMoved(dropped, jumped, k);
      OnlyHeadMovedKeepsHead(dropped, jumped, k);
      Success(CollideWithPlatform(jumped, 0.0))
  }

  /** The collision block once the head is known to sit at position h. */
  function Settle(g: Group, h: nat, ps: seq<Platforms.Platform>, hit: (Rect, Rect) -> bool): (r: Result<Group>)
    requires h < |g.ravers|
    ensures Lands(g, h, ps, hit) ==>
              var p := ps[FirstColliding(RaverRect(g.ravers[h]), ps, hit).value];
              r == Success(g.(minY := p.y + p.h - LANDING_SINK))
    ensures !Lands(g, h, ps, hit) && g.ravers[h].y < DROP_HEIGHT && |g.ravers| > 1 ==> r == DropHead(g, h)
    ensures !Lands(g, h, ps, hit) && !(g.ravers[h].y < DROP_HEIGHT && |g.ravers| > 1) ==> r == Success(g.(minY := 0.0))
  {
    if Lands(g, h, ps, hit) then
      var p := ps[FirstColliding(RaverRect(g.ravers[h]), ps, hit).value];
      Success(CollideWithPlatform(g, p.y + p.h - LANDING_SINK))
    else if g.ravers[h].y < DROP_HEIGHT && |g.ravers| > 1 then DropHead(g, h)
    else Success(CollideWithPlatform(g, 0.0))
  }

  /**
   * The collision block of `tick_game`: land on the platform, or, with nothing to
   * stand on, drop a head that sank below 10 (the next raver takes over and jumps)
   * and put the floor back at 0. Without a head, `head_raver.rect` raises.
   */
  function Land(g: Group, ps: seq<Platforms.Platform>, hit: (Rect, Rect) -> bool): (r: Result<Group>)
    ensures Find(g.ravers, IsHead).None? ==> r.Failure?
    ensures Find(g.ravers, IsHead).Some? ==> r == Settle(g, Find(g.ravers, IsHead).value, ps, hit)
  {
    match Find(g.ravers, IsHead)
    case None => Failure(NoMethodError("undefined method 'rect' for nil"))
    case Some(h) => Settle(g, h, ps, hit)
  }

  /** Dropping the head of a sound group of several: the follower takes over and the group stays sound. */
  lemma DropHeadKeepsSound(g: Group, order: seq<nat>)
    requires Sound(g) && ChainOf(g.ravers, order) && |g.ravers| > 1
    ensures DropHead(g, order[0]).Success? && Sound(DropHead(g, order[0]).value)
  {
    var h := order[0];
    RemovingHeadPromotesFollower(g, order);
    RemoveKeepsSound(g, h);
    var dropped := RemoveRaver(g, h);
    var r := DropHead(g, h).value;
    var k := Find(dropped.ravers, IsHead).value;
    OnlyHeadMovedKeepsHead(dropped, r.(minY := dropped.minY), k);
    MotionKeepsSound(dropped, r);
  }

  /** A sound group always finds its head, and landing or dropping keeps it sound. */
  lemma LandKeepsSound(g: Group, ps: seq<Platforms.Platform>, hit: (Rect, Rect) -> bool)
    requires Sound(g)
    ensures Land(g, ps, hit).Success? && Sound(Land(g, ps, hit).value)
  {
    var order :| ChainOf(g.ravers, order);
    HeadIsUnique(g.ravers, order);
    var h := order[0];
    if !Lands(g, h, ps, hit) && g.ravers[h].y < DROP_HEIGHT && |g.ravers| > 1 {
      DropHeadKeepsSound(g, order);
    } else {
      MotionKeepsSound(g, Settle(g, h, ps, hit).value);
    }
  }

  // ---------------------------------------------------------------------------
  // The game tick

  /** The input half of `tick_game`: steering, then snatching, then the drop-off. */
  function Handle(game: Game, c: Controls): (r: Result<Game>)
    ensures r.Failure? <==> Steer(game.group, c).Failure?
    ensures r.Success? ==> r.value.platforms == game.platforms && r.value.backgrounds == game.backgrounds &&
                           r.value.coins == game.coins
    ensures r.Success? ==> r.value.group == game.group.(ravers := r.value.group.ravers, nextId := r.value.group.nextId)
    ensures r.Success? ==> r.value.score == game.score.(points := r.value.score.points) &&
                           r.value.score.points >= game.score.points &&
                           |r.value.windows.windows| <= |game.windows.windows|
  {
    match Steer(game.group, c)
    case Failure(e) => Failure(e)
    case Success(g1) =>
      var snatched := if c.snatch then Snatch(g1, game.lones) else (g1, game.lones);
      var dropped := if c.drop then Drop(snatched.0, game.windows, game.score)
                     else (snatched.0, game.windows, game.score);
      Success(game.(group := dropped.0, lones := snatched.1, windows := dropped.1, score := dropped.2))
  }

  /** A sound group gets through the input half and stays sound. */
  lemma HandleKeepsSound(game: Game, c: Controls)
    requires Sound(game.group)
    ensures Handle(game, c).Success? && Sound(Handle(game, c).value.group)
  {
    var g := game.group;
    SoundHasHead(g);
    var g1 := Steer(g, c).value;
    OnlyHeadMovedKeepsHead(g, g1, Find(g.ravers, IsHead).value);
    MotionKeepsSound(g, g1);
    var snatched := if c.snatch then Snatch(g1, game.lones) else (g1, game.lones);
    if c.snatch {
      SnatchJoins(game.lones.loneRavers, g1);
    }
    if c.drop && FirstOpenable(game.windows.windows).Some? {
      RemoveTypesKeepsSound(snatched.0, game.windows.windows[FirstOpenable(game.windows.windows).value].acceptedTypes);
    }
  }

  /** The update half of `tick_game`: group, platforms, lone ravers, windows, background, coins, then the landing. */
  function Advance(game: Game, tick: int, rolls: Rolls, hit: (Rect, Rect) -> bool): (r: Result<Game>)
    requires RollsInRange(rolls) && game.platforms.difficultyMul >= 1.0
    ensures r.Success? ==> r.value.platforms.difficultyMul >= game.platforms.difficultyMul
    ensures r.Success? ==> r.value.score.windowsMissed >= game.score.windowsMissed &&
                           r.value.score.windowsMissed <= game.score.windowsMissed + |game.windows.windows| + 1 &&
                           r.value.score.points == game.score.points &&
                           r.value.score.highestStack >= game.score.highestStack &&
                           r.value.score.maxWindows == game.score.maxWindows
    ensures r.Success? ==> |r.value.backgrounds| == |game.backgrounds| &&
                           (Backgrounds.Seamless(game.backgrounds) ==> Backgrounds.Seamless(r.value.backgrounds))
  {
    match Ravers.Tick(game.group, game.score)
    case Failure(e) => Failure(e)
    case Success(ticked) =>
      var g := ticked.0;
      var ps := Platforms.Tick(game.platforms, tick, rolls.platform);
      match LoneRavers.Tick(game.lones, g.ravers, tick, rolls.lone)
      case Failure(e) => Failure(e)
      case Success(lones) =>
        var ws := Windows.Tick(game.windows, ticked.1, g.ravers, hit, tick, rolls.window);
        var bgs := Backgrounds.TickIntended(game.backgrounds);
        assert Backgrounds.Seamless(game.backgrounds) ==> Backgrounds.Seamless(bgs) by {
          if Backgrounds.Seamless(game.backgrounds) {
            Backgrounds.IntendedStaysSeamless(game.backgrounds);
          }
        }
        var cs := Coins.Tick(game.coins, g.ravers, hit, tick, rolls.coin);
        match Land(g, ps.platforms, hit)
        case Failure(e) => Failure(e)
        case Success(landed) => Success(Game(landed, ps, lones, ws.0, bgs, cs, ws.1))
  }

  /**
   * With a sound group the update half raises only when the floor is above the
   * 720 ceiling (Ruby's `clamp` then refuses its bounds), and the group stays sound.
   */
  lemma AdvanceKeepsSound(game: Game, tick: int, rolls: Rolls, hit: (Rect, Rect) -> bool)
    requires RollsInRange(rolls) && game.platforms.difficultyMul >= 1.0 && Sound(game.group)
    ensures Advance(game, tick, rolls, hit).Success? <==> game.group.minY <= MAX_Y
    ensures Advance(game, tick, rolls, hit).Success? ==> Sound(Advance(game, tick, rolls, hit).value.group)
  {
    SoundHasHead(game.group);
    if game.group.minY <= MAX_Y {
      var ticked := Ravers.Tick(game.group, game.score).value;
      var order :| ChainOf(game.group.ravers, order);
      TickKeepsChain(game.group, game.score, order);
      assert Sound(ticked.0);
      var ps := Platforms.Tick(game.platforms, tick, rolls.platform);
      LandKeepsSound(ticked.0, ps.platforms, hit);
    }
  }

  /** `tick_game` without its rendering. */
  function TickGame(game: Game, c: Controls, tick: int, rolls: Rolls, hit: (Rect, Rect) -> bool): (r: Result<Game>)
    requires RollsInRange(rolls) && game.platforms.difficultyMul >= 1.0
    ensures r.Success? ==> r.value.platforms.difficultyMul >= game.platforms.difficultyMul
    ensures r.Success? ==> r.value.score.windowsMissed >= game.score.windowsMissed &&
                           r.value.score.windowsMissed <= game.score.windowsMissed + |game.windows.windows| + 1 &&
                           r.value.score.points >= game.score.points &&
                           r.value.score.highestStack >= game.score.highestStack &&
                           r.value.score.maxWindows == game.score.maxWindows
    ensures r.Success? ==> |r.value.backgrounds| == |game.backgrounds| &&
                           (Backgrounds.Seamless(game.backgrounds) ==> Backgrounds.Seamless(r.value.backgrounds))
  {
    match Handle(game, c)
    case Failure(e) => Failure(e)
    case Success(handled) => Advance(handled, tick, rolls, hit)
  }

  /**
   * A sound group never makes the game tick raise unless its floor is above the
   * ceiling, and it stays sound through the tick.
   */
  lemma TickGameKeepsSound(game: Game, c: Controls, tick: int, rolls: Rolls, hit: (Rect, Rect) -> bool)
    requires RollsInRange(rolls) && game.platforms.difficultyMul >= 1.0 && Sound(game.group)
    ensures TickGame(game, c, tick, rolls, hit).Success? <==> game.group.minY <= MAX_Y
    ensures TickGame(game, c, tick, rolls, hit).Success? ==> Sound(TickGame(game, c, tick, rolls, hit).value.group)
  {
    HandleKeepsSound(game, c);
    AdvanceKeepsSound(Handle(game, c).value, tick, rolls, hit);
  }

  // ---------------------------------------------------------------------------
  // Scenes

  /** `$scene`; the game is kept while playing and for the end screen's score. */
  datatype Scene = Loading | Playing(game: Game) | Ended(game: Game)

  /** A game frame, then the end screen once the score says the player has died. */
  function Play(game: Game, c: Controls, tick: int, rolls: Rolls, hit: (Rect, Rect) -> bool): (r: Result<Scene>)
    requires RollsInRange(rolls) && game.platforms.difficultyMul >= 1.0
    ensures r.Failure? <==> TickGame(game, c, tick, rolls, hit).Failure?
    ensures r.Success? ==> var next := TickGame(game, c, tick, rolls, hit).value;
              (r.value == Ended(next) <==> Score.HasDied(next.score)) &&
              (r.value == Playing(next) <==> !Score.HasDied(next.score))
    ensures r.Success? ==> r.value.game.platforms.difficultyMul >= game.platforms.difficultyMul
  {
    match TickGame(game, c, tick, rolls, hit)
    case Failure(e) => Failure(e)
    case Success(next) => Success(if Score.HasDied(next.score) then Ended(next) else Playing(next))
  }

  /** The multiplier a playing game needs for its platform spawner. */
  predicate Ready(s: Scene)
  {
    s.Playing? ==> s.game.platforms.difficultyMul >= 1.0
  }

  /**
   * `tick`: Enter (or pad A) on the start or end screen sets up a fresh game, which
   * plays its first frame at once; a playing game runs a frame and ends when the
   * player has died; otherwise the screen stays as it is.
   */
  function Frame(s: Scene, i: Input, tick: int, rolls: Rolls, hit: (Rect, Rect) -> bool): (r: Result<Scene>)
    requires RollsInRange(rolls) && Ready(s)
    ensures !s.Playing? && StartPressed(i) ==> r == Play(Setup(), ControlsOf(i), tick, rolls, hit)
    ensures !s.Playing? && !StartPressed(i) ==> r == Success(s)
    ensures s.Playing? ==> r == Play(s.game, ControlsOf(i), tick, rolls, hit)
  {
    if !s.Playing? && StartPressed(i) then Play(Setup(), ControlsOf(i), tick, rolls, hit)
    else if s.Playing? then Play(s.game, ControlsOf(i), tick, rolls, hit)
    else Success(s)
  }

  /** A frame hands the next frame a scene it can run: the multiplier never drops below 1. */
  lemma FrameKeepsReady(s: Scene, i: Input, tick: int, rolls: Rolls, hit: (Rect, Rect) -> bool)
    requires RollsInRange(rolls) && Ready(s)
    ensures Frame(s, i, tick, rolls, hit).Success? ==> Ready(Frame(s, i, tick, rolls, hit).value)
  {
    if s.Playing? {
      var r := Play(s.game, ControlsOf(i), tick, rolls, hit);
    } else if StartPressed(i) {
      var g := Setup();
      var r := Play(g, ControlsOf(i), tick, rolls, hit);
    }
  }

  /** Enter does not restart a running game: the frame does not read it. */
  lemma EnterIgnoredWhilePlaying(s: Scene, i: Input, tick: int, rolls: Rolls, hit: (Rect, Rect) -> bool)
    requires RollsInRange(rolls) && Ready(s) && s.Playing?
    ensures Frame(s, i, tick, rolls, hit) == Frame(s, i.(enter := false), tick, rolls, hit)
  {
    assert ControlsOf(i) == ControlsOf(i.(enter := false));
  }

  /** The first tick of a fresh game succeeds, keeps the group sound, and cannot have killed the player. */
  lemma FirstTickLives(c: Controls, tick: int, rolls: Rolls, hit: (Rect, Rect) -> bool)
    requires RollsInRange(rolls)
    ensures var g := Setup();
            var r := TickGame(g, c, tick, rolls, hit);
            r.Success? && Sound(r.value.group) && !Score.HasDied(r.value.score)
  {
    var g := Setup();
    TickGameKeepsSound(g, c, tick, rolls, hit);
  }

  /** Starting never raises on the first frame, which leaves the game playing with a sound group. */
  lemma StartIsSafe(s: Scene, i: Input, tick: int, rolls: Rolls, hit: (Rect, Rect) -> bool)
    requires RollsInRange(rolls) && Ready(s) && !s.Playing? && StartPressed(i)
    ensures Frame(s, i, tick, rolls, hit).Success?
    ensures Frame(s, i, tick, rolls, hit).value.Playing?
    ensures Sound(Frame(s, i, tick, rolls, hit).value.game.group)
  {
    FirstTickLives(ControlsOf(i), tick, rolls, hit);
  }
}

=== FILE: platforms.dfy ===
/**
 * `Platform` and `PlatformSpawner` of mygame/app/platform.rb: ledges that rise
 * from below the screen, faster as the difficulty multiplier grows. Random draws
 * arrive in a `PlatformRoll`.
 */
module Platforms {
  import opened Wrappers
  import opened Numeric
  import opened Ravers
  import RubyArray

  const INITIAL_INTERVAL: real := 120.0
  const DIFFICULTY_PERIOD: int := 1800
  const DIFFICULTY_STEP: real := 0.1
  const SINK_PER_MUL: real := 3.0
  /** Platforms further down than this are dropped. */
  const CULL_Y: real := -76.0

  datatype Platform = Platform(x: real, y: real, w: real, h: real, path: string)

  /** The drawn box of `prefab`. */
  function Prefab(p: Platform): (r: Rect)
    ensures r.x == p.x && r.y == p.y && r.w == p.w && r.h == p.h
  {
    Rect(p.x, p.y, p.w, p.h)
  }

  /** `rect`: the collision box. */
  function PlatformRect(p: Platform): (r: Rect)
    ensures r == Prefab(p).(h := Prefab(p).h + 10.0)
  {
    Rect(p.x, p.y, p.w, p.h + 10.0)
  }

  /** The collision box is the drawn box made 10 taller at the top and otherwise identical. */
  lemma RectExtendsPrefab(p: Platform)
    ensures PlatformRect(p).x == Prefab(p).x && PlatformRect(p).y == Prefab(p).y
    ensures PlatformRect(p).w == Prefab(p).w
    ensures PlatformRect(p).y + PlatformRect(p).h == Prefab(p).y + Prefab(p).h + 10.0
  {
  }

  /** The `w`, `h` and sprite merged into a spawn. */
  datatype Kind = Kind(w: real, h: real, path: string)

  /** The `case` on the kind roll; any other value gives nil, which `merge` would refuse. */
  function TypedParam(roll: int): (r: Option<Kind>)
    ensures r.Some? <==> 0 <= roll <= 2
    ensures r.Some? ==> r.value.h == 80.0
  {
    if roll == 0 then Some(Kind(240.0, 80.0, "sprites/platform_2.png"))
    else if roll == 1 then Some(Kind(400.0, 80.0, "sprites/platform_4.png"))
    else if roll == 2 then Some(Kind(80.0, 80.0, "sprites/platform_2.png"))
    else None
  }

  /** The kind roll is `rand(0..1)`, so the 80-wide third kind never appears. */
  lemma OnlyTwoKindsOccur(roll: int)
    requires 0 <= roll <= 1
    ensures TypedParam(roll).Some?
    ensures TypedParam(roll).value.w == 240.0 || TypedParam(roll).value.w == 400.0
    ensures TypedParam(roll).value.w != 80.0
  {
  }

  datatype PlatformSpawner = PlatformSpawner(platforms: seq<Platform>, lastSpawnAt: int,
                                             spawnInterval: real, difficultyMul: real)

  function NewPlatformSpawner(): (s: PlatformSpawner)
    ensures s.platforms == [] && s.lastSpawnAt == 0 && s.spawnInterval == INITIAL_INTERVAL && s.difficultyMul == 1.0
  {
    PlatformSpawner([], 0, INITIAL_INTERVAL, 1.0)
  }

  /**
   * The draws for one spawn: `rand(1.seconds..80)`, two coin flips, the kind, and a
   * position for each of the three placements.
   */
  datatype PlatformRoll = PlatformRoll(interval: int, left: bool, right: bool, kind: int,
                                       leftX: int, leftY: int, rightX: int, rightY: int,
                                       anyX: int, anyY: int)

  predicate RollInRange(roll: PlatformRoll)
  {
    60 <= roll.interval <= 80 && 0 <= roll.kind <= 1 &&
    50 <= roll.leftX <= 500 && 750 <= roll.leftY <= 800 &&
    500 <= roll.rightX <= 1200 && 750 <= roll.rightY <= 800 &&
    50 <= roll.anyX <= 1200 && 750 <= roll.anyY <= 800
  }

  function Place(x: int, y: int, k: Kind): Platform
  {
    Platform(x as real, y as real, k.w, k.h, k.path)
  }

  /** The platforms one spawn adds: left and/or right, or one anywhere when neither flip came up. */
  function NewPlatforms(roll: PlatformRoll, k: Kind): (r: seq<Platform>)
    ensures |r| == (if roll.left && roll.right then 2 else 1)
  {
    (if roll.left then [Place(roll.leftX, roll.leftY, k)] else []) +
    (if roll.right then [Place(roll.rightX, roll.rightY, k)] else []) +
    (if !roll.left && !roll.right then [Place(roll.anyX, roll.anyY, k)] else [])
  }

  /** Each spawn adds one or two platforms, each inside its placement's range and of the drawn kind. */
  lemma SpawnPlacement(roll: PlatformRoll)
    requires RollInRange(roll)
    ensures var k := TypedParam(roll.kind).value;
            var r := NewPlatforms(roll, k);
            1 <= |r| <= 2 &&
            (forall i :: 0 <= i < |r| ==> 750.0 <= r[i].y <= 800.0 && 50.0 <= r[i].x <= 1200.0 &&
                                          r[i].w == k.w && r[i].h == 80.0) &&
            (roll.left ==> 50.0 <= r[0].x <= 500.0) &&
            (roll.right ==> 500.0 <= r[|r| - 1].x <= 1200.0)
  {
  }

  /** `difficulty_mul += 0.1` every 30 seconds of ticks. */
  function Harden(s: PlatformSpawner, tick: int): (r: PlatformSpawner)
    ensures r == s.(difficultyMul := r.difficultyMul)
    ensures r.difficultyMul == (if FloorMod(tick, DIFFICULTY_PERIOD) == 0 then s.difficultyMul + DIFFICULTY_STEP else s.difficultyMul)
    ensures r.difficultyMul >= s.difficultyMul
  {
    if FloorMod(tick, DIFFICULTY_PERIOD) == 0 then s.(difficultyMul := s.difficultyMul + DIFFICULTY_STEP) else s
  }

  /** Spawn once the interval has passed; the next interval is the draw divided by the multiplier. */
  function Spawn(s: PlatformSpawner, tick: int, roll: PlatformRoll): (r: PlatformSpawner)
    requires RollInRange(roll) && s.difficultyMul >= 1.0
    ensures r.difficultyMul == s.difficultyMul
    ensures s.spawnInterval < (tick - s.lastSpawnAt) as real ==>
              r.lastSpawnAt == tick && r.spawnInterval * s.difficultyMul == roll.interval as real &&
              r.platforms == s.platforms + NewPlatforms(roll, TypedParam(roll.kind).value)
    ensures s.spawnInterval >= (tick - s.lastSpawnAt) as real ==> r == s
  {
    if s.spawnInterval < (tick - s.lastSpawnAt) as real then
      s.(lastSpawnAt := tick, spawnInterval := roll.interval as real / s.difficultyMul,
         platforms := s.platforms + NewPlatforms(roll, TypedParam(roll.kind).value))
    else s
  }

  function Sink(mul: real): Platform -> Platform
  {
    (p: Platform) => p.(y := p.y - SINK_PER_MUL * mul)
  }

  function Culled(): Platform -> bool
  {
    (p: Platform) => p.y < CULL_Y
  }

  function Keep(): ((), Platform) -> ()
  {
    RubyArray.Ignore((u: ()) => u)
  }

  /** The `@platforms.each` pass as Ruby runs it. */
  function Scroll(ps: seq<Platform>, mul: real): RubyArray.Pass<Platform, ()>
  {
    RubyArray.EachDelete(ps, (), Sink(mul), Culled(), Keep())
  }

  /** `PlatformSpawner#tick`. */
  function Tick(s: PlatformSpawner, tick: int, roll: PlatformRoll): (r: PlatformSpawner)
    requires RollInRange(roll) && s.difficultyMul >= 1.0
    ensures var hard := Harden(s, tick);
            var spawned := Spawn(hard, tick, roll);
            r == spawned.(platforms := Scroll(spawned.platforms, spawned.difficultyMul).kept)
    ensures r.difficultyMul >= s.difficultyMul >= 1.0
  {
    var hard := Harden(s, tick);
    var spawned := Spawn(hard, tick, roll);
    spawned.(platforms := Scroll(spawned.platforms, spawned.difficultyMul).kept)
  }

  /** While every platform is high enough to survive its sink, each sinks by exactly 3·multiplier and none is dropped. */
  lemma HighPlatformsSink(ps: seq<Platform>, mul: real)
    requires forall i :: 0 <= i < |ps| ==> ps[i].y - SINK_PER_MUL * mul >= CULL_Y
    ensures var p := Scroll(ps, mul);
            p.removed == 0 && |p.kept| == |ps| &&
            forall i :: 0 <= i < |ps| ==> p.kept[i] == ps[i].(y := ps[i].y - SINK_PER_MUL * mul)
  {
    RubyArray.NoDeletionAgrees(ps, (), Sink(mul), Culled(), Keep());
  }

  /** A platform that sinks past the cull line is dropped. */
  lemma LowPlatformDropped(p: Platform, mul: real)
    requires p.y - SINK_PER_MUL * mul < CULL_Y
    ensures Scroll([p], mul).kept == [] && Scroll([p], mul).removed == 1
  {
  }
}

=== FILE: progress_bar.dfy ===
/**
 * The progress-bar sample (samples/09_ui_controls/07_progress_bar/app/main.rb): a
 * health counter that Enter or a click lowers by 10 and refills once it is empty,
 * and a bar whose fill fraction eases a tenth of the way toward the health fraction
 * every tick.
 *
 * `args.state` starts out empty; the first tick fills it with `||=`. `max_hp` is set
 * to 100 there and never written again, so it is the constant MAX_HP here.
 */
module ProgressBar {
  import opened Wrappers
  import opened Numeric

  const MAX_HP: int := 100
  const DAMAGE: int := 10
  /** `lerp`'s step. */
  const EASE: real := 0.1
  /** Width of the bar's inner area. */
  const BAR_W: real := 124.0

  datatype Bar = Bar(currentHp: int, hpPerc: real)

  /** The state the `||=` lines produce on the first tick. */
  function Start(): (b: Bar)
    ensures b.currentHp == MAX_HP && b.hpPerc == 1.0
  {
    Bar(MAX_HP, 1.0)
  }

  /** `Numeric#lerp`: a step of the given fraction from a toward b. */
  function Lerp(a: real, b: real, step: real): (r: real)
    ensures r - b == (1.0 - step) * (a - b)
  {
    a + (b - a) * step
  }

  /** One press: an empty counter refills, otherwise it loses 10. */
  function Press(hp: int): (r: int)
    ensures hp == 0 ==> r == MAX_HP
    ensures hp != 0 ==> r == hp - DAMAGE
  {
    if hp == 0 then MAX_HP else hp - DAMAGE
  }

  /** The health values the counter can hold: multiples of 10 from 0 to 100. */
  predicate ValidHp(hp: int)
  {
    0 <= hp <= MAX_HP && hp % DAMAGE == 0
  }

  /** A press keeps the counter on the grid of valid values. */
  lemma PressKeepsValid(hp: int)
    requires ValidHp(hp)
    ensures ValidHp(Press(hp))
  {
  }

  /** n presses in a row. */
  function Presses(hp: int, n: nat): (r: int)
    ensures ValidHp(hp) ==> ValidHp(r)
    decreases n
  {
    if n == 0 then hp else Presses(Press(hp), n - 1)
  }

  lemma {:induction false} PressesCompose(hp: int, a: nat, b: nat)
    ensures Presses(hp, a + b) == Presses(Presses(hp, a), b)
    decreases a
  {
    if a > 0 {
      PressesCompose(Press(hp), a - 1, b);
    }
  }

  /** Pressing k times from above 10·k just counts down. */
  lemma {:induction false} PressesCountDown(hp: int, k: nat)
    requires DAMAGE * k <= hp
    ensures Presses(hp, k) == hp - DAMAGE * k
    decreases k
  {
    if k > 0 {
      PressesCountDown(hp - DAMAGE, k - 1);
    }
  }

  /**
   * The counter runs through eleven values, 100 down to 0, so from any valid value
   * eleven presses come back to it.
   */
  lemma ElevenPressesReturn(hp: int)
    requires ValidHp(hp)
    ensures Presses(hp, 11) == hp
  {
    var k := hp / DAMAGE;
    PressesCountDown(hp, k);
    assert Presses(0, 1) == MAX_HP;
    PressesCompose(hp, k, 1);
    PressesCountDown(MAX_HP, 10 - k);
    PressesCompose(hp, k + 1, 10 - k);
  }

  /** The health fraction the fill eases toward, as written: `current_hp / max_hp` divides Integers. */
  function TargetAsWritten(hp: int): (t: real)
    ensures MAX_HP <= hp < 2 * MAX_HP ==> t == 1.0
  {
    FloorDiv(hp, MAX_HP) as real
  }

  /** The health fraction as the comment above the lerp describes it. */
  function Target(hp: int): (t: real)
    ensures ValidHp(hp) ==> 0.0 <= t <= 1.0
    ensures t * (MAX_HP as real) == hp as real
  {
    hp as real / MAX_HP as real
  }

  /** One `tick` with the fill target as given: ease the fill, then apply a press. */
  function Step(s: Option<Bar>, press: bool, target: int -> real): (b: Bar)
  {
    var cur := if s.None? then Start() else s.value;
    Bar(if press then Press(cur.currentHp) else cur.currentHp,
        Lerp(cur.hpPerc, target(cur.currentHp), EASE))
  }

  /** `tick` as written. */
  function TickAsWritten(s: Option<Bar>, press: bool): (b: Bar)
    ensures s.Some? && !press ==> b.currentHp == s.value.currentHp
  {
    Step(s, press, (hp: int) => TargetAsWritten(hp))
  }

  /** `tick` with the fraction computed over reals. */
  function Tick(s: Option<Bar>, press: bool): (b: Bar)
    ensures s.None? ==> b.hpPerc == 1.0 && b.currentHp == (if press then MAX_HP - DAMAGE else MAX_HP)
    ensures s.Some? && !press ==> b.currentHp == s.value.currentHp
    ensures s.Some? && press ==> b.currentHp == Press(s.value.currentHp)
    ensures s.Some? ==> b.hpPerc - Target(s.value.currentHp) == (1.0 - EASE) * (s.value.hpPerc - Target(s.value.currentHp))
  {
    Step(s, press, (hp: int) => Target(hp))
  }

  /** A health value on the grid and a fill between empty and full. */
  predicate Valid(b: Bar)
  {
    ValidHp(b.currentHp) && 0.0 <= b.hpPerc <= 1.0
  }

  /** Ticks keep the bar valid: the counter on its grid, the fill between empty and full. */
  lemma TickKeepsValid(s: Option<Bar>, press: bool)
    requires s.Some? ==> Valid(s.value)
    ensures Valid(Tick(s, press))
  {
  }

  /** Once the fill has caught up with the health fraction, it stays put until a press. */
  lemma FillSettles(b: Bar)
    requires b.hpPerc == Target(b.currentHp)
    ensures Tick(Some(b), false) == b
  {
  }

  /** The drawn width of the health fill. */
  function FillWidth(b: Bar): (w: real)
    ensures Valid(b) ==> 0.0 <= w <= BAR_W
  {
    BAR_W * b.hpPerc
  }

  /**
   * As written, every health value below 100 gives a target of 0: after the first
   * press the bar drains toward empty although 90 of 100 remain, where the fraction
   * 0.9 would hold it nearly full.
   */
  lemma IntegerFractionDrains()
    ensures forall hp :: 0 <= hp < MAX_HP ==> TargetAsWritten(hp) == 0.0
    ensures TickAsWritten(Some(Bar(90, 1.0)), false).hpPerc == 0.9
    ensures Tick(Some(Bar(90, 1.0)), false).hpPerc == 0.99
    ensures Tick(Some(Bar(90, 0.9)), false) == Bar(90, 0.9)
    ensures TickAsWritten(Some(Bar(90, 0.9)), false).hpPerc == 0.81
  {
    forall hp | 0 <= hp < MAX_HP
      ensures TargetAsWritten(hp) == 0.0
    {
      FloorDivUnique(hp, MAX_HP, 0);
    }
  }
}

=== FILE: raver.dfy ===
/**
 * `Raver` and `RaverGroup` of mygame/app/raver.rb: a stack of ravers held together
 * by `target` references, each follower sprung toward the raver it targets.
 *
 * A Ruby object reference becomes the raver's `id`; the group hands out fresh ids
 * from `nextId`. `ChainOf(rs, order)` says the targets form one chain: `order` lists
 * the array positions from the head (nil target) down, each raver targeting the one
 * before it. It is what makes `index` terminate, `head_raver` unique and
 * `follower_of` unique, and the group operations preserve it.
 */
module Ravers {
  import opened Wrappers
  import opened Numeric
  import LaurenceMain
  import Score

  datatype RaverType = Elephant | Rabbit | Shrimp | Mouse | Bird | Dog | Cat

  /** `RAVER_TYPES`, in declaration order. */
  const RAVER_TYPES: seq<RaverType> := [Elephant, Rabbit, Shrimp, Mouse, Bird, Dog, Cat]

  const RAVER_SIZE: real := 100.0
  const MAX_X: real := 1200.0
  const MAX_Y: real := 720.0
  const GRAVITY: real := 0.9
  const FRICTION: real := 0.9
  const MIN_VELOCITY_Y: real := -15.0
  const MAX_VELOCITY_X: real := 10.0
  const JUMP_VELOCITY: real := 26.0
  const GROUND_COEF: real := 5.0
  const AIR_COEF: real := 0.7

  /** `$spring_x` and `$spring_y`. */
  const SPRING_X: LaurenceMain.Spring := LaurenceMain.Spring(0.3, 0.3, 0.6, 0.6)
  const SPRING_Y: LaurenceMain.Spring := LaurenceMain.Spring(0.35, 0.35, 0.55, 0.55)

  datatype Raver = Raver(id: nat, target: Option<nat>, kind: RaverType,
                         x: real, y: real, vx: real, vy: real, animationSpeed: Option<int>)

  datatype Group = Group(ravers: seq<Raver>, minY: real, isFlying: bool, isFalling: bool,
                         isOnGround: bool, nextId: nat)

  /** `Raver#rect`. */
  datatype Rect = Rect(x: real, y: real, w: real, h: real)

  function RaverRect(r: Raver): (b: Rect)
    ensures b.x == r.x && b.y == r.y && b.w == RAVER_SIZE && b.h == RAVER_SIZE
  {
    Rect(r.x, r.y, RAVER_SIZE, RAVER_SIZE)
  }

  /** `Raver.new(target:, type:, x:, y:)`: at rest, no animation speed set. */
  function NewRaver(id: nat, target: Option<nat>, kind: RaverType, x: real, y: real): (r: Raver)
    ensures r.id == id && r.target == target && r.kind == kind && r.x == x && r.y == y
    ensures r.vx == 0.0 && r.vy == 0.0 && r.animationSpeed.None?
  {
    Raver(id, target, kind, x, y, 0.0, 0.0, None)
  }

  /** `follow(target)`: retarget and stop. */
  function Follow(r: Raver, target: Option<nat>): (f: Raver)
    ensures f.target == target && f.vx == 0.0 && f.vy == 0.0
    ensures f == r.(target := target, vx := 0.0, vy := 0.0)
  {
    r.(target := target, vx := 0.0, vy := 0.0)
  }

  /** `RaverGroup.new`: one rabbit, on the ground at height 0. */
  function NewGroup(): (g: Group)
    ensures |g.ravers| == 1 && g.ravers[0].target.None? && g.ravers[0].kind == Rabbit
    ensures g.minY == 0.0 && !g.isFlying && !g.isFalling && g.isOnGround
    ensures Fresh(g) && ChainOf(g.ravers, [0])
  {
    Group([NewRaver(0, None, Rabbit, 0.0, 0.0)], 0.0, false, false, true, 1)
  }

  // ---------------------------------------------------------------------------
  // Chain shape

  predicate UniqueIds(rs: seq<Raver>)
  {
    forall i, j :: 0 <= i < j < |rs| ==> rs[i].id != rs[j].id
  }

  /** Ids are distinct and below the next id the group will hand out. */
  predicate Fresh(g: Group)
  {
    UniqueIds(g.ravers) && forall i :: 0 <= i < |g.ravers| ==> g.ravers[i].id < g.nextId
  }

  /** `order` lists every position below n exactly once. */
  predicate IsPerm(order: seq<nat>, n: nat)
  {
    |order| == n &&
    (forall k :: 0 <= k < n ==> order[k] < n) &&
    (forall k, m :: 0 <= k < m < n ==> order[k] != order[m]) &&
    (forall i :: 0 <= i < n ==> i in order)
  }

  /** The raver first in `order` is a head and every later one targets the one before it. */
  predicate Linked(rs: seq<Raver>, order: seq<nat>)
    requires IsPerm(order, |rs|)
  {
    (|order| > 0 ==> rs[order[0]].target == None) &&
    (forall k :: 0 < k < |order| ==> rs[order[k]].target == Some(rs[order[k - 1]].id))
  }

  /** `order` runs through every raver once, head first, each targeting the one before. */
  predicate ChainOf(rs: seq<Raver>, order: seq<nat>)
  {
    IsPerm(order, |rs|) && Linked(rs, order)
  }

  /** The group holds together: fresh ids and one chain through every raver. */
  ghost predicate WellFormed(g: Group)
  {
    Fresh(g) && exists order :: ChainOf(g.ravers, order)
  }

  // ---------------------------------------------------------------------------
  // `find`

  /** The block of each `ravers.find { ... }` in the group. */
  datatype Query = IsHead | Follows(leader: nat) | OfKind(kind: RaverType) | HasId(id: nat)

  predicate Matches(r: Raver, q: Query)
  {
    match q
    case IsHead => r.target.None?
    case Follows(leader) => r.target == Some(leader)
    case OfKind(kind) => r.kind == kind
    case HasId(id) => r.id == id
  }

  /** `Array#find`: the first position whose raver matches, if any. */
  function Find(rs: seq<Raver>, q: Query): (r: Option<nat>)
    ensures r.Some? ==> r.value < |rs| && Matches(rs[r.value], q) &&
                        forall j :: 0 <= j < r.value ==> !Matches(rs[j], q)
    ensures r.None? ==> forall j :: 0 <= j < |rs| ==> !Matches(rs[j], q)
  {
    if |rs| == 0 then None
    else if Matches(rs[0], q) then Some(0)
    else
      var rest := Find(rs[1..], q);
      if rest.None? then None else Some(rest.value + 1)
  }

  /** With distinct ids, looking a raver up by its id finds it. */
  lemma FindById(rs: seq<Raver>, i: nat)
    requires UniqueIds(rs) && i < |rs|
    ensures Find(rs, HasId(rs[i].id)) == Some(i)
  {
    var f := Find(rs, HasId(rs[i].id));
    assert Matches(rs[i], HasId(rs[i].id));
  }

  /** Position of a value in a list that holds it. */
  function PositionIn(order: seq<nat>, i: nat): (k: nat)
    requires i in order
    ensures k < |order| && order[k] == i
  {
    if order[0] == i then 0 else PositionIn(order[1..], i) + 1
  }

  /** In a chain the head is the only raver with a nil target, so `head_raver` finds it. */
  lemma HeadIsUnique(rs: seq<Raver>, order: seq<nat>)
    requires ChainOf(rs, order) && |rs| > 0
    ensures forall i :: 0 <= i < |rs| ==> (rs[i].target.None? <==> i == order[0])
    ensures Find(rs, IsHead) == Some(order[0])
  {
    forall i | 0 <= i < |rs| && i != order[0]
      ensures rs[i].target.Some?
    {
      var k := PositionIn(order, i);
      assert k > 0;
      assert rs[order[k]].target == Some(rs[order[k - 1]].id);
    }
  }

  /**
   * The ravers following `order[k]` are exactly `order[k + 1]` (none for the tail),
   * so `follower_of` finds that one.
   */
  lemma FollowerIsNext(rs: seq<Raver>, order: seq<nat>, k: nat)
    requires ChainOf(rs, order) && UniqueIds(rs) && k < |order|
    ensures forall i :: 0 <= i < |rs| ==> (rs[i].target == Some(rs[order[k]].id) <==> k + 1 < |order| && i == order[k + 1])
    ensures Find(rs, Follows(rs[order[k]].id)) == (if k + 1 < |order| then Some(order[k + 1]) else None)
  {
    forall i | 0 <= i < |rs| && rs[i].target == Some(rs[order[k]].id)
      ensures k + 1 < |order| && i == order[k + 1]
    {
      var m := PositionIn(order, i);
      assert m > 0;
      assert rs[order[m - 1]].id == rs[order[k]].id;
      assert order[m - 1] == order[k];
      assert m - 1 == k;
    }
    if k + 1 < |order| {
      assert Matches(rs[order[k + 1]], Follows(rs[order[k]].id));
    }
  }

  /** `Raver#index`: 0 for a head, one more than the target's index otherwise; None if the walk does not reach a head in `fuel` steps. */
  function Index(rs: seq<Raver>, i: nat, fuel: nat): (r: Option<nat>)
    requires i < |rs|
    ensures r.Some? && r.value == 0 <==> rs[i].target.None?
    decreases fuel
  {
    if rs[i].target.None? then Some(0)
    else if fuel == 0 then None
    else
      match Find(rs, HasId(rs[i].target.value))
      case None => None
      case Some(j) =>
        var t := Index(rs, j, fuel - 1);
        if t.None? then None else Some(t.value + 1)
  }

  /** Along a chain a raver's index is its distance from the head. */
  lemma {:induction false} IndexIsChainPosition(rs: seq<Raver>, order: seq<nat>, k: nat, fuel: nat)
    requires ChainOf(rs, order) && UniqueIds(rs) && k < |order| && fuel >= k
    ensures Index(rs, order[k], fuel) == Some(k)
    decreases k
  {
    if k > 0 {
      FindById(rs, order[k - 1]);
      IndexIsChainPosition(rs, order, k - 1, fuel - 1);
    }
  }

  // ---------------------------------------------------------------------------
  // Closest raver

  /**
   * Squared distance: `min_by` on it picks the same raver as on `Geometry.distance`.
   * `Closest` and `ClosestFrom` state which raver that is.
   */
  function SqDistance(r: Raver, x: real, y: real): (d: real)
    ensures d >= 0.0
  {
    (r.x - x) * (r.x - x) + (r.y - y) * (r.y - y)
  }

  /** `find_raver_closest_to`: nil for no ravers, otherwise the first raver at least distance. */
  function Closest(rs: seq<Raver>, x: real, y: real): (r: Option<nat>)
    ensures r.None? <==> |rs| == 0
    ensures r.Some? ==> (r.value < |rs| &&
              (forall j :: 0 <= j < |rs| ==> SqDistance(rs[r.value], x, y) <= SqDistance(rs[j], x, y)) &&
              (forall j :: 0 <= j < r.value ==> SqDistance(rs[j], x, y) > SqDistance(rs[r.value], x, y)))
  {
    if |rs| == 0 then None else Some(ClosestFrom(rs, x, y, 0, 1))
  }

  /** `min_by` from position i on, with `best` the first least raver of the prefix. */
  function ClosestFrom(rs: seq<Raver>, x: real, y: real, best: nat, i: nat): (r: nat)
    requires best < i <= |rs|
    requires forall j :: 0 <= j < i ==> SqDistance(rs[best], x, y) <= SqDistance(rs[j], x, y)
    requires forall j :: 0 <= j < best ==> SqDistance(rs[j], x, y) > SqDistance(rs[best], x, y)
    ensures r < |rs|
    ensures forall j :: 0 <= j < |rs| ==> SqDistance(rs[r], x, y) <= SqDistance(rs[j], x, y)
    ensures forall j :: 0 <= j < r ==> SqDistance(rs[j], x, y) > SqDistance(rs[r], x, y)
    decreases |rs| - i
  {
    if i == |rs| then best
    else if SqDistance(rs[i], x, y) < SqDistance(rs[best], x, y) then ClosestFrom(rs, x, y, i, i + 1)
    else ClosestFrom(rs, x, y, best, i + 1)
  }

  // ---------------------------------------------------------------------------
  // Adding and removing

  /** Ravers whose id, target and kind agree position by position: only motion may differ. */
  predicate SameStructure(a: seq<Raver>, b: seq<Raver>)
  {
    |a| == |b| && forall i :: 0 <= i < |a| ==> a[i].id == b[i].id && a[i].target == b[i].target && a[i].kind == b[i].kind
  }

  /**
   * `add_new_raver(lone_raver.create_raver)`: a new raver at (x, y) joins behind the
   * closest raver, and the closest raver's old follower now follows the newcomer.
   */
  function AddNewRaver(g: Group, kind: RaverType, x: real, y: real): (r: Group)
    ensures |r.ravers| == |g.ravers| + 1 && r.nextId == g.nextId + 1
    ensures r.ravers[|g.ravers|] == NewRaver(g.nextId, r.ravers[|g.ravers|].target, kind, x, y)
    ensures |g.ravers| == 0 <==> r.ravers[|g.ravers|].target.None?
    ensures var c := Closest(g.ravers, x, y);
            c.Some? ==> r.ravers[|g.ravers|].target == Some(g.ravers[c.value].id)
    ensures forall i :: 0 <= i < |g.ravers| ==>
              r.ravers[i] == g.ravers[i] || (r.ravers[i] == g.ravers[i].(target := Some(g.nextId)))
    ensures r == g.(ravers := r.ravers, nextId := r.nextId)
  {
    var newcomer := NewRaver(g.nextId, None, kind, x, y);
    match Closest(g.ravers, x, y)
    case None => g.(ravers := g.ravers + [newcomer], nextId := g.nextId + 1)
    case Some(c) =>
      var rs := match Find(g.ravers, Follows(g.ravers[c].id))
                case None => g.ravers
                case Some(f) => g.ravers[f := g.ravers[f].(target := Some(g.nextId))];
      g.(ravers := rs + [newcomer.(target := Some(g.ravers[c].id))], nextId := g.nextId + 1)
  }

  /** The chain with position n inserted right after `order[k]`. */
  function InsertAfter(order: seq<nat>, k: nat, n: nat): (r: seq<nat>)
    requires k < |order|
    ensures |r| == |order| + 1 && r[k + 1] == n
    ensures forall j :: 0 <= j <= k ==> r[j] == order[j]
    ensures forall j :: k + 1 < j < |r| ==> r[j] == order[j - 1]
  {
    order[..k + 1] + [n] + order[k + 1..]
  }

  /** The chain of the group after `AddNewRaver`. */
  function ChainAfterAdd(g: Group, order: seq<nat>, x: real, y: real): (r: seq<nat>)
    requires ChainOf(g.ravers, order)
    ensures |r| == |order| + 1
  {
    match Closest(g.ravers, x, y)
    case None => [|g.ravers|]
    case Some(c) => InsertAfter(order, PositionIn(order, c), |g.ravers|)
  }

  /** Inserting a new last position into a permutation keeps it one. */
  lemma PermInsert(order: seq<nat>, k: nat, n: nat)
    requires IsPerm(order, n) && k < n
    ensures IsPerm(InsertAfter(order, k, n), n + 1)
  {
    var o := InsertAfter(order, k, n);
    forall i | 0 <= i < n + 1
      ensures i in o
    {
      if i < n {
        var m := PositionIn(order, i);
        if m <= k { assert o[m] == i; } else { assert o[m + 1] == i; }
      } else {
        assert o[k + 1] == i;
      }
    }
    forall a, b | 0 <= a < b < |o|
      ensures o[a] != o[b]
    {
      if a <= k && b <= k {
      } else if b == k + 1 || a == k + 1 {
      } else if a <= k {
        assert o[b] == order[b - 1];
      } else {
        assert o[a] == order[a - 1] && o[b] == order[b - 1];
      }
    }
  }

  /** The links of a chain with a raver inserted behind `order[k]` and the old follower retargeted to it. */
  lemma LinksAfterInsert(rs: seq<Raver>, out: seq<Raver>, order: seq<nat>, k: nat, newId: nat)
    requires ChainOf(rs, order) && k < |rs| && |out| == |rs| + 1
    requires forall i :: 0 <= i < |rs| ==> out[i].id == rs[i].id
    requires forall i :: 0 <= i < |rs| && (k + 1 >= |rs| || i != order[k + 1]) ==> out[i].target == rs[i].target
    requires k + 1 < |rs| ==> out[order[k + 1]].target == Some(newId)
    requires out[|rs|].id == newId && out[|rs|].target == Some(rs[order[k]].id)
    ensures ChainOf(out, InsertAfter(order, k, |rs|))
  {
    var n := |rs|;
    var o := InsertAfter(order, k, n);
    PermInsert(order, k, n);
    assert out[o[0]].target == None by {
      assert o[0] == order[0];
      assert k + 1 < n ==> order[0] != order[k + 1];
    }
    forall j | 0 < j < |o|
      ensures out[o[j]].target == Some(out[o[j - 1]].id)
    {
      if j <= k {
        assert o[j] == order[j] && o[j - 1] == order[j - 1];
        assert k + 1 < n ==> order[j] != order[k + 1];
        assert rs[order[j]].target == Some(rs[order[j - 1]].id);
      } else if j == k + 1 {
      } else if j == k + 2 {
      } else {
        assert o[j] == order[j - 1] && o[j - 1] == order[j - 2];
        assert order[j - 1] != order[k + 1];
        assert rs[order[j - 1]].target == Some(rs[order[j - 2]].id);
      }
    }
  }

  /** Adding a raver keeps the ids distinct and below the next id. */
  lemma AddKeepsFresh(g: Group, kind: RaverType, x: real, y: real)
    requires Fresh(g)
    ensures Fresh(AddNewRaver(g, kind, x, y))
  {
    var r := AddNewRaver(g, kind, x, y);
    assert forall i :: 0 <= i < |g.ravers| ==> r.ravers[i].id == g.ravers[i].id;
  }

  /** The ravers after an add with a closest raver: only the closest raver's old follower is retargeted. */
  lemma AddRetargetsFollower(g: Group, order: seq<nat>, kind: RaverType, x: real, y: real)
    requires Fresh(g) && ChainOf(g.ravers, order) && |g.ravers| > 0
    ensures var rs := g.ravers;
            var r := AddNewRaver(g, kind, x, y);
            var k := PositionIn(order, Closest(rs, x, y).value);
            (forall i :: 0 <= i < |rs| && (k + 1 >= |rs| || i != order[k + 1]) ==> r.ravers[i].target == rs[i].target) &&
            (k + 1 < |rs| ==> r.ravers[order[k + 1]].target == Some(g.nextId))
  {
    var rs := g.ravers;
    var c := Closest(rs, x, y).value;
    var k := PositionIn(order, c);
    FollowerIsNext(rs, order, k);
  }

  /** Adding a raver keeps the ids fresh and the targets one chain, with the newcomer right behind the closest raver. */
  lemma AddKeepsChain(g: Group, order: seq<nat>, kind: RaverType, x: real, y: real)
    requires Fresh(g) && ChainOf(g.ravers, order)
    ensures Fresh(AddNewRaver(g, kind, x, y))
    ensures ChainOf(AddNewRaver(g, kind, x, y).ravers, ChainAfterAdd(g, order, x, y))
  {
    AddKeepsFresh(g, kind, x, y);
    var r := AddNewRaver(g, kind, x, y);
    var rs := g.ravers;
    if |rs| > 0 {
      var c := Closest(rs, x, y).value;
      var k := PositionIn(order, c);
      AddRetargetsFollower(g, order, kind, x, y);
      assert forall i :: 0 <= i < |rs| ==> r.ravers[i].id == rs[i].id;
      LinksAfterInsert(rs, r.ravers, order, k, g.nextId);
    }
  }

  /** `ravers.delete(r)` for the raver at position p. */
  function RemoveAt(rs: seq<Raver>, p: nat): (r: seq<Raver>)
    requires p < |rs|
    ensures |r| == |rs| - 1
    ensures forall i :: 0 <= i < p ==> r[i] == rs[i]
    ensures forall i :: p <= i < |r| ==> r[i] == rs[i + 1]
  {
    rs[..p] + rs[p + 1..]
  }

  /**
   * `remove_raver` for the raver at position p: nothing happens when it is the only
   * raver; otherwise its follower follows its target instead, and it leaves the group.
   */
  function RemoveRaver(g: Group, p: nat): (r: Group)
    requires p < |g.ravers|
    ensures |g.ravers| == 1 ==> r == g
    ensures |g.ravers| > 1 ==> |r.ravers| == |g.ravers| - 1
    ensures r == g.(ravers := r.ravers)
  {
    if |g.ravers| == 1 then g
    else
      var leaving := g.ravers[p];
      var rs := match Find(g.ravers, Follows(leaving.id))
                case None => g.ravers
                case Some(f) => g.ravers[f := Follow(g.ravers[f], leaving.target)];
      g.(ravers := RemoveAt(rs, p))
  }

  /** Position i of the old array in the array without position p. */
  function Shift(p: nat, i: nat): (j: nat)
    ensures i < p ==> j == i
    ensures i > p ==> j == i - 1
  {
    if i <= p then i else i - 1
  }

  /** The chain of the group after `RemoveRaver` of `order[k]`. */
  function ChainAfterRemove(order: seq<nat>, k: nat): (r: seq<nat>)
    requires k < |order|
    ensures |r| == |order| - 1
    ensures forall j :: 0 <= j < k ==> r[j] == Shift(order[k], order[j])
    ensures forall j :: k <= j < |r| ==> r[j] == Shift(order[k], order[j + 1])
  {
    seq(|order| - 1, j requires 0 <= j < |order| - 1 =>
      if j < k then Shift(order[k], order[j]) else Shift(order[k], order[j + 1]))
  }

  /** Dropping one position from a permutation and closing the gap keeps it one. */
  lemma PermRemove(order: seq<nat>, k: nat)
    requires IsPerm(order, |order|) && k < |order|
    ensures IsPerm(ChainAfterRemove(order, k), |order| - 1)
  {
    var n := |order|;
    var p := order[k];
    var o := ChainAfterRemove(order, k);
    forall j | 0 <= j < n - 1
      ensures o[j] < n - 1
    {
      var j0 := if j < k then j else j + 1;
      assert o[j] == Shift(p, order[j0]) && order[j0] != p;
    }
    forall a, b | 0 <= a < b < n - 1
      ensures o[a] != o[b]
    {
      var a0 := if a < k then a else a + 1;
      var b0 := if b < k then b else b + 1;
      assert o[a] == Shift(p, order[a0]) && o[b] == Shift(p, order[b0]);
      assert order[a0] != order[b0] && order[a0] != p && order[b0] != p;
    }
    forall i | 0 <= i < n - 1
      ensures i in o
    {
      var i0 := if i < p then i else i + 1;
      var m := PositionIn(order, i0);
      assert m != k;
      if m < k { assert o[m] == i; } else { assert o[m - 1] == i; }
    }
  }

  /** Old position i sits at `Shift(p, i)` once position p is deleted. */
  lemma AtShift(mid: seq<Raver>, p: nat, i: nat)
    requires p < |mid| && i < |mid| && i != p
    ensures Shift(p, i) < |RemoveAt(mid, p)| && RemoveAt(mid, p)[Shift(p, i)] == mid[i]
  {
  }

  /** One link of the chain after removal: the raver at old position a targets the one at old position b. */
  lemma LinkAfterRemove(rs: seq<Raver>, mid: seq<Raver>, p: nat, a: nat, b: nat, target: Option<nat>)
    requires |mid| == |rs| && p < |rs| && a < |rs| && b < |rs| && a != p && b != p
    requires mid[a].target == target && target == Some(rs[b].id) && mid[b].id == rs[b].id
    ensures RemoveAt(mid, p)[Shift(p, a)].target == Some(RemoveAt(mid, p)[Shift(p, b)].id)
  {
    AtShift(mid, p, a);
    AtShift(mid, p, b);
  }

  /** The links of a chain once `order[k]` is cut out and its follower retargeted past it. */
  lemma LinksAfterRemove(rs: seq<Raver>, mid: seq<Raver>, order: seq<nat>, k: nat)
    requires ChainOf(rs, order) && k < |rs| && |rs| > 1 && |mid| == |rs|
    requires forall i :: 0 <= i < |rs| ==> mid[i].id == rs[i].id
    requires forall i :: 0 <= i < |rs| && (k + 1 >= |rs| || i != order[k + 1]) ==> mid[i].target == rs[i].target
    requires k + 1 < |rs| ==> mid[order[k + 1]].target == rs[order[k]].target
    ensures ChainOf(RemoveAt(mid, order[k]), ChainAfterRemove(order, k))
  {
    var n := |rs|;
    var p := order[k];
    var out := RemoveAt(mid, p);
    var o := ChainAfterRemove(order, k);
    PermRemove(order, k);
    var first := if k == 0 then order[1] else order[0];
    assert o[0] == Shift(p, first) && first != p;
    AtShift(mid, p, first);
    assert k > 0 && k + 1 < n ==> order[0] != order[k + 1];
    assert out[o[0]].target == None;
    forall j | 0 < j < |o|
      ensures out[o[j]].target == Some(out[o[j - 1]].id)
    {
      var a := if j < k then order[j] else order[j + 1];
      var b := if j <= k then order[j - 1] else order[j];
      assert o[j] == Shift(p, a) && o[j - 1] == Shift(p, b);
      assert a != p && b != p;
      if j < k {
        assert k + 1 < n ==> a != order[k + 1];
        LinkAfterRemove(rs, mid, p, a, b, rs[order[j]].target);
      } else if j == k {
        LinkAfterRemove(rs, mid, p, a, b, rs[order[k]].target);
      } else {
        assert k + 1 <= j && j + 1 < n;
        assert a != order[k + 1];
        LinkAfterRemove(rs, mid, p, a, b, rs[order[j + 1]].target);
      }
    }
  }

  /** The array `RemoveRaver` deletes from: the follower of `order[k]` retargeted. */
  function Retargeted(rs: seq<Raver>, order: seq<nat>, k: nat): (mid: seq<Raver>)
    requires IsPerm(order, |rs|) && k < |rs|
    ensures |mid| == |rs|
  {
    if k + 1 < |rs| then rs[order[k + 1] := Follow(rs[order[k + 1]], rs[order[k]].target)] else rs
  }

  /** Deleting a position keeps distinct ids distinct and bounded. */
  lemma IdsAfterRemove(mid: seq<Raver>, p: nat, bound: nat)
    requires UniqueIds(mid) && p < |mid|
    requires forall i :: 0 <= i < |mid| ==> mid[i].id < bound
    ensures UniqueIds(RemoveAt(mid, p))
    ensures forall i :: 0 <= i < |mid| - 1 ==> RemoveAt(mid, p)[i].id < bound
  {
    var out := RemoveAt(mid, p);
    forall a, b | 0 <= a < b < |out|
      ensures out[a].id != out[b].id
    {
      var a0 := if a < p then a else a + 1;
      var b0 := if b < p then b else b + 1;
      assert out[a] == mid[a0] && out[b] == mid[b0];
    }
  }

  /** In a chain of several, `remove_raver` retargets the leaving raver's follower and deletes the leaver. */
  lemma RemoveIsRetargeted(g: Group, order: seq<nat>, k: nat)
    requires Fresh(g) && ChainOf(g.ravers, order) && k < |order| && |order| > 1
    ensures RemoveRaver(g, order[k]).ravers == RemoveAt(Retargeted(g.ravers, order, k), order[k])
  {
    FollowerIsNext(g.ravers, order, k);
  }

  /** Removing a raver from a group of several keeps the ids fresh and the targets one chain, closed over the gap. */
  lemma RemoveKeepsChain(g: Group, order: seq<nat>, k: nat)
    requires Fresh(g) && ChainOf(g.ravers, order) && k < |order| && |order| > 1
    ensures Fresh(RemoveRaver(g, order[k]))
    ensures ChainOf(RemoveRaver(g, order[k]).ravers, ChainAfterRemove(order, k))
  {
    var rs := g.ravers;
    var p := order[k];
    var mid := Retargeted(rs, order, k);
    RemoveIsRetargeted(g, order, k);
    assert forall i :: 0 <= i < |rs| ==> mid[i].id == rs[i].id;
    LinksAfterRemove(rs, mid, order, k);
    IdsAfterRemove(mid, p, g.nextId);
  }

  /** Removing the head hands the head role to its follower. */
  lemma RemovingHeadPromotesFollower(g: Group, order: seq<nat>)
    requires Fresh(g) && ChainOf(g.ravers, order) && |order| > 1
    ensures var r := RemoveRaver(g, order[0]);
            Find(r.ravers, IsHead) == Some(Shift(order[0], order[1])) &&
            r.ravers[Shift(order[0], order[1])].id == g.ravers[order[1]].id
  {
    RemoveKeepsChain(g, order, 0);
    var r := RemoveRaver(g, order[0]);
    var o := ChainAfterRemove(order, 0);
    HeadIsUnique(r.ravers, o);
    var mid := Retargeted(g.ravers, order, 0);
    RemoveIsRetargeted(g, order, 0);
    assert order[1] != order[0];
    assert r.ravers[Shift(order[0], order[1])] == mid[order[1]];
  }

  /** `remove_head`: a group without a head raises once it has more than one raver. */
  function RemoveHead(g: Group): (r: Result<Group>)
    ensures Find(g.ravers, IsHead).Some? ==> r == Success(RemoveRaver(g, Find(g.ravers, IsHead).value))
    ensures Find(g.ravers, IsHead).None? ==> (r.Success? <==> |g.ravers| == 1)
  {
    match Find(g.ravers, IsHead)
    case Some(h) => Success(RemoveRaver(g, h))
    case None => if |g.ravers| == 1 then Success(g) else Failure(NoMethodError("undefined method 'target' for nil"))
  }

  /** `remove_raver_with_type`: the first raver of that kind leaves, if there is one. */
  function RemoveRaverWithType(g: Group, kind: RaverType): (r: Group)
    ensures (forall i :: 0 <= i < |g.ravers| ==> g.ravers[i].kind != kind) ==> r == g
    ensures Find(g.ravers, OfKind(kind)).Some? ==> r == RemoveRaver(g, Find(g.ravers, OfKind(kind)).value)
  {
    match Find(g.ravers, OfKind(kind))
    case None => g
    case Some(p) => RemoveRaver(g, p)
  }

  /**
   * `remove_raver_closest_to`: the raver nearest (x, y) leaves. On an empty group the
   * closest raver is nil, and `remove_raver(nil)` asks nil for its target.
   */
  function RemoveRaverClosestTo(g: Group, x: real, y: real): (r: Result<Group>)
    ensures r.Failure? <==> |g.ravers| == 0
    ensures r.Success? ==> var c := Closest(g.ravers, x, y).value;
              r.value == RemoveRaver(g, c) &&
              (|g.ravers| > 1 ==> |r.value.ravers| == |g.ravers| - 1) &&
              (forall i :: 0 <= i < |g.ravers| ==> SqDistance(g.ravers[c], x, y) <= SqDistance(g.ravers[i], x, y))
  {
    match Closest(g.ravers, x, y)
    case None => Failure(NoMethodError("undefined method 'target' for nil"))
    case Some(c) => Success(RemoveRaver(g, c))
  }

  /** The group never becomes empty: removal from a single raver is refused. */
  lemma NeverEmpty(g: Group, p: nat)
    requires p < |g.ravers|
    ensures |RemoveRaver(g, p).ravers| >= 1
    ensures |RemoveRaver(g, p).ravers| == (if |g.ravers| == 1 then 1 else |g.ravers| - 1)
  {
  }

  // ---------------------------------------------------------------------------
  // Steering

  /** The push `move_left`/`move_right` give: 0.7 in the air, 5 on the ground. */
  function Coef(g: Group): (c: real)
    ensures c == (if g.isFlying then AIR_COEF else GROUND_COEF)
  {
    if g.isFlying then AIR_COEF else GROUND_COEF
  }

  /** `move_left`: push left by the coefficient, never below -10. */
  function MoveLeft(g: Group): (r: Result<Group>)
    ensures r.Success? <==> Find(g.ravers, IsHead).Some?
    ensures r.Success? ==> var h := Find(g.ravers, IsHead).value;
              |r.value.ravers| == |g.ravers| && var vx := r.value.ravers[h].vx;
              vx >= -MAX_VELOCITY_X &&
              (g.ravers[h].vx <= MAX_VELOCITY_X ==> vx <= MAX_VELOCITY_X) &&
              (if g.ravers[h].vx - Coef(g) >= -MAX_VELOCITY_X then vx == g.ravers[h].vx - Coef(g) else vx == -MAX_VELOCITY_X) &&
              r.value == g.(ravers := g.ravers[h := g.ravers[h].(vx := vx)])
  {
    match Find(g.ravers, IsHead)
    case None => Failure(NoMethodError("undefined method 'velocity_x' for nil"))
    case Some(h) => Success(g.(ravers := g.ravers[h := g.ravers[h].(vx := MaxR(g.ravers[h].vx - Coef(g), -MAX_VELOCITY_X))]))
  }

  /** `move_right`: push right by the coefficient, never above 10. */
  function MoveRight(g: Group): (r: Result<Group>)
    ensures r.Success? <==> Find(g.ravers, IsHead).Some?
    ensures r.Success? ==> var h := Find(g.ravers, IsHead).value;
              |r.value.ravers| == |g.ravers| && var vx := r.value.ravers[h].vx;
              vx <= MAX_VELOCITY_X &&
              (g.ravers[h].vx >= -MAX_VELOCITY_X ==> vx >= -MAX_VELOCITY_X) &&
              (if g.ravers[h].vx + Coef(g) <= MAX_VELOCITY_X then vx == g.ravers[h].vx + Coef(g) else vx == MAX_VELOCITY_X) &&
              r.value == g.(ravers := g.ravers[h := g.ravers[h].(vx := vx)])
  {
    match Find(g.ravers, IsHead)
    case None => Failure(NoMethodError("undefined method 'velocity_x' for nil"))
    case Some(h) => Success(g.(ravers := g.ravers[h := g.ravers[h].(vx := MinR(g.ravers[h].vx + Coef(g), MAX_VELOCITY_X))]))
  }

  /** `jump`: the head's vertical velocity becomes 26. */
  function Jump(g: Group): (r: Result<Group>)
    ensures r.Success? <==> Find(g.ravers, IsHead).Some?
    ensures r.Success? ==> var h := Find(g.ravers, IsHead).value;
              r.value == g.(ravers := g.ravers[h := g.ravers[h].(vy := JUMP_VELOCITY)])
  {
    match Find(g.ravers, IsHead)
    case None => Failure(NoMethodError("undefined method 'velocity_y=' for nil"))
    case Some(h) => Success(g.(ravers := g.ravers[h := g.ravers[h].(vy := JUMP_VELOCITY)]))
  }

  /** `collide_with_platform(platform_y:)`: the floor the head rests on. */
  function CollideWithPlatform(g: Group, platformY: real): (r: Group)
    ensures r.minY == platformY && r == g.(minY := platformY)
  {
    g.(minY := platformY)
  }

  // ---------------------------------------------------------------------------
  // Tick

  /** The head's own motion: friction, gravity with a terminal speed, then the move. */
  function Fall(h: Raver): (r: Raver)
    ensures r.vx == h.vx * FRICTION
    ensures r.vy == MaxR(h.vy - GRAVITY, MIN_VELOCITY_Y) && r.vy >= MIN_VELOCITY_Y
    ensures r.x == h.x + r.vx && r.y == h.y + r.vy
    ensures SameStructure([h], [r])
  {
    var vx := h.vx * FRICTION;
    var vy := MaxR(h.vy - GRAVITY, MIN_VELOCITY_Y);
    h.(vx := vx, vy := vy, x := h.x + vx, y := h.y + vy)
  }

  /**
   * `Raver#tick` for the raver at position i of the ravers as they stand mid-pass:
   * a follower springs toward its target's current x and 100 above its target's
   * current y, with its chain index. A head does nothing; a target that is not in the
   * group or an index the walk cannot find leaves the raver as it is (neither
   * happens in a chain).
   */
  function Spring(rs: seq<Raver>, i: nat): (r: Raver)
    requires i < |rs|
    ensures r == rs[i].(x := r.x, y := r.y, vx := r.vx, vy := r.vy)
    ensures rs[i].target.None? ==> r == rs[i]
  {
    var me := rs[i];
    if me.target.None? then me
    else
      match (Find(rs, HasId(me.target.value)), Index(rs, i, |rs|))
      case (Some(t), Some(index)) =>
        var sx := LaurenceMain.Step(SPRING_X, rs[t].x, me.x, me.vx, index as real);
        var sy := LaurenceMain.Step(SPRING_Y, rs[t].y + RAVER_SIZE, me.y, me.vy, index as real);
        me.(x := sx.d, vx := sx.v, y := sy.d, vy := sy.v)
      case _ => me
  }

  /** The `@ravers.each` pass from position i: tick, then animate at 4 while flying and 0 otherwise. */
  function SpringPass(rs: seq<Raver>, flying: bool, i: nat): (r: seq<Raver>)
    requires i <= |rs|
    ensures SameStructure(rs, r)
    ensures forall j :: 0 <= j < i ==> r[j] == rs[j]
    ensures forall j :: i <= j < |rs| ==> r[j].animationSpeed == Some(if flying then 4 else 0)
    decreases |rs| - i
  {
    if i == |rs| then rs
    else
      var ticked := Spring(rs, i).(animationSpeed := Some(if flying then 4 else 0));
      SpringPass(rs[i := ticked], flying, i + 1)
  }

  /** Structure agreement is transitive. */
  lemma SameStructureTrans(a: seq<Raver>, b: seq<Raver>, c: seq<Raver>)
    requires SameStructure(a, b) && SameStructure(b, c)
    ensures SameStructure(a, c)
  {
  }

  /** A chain depends only on ids and targets, so motion never breaks one. */
  lemma ChainOfStructure(a: seq<Raver>, b: seq<Raver>, order: seq<nat>)
    requires SameStructure(a, b) && ChainOf(a, order)
    ensures ChainOf(b, order)
  {
  }

  /**
   * `RaverGroup#tick` with the stack height kept in `score`. Without a head it does
   * nothing. Otherwise the head falls and is clamped into [0, 1200] × [min_y, 720]
   * (a floor above the ceiling makes Ruby's `clamp` raise), the status flags follow
   * the head, the followers spring after it, and the highest stack is raised to the
   * group size.
   */
  function Tick(g: Group, score: Score.Score): (r: Result<(Group, Score.Score)>)
    ensures Find(g.ravers, IsHead).None? ==> r == Success((g, score))
    ensures r.Failure? <==> Find(g.ravers, IsHead).Some? && g.minY > MAX_Y
    ensures r.Success? ==> (SameStructure(g.ravers, r.value.0.ravers) && r.value.0.minY == g.minY &&
              r.value.0.nextId == g.nextId)
    ensures r.Success? ==> (r.value.1 == score.(highestStack := r.value.1.highestStack) &&
              r.value.1.highestStack >= score.highestStack)
    ensures r.Success? && Find(g.ravers, IsHead).Some? ==>
              r.value.1.highestStack >= |g.ravers| && (r.value.0.isOnGround <==> !r.value.0.isFlying)
  {
    match Find(g.ravers, IsHead)
    case None => Success((g, score))
    case Some(h) =>
      if g.minY > MAX_Y then Failure(ArgumentError("min argument must be less than or equal to max argument"))
      else
        var fallen := Fall(g.ravers[h]);
        var moved := fallen.(x := MaxMin(fallen.x, 0.0, MAX_X), y := MaxMin(fallen.y, g.minY, MAX_Y));
        var onGround := moved.y == g.minY;
        var flying := moved.y > g.minY;
        var falling := moved.vy < 0.0 && moved.y > g.minY;
        assert SameStructure(g.ravers, g.ravers[h := moved]);
        var passed := SpringPass(g.ravers[h := moved], flying, 0);
        SameStructureTrans(g.ravers, g.ravers[h := moved], passed);
        var animated := if onGround && AbsR(passed[h].vx) > 0.5 then passed[h := passed[h].(animationSpeed := Some(8))] else passed;
        var g1 := g.(ravers := animated, isOnGround := onGround, isFlying := flying, isFalling := falling);
        Success((g1, score.(highestStack := if score.highestStack >= |g.ravers| then score.highestStack else |g.ravers|)))
  }

  /** After a tick the head stays on screen, above its floor and below the ceiling, falling no faster than 15. */
  lemma TickBounds(g: Group, score: Score.Score)
    requires Find(g.ravers, IsHead).Some? && g.minY <= MAX_Y
    ensures Tick(g, score).Success?
    ensures var h := Find(g.ravers, IsHead).value;
            var r := Tick(g, score).value.0;
            0.0 <= r.ravers[h].x <= MAX_X && g.minY <= r.ravers[h].y <= MAX_Y &&
            r.ravers[h].vy >= MIN_VELOCITY_Y && r.ravers[h].vx == g.ravers[h].vx * FRICTION &&
            (r.isOnGround <==> r.ravers[h].y == g.minY) && (r.isFalling ==> r.isFlying)
  {
    var h := Find(g.ravers, IsHead).value;
    var fallen := Fall(g.ravers[h]);
    var moved := fallen.(x := MaxMin(fallen.x, 0.0, MAX_X), y := MaxMin(fallen.y, g.minY, MAX_Y));
    var passed := SpringPass(g.ravers[h := moved], moved.y > g.minY, 0);
    HeadIsFixedByPass(g.ravers[h := moved], h, moved.y > g.minY);
  }

  /** The `each` pass leaves a head's motion alone (it only sets its animation speed). */
  lemma HeadIsFixedByPass(rs: seq<Raver>, h: nat, flying: bool)
    requires h < |rs| && rs[h].target.None?
    ensures SpringPass(rs, flying, 0)[h] == rs[h].(animationSpeed := Some(if flying then 4 else 0))
  {
    HeadIsFixedFrom(rs, h, flying, 0);
  }

  lemma {:induction false} HeadIsFixedFrom(rs: seq<Raver>, h: nat, flying: bool, i: nat)
    requires h < |rs| && i <= |rs| && rs[h].target.None?
    ensures SpringPass(rs, flying, i)[h] == (if h < i then rs[h] else rs[h].(animationSpeed := Some(if flying then 4 else 0)))
    decreases |rs| - i
  {
    if i < |rs| {
      var ticked := Spring(rs, i).(animationSpeed := Some(if flying then 4 else 0));
      HeadIsFixedFrom(rs[i := ticked], h, flying, i + 1);
    }
  }

  /** A tick keeps a well-formed group well formed. */
  lemma TickKeepsChain(g: Group, score: Score.Score, order: seq<nat>)
    requires Fresh(g) && ChainOf(g.ravers, order) && Tick(g, score).Success?
    ensures Fresh(Tick(g, score).value.0)
    ensures ChainOf(Tick(g, score).value.0.ravers, order)
  {
    var r := Tick(g, score).value.0;
    ChainOfStructure(g.ravers, r.ravers, order);
  }
}

=== FILE: rings.dfy ===
/**
 * The blend-mode constants and `compose_blendmode` of the rings sample
 * (samples/07_advanced_rendering/20_rings/app/main.rb): six 4-bit fields packed into
 * one integer, colour operation at bit 0, colour factors at bits 4 and 8, alpha
 * operation at bit 16, alpha factors at bits 20 and 24.
 *
 * Ruby's `<<` on a non-negative Integer is a multiplication by a power of two and
 * `|` is bitwise or on its binary digits; both are written out here over `nat`.
 */
module Rings {

  const BLENDOPERATION_ADD: nat := 0x1
  const BLENDOPERATION_SUBTRACT: nat := 0x2
  const BLENDOPERATION_REV_SUBTRACT: nat := 0x3
  const BLENDOPERATION_MINIMUM: nat := 0x4
  const BLENDOPERATION_MAXIMUM: nat := 0x5

  const BLENDFACTOR_ZERO: nat := 0x1
  const BLENDFACTOR_ONE: nat := 0x2
  const BLENDFACTOR_SRC_COLOR: nat := 0x3
  const BLENDFACTOR_ONE_MINUS_SRC_COLOR: nat := 0x4
  const BLENDFACTOR_SRC_ALPHA: nat := 0x5
  const BLENDFACTOR_ONE_MINUS_SRC_ALPHA: nat := 0x6
  const BLENDFACTOR_DST_COLOR: nat := 0x7
  const BLENDFACTOR_ONE_MINUS_DST_COLOR: nat := 0x8
  const BLENDFACTOR_DST_ALPHA: nat := 0x9
  const BLENDFACTOR_ONE_MINUS_DST_ALPHA: nat := 0xA

  /** Every declared operation. */
  const OPERATIONS: seq<nat> := [BLENDOPERATION_ADD, BLENDOPERATION_SUBTRACT, BLENDOPERATION_REV_SUBTRACT,
                                 BLENDOPERATION_MINIMUM, BLENDOPERATION_MAXIMUM]

  /** Every declared factor. */
  const FACTORS: seq<nat> := [BLENDFACTOR_ZERO, BLENDFACTOR_ONE, BLENDFACTOR_SRC_COLOR,
                              BLENDFACTOR_ONE_MINUS_SRC_COLOR, BLENDFACTOR_SRC_ALPHA,
                              BLENDFACTOR_ONE_MINUS_SRC_ALPHA, BLENDFACTOR_DST_COLOR,
                              BLENDFACTOR_ONE_MINUS_DST_COLOR, BLENDFACTOR_DST_ALPHA,
                              BLENDFACTOR_ONE_MINUS_DST_ALPHA]

  /** Width of one field. */
  const FIELD: nat := 16

  /** `a << k`: k doublings. */
  function Shl(a: nat, k: nat): (r: nat)
    ensures r >= a
    ensures a > 0 ==> r > 0
    ensures a == 0 ==> r == 0
  {
    if k == 0 then a else 2 * Shl(a, k - 1)
  }

  /** `v >> k`: k halvings, each dropping the lowest bit. */
  function Shr(v: nat, k: nat): (r: nat)
    ensures r <= v
  {
    if k == 0 then v else Shr(v / 2, k - 1)
  }

  /** `a | b`, digit by digit from the least significant bit. */
  function Or(a: nat, b: nat): (r: nat)
    ensures r >= a && r >= b
    ensures r <= a + b
  {
    if a == 0 then b
    else if b == 0 then a
    else 2 * Or(a / 2, b / 2) + (if a % 2 == 1 || b % 2 == 1 then 1 else 0)
  }

  /** Or is symmetric, as a bitwise operation is. */
  lemma {:induction false} OrCommutes(a: nat, b: nat)
    ensures Or(a, b) == Or(b, a)
    decreases a
  {
    if a != 0 && b != 0 {
      OrCommutes(a / 2, b / 2);
    }
  }

  /** Or-ing a value below 2^k with a multiple of 2^k is plain addition: no digits overlap. */
  lemma {:induction false} OrDisjoint(a: nat, b: nat, k: nat)
    requires a < Shl(1, k)
    ensures Or(a, Shl(b, k)) == a + Shl(b, k)
    decreases k
  {
    if k > 0 && a != 0 && b != 0 {
      var m := Shl(b, k - 1);
      assert Shl(b, k) == 2 * m && m > 0;
      assert (2 * m) / 2 == m && (2 * m) % 2 == 0;
      OrDisjoint(a / 2, b, k - 1);
      assert Or(a, 2 * m) == 2 * Or(a / 2, m) + a % 2;
    }
  }

  /** Shifting back right undoes a left shift and drops the bits below it. */
  lemma {:induction false} ShrUndoesShl(lo: nat, n: nat, k: nat)
    requires lo < Shl(1, k)
    ensures Shr(lo + Shl(n, k), k) == n
    decreases k
  {
    if k > 0 {
      assert (lo + Shl(n, k)) / 2 == lo / 2 + Shl(n, k - 1);
      ShrUndoesShl(lo / 2, n, k - 1);
    }
  }

  /** `compose_blendmode`, with Ruby's left-to-right chain of `|`. */
  function ComposeBlendmode(srcColorFactor: nat, dstColorFactor: nat, colorOperation: nat,
                            srcAlphaFactor: nat, dstAlphaFactor: nat, alphaOperation: nat): (r: nat)
    ensures r >= colorOperation && r >= Shl(srcColorFactor, 4) && r >= Shl(dstColorFactor, 8)
    ensures r >= Shl(alphaOperation, 16) && r >= Shl(srcAlphaFactor, 20) && r >= Shl(dstAlphaFactor, 24)
    ensures r <= colorOperation + Shl(srcColorFactor, 4) + Shl(dstColorFactor, 8) +
                 Shl(alphaOperation, 16) + Shl(srcAlphaFactor, 20) + Shl(dstAlphaFactor, 24)
  {
    Or(Or(Or(Or(Or(Shl(colorOperation, 0), Shl(srcColorFactor, 4)), Shl(dstColorFactor, 8)),
          Shl(alphaOperation, 16)), Shl(srcAlphaFactor, 20)), Shl(dstAlphaFactor, 24))
  }

  /** `(v >> offset) & 0xF`. */
  function Field(v: nat, offset: nat): (r: nat)
    ensures r < FIELD
  {
    Shr(v, offset) % FIELD
  }

  /** Four more doublings multiply by 16. */
  lemma ShlFour(x: nat, k: nat)
    ensures Shl(x, k + 4) == 0x10 * Shl(x, k)
  {
    assert Shl(x, k + 4) == 2 * Shl(x, k + 3);
    assert Shl(x, k + 3) == 2 * Shl(x, k + 2);
    assert Shl(x, k + 2) == 2 * Shl(x, k + 1);
  }

  /** The shifts the packing uses, as multiplications by constants. */
  lemma Shl4(x: nat)
    ensures Shl(x, 4) == x * 0x10
  {
    ShlFour(x, 0);
  }

  lemma Shl8(x: nat)
    ensures Shl(x, 8) == x * 0x100
  {
    Shl4(x);
    ShlFour(x, 4);
  }

  lemma Shl12(x: nat)
    ensures Shl(x, 12) == x * 0x1000
  {
    Shl8(x);
    ShlFour(x, 8);
  }

  lemma Shl16(x: nat)
    ensures Shl(x, 16) == x * 0x1_0000
  {
    Shl12(x);
    ShlFour(x, 12);
  }

  lemma Shl20(x: nat)
    ensures Shl(x, 20) == x * 0x10_0000
  {
    Shl16(x);
    ShlFour(x, 16);
  }

  lemma Shl24(x: nat)
    ensures Shl(x, 24) == x * 0x100_0000
  {
    Shl20(x);
    ShlFour(x, 20);
  }

  lemma Shl28(x: nat)
    ensures Shl(x, 28) == x * 0x1000_0000
  {
    Shl24(x);
    ShlFour(x, 24);
  }

  /** The packed value as a sum of its shifted fields. */
  function Packed(sc: nat, dc: nat, co: nat, sa: nat, da: nat, ao: nat): nat
  {
    co + sc * 0x10 + dc * 0x100 + ao * 0x1_0000 + sa * 0x10_0000 + da * 0x100_0000
  }

  /** With every field below 16 the packing is the sum of the shifted fields. */
  lemma ComposeIsSum(sc: nat, dc: nat, co: nat, sa: nat, da: nat, ao: nat)
    requires sc < FIELD && dc < FIELD && co < FIELD && sa < FIELD && da < FIELD && ao < FIELD
    ensures ComposeBlendmode(sc, dc, co, sa, da, ao) == Packed(sc, dc, co, sa, da, ao)
  {
    var o1 := Or(Shl(co, 0), Shl(sc, 4));
    assert o1 == co + sc * 0x10 by {
      Shl4(1); Shl4(sc);
      OrDisjoint(co, sc, 4);
    }
    var o2 := Or(o1, Shl(dc, 8));
    assert o2 == o1 + dc * 0x100 by {
      Shl8(1); Shl8(dc);
      OrDisjoint(o1, dc, 8);
    }
    var o3 := Or(o2, Shl(ao, 16));
    assert o3 == o2 + ao * 0x1_0000 by {
      Shl16(1); Shl16(ao);
      OrDisjoint(o2, ao, 16);
    }
    var o4 := Or(o3, Shl(sa, 20));
    assert o4 == o3 + sa * 0x10_0000 by {
      Shl20(1); Shl20(sa);
      OrDisjoint(o3, sa, 20);
    }
    var o5 := Or(o4, Shl(da, 24));
    assert o5 == o4 + da * 0x100_0000 by {
      Shl24(1); Shl24(da);
      OrDisjoint(o4, da, 24);
    }
  }

  /** The field at bit k of lo + ((d + 16·hi) << k), with lo below 2^k and d below 16, is d. */
  lemma DigitOf(lo: nat, d: nat, hi: nat, k: nat)
    requires lo < Shl(1, k) && d < FIELD
    ensures Field(lo + Shl(d + FIELD * hi, k), k) == d
  {
    ShrUndoesShl(lo, d + FIELD * hi, k);
  }

  /** The two lowest fields: the colour operation and the colour source factor. */
  lemma LowFieldsDecode(sc: nat, dc: nat, co: nat, sa: nat, da: nat, ao: nat)
    requires sc < FIELD && dc < FIELD && co < FIELD && sa < FIELD && da < FIELD && ao < FIELD
    ensures var v := Packed(sc, dc, co, sa, da, ao);
            Field(v, 0) == co && Field(v, 4) == sc
  {
    var v := Packed(sc, dc, co, sa, da, ao);
    assert Field(v, 0) == co by {
      var h0 := sc + dc * 0x10 + ao * 0x1000 + sa * 0x1_0000 + da * 0x10_0000;
      assert v == 0 + Shl(co + FIELD * h0, 0);
      DigitOf(0, co, h0, 0);
    }
    var h4 := dc + ao * 0x100 + sa * 0x1000 + da * 0x1_0000;
    Shl4(1); Shl4(sc + FIELD * h4);
    assert v == co + Shl(sc + FIELD * h4, 4);
    DigitOf(co, sc, h4, 4);
  }

  /** The colour destination factor, and the clear bits 12 to 15. */
  lemma MidFieldsDecode(sc: nat, dc: nat, co: nat, sa: nat, da: nat, ao: nat)
    requires sc < FIELD && dc < FIELD && co < FIELD && sa < FIELD && da < FIELD && ao < FIELD
    ensures var v := Packed(sc, dc, co, sa, da, ao);
            Field(v, 8) == dc && Field(v, 12) == 0
  {
    var v := Packed(sc, dc, co, sa, da, ao);
    assert Field(v, 8) == dc by {
      var h8 := ao * 0x10 + sa * 0x100 + da * 0x1000;
      Shl8(1); Shl8(dc + FIELD * h8);
      assert v == co + sc * 0x10 + Shl(dc + FIELD * h8, 8);
      DigitOf(co + sc * 0x10, dc, h8, 8);
    }
    var h12 := ao + sa * 0x10 + da * 0x100;
    Shl12(1); Shl12(0 + FIELD * h12);
    assert v == co + sc * 0x10 + dc * 0x100 + Shl(0 + FIELD * h12, 12);
    DigitOf(co + sc * 0x10 + dc * 0x100, 0, h12, 12);
  }

  /** The low colour half: operation, source factor, destination factor, and the clear bits 12 to 15. */
  lemma ColorFieldsDecode(sc: nat, dc: nat, co: nat, sa: nat, da: nat, ao: nat)
    requires sc < FIELD && dc < FIELD && co < FIELD && sa < FIELD && da < FIELD && ao < FIELD
    ensures var v := Packed(sc, dc, co, sa, da, ao);
            Field(v, 0) == co && Field(v, 4) == sc && Field(v, 8) == dc && Field(v, 12) == 0
  {
    LowFieldsDecode(sc, dc, co, sa, da, ao);
    MidFieldsDecode(sc, dc, co, sa, da, ao);
  }

  /** The high alpha half: operation, source factor, destination factor, and nothing from bit 28 up. */
  lemma AlphaFieldsDecode(sc: nat, dc: nat, co: nat, sa: nat, da: nat, ao: nat)
    requires sc < FIELD && dc < FIELD && co < FIELD && sa < FIELD && da < FIELD && ao < FIELD
    ensures var v := Packed(sc, dc, co, sa, da, ao);
            Field(v, 16) == ao && Field(v, 20) == sa && Field(v, 24) == da && v < Shl(1, 28)
  {
    var v := Packed(sc, dc, co, sa, da, ao);
    var low := co + sc * 0x10 + dc * 0x100;
    assert Field(v, 16) == ao by {
      var h16 := sa + da * 0x10;
      Shl16(1); Shl16(ao + FIELD * h16);
      DigitOf(low, ao, h16, 16);
    }
    assert Field(v, 20) == sa by {
      Shl20(1); Shl20(sa + FIELD * da);
      DigitOf(low + ao * 0x1_0000, sa, da, 20);
    }
    assert Field(v, 24) == da by {
      Shl24(1); Shl24(da + FIELD * 0);
      DigitOf(low + ao * 0x1_0000 + sa * 0x10_0000, da, 0, 24);
    }
    Shl28(1);
  }

  /**
   * Decoding: with every field below 16, each field comes back out of its four bits,
   * and bits 12 to 15 and every bit from 28 up stay clear.
   */
  lemma DecodeRoundTrip(sc: nat, dc: nat, co: nat, sa: nat, da: nat, ao: nat)
    requires sc < FIELD && dc < FIELD && co < FIELD && sa < FIELD && da < FIELD && ao < FIELD
    ensures var v := ComposeBlendmode(sc, dc, co, sa, da, ao);
            Field(v, 0) == co && Field(v, 4) == sc && Field(v, 8) == dc &&
            Field(v, 16) == ao && Field(v, 20) == sa && Field(v, 24) == da &&
            Field(v, 12) == 0 && v < Shl(1, 28)
  {
    ComposeIsSum(sc, dc, co, sa, da, ao);
    ColorFieldsDecode(sc, dc, co, sa, da, ao);
    AlphaFieldsDecode(sc, dc, co, sa, da, ao);
  }

  /** Different fields below 16 give different blend modes. */
  lemma ComposeInjective(sc: nat, dc: nat, co: nat, sa: nat, da: nat, ao: nat,
                         sc': nat, dc': nat, co': nat, sa': nat, da': nat, ao': nat)
    requires sc < FIELD && dc < FIELD && co < FIELD && sa < FIELD && da < FIELD && ao < FIELD
    requires sc' < FIELD && dc' < FIELD && co' < FIELD && sa' < FIELD && da' < FIELD && ao' < FIELD
    requires ComposeBlendmode(sc, dc, co, sa, da, ao) == ComposeBlendmode(sc', dc', co', sa', da', ao')
    ensures sc == sc' && dc == dc' && co == co' && sa == sa' && da == da' && ao == ao'
  {
    DecodeRoundTrip(sc, dc, co, sa, da, ao);
    DecodeRoundTrip(sc', dc', co', sa', da', ao');
  }

  /** Every declared constant fits its four bits and lies between 1 and 10, so all of them decode. */
  lemma ConstantsFitFields()
    ensures forall i :: 0 <= i < |OPERATIONS| ==> 1 <= OPERATIONS[i] <= 5 && OPERATIONS[i] < FIELD
    ensures forall i :: 0 <= i < |FACTORS| ==> 1 <= FACTORS[i] <= 10 && FACTORS[i] < FIELD
    ensures forall i, j :: 0 <= i < j < |FACTORS| ==> FACTORS[i] != FACTORS[j]
  {
  }

  /** `HOLE_PUNCH_BLENDMODE`: keep the destination where the source is transparent, in colour and alpha. */
  function HolePunchBlendmode(): (v: nat)
    ensures Field(v, 0) == BLENDOPERATION_ADD && Field(v, 16) == BLENDOPERATION_ADD
    ensures Field(v, 4) == BLENDFACTOR_ZERO && Field(v, 20) == BLENDFACTOR_ZERO
    ensures Field(v, 8) == BLENDFACTOR_ONE_MINUS_SRC_ALPHA && Field(v, 24) == BLENDFACTOR_ONE_MINUS_SRC_ALPHA
  {
    DecodeRoundTrip(BLENDFACTOR_ZERO, BLENDFACTOR_ONE_MINUS_SRC_ALPHA, BLENDOPERATION_ADD,
                    BLENDFACTOR_ZERO, BLENDFACTOR_ONE_MINUS_SRC_ALPHA, BLENDOPERATION_ADD);
    ComposeBlendmode(BLENDFACTOR_ZERO, BLENDFACTOR_ONE_MINUS_SRC_ALPHA, BLENDOPERATION_ADD,
                     BLENDFACTOR_ZERO, BLENDFACTOR_ONE_MINUS_SRC_ALPHA, BLENDOPERATION_ADD)
  }

  /** The hole-punch mode is the literal 0x06110611. */
  lemma HolePunchValue()
    ensures HolePunchBlendmode() == 0x0611_0611
  {
    ComposeIsSum(BLENDFACTOR_ZERO, BLENDFACTOR_ONE_MINUS_SRC_ALPHA, BLENDOPERATION_ADD,
                 BLENDFACTOR_ZERO, BLENDFACTOR_ONE_MINUS_SRC_ALPHA, BLENDOPERATION_ADD);
    assert Packed(BLENDFACTOR_ZERO, BLENDFACTOR_ONE_MINUS_SRC_ALPHA, BLENDOPERATION_ADD,
                  BLENDFACTOR_ZERO, BLENDFACTOR_ONE_MINUS_SRC_ALPHA, BLENDOPERATION_ADD) == 0x0611_0611;
  }

  /**
   * The round trip needs the fields below 16: a source colour factor of 16 spills
   * into the destination colour factor's bits and packs like a destination factor of 1.
   */
  lemma WideFieldSpills()
    ensures ComposeBlendmode(16, 0, 0, 0, 0, 0) == ComposeBlendmode(0, 1, 0, 0, 0, 0)
  {
    Shl4(16);
    Shl8(1);
  }
}

=== FILE: road_renderer.dfy ===
/**
 * Road geometry of test-first-game/app/rendering/road_renderer.rb: the cached road
 * surface and edge strips, and the animated lane-divider dashes.
 *
 * Sprites are reduced to their placement (`Line`: x, y, width); height, colour and
 * alpha are constants of each kind of sprite. The lane dividers are drawn at an
 * Integer `world_y`, and `world_y / world_depth` with an Integer depth is floor
 * division, so the as-written divider geometry (`DividerAsWritten`) differs from the
 * Float projection the rest of the renderer uses (`Divider`).
 */
module RoadRenderer {
  import opened RunnerConfig
  import opened Numeric
  import opened PerspectiveCamera

  datatype Line = Line(x: real, y: real, w: real)

  /** Linear interpolation `a + (b - a) * t`. */
  function Lerp(a: real, b: real, t: real): (r: real)
    requires 0.0 <= t <= 1.0
    ensures MinR(a, b) <= r <= MaxR(a, b)
    ensures t == 0.0 ==> r == a
    ensures t == 1.0 ==> r == b
  {
    LerpBetween(a, b, t);
    a + (b - a) * t
  }

  /** An interpolated point lies between its two ends. */
  lemma LerpBetween(a: real, b: real, t: real)
    requires 0.0 <= t <= 1.0
    ensures MinR(a, b) <= a + (b - a) * t <= MaxR(a, b)
  {
    var span := b - a;
    var step := span * t;
    ScaledWithin(span, t);
    if a <= b {
      assert 0.0 <= step <= b - a;
      assert MinR(a, b) == a && MaxR(a, b) == b;
    } else {
      assert b - a <= step <= 0.0;
      assert MinR(a, b) == b && MaxR(a, b) == a;
    }
    assert a + (b - a) * t == a + step;
  }

  /** x * t lies between 0 and x for t in [0, 1]. */
  lemma ScaledWithin(x: real, t: real)
    requires 0.0 <= t <= 1.0
    ensures x >= 0.0 ==> 0.0 <= x * t <= x
    ensures x < 0.0 ==> x <= x * t <= 0.0
  {
    if x >= 0.0 {
      assert x * (1.0 - t) >= 0.0;
    } else {
      assert (-x) * (1.0 - t) >= 0.0;
      assert (-x) * t >= 0.0;
    }
  }

  /** The gap between two interpolated points is the interpolated gap. */
  lemma LerpDifference(a1: real, b1: real, a2: real, b2: real, t: real)
    requires 0.0 <= t <= 1.0
    ensures Lerp(a1, b1, t) - Lerp(a2, b2, t) == Lerp(a1 - a2, b1 - b2, t)
  {
    assert (b1 - a1) * t - (b2 - a2) * t == ((b1 - b2) - (a1 - a2)) * t;
  }

  /** `i.to_f / n` for the i-th of n rows. */
  function Fraction(i: nat, n: nat): (t: real)
    requires i < n
    ensures 0.0 <= t < 1.0
    ensures i == 0 ==> t == 0.0
  {
    assert (i as real) < (n as real) * 1.0;
    i as real / n as real
  }

  // ---------------------------------------------------------------------------
  // Road surface and edges (computed once, with the camera at rest)

  function NearLeft(): ScreenPoint { WorldToScreen(PerspectiveCamera.New(), ROAD_MIN_X, 0.0) }
  function NearRight(): ScreenPoint { WorldToScreen(PerspectiveCamera.New(), ROAD_MAX_X, 0.0) }
  function FarLeft(): ScreenPoint { WorldToScreen(PerspectiveCamera.New(), ROAD_MIN_X, WORLD_DEPTH as real) }
  function FarRight(): ScreenPoint { WorldToScreen(PerspectiveCamera.New(), ROAD_MAX_X, WORLD_DEPTH as real) }

  /** The four corners of the road trapezoid on screen. */
  lemma RoadCorners()
    ensures NearLeft() == ScreenPoint(265.0, 0.0, 1.0) && NearRight() == ScreenPoint(1015.0, 0.0, 1.0)
    ensures FarLeft() == ScreenPoint(583.75, 680.0, PERSPECTIVE_STRENGTH)
    ensures FarRight() == ScreenPoint(696.25, 680.0, PERSPECTIVE_STRENGTH)
  {
    ScaleEndpoints();
  }

  /** `(road_height / 2).ceil`: one row every two pixels. */
  function SurfaceRowCount(): (n: nat)
    ensures n == 340
  {
    RoadCorners();
    var h := FarLeft().y - NearLeft().y;
    assert h / 2.0 == 340.0;
    Ceil(h / 2.0)
  }

  /** Row i of the trapezoid, from the near edge (t = 0) toward the far edge. */
  function SurfaceRow(i: nat): (l: Line)
    requires i < SurfaceRowCount()
    ensures NearLeft().x <= l.x && l.x + l.w <= NearRight().x
    ensures NearLeft().y <= l.y < FarLeft().y
    ensures FarRight().x - FarLeft().x <= l.w <= NearRight().x - NearLeft().x
    ensures i == 0 ==> l == Line(NearLeft().x, NearLeft().y, NearRight().x - NearLeft().x)
  {
    RoadCorners();
    var t := Fraction(i, SurfaceRowCount());
    var y := Lerp(NearLeft().y, FarLeft().y, t);
    var left := Lerp(NearLeft().x, FarLeft().x, t);
    var right := Lerp(NearRight().x, FarRight().x, t);
    LerpDifference(NearRight().x, FarRight().x, NearLeft().x, FarLeft().x, t);
    assert y < FarLeft().y by {
      assert y == 680.0 * t;
    }
    Line(left, y, right - left)
  }

  /** `generate_road_surface_geometry`. */
  function Surface(): (r: seq<Line>)
    ensures |r| == SurfaceRowCount()
    ensures forall i :: 0 <= i < |r| ==> r[i] == SurfaceRow(i)
  {
    seq(SurfaceRowCount(), i requires 0 <= i < SurfaceRowCount() => SurfaceRow(i))
  }

  /** Rows of the surface climb the screen strictly and narrow toward the horizon. */
  lemma SurfaceRowsOrdered(i: nat, j: nat)
    requires i < j < SurfaceRowCount()
    ensures SurfaceRow(i).y < SurfaceRow(j).y
    ensures SurfaceRow(j).w < SurfaceRow(i).w
  {
    RoadCorners();
    var n := SurfaceRowCount();
    var ti := Fraction(i, n);
    var tj := Fraction(j, n);
    assert ti < tj by {
      assert (i as real) < (j as real);
      assert ti * (n as real) == i as real;
      assert tj * (n as real) == j as real;
    }
    LerpDifference(NearRight().x, FarRight().x, NearLeft().x, FarLeft().x, ti);
    LerpDifference(NearRight().x, FarRight().x, NearLeft().x, FarLeft().x, tj);
    assert SurfaceRow(i).w == 750.0 - 637.5 * ti;
    assert SurfaceRow(j).w == 750.0 - 637.5 * tj;
  }

  const EDGE_THICKNESS: real := 3.0

  /**
   * `generate_road_edges_geometry`: for each surface row, the strip pushed for the
   * left edge and the one pushed for the right edge.
   */
  function Edges(): (r: seq<(Line, Line)>)
    ensures |r| == |Surface()|
    ensures forall i :: 0 <= i < |r| ==>
              r[i].0.y == r[i].1.y == Surface()[i].y &&
              r[i].0.w == r[i].1.w == EDGE_THICKNESS &&
              r[i].0.x + r[i].0.w == Surface()[i].x && r[i].1.x == Surface()[i].x + Surface()[i].w
    ensures forall i :: 0 <= i < |r| ==>
              NearLeft().x - EDGE_THICKNESS <= r[i].0.x && r[i].1.x + r[i].1.w <= NearRight().x + EDGE_THICKNESS
  {
    seq(SurfaceRowCount(), i requires 0 <= i < SurfaceRowCount() =>
      var s := SurfaceRow(i);
      (Line(s.x - EDGE_THICKNESS, s.y, EDGE_THICKNESS), Line(s.x + s.w, s.y, EDGE_THICKNESS)))
  }

  // ---------------------------------------------------------------------------
  // Lane-divider animation

  /** Spacing between dashes shrinks with speed, between 30 and twice the base spacing. */
  function DividerSpacing(playerSpeed: real): (sp: int)
    ensures 30 <= sp <= 2 * LANE_DIVIDER_SPACING
    ensures playerSpeed == PLAYER_START_SPEED ==> sp == LANE_DIVIDER_SPACING
  {
    var m := MaxR(playerSpeed / PLAYER_START_SPEED, 0.5);
    assert 0.0 < 60.0 / m <= 120.0 by {
      assert m * 120.0 >= 60.0;
    }
    var q := Trunc(LANE_DIVIDER_SPACING as real / m);
    if q >= 30 then q else 30
  }

  lemma TruncMonotone(x: real, y: real)
    requires 0.0 <= x <= y
    ensures Trunc(x) <= Trunc(y)
  {
  }

  /** Faster play never spreads the dashes further apart. */
  lemma SpacingShrinksWithSpeed(a: real, b: real)
    requires a <= b
    ensures DividerSpacing(b) <= DividerSpacing(a)
  {
    var ma := MaxR(a / PLAYER_START_SPEED, 0.5);
    var mb := MaxR(b / PLAYER_START_SPEED, 0.5);
    assert ma <= mb;
    assert 60.0 / mb <= 60.0 / ma by {
      assert (60.0 / mb) * mb == 60.0 == (60.0 / ma) * ma;
      assert (60.0 / mb) * ma <= (60.0 / mb) * mb;
    }
    TruncMonotone(60.0 / mb, 60.0 / ma);
  }

  /** `distance.to_i % divider_spacing` (Ruby's modulo, non-negative for a positive divisor). */
  function DividerOffset(distance: real, spacing: int): (o: int)
    requires spacing > 0
    ensures 0 <= o < spacing
    ensures Trunc(distance) == (Trunc(distance) / spacing) * spacing + o
  {
    Trunc(distance) % spacing
  }

  /** Midpoints of neighbouring lanes. */
  function Midpoints(ls: seq<real>): (r: seq<real>)
    requires |ls| >= 1
    ensures |r| == |ls| - 1
    ensures forall i :: 0 <= i < |r| ==> r[i] + r[i] == ls[i] + ls[i + 1]
  {
    seq(|ls| - 1, i requires 0 <= i < |ls| - 1 => (ls[i] + ls[i + 1]) / 2.0)
  }

  /** One divider between each pair of neighbouring lanes, half a lane from each. */
  lemma DividersBetweenLanes()
    ensures |Midpoints(LANES)| == NUM_LANES - 1
    ensures forall i :: 0 <= i < NUM_LANES - 1 ==>
              LANES[i] < Midpoints(LANES)[i] < LANES[i + 1] &&
              Midpoints(LANES)[i] - LANES[i] == (LANE_WIDTH / 2) as real
  {
    LaneTableFacts();
  }

  /** Depths of the dash rows: y, y + spacing, ... while below the horizon. */
  function Rows(y: int, spacing: int): (r: seq<int>)
    requires spacing > 0
    ensures forall i :: 0 <= i < |r| ==> r[i] == y + i * spacing
    ensures forall i :: 0 <= i < |r| ==> r[i] < WORLD_DEPTH
    ensures y + |r| * spacing >= WORLD_DEPTH
    decreases WORLD_DEPTH - y
  {
    if y >= WORLD_DEPTH then []
    else
      var rest := Rows(y + spacing, spacing);
      assert forall i :: 0 <= i < |rest| ==> rest[i] == y + (i + 1) * spacing;
      [y] + rest
  }

  /** The first dash row starts at or below the camera and rows cover the road up to the horizon. */
  lemma RowsCoverRoad(distance: real, spacing: int)
    requires spacing > 0
    ensures var rs := Rows(-DividerOffset(distance, spacing), spacing);
            |rs| > 0 && -spacing < rs[0] <= 0 && rs[|rs| - 1] + spacing >= WORLD_DEPTH
  {
  }

  /** A dash's two ends on screen and the widths there. */
  datatype Dash = Dash(start: ScreenPoint, end: ScreenPoint, widthStart: real, widthEnd: real)

  /** `perspective_scale` for an Integer `world_y`: the ratio is floor division by 1000. */
  function DepthRatioInt(worldY: int): (t: int)
    ensures worldY < WORLD_DEPTH ==> t == 0
    ensures worldY >= WORLD_DEPTH ==> t == 1
  {
    var q := worldY / WORLD_DEPTH;
    var lo := if q > 0 then q else 0;
    if lo < 1 then lo else 1
  }

  /** `world_to_screen` for an Integer `world_y`. */
  function WorldToScreenInt(c: Camera, worldX: real, worldY: int): (p: ScreenPoint)
    ensures worldY <= 0 || worldY >= WORLD_DEPTH ==> p == WorldToScreen(c, worldX, worldY as real)
    ensures worldY < WORLD_DEPTH ==> p.scale == 1.0 && p.y == CAMERA_Y_OFFSET
  {
    var t := DepthRatioInt(worldY) as real;
    var scale := ScaleAt(t);
    ScreenPoint(VANISHING_POINT_X + c.shakeOffsetX + worldX * scale,
                CAMERA_Y_OFFSET + t * (VANISHING_POINT_Y + c.shakeOffsetY - CAMERA_Y_OFFSET), scale)
  }

  /** A dash at an Integer row, as `draw_lane_dividers` computes it. */
  function DividerAsWritten(c: Camera, dividerX: real, worldY: int): (d: Dash)
    ensures d.start == WorldToScreenInt(c, dividerX, worldY)
    ensures d.end == WorldToScreenInt(c, dividerX, worldY + LANE_DIVIDER_LENGTH)
  {
    var sStart := WorldToScreenInt(c, dividerX, worldY).scale;
    var sEnd := WorldToScreenInt(c, dividerX, worldY + LANE_DIVIDER_LENGTH).scale;
    Dash(WorldToScreenInt(c, dividerX, worldY), WorldToScreenInt(c, dividerX, worldY + LANE_DIVIDER_LENGTH),
         LANE_DIVIDER_WIDTH as real * sStart, LANE_DIVIDER_WIDTH as real * sEnd)
  }

  /** The dash with the Float depth the rest of the renderer uses. */
  function Divider(c: Camera, dividerX: real, worldY: int): (d: Dash)
    ensures d.start == WorldToScreen(c, dividerX, worldY as real)
    ensures d.end == WorldToScreen(c, dividerX, (worldY + LANE_DIVIDER_LENGTH) as real)
    ensures PERSPECTIVE_STRENGTH * LANE_DIVIDER_WIDTH as real <= d.widthEnd <= d.widthStart <= LANE_DIVIDER_WIDTH as real
  {
    var s := WorldToScreen(c, dividerX, worldY as real);
    var e := WorldToScreen(c, dividerX, (worldY + LANE_DIVIDER_LENGTH) as real);
    ScaleMonotone(worldY as real, (worldY + LANE_DIVIDER_LENGTH) as real);
    Dash(s, e, LANE_DIVIDER_WIDTH as real * s.scale, LANE_DIVIDER_WIDTH as real * e.scale)
  }

  /** Every divider, row by row: `Rows(-offset)` outermost, the lane midpoints inside. */
  function DividersWith(c: Camera, distance: real, playerSpeed: real, asWritten: bool): (r: seq<seq<Dash>>)
    ensures var rs := Rows(-DividerOffset(distance, DividerSpacing(playerSpeed)), DividerSpacing(playerSpeed));
            |r| == |rs| &&
            forall i :: 0 <= i < |r| ==>
              (|r[i]| == NUM_LANES - 1 &&
               forall k :: 0 <= k < NUM_LANES - 1 ==>
                 r[i][k] == (if asWritten then DividerAsWritten(c, Midpoints(LANES)[k], rs[i])
                             else Divider(c, Midpoints(LANES)[k], rs[i])))
  {
    var sp := DividerSpacing(playerSpeed);
    var rs := Rows(-DividerOffset(distance, sp), sp);
    var xs := Midpoints(LANES);
    seq(|rs|, i requires 0 <= i < |rs| =>
      seq(|xs|, k requires 0 <= k < |xs| =>
        if asWritten then DividerAsWritten(c, xs[k], rs[i]) else Divider(c, xs[k], rs[i])))
  }

  /**
   * As written, every dash whose far end is still short of the horizon collapses to
   * a flat full-width line at the bottom of the screen, whatever its depth; with a
   * Float depth the same dash runs up the screen and tapers.
   */
  lemma IntegerDepthFlattensDashes(c: Camera, dividerX: real, worldY: int)
    requires 0 < worldY && worldY + LANE_DIVIDER_LENGTH < WORLD_DEPTH
    requires c.shakeOffsetY == 0.0
    ensures DividerAsWritten(c, dividerX, worldY).start.y == CAMERA_Y_OFFSET
    ensures DividerAsWritten(c, dividerX, worldY).end.y == CAMERA_Y_OFFSET
    ensures DividerAsWritten(c, dividerX, worldY).widthStart == LANE_DIVIDER_WIDTH as real
    ensures DividerAsWritten(c, dividerX, worldY).widthEnd == LANE_DIVIDER_WIDTH as real
    ensures CAMERA_Y_OFFSET < Divider(c, dividerX, worldY).start.y < Divider(c, dividerX, worldY).end.y
    ensures Divider(c, dividerX, worldY).widthEnd < Divider(c, dividerX, worldY).widthStart < LANE_DIVIDER_WIDTH as real
  {
    ScaleMonotone(0.0, worldY as real);
    ScaleMonotone(worldY as real, (worldY + LANE_DIVIDER_LENGTH) as real);
    var a := DepthRatio(worldY as real);
    var b := DepthRatio((worldY + LANE_DIVIDER_LENGTH) as real);
    assert a * 1000.0 == worldY as real;
    assert b * 1000.0 == (worldY + LANE_DIVIDER_LENGTH) as real;
    assert 0.0 < a < b;
  }

  /**
   * The frame's dashes as the renderer draws them: no speed is passed, so the
   * default spacing of 60 applies, and the row depths stay Integers, so each dash
   * is the Integer-depth one.
   */
  function RenderDividers(c: Camera, roadOffset: real): (r: seq<seq<Dash>>)
    ensures var rs := Rows(-DividerOffset(roadOffset, LANE_DIVIDER_SPACING), LANE_DIVIDER_SPACING);
            |r| == |rs| &&
            forall i :: 0 <= i < |r| ==>
              |r[i]| == NUM_LANES - 1 &&
              forall k :: 0 <= k < NUM_LANES - 1 ==> r[i][k] == DividerAsWritten(c, Midpoints(LANES)[k], rs[i])
  {
    DividersWith(c, roadOffset, PLAYER_START_SPEED, true)
  }

  /**
   * In a frame with the camera at rest, every dash whose row lies strictly between
   * the camera and one dash length short of the horizon is drawn as a flat
   * full-width line on the camera baseline.
   */
  lemma RenderedDashesAreFlat(c: Camera, roadOffset: real, i: nat, k: nat)
    requires c.shakeOffsetY == 0.0
    requires var rs := Rows(-DividerOffset(roadOffset, LANE_DIVIDER_SPACING), LANE_DIVIDER_SPACING);
             i < |rs| && k < NUM_LANES - 1 && 0 < rs[i] && rs[i] + LANE_DIVIDER_LENGTH < WORLD_DEPTH
    ensures var d := RenderDividers(c, roadOffset)[i][k];
            d.start.y == CAMERA_Y_OFFSET && d.end.y == CAMERA_Y_OFFSET &&
            d.widthStart == LANE_DIVIDER_WIDTH as real && d.widthEnd == LANE_DIVIDER_WIDTH as real
  {
    var rs := Rows(-DividerOffset(roadOffset, LANE_DIVIDER_SPACING), LANE_DIVIDER_SPACING);
    IntegerDepthFlattensDashes(c, Midpoints(LANES)[k], rs[i]);
  }

  // ---------------------------------------------------------------------------
  // Filling one dash

  /** `[((top_y - bottom_y).abs / 2).to_i, 1].max`. */
  function FillLineCount(bottomY: real, topY: real): (n: nat)
    ensures n >= 1
    ensures n as real <= MaxR(AbsR(topY - bottomY) / 2.0, 1.0)
  {
    var q := Trunc(AbsR(topY - bottomY) / 2.0);
    if q >= 1 then q else 1
  }

  /** `draw_divider_trapezoid`: interpolated rows from the near end toward the far end. */
  function FillLines(d: Dash): (r: seq<Line>)
    ensures |r| == FillLineCount(d.start.y, d.end.y)
    ensures r[0] == Line(d.start.x - d.widthStart / 2.0, d.start.y, d.widthStart)
    ensures forall i :: 0 <= i < |r| ==>
              MinR(d.start.y, d.end.y) <= r[i].y <= MaxR(d.start.y, d.end.y) &&
              MinR(d.widthStart, d.widthEnd) <= r[i].w <= MaxR(d.widthStart, d.widthEnd)
  {
    var n := FillLineCount(d.start.y, d.end.y);
    seq(n, i requires 0 <= i < n => FillLine(d, Fraction(i, n)))
  }

  function FillLine(d: Dash, t: real): (l: Line)
    requires 0.0 <= t <= 1.0
    ensures MinR(d.start.y, d.end.y) <= l.y <= MaxR(d.start.y, d.end.y)
    ensures MinR(d.widthStart, d.widthEnd) <= l.w <= MaxR(d.widthStart, d.widthEnd)
    ensures t == 0.0 ==> l == Line(d.start.x - d.widthStart / 2.0, d.start.y, d.widthStart)
  {
    var bl := d.start.x - d.widthStart / 2.0;
    var br := d.start.x + d.widthStart / 2.0;
    var tl := d.end.x - d.widthEnd / 2.0;
    var tr := d.end.x + d.widthEnd / 2.0;
    var left := Lerp(bl, tl, t);
    var right := Lerp(br, tr, t);
    LerpDifference(br, tr, bl, tl, t);
    assert br - bl == d.widthStart && tr - tl == d.widthEnd;
    Line(left, Lerp(d.start.y, d.end.y, t), right - left)
  }
}

=== FILE: ruby_array.dfy ===
/**
 * Ruby's `Array#each` whose block deletes the element it is visiting.
 *
 * `each` walks an index cursor over the live array. When the block deletes the
 * current element, every later element moves down one slot and the cursor still
 * advances, so the element right after a deleted one is never visited in that
 * pass. `EachDelete` states this directly: after a deletion the next element is
 * kept untouched and the walk resumes one further on.
 *
 * `Sweep` is the mark-and-compact reference: every element is visited once.
 */
module RubyArray {

  /** Surviving elements, the accumulator after all effects, and how many were deleted. */
  datatype Pass<T, A> = Pass(kept: seq<T>, acc: A, removed: nat)

  /**
   * `s.each { |e| e = step(e); if gone(e) then acc = effect(acc, e); s.delete(e) }`
   * as Ruby runs it.
   */
  function EachDelete<T, A>(s: seq<T>, acc: A, step: T -> T, gone: T -> bool,
                            effect: (A, T) -> A): (r: Pass<T, A>)
    ensures |r.kept| + r.removed == |s|
    decreases |s|
  {
    if |s| == 0 then Pass([], acc, 0)
    else
      var e := step(s[0]);
      if gone(e) then
        if |s| == 1 then Pass([], effect(acc, e), 1)
        else
          // the cursor moves past s[1] without visiting it
          var rest := EachDelete(s[2..], effect(acc, e), step, gone, effect);
          Pass([s[1]] + rest.kept, rest.acc, rest.removed + 1)
      else
        var rest := EachDelete(s[1..], acc, step, gone, effect);
        Pass([e] + rest.kept, rest.acc, rest.removed)
  }

  /** The same block applied to a snapshot: every element is visited exactly once. */
  function Sweep<T, A>(s: seq<T>, acc: A, step: T -> T, gone: T -> bool,
                       effect: (A, T) -> A): (r: Pass<T, A>)
    ensures |r.kept| + r.removed == |s|
    ensures forall i :: 0 <= i < |r.kept| ==> !gone(r.kept[i])
    ensures forall i :: 0 <= i < |r.kept| ==> exists j :: 0 <= j < |s| && r.kept[i] == step(s[j])
    ensures forall j :: 0 <= j < |s| && !gone(step(s[j])) ==> step(s[j]) in r.kept
    decreases |s|
  {
    if |s| == 0 then Pass([], acc, 0)
    else
      var e := step(s[0]);
      if gone(e) then
        var rest := Sweep(s[1..], effect(acc, e), step, gone, effect);
        Pass(rest.kept, rest.acc, rest.removed + 1)
      else
        var rest := Sweep(s[1..], acc, step, gone, effect);
        Pass([e] + rest.kept, rest.acc, rest.removed)
  }

  /** `g` applied n times. */
  function Iterate<A>(g: A -> A, a: A, n: nat): A
    decreases n
  {
    if n == 0 then a else Iterate(g, g(a), n - 1)
  }

  /** An effect that does not look at the deleted element. */
  function Ignore<A, T>(g: A -> A): (A, T) -> A
  {
    (a: A, e: T) => g(a)
  }

  /** One more application in front is one more at the end. */
  lemma {:induction false} IterateShift<A>(g: A -> A, a: A, n: nat)
    ensures Iterate(g, a, n + 1) == Iterate(g, g(a), n)
  {
  }

  /** Ruby's walk with an effect that ignores the deleted element: the effect iterated once per deletion. */
  lemma {:induction false} EachDeleteIsIterate<T, A>(s: seq<T>, acc: A, step: T -> T, gone: T -> bool, g: A -> A)
    ensures EachDelete(s, acc, step, gone, Ignore(g)).acc == Iterate(g, acc, EachDelete(s, acc, step, gone, Ignore(g)).removed)
    decreases |s|
  {
    var effect: (A, T) -> A := Ignore(g);
    if |s| > 0 {
      var acc1 := effect(acc, step(s[0]));
      assert acc1 == g(acc);
      if gone(step(s[0])) {
        if |s| > 1 {
          EachDeleteIsIterate(s[2..], acc1, step, gone, g);
          IterateShift(g, acc, EachDelete(s[2..], acc1, step, gone, effect).removed);
        }
      } else {
        EachDeleteIsIterate(s[1..], acc, step, gone, g);
      }
    }
  }

  /** The snapshot walk with an effect that ignores the deleted element: the same count of applications. */
  lemma {:induction false} SweepIsIterate<T, A>(s: seq<T>, acc: A, step: T -> T, gone: T -> bool, g: A -> A)
    ensures Sweep(s, acc, step, gone, Ignore(g)).acc == Iterate(g, acc, Sweep(s, acc, step, gone, Ignore(g)).removed)
    decreases |s|
  {
    var effect: (A, T) -> A := Ignore(g);
    if |s| > 0 {
      var acc1 := effect(acc, step(s[0]));
      assert acc1 == g(acc);
      if gone(step(s[0])) {
        SweepIsIterate(s[1..], acc1, step, gone, g);
        IterateShift(g, acc, Sweep(s[1..], acc1, step, gone, effect).removed);
      } else {
        SweepIsIterate(s[1..], acc, step, gone, g);
      }
    }
  }

  /** When the effect ignores which element was deleted, the accumulator is the effect iterated once per deletion. */
  lemma EffectIsIterate<T, A>(s: seq<T>, acc: A, step: T -> T, gone: T -> bool, g: A -> A)
    ensures EachDelete(s, acc, step, gone, Ignore(g)).acc == Iterate(g, acc, EachDelete(s, acc, step, gone, Ignore(g)).removed)
    ensures Sweep(s, acc, step, gone, Ignore(g)).acc == Iterate(g, acc, Sweep(s, acc, step, gone, Ignore(g)).removed)
  {
    EachDeleteIsIterate(s, acc, step, gone, g);
    SweepIsIterate(s, acc, step, gone, g);
  }

  /** How many elements the block would delete if it visited each of them. */
  function CountGone<T>(s: seq<T>, step: T -> T, gone: T -> bool): (n: nat)
    ensures n <= |s|
    decreases |s|
  {
    if |s| == 0 then 0 else (if gone(step(s[0])) then 1 else 0) + CountGone(s[1..], step, gone)
  }

  /** The snapshot walk deletes exactly the elements the block condemns. */
  lemma {:induction false} SweepRemovesCondemned<T, A>(s: seq<T>, acc: A, step: T -> T, gone: T -> bool,
                                                       effect: (A, T) -> A)
    ensures Sweep(s, acc, step, gone, effect).removed == CountGone(s, step, gone)
    decreases |s|
  {
    if |s| > 0 {
      SweepRemovesCondemned(s[1..], acc, step, gone, effect);
      SweepRemovesCondemned(s[1..], effect(acc, step(s[0])), step, gone, effect);
    }
  }

  function MapSeq<T>(s: seq<T>, f: T -> T): (r: seq<T>)
    ensures |r| == |s| && forall i :: 0 <= i < |s| ==> r[i] == f(s[i])
  {
    seq(|s|, i requires 0 <= i < |s| => f(s[i]))
  }

  /** When the block deletes nothing, Ruby's walk and the snapshot agree, and both just step every element. */
  lemma {:induction false} NoDeletionAgrees<T, A>(s: seq<T>, acc: A, step: T -> T, gone: T -> bool,
                                                  effect: (A, T) -> A)
    requires forall i :: 0 <= i < |s| ==> !gone(step(s[i]))
    ensures EachDelete(s, acc, step, gone, effect) == Sweep(s, acc, step, gone, effect)
    ensures EachDelete(s, acc, step, gone, effect) == Pass(MapSeq(s, step), acc, 0)
    decreases |s|
  {
    if |s| > 0 {
      NoDeletionAgrees(s[1..], acc, step, gone, effect);
      assert MapSeq(s, step) == [step(s[0])] + MapSeq(s[1..], step);
    }
  }

  /** A block that neither changes nor deletes anything leaves the array and the accumulator as they were. */
  lemma KeepAll<T, A>(s: seq<T>, acc: A, step: T -> T, gone: T -> bool, effect: (A, T) -> A)
    requires forall i :: 0 <= i < |s| ==> step(s[i]) == s[i] && !gone(s[i])
    ensures EachDelete(s, acc, step, gone, effect) == Pass(s, acc, 0)
    ensures Sweep(s, acc, step, gone, effect) == Pass(s, acc, 0)
  {
    NoDeletionAgrees(s, acc, step, gone, effect);
    assert MapSeq(s, step) == s;
  }

  /** With a block that does not change elements, the snapshot walk keeps exactly the elements it does not condemn. */
  lemma SweepFilters<T, A>(s: seq<T>, acc: A, step: T -> T, gone: T -> bool, effect: (A, T) -> A)
    requires forall i :: 0 <= i < |s| ==> step(s[i]) == s[i]
    ensures var r := Sweep(s, acc, step, gone, effect).kept;
            forall i :: 0 <= i < |r| ==> r[i] in s && !gone(r[i])
    ensures forall x :: x in s && !gone(x) ==> x in Sweep(s, acc, step, gone, effect).kept
  {
    var r := Sweep(s, acc, step, gone, effect).kept;
    forall i | 0 <= i < |r|
      ensures r[i] in s
    {
      var j :| 0 <= j < |s| && r[i] == step(s[j]);
    }
    forall x | x in s && !gone(x)
      ensures x in r
    {
      var j :| 0 <= j < |s| && s[j] == x;
      assert step(s[j]) == x;
    }
  }

  /** Two neighbours that are both deleted by the block: Ruby's walk keeps the second one, unvisited. */
  lemma AdjacentDeletionSkips<T, A>(a: T, b: T, acc: A, step: T -> T, gone: T -> bool,
                                    effect: (A, T) -> A)
    requires gone(step(a)) && gone(step(b))
    ensures EachDelete([a, b], acc, step, gone, effect) == Pass([b], effect(acc, step(a)), 1)
    ensures Sweep([a, b], acc, step, gone, effect) == Pass([], effect(effect(acc, step(a)), step(b)), 2)
  {
    assert [a, b][2..] == [];
    assert [a, b][1..] == [b];
    assert [b][1..] == [];
    var acc1 := effect(acc, step(a));
    assert Sweep([b], acc1, step, gone, effect) == Pass([], effect(acc1, step(b)), 1);
  }

  /** A property that holds of every element and that `step` keeps holds of every survivor, in both walks. */
  lemma {:induction false} KeptPreserves<T, A>(s: seq<T>, acc: A, step: T -> T, gone: T -> bool,
                                               effect: (A, T) -> A, p: T -> bool)
    requires forall i :: 0 <= i < |s| ==> p(s[i])
    requires forall e :: p(e) ==> p(step(e))
    ensures forall i :: 0 <= i < |EachDelete(s, acc, step, gone, effect).kept| ==>
              p(EachDelete(s, acc, step, gone, effect).kept[i])
    ensures forall i :: 0 <= i < |Sweep(s, acc, step, gone, effect).kept| ==>
              p(Sweep(s, acc, step, gone, effect).kept[i])
    decreases |s|
  {
    if |s| > 0 {
      KeptPreserves(s[1..], acc, step, gone, effect, p);
      KeptPreserves(s[1..], effect(acc, step(s[0])), step, gone, effect, p);
      if |s| > 1 {
        KeptPreserves(s[2..], effect(acc, step(s[0])), step, gone, effect, p);
      }
    }
  }
}

=== FILE: runner_config.dfy ===
/**
 * Configuration of the endless runner (test-first-game/app/config/constants.rb).
 * World coordinates are reals; the Ruby integer constants keep their integer
 * values. ROAD_MIN_X and ROAD_MAX_X use Ruby's integer division of LANE_WIDTH by 2.
 */
module RunnerConfig {

  datatype Color = Color(r: int, g: int, b: int)

  const SCREEN_WIDTH: int := 1280
  const SCREEN_HEIGHT: int := 720

  const VANISHING_POINT_X: real := 640.0
  const VANISHING_POINT_Y: real := 680.0
  const PERSPECTIVE_STRENGTH: real := 0.15
  const WORLD_DEPTH: int := 1000
  const CAMERA_Y_OFFSET: real := 0.0

  const LANE_WIDTH: int := 150
  const LANES: seq<real> := [-300.0, -150.0, 0.0, 150.0, 300.0]
  const NUM_LANES: int := |LANES|

  const ROAD_MIN_X: real := LANES[0] - (LANE_WIDTH / 2) as real
  const ROAD_MAX_X: real := LANES[|LANES| - 1] + (LANE_WIDTH / 2) as real
  const ROAD_WIDTH: real := ROAD_MAX_X - ROAD_MIN_X

  const PLAYER_START_X: real := 0.0
  const PLAYER_START_SPEED: real := 8.0
  const PLAYER_WIDTH: real := 40.0
  const PLAYER_HEIGHT: real := 60.0
  const PLAYER_Y_POSITION: real := 0.0
  const PLAYER_HORIZONTAL_SPEED: real := 10.0
  const PLAYER_COLOR: Color := Color(50, 150, 255)

  const OBSTACLE_HEIGHT: real := 100.0
  const OBSTACLE_COLORS: seq<Color> := [Color(200, 50, 50), Color(150, 50, 150), Color(50, 150, 100)]

  const COIN_SIZE: real := 30.0
  const COIN_SPEED_BOOST: real := 0.5
  const COIN_SCORE_VALUE: int := 10
  const COIN_COLOR: Color := Color(255, 215, 0)

  const GAME_OVER_THRESHOLD: real := 0.1
  const SPEED_DECAY_ON_HIT: real := 2.0
  const DISTANCE_MULTIPLIER: real := 0.1

  const BASE_OBSTACLE_SPAWN_INTERVAL: int := 150
  const MIN_OBSTACLE_SPAWN_INTERVAL: int := 80

  const LANE_DIVIDER_WIDTH: int := 8
  const LANE_DIVIDER_SPACING: int := 60
  const LANE_DIVIDER_LENGTH: int := 40

  /** Lanes are evenly spaced, strictly increasing, and every lane lies strictly inside the road. */
  lemma LaneTableFacts()
    ensures NUM_LANES == 5
    ensures forall i :: 0 <= i < NUM_LANES - 1 ==> LANES[i + 1] - LANES[i] == LANE_WIDTH as real
    ensures forall i, j :: 0 <= i < j < NUM_LANES ==> LANES[i] < LANES[j]
    ensures ROAD_MIN_X == -375.0 && ROAD_MAX_X == 375.0
    ensures forall i :: 0 <= i < NUM_LANES ==> ROAD_MIN_X < LANES[i] < ROAD_MAX_X
    ensures ROAD_WIDTH == 750.0 == (NUM_LANES * LANE_WIDTH) as real
  {
  }

  /** The camera and gameplay constants are ordered the way the projection and the game-over rule need. */
  lemma TuningFacts()
    ensures 0.0 < PERSPECTIVE_STRENGTH < 1.0
    ensures CAMERA_Y_OFFSET < VANISHING_POINT_Y < SCREEN_HEIGHT as real
    ensures GAME_OVER_THRESHOLD < SPEED_DECAY_ON_HIT < PLAYER_START_SPEED
    ensures MIN_OBSTACLE_SPAWN_INTERVAL < BASE_OBSTACLE_SPAWN_INTERVAL
    ensures |OBSTACLE_COLORS| == 3
  {
  }
}

=== FILE: runner_entities.dfy ===
/**
 * Player, Obstacle and Coin of the endless runner
 * (test-first-game/app/entities/player.rb, obstacle.rb, coin.rb).
 * `OBSTACLE_COLORS.sample` becomes the index it picks.
 */
module RunnerEntities {
  import opened RunnerConfig
  import opened Numeric

  /** The `bounds` hash: x is the horizontal centre, y the near edge. */
  datatype Box = Box(x: real, y: real, w: real, h: real)

  datatype Player = Player(x: real, y: real, w: real, h: real, speed: real,
                           horizontalVelocity: real, color: Color)

  datatype Obstacle = Obstacle(x: real, y: real, w: real, h: real, color: Color)

  datatype Coin = Coin(x: real, y: real, w: real, h: real, color: Color)

  // ---------------------------------------------------------------------------
  // Player

  function NewPlayer(): (p: Player)
    ensures p.x == PLAYER_START_X && p.y == PLAYER_Y_POSITION && p.speed == PLAYER_START_SPEED
    ensures p.w == PLAYER_WIDTH && p.h == PLAYER_HEIGHT && p.horizontalVelocity == 0.0
    ensures !PlayerGameOver(p)
  {
    Player(PLAYER_START_X, PLAYER_Y_POSITION, PLAYER_WIDTH, PLAYER_HEIGHT,
           PLAYER_START_SPEED, 0.0, PLAYER_COLOR)
  }

  /** `update`: apply the horizontal velocity, then clamp to the road. */
  function UpdatePlayer(p: Player): (r: Player)
    ensures ROAD_MIN_X <= r.x <= ROAD_MAX_X
    ensures ROAD_MIN_X <= p.x + p.horizontalVelocity <= ROAD_MAX_X ==> r.x == p.x + p.horizontalVelocity
    ensures p.x + p.horizontalVelocity < ROAD_MIN_X ==> r.x == ROAD_MIN_X
    ensures p.x + p.horizontalVelocity > ROAD_MAX_X ==> r.x == ROAD_MAX_X
    ensures r == p.(x := r.x)
  {
    p.(x := MaxMin(p.x + p.horizontalVelocity, ROAD_MIN_X, ROAD_MAX_X))
  }

  function MoveLeft(p: Player): (r: Player)
    ensures r.horizontalVelocity == -PLAYER_HORIZONTAL_SPEED
    ensures r == p.(horizontalVelocity := r.horizontalVelocity)
  {
    p.(horizontalVelocity := -PLAYER_HORIZONTAL_SPEED)
  }

  function MoveRight(p: Player): (r: Player)
    ensures r.horizontalVelocity == PLAYER_HORIZONTAL_SPEED
    ensures r == p.(horizontalVelocity := r.horizontalVelocity)
  {
    p.(horizontalVelocity := PLAYER_HORIZONTAL_SPEED)
  }

  function StopHorizontalMovement(p: Player): (r: Player)
    ensures r.horizontalVelocity == 0.0
    ensures r == p.(horizontalVelocity := r.horizontalVelocity)
  {
    p.(horizontalVelocity := 0.0)
  }

  /** `hit_obstacle`: lose SPEED_DECAY_ON_HIT, never below zero. */
  function HitObstacle(p: Player): (r: Player)
    ensures r.speed >= 0.0
    ensures p.speed >= SPEED_DECAY_ON_HIT ==> r.speed == p.speed - SPEED_DECAY_ON_HIT
    ensures p.speed < SPEED_DECAY_ON_HIT ==> r.speed == 0.0
    ensures r == p.(speed := r.speed)
  {
    p.(speed := MaxR(p.speed - SPEED_DECAY_ON_HIT, 0.0))
  }

  /** `collect_coin`: gain COIN_SPEED_BOOST. */
  function CollectCoin(p: Player): (r: Player)
    ensures r.speed - p.speed == COIN_SPEED_BOOST
    ensures r == p.(speed := r.speed)
  {
    p.(speed := p.speed + COIN_SPEED_BOOST)
  }

  predicate PlayerGameOver(p: Player)
  {
    p.speed <= GAME_OVER_THRESHOLD
  }

  /** `reset`: position, speed and velocity return to their start values; size and colour stay. */
  function ResetPlayer(p: Player): (r: Player)
    ensures r == NewPlayer().(w := p.w, h := p.h, color := p.color)
  {
    p.(x := PLAYER_START_X, y := PLAYER_Y_POSITION, speed := PLAYER_START_SPEED, horizontalVelocity := 0.0)
  }

  function PlayerBounds(p: Player): (b: Box)
    ensures b.x == p.x && b.y == p.y && b.w == p.w && b.h == p.h
  {
    Box(p.x, p.y, p.w, p.h)
  }

  /** From the start speed three hits leave 2.0 and do not end the game; the fourth does. */
  lemma FourHitsEndTheGame(p: Player)
    requires p.speed == PLAYER_START_SPEED
    ensures HitObstacle(HitObstacle(HitObstacle(p))).speed == 2.0
    ensures !PlayerGameOver(HitObstacle(HitObstacle(HitObstacle(p))))
    ensures HitObstacle(HitObstacle(HitObstacle(HitObstacle(p)))).speed == 0.0
    ensures PlayerGameOver(HitObstacle(HitObstacle(HitObstacle(HitObstacle(p)))))
  {
  }

  // ---------------------------------------------------------------------------
  // Obstacle

  /** `Obstacle.new(x_position, width, distance)` with the sampled colour index. */
  function NewObstacle(xPosition: real, width: real, distance: real, colorPick: nat): (o: Obstacle)
    requires colorPick < |OBSTACLE_COLORS|
    ensures o.x == xPosition && o.w == width && o.y == distance && o.h == OBSTACLE_HEIGHT
    ensures o.color in OBSTACLE_COLORS
  {
    Obstacle(xPosition, distance, width, OBSTACLE_HEIGHT, OBSTACLE_COLORS[colorPick])
  }

  function UpdateObstacle(o: Obstacle, playerSpeed: real): (r: Obstacle)
    ensures o.y - r.y == playerSpeed
    ensures r == o.(y := r.y)
  {
    o.(y := o.y - playerSpeed)
  }

  predicate ObstacleOffScreen(o: Obstacle)
  {
    o.y < -100.0
  }

  function ObstacleBounds(o: Obstacle): (b: Box)
    ensures b.x == o.x && b.y == o.y && b.w == o.w && b.h == o.h
  {
    Box(o.x, o.y, o.w, o.h)
  }

  function UpdateObstacleN(o: Obstacle, playerSpeed: real, n: nat): (r: Obstacle)
    decreases n
  {
    if n == 0 then o else UpdateObstacleN(UpdateObstacle(o, playerSpeed), playerSpeed, n - 1)
  }

  lemma {:induction false} UpdateObstacleNMoves(o: Obstacle, playerSpeed: real, n: nat)
    ensures UpdateObstacleN(o, playerSpeed, n) == o.(y := o.y - n as real * playerSpeed)
    decreases n
  {
    if n > 0 {
      UpdateObstacleNMoves(UpdateObstacle(o, playerSpeed), playerSpeed, n - 1);
    }
  }

  /** At a positive speed every obstacle leaves the screen after finitely many updates. */
  lemma ObstacleEventuallyOffScreen(o: Obstacle, playerSpeed: real) returns (n: nat)
    requires playerSpeed > 0.0
    ensures ObstacleOffScreen(UpdateObstacleN(o, playerSpeed, n))
  {
    var k := Floor((o.y + 100.0) / playerSpeed) + 1;
    n := if k < 0 then 0 else k;
    UpdateObstacleNMoves(o, playerSpeed, n);
    assert (o.y + 100.0) / playerSpeed < n as real;
    assert o.y + 100.0 < n as real * playerSpeed;
  }

  // ---------------------------------------------------------------------------
  // Coin

  function NewCoin(xPosition: real, distance: real): (c: Coin)
    ensures c.x == xPosition && c.y == distance && c.w == COIN_SIZE && c.h == COIN_SIZE
    ensures c.color == COIN_COLOR
  {
    Coin(xPosition, distance, COIN_SIZE, COIN_SIZE, COIN_COLOR)
  }

  function UpdateCoin(c: Coin, playerSpeed: real): (r: Coin)
    ensures c.y - r.y == playerSpeed
    ensures r == c.(y := r.y)
  {
    c.(y := c.y - playerSpeed)
  }

  predicate CoinOffScreen(c: Coin)
  {
    c.y < -100.0
  }

  function CoinBounds(c: Coin): (b: Box)
    ensures b.x == c.x && b.y == c.y && b.w == c.w && b.h == c.h
  {
    Box(c.x, c.y, c.w, c.h)
  }
}

=== FILE: runner_game.dfy ===
/**
 * Input handling (test-first-game/app/systems/input_handler.rb) as a function of
 * the key states it reads.
 */
module RunnerInput {
  import opened RunnerEntities
  import opened RunnerGameState

  /** `key_down.r` and the held states of left, a, right and d. */
  datatype Keys = Keys(restart: bool, left: bool, a: bool, right: bool, d: bool)

  function Process(g: GameState, k: Keys): (r: GameState)
    ensures g.gameOver && k.restart ==> r == Reset(g)
    ensures g.gameOver && !k.restart ==> r == g
    ensures !g.gameOver ==> r == g.(player := r.player)
    ensures !g.gameOver ==> r.player == g.player.(horizontalVelocity := r.player.horizontalVelocity)
    ensures !g.gameOver && (k.left || k.a) ==> r.player == MoveLeft(g.player)
    ensures !g.gameOver && !(k.left || k.a) && (k.right || k.d) ==> r.player == MoveRight(g.player)
    ensures !g.gameOver && !(k.left || k.a || k.right || k.d) ==> r.player.horizontalVelocity == 0.0
  {
    if g.gameOver && k.restart then Reset(g)
    else if g.gameOver then g
    else if k.left || k.a then g.(player := MoveLeft(g.player))
    else if k.right || k.d then g.(player := MoveRight(g.player))
    else g.(player := StopHorizontalMovement(g.player))
  }
}

/**
 * The endless runner's frame (test-first-game/app/game.rb): input, then, unless the
 * game is over, update -> spawn -> collide. Rendering is separate (module RunnerRenderer).
 *
 * `Tick` uses the corrected collision pass and spawner and also restarts the
 * spawner's watermarks on a restart; `TickAsWritten` keeps the source's behaviour:
 * one Spawner for the whole session, lane indices as x, and the raising collision pass.
 */
module RunnerGame {
  import opened Wrappers
  import opened RunnerConfig
  import opened RunnerEntities
  import opened RunnerGameState
  import opened RunnerInput
  import RunnerSpawner
  import CollisionDetector

  datatype Game = Game(state: GameState, spawner: RunnerSpawner.Spawner)

  function New(): (g: Game)
    ensures g.state == RunnerGameState.New() && g.spawner == RunnerSpawner.New()
  {
    Game(RunnerGameState.New(), RunnerSpawner.New())
  }

  /** The logic phase of a running frame: the distance grows by the speed, the score never falls. */
  function Step(g: GameState, s: RunnerSpawner.Spawner, d: RunnerSpawner.Draws): (r: (GameState, RunnerSpawner.Spawner))
    requires RunnerSpawner.ValidDraws(d)
    ensures r.0.distance == g.distance + g.player.speed * DISTANCE_MULTIPLIER
    ensures r.0.score >= g.score
    ensures r.0.gameOver <==> g.gameOver || g.player.speed <= GAME_OVER_THRESHOLD
  {
    var g1 := Update(g);
    var (g2, s2) := RunnerSpawner.Update(g1, s, d);
    (CollisionDetector.CheckCollisions(g2), s2)
  }

  function Tick(game: Game, k: Keys, d: RunnerSpawner.Draws): (r: Game)
    requires RunnerSpawner.ValidDraws(d)
    ensures game.state.gameOver && !k.restart ==> r == game
    ensures !game.state.gameOver ==>
              r.state.distance == game.state.distance + game.state.player.speed * DISTANCE_MULTIPLIER
    ensures !game.state.gameOver ==> r.state.score >= game.state.score
    ensures !game.state.gameOver ==>
              (r.state.gameOver <==> game.state.player.speed <= GAME_OVER_THRESHOLD)
  {
    var st := Process(game.state, k);
    if st.gameOver then Game(st, game.spawner)
    else
      // on a restart the corrected game starts the spawner afresh as well
      var s := if game.state.gameOver then RunnerSpawner.New() else game.spawner;
      var (g2, s2) := Step(st, s, d);
      Game(g2, s2)
  }

  /** A restart clears the run: fresh spawner, empty road, score 0, one frame's distance, still running. */
  lemma TickRestarts(game: Game, k: Keys, d: RunnerSpawner.Draws)
    requires RunnerSpawner.ValidDraws(d) && game.state.gameOver && k.restart
    ensures var r := Tick(game, k, d);
            r.spawner == RunnerSpawner.New() && r.state.obstacles == [] && r.state.coins == [] &&
            r.state.score == 0 && r.state.distance == PLAYER_START_SPEED * DISTANCE_MULTIPLIER && !r.state.gameOver
  {
    var st := Process(game.state, k);
    var g1 := Update(st);
    RunnerSpawner.NoEarlySpawn(g1, RunnerSpawner.New(), d);
    CollisionDetector.NothingHitAgrees(g1);
  }

  function TickAsWritten(game: Game, k: Keys, d: RunnerSpawner.Draws): (r: Result<Game>)
    requires RunnerSpawner.ValidDraws(d)
    ensures game.state.gameOver && !k.restart ==> r == Success(game)
  {
    var st := Process(game.state, k);
    if st.gameOver then Success(Game(st, game.spawner))
    else StepAsWritten(st, game.spawner, d)
  }

  /**
   * The logic phase as written: it raises exactly when a spawned-on road has an
   * obstacle over the player; otherwise the distance grows by the speed, the score
   * never falls and the spawner moves on as the corrected one would.
   */
  function StepAsWritten(g: GameState, s: RunnerSpawner.Spawner, d: RunnerSpawner.Draws): (r: Result<Game>)
    requires RunnerSpawner.ValidDraws(d)
    ensures var g2 := RunnerSpawner.UpdateAsWritten(Update(g), s, d).0;
            r.Failure? <==> exists i :: 0 <= i < |g2.obstacles| &&
                              CollisionDetector.BoxesOverlap(PlayerBounds(g2.player),
                                                             ObstacleBounds(g2.obstacles[i]))
    ensures r.Failure? ==> r.error == ArgumentError("wrong number of arguments (given 1, expected 0)")
    ensures r.Success? ==> r.value.state.distance == g.distance + g.player.speed * DISTANCE_MULTIPLIER
    ensures r.Success? ==> r.value.state.score >= g.score && r.value.state.gameOver == Update(g).gameOver
    ensures r.Success? ==> r.value.spawner == RunnerSpawner.Update(Update(g), s, d).1
  {
    var g1 := Update(g);
    var (g2, s2) := RunnerSpawner.UpdateAsWritten(g1, s, d);
    var r := CollisionDetector.CheckCollisionsAsWritten(g2);
    if r.Success? then Success(Game(r.value, s2)) else Failure(r.error)
  }

  /** As written, a restart keeps the spawner it had; when its watermarks are not negative nothing spawns in that frame. */
  lemma TickAsWrittenRestarts(game: Game, k: Keys, d: RunnerSpawner.Draws)
    requires RunnerSpawner.ValidDraws(d) && game.state.gameOver && k.restart
    requires game.spawner.lastObstacleSpawn >= 0.0 && game.spawner.lastCoinSpawn >= 0.0
    ensures TickAsWritten(game, k, d) == Success(Game(Update(Reset(game.state)), game.spawner))
  {
    var st := Process(game.state, k);
    assert st == Reset(game.state);
    var g1 := Update(st);
    assert g1.obstacles == [] && g1.coins == [] && !g1.gameOver;
    assert RunnerSpawner.UpdateAsWritten(g1, game.spawner, d) == (g1, game.spawner);
    assert CollisionDetector.CheckCollisionsAsWritten(g1) == Success(g1) by {
      CollisionDetector.NothingHitAgrees(g1);
    }
  }

  /** While the game is over and R is not pressed, nothing at all changes: logic is frozen. */
  lemma FrozenWhileOver(game: Game, k: Keys, d: RunnerSpawner.Draws)
    requires RunnerSpawner.ValidDraws(d) && game.state.gameOver && !k.restart
    ensures Tick(game, k, d) == game
  {
  }

  /**
   * The game-over latch is set inside `update`, before collisions: a hit that
   * drops the speed to the threshold does not end the game in the same frame.
   */
  lemma FatalHitLatchesNextFrame(game: Game, k: Keys, d: RunnerSpawner.Draws)
    requires RunnerSpawner.ValidDraws(d)
    requires !game.state.gameOver && game.state.player.speed > GAME_OVER_THRESHOLD
    ensures !Tick(game, k, d).state.gameOver
    ensures Tick(game, k, d).state.player.speed <= GAME_OVER_THRESHOLD ==>
              Tick(Tick(game, k, d), k, d).state.gameOver
  {
  }

  /**
   * Entities spawned in a frame are collision-checked at the horizon without having
   * moved; the player, at depth 0, cannot reach them, so each survives the frame
   * at y = WORLD_DEPTH.
   */
  lemma SpawnedSurviveAtHorizon(game: Game, k: Keys, d: RunnerSpawner.Draws)
    requires RunnerSpawner.ValidDraws(d) && !game.state.gameOver
    requires game.state.player.y == PLAYER_Y_POSITION && game.state.player.h == PLAYER_HEIGHT
    requires RunnerSpawner.ObstacleDue(Update(Process(game.state, k)), game.spawner)
    ensures RunnerSpawner.LaneObstacle(d.lanePick, d.spanPick + 1, d.colorPick) in Tick(game, k, d).state.obstacles
  {
    var st := Process(game.state, k);
    var g1 := Update(st);
    var (g2, s2) := RunnerSpawner.Update(g1, game.spawner, d);
    var o := RunnerSpawner.LaneObstacle(d.lanePick, d.spanPick + 1, d.colorPick);
    assert o == g2.obstacles[|g1.obstacles|];
    assert !CollisionDetector.BoxesOverlap(PlayerBounds(g2.player), ObstacleBounds(o));
  }

  /**
   * As written, a restart keeps the previous run's watermarks, so after restarting
   * from a run whose last obstacle spawned at distance w, nothing spawns until the
   * new distance passes w + 150; the corrected game restarts them at 0.
   */
  lemma RestartKeepsWatermarks(game: Game, k: Keys, d: RunnerSpawner.Draws)
    requires RunnerSpawner.ValidDraws(d) && game.state.gameOver && k.restart
    requires game.spawner.lastObstacleSpawn > 0.0 && game.spawner.lastCoinSpawn >= 0.0
    ensures TickAsWritten(game, k, d).Success?
    ensures TickAsWritten(game, k, d).value.spawner == game.spawner
    ensures TickAsWritten(game, k, d).value.state.distance == PLAYER_START_SPEED * DISTANCE_MULTIPLIER
    ensures !RunnerSpawner.ObstacleDue(TickAsWritten(game, k, d).value.state.(distance := 150.0), game.spawner)
    ensures Tick(game, k, d).spawner == RunnerSpawner.New()
  {
    TickAsWrittenRestarts(game, k, d);
    TickRestarts(game, k, d);
  }
}

=== FILE: runner_game_state.dfy ===
/**
 * The endless runner's GameState (test-first-game/app/game_state.rb): the player,
 * the obstacle and coin lists, score, distance, road offset and the game-over latch.
 * `reject!` is a compacting filter, so it is the snapshot walk of RubyArray.
 */
module RunnerGameState {
  import opened RunnerConfig
  import opened RunnerEntities
  import RubyArray

  datatype GameState = GameState(player: Player, obstacles: seq<Obstacle>, coins: seq<Coin>,
                                 score: int, distance: real, roadOffset: real, gameOver: bool)

  function New(): (g: GameState)
    ensures g.player == NewPlayer()
    ensures g.obstacles == [] && g.coins == []
    ensures g.score == 0 && g.distance == 0.0 && g.roadOffset == 0.0 && !g.gameOver
  {
    GameState(NewPlayer(), [], [], 0, 0.0, 0.0, false)
  }

  /** `@obstacles.each { |o| o.update(speed) }; @obstacles.reject!(&:off_screen?)`. */
  function MoveObstacles(os: seq<Obstacle>, speed: real): (r: seq<Obstacle>)
    ensures forall i :: 0 <= i < |r| ==> !ObstacleOffScreen(r[i])
    ensures forall i :: 0 <= i < |r| ==> exists j :: 0 <= j < |os| && r[i] == UpdateObstacle(os[j], speed)
    ensures forall j :: 0 <= j < |os| && !ObstacleOffScreen(UpdateObstacle(os[j], speed)) ==>
              UpdateObstacle(os[j], speed) in r
  {
    RubyArray.Sweep(os, 0, (o: Obstacle) => UpdateObstacle(o, speed),
                    (o: Obstacle) => ObstacleOffScreen(o), (n: int, o: Obstacle) => n).kept
  }

  /** `@coins.each { |c| c.update(speed) }; @coins.reject!(&:off_screen?)`. */
  function MoveCoins(cs: seq<Coin>, speed: real): (r: seq<Coin>)
    ensures forall i :: 0 <= i < |r| ==> !CoinOffScreen(r[i])
    ensures forall i :: 0 <= i < |r| ==> exists j :: 0 <= j < |cs| && r[i] == UpdateCoin(cs[j], speed)
    ensures forall j :: 0 <= j < |cs| && !CoinOffScreen(UpdateCoin(cs[j], speed)) ==>
              UpdateCoin(cs[j], speed) in r
  {
    RubyArray.Sweep(cs, 0, (c: Coin) => UpdateCoin(c, speed),
                    (c: Coin) => CoinOffScreen(c), (n: int, c: Coin) => n).kept
  }

  /** `update`: advance distance and road offset, move everything, drop what passed, latch game over. */
  function Update(g: GameState): (r: GameState)
    ensures r.distance == g.distance + g.player.speed * DISTANCE_MULTIPLIER
    ensures r.roadOffset == g.roadOffset + g.player.speed
    ensures r.player == UpdatePlayer(g.player)
    ensures r.score == g.score
    ensures forall i :: 0 <= i < |r.obstacles| ==>
              !ObstacleOffScreen(r.obstacles[i]) &&
              exists j :: 0 <= j < |g.obstacles| && r.obstacles[i] == UpdateObstacle(g.obstacles[j], g.player.speed)
    ensures forall i :: 0 <= i < |r.coins| ==>
              !CoinOffScreen(r.coins[i]) &&
              exists j :: 0 <= j < |g.coins| && r.coins[i] == UpdateCoin(g.coins[j], g.player.speed)
    ensures forall j :: 0 <= j < |g.obstacles| && !ObstacleOffScreen(UpdateObstacle(g.obstacles[j], g.player.speed)) ==>
              UpdateObstacle(g.obstacles[j], g.player.speed) in r.obstacles
    ensures forall j :: 0 <= j < |g.coins| && !CoinOffScreen(UpdateCoin(g.coins[j], g.player.speed)) ==>
              UpdateCoin(g.coins[j], g.player.speed) in r.coins
    ensures g.gameOver ==> r.gameOver
    ensures r.gameOver <==> g.gameOver || g.player.speed <= GAME_OVER_THRESHOLD
  {
    var p := UpdatePlayer(g.player);
    GameState(p, MoveObstacles(g.obstacles, p.speed), MoveCoins(g.coins, p.speed), g.score,
              g.distance + g.player.speed * DISTANCE_MULTIPLIER, g.roadOffset + g.player.speed,
              if PlayerGameOver(p) then true else g.gameOver)
  }

  /** `reset`: every field back to its initial value; the player keeps only its size and colour. */
  function Reset(g: GameState): (r: GameState)
    ensures r == New().(player := ResetPlayer(g.player))
    ensures g.player.w == PLAYER_WIDTH && g.player.h == PLAYER_HEIGHT && g.player.color == PLAYER_COLOR ==> r == New()
  {
    GameState(ResetPlayer(g.player), [], [], 0, 0.0, 0.0, false)
  }
}

=== FILE: runner_renderer.dfy ===
/**
 * The arithmetic of test-first-game/app/rendering/renderer.rb: one draw entry per
 * game object, ordered far-to-near, and the choice between HUD and game-over
 * overlay. The sprites themselves are output and are not modelled.
 */
module RunnerRenderer {
  import opened RunnerConfig
  import opened RunnerEntities
  import opened RunnerGameState
  import opened PerspectiveCamera
  import RoadRenderer

  /** A collected `{depth:, primitive:}` entry. */
  datatype Entry = Entry(depth: real, rect: ScreenRect, color: Color)

  function ObstacleEntry(c: Camera, o: Obstacle): (e: Entry)
    ensures e.depth == o.y && e.color == o.color
    ensures e.rect == WorldRectToScreen(c, o.x, o.y, o.w, o.h)
  {
    Entry(o.y, WorldRectToScreen(c, o.x, o.y, o.w, o.h), o.color)
  }

  function CoinEntry(c: Camera, k: Coin): (e: Entry)
    ensures e.depth == k.y && e.color == k.color
    ensures e.rect == WorldRectToScreen(c, k.x, k.y, k.w, k.h)
  {
    Entry(k.y, WorldRectToScreen(c, k.x, k.y, k.w, k.h), k.color)
  }

  function PlayerEntry(c: Camera, p: Player): (e: Entry)
    ensures e.depth == p.y && e.color == p.color
    ensures e.rect == WorldRectToScreen(c, p.x, p.y, p.w, p.h)
  {
    Entry(p.y, WorldRectToScreen(c, p.x, p.y, p.w, p.h), p.color)
  }

  /** Obstacles, then coins, then the player, each projected once. */
  function Collect(c: Camera, g: GameState): (r: seq<Entry>)
    ensures |r| == |g.obstacles| + |g.coins| + 1
    ensures forall i :: 0 <= i < |g.obstacles| ==> r[i] == ObstacleEntry(c, g.obstacles[i])
    ensures forall i :: 0 <= i < |g.coins| ==> r[|g.obstacles| + i] == CoinEntry(c, g.coins[i])
    ensures r[|r| - 1] == PlayerEntry(c, g.player)
  {
    seq(|g.obstacles|, i requires 0 <= i < |g.obstacles| => ObstacleEntry(c, g.obstacles[i])) +
    seq(|g.coins|, i requires 0 <= i < |g.coins| => CoinEntry(c, g.coins[i])) +
    [PlayerEntry(c, g.player)]
  }

  /** Far first: depths never increase along the sequence. */
  predicate FarFirst(s: seq<Entry>)
  {
    forall i, j :: 0 <= i < j < |s| ==> s[j].depth <= s[i].depth
  }

  /** An entry at least as far as everything in a far-first sequence can go in front of it. */
  lemma FarFirstCons(h: Entry, t: seq<Entry>)
    requires FarFirst(t)
    requires forall k :: 0 <= k < |t| ==> t[k].depth <= h.depth
    ensures FarFirst([h] + t)
  {
    var r := [h] + t;
    forall i, j | 0 <= i < j < |r|
      ensures r[j].depth <= r[i].depth
    {
      assert r[j] == t[j - 1];
      if i > 0 {
        assert r[i] == t[i - 1];
      }
    }
  }

  /** Place `e` in a far-first sequence before the first entry that is not farther than it. */
  function Insert(e: Entry, s: seq<Entry>): (r: seq<Entry>)
    requires FarFirst(s)
    ensures FarFirst(r)
    ensures multiset(r) == multiset(s) + multiset{e}
    ensures forall x :: x in r ==> x == e || x in s
    ensures |r| == |s| + 1
  {
    if |s| == 0 then [e]
    else if s[0].depth <= e.depth then
      assert forall k :: 0 <= k < |s| ==> s[k].depth <= e.depth by {
        forall k | 0 <= k < |s|
          ensures s[k].depth <= e.depth
        {
          if k > 0 {
            assert s[k].depth <= s[0].depth;
          }
        }
      }
      FarFirstCons(e, s);
      [e] + s
    else
      var rest := Insert(e, s[1..]);
      assert s == [s[0]] + s[1..];
      assert forall k :: 0 <= k < |rest| ==> rest[k].depth <= s[0].depth by {
        forall k | 0 <= k < |rest|
          ensures rest[k].depth <= s[0].depth
        {
          assert rest[k] in rest;
          if rest[k] != e {
            assert rest[k] in s[1..];
            var m :| 0 <= m < |s[1..]| && s[1..][m] == rest[k];
            assert s[m + 1] == rest[k];
          }
        }
      }
      FarFirstCons(s[0], rest);
      [s[0]] + rest
  }

  /** `sort_by { -depth }`: a far-first permutation of the collected entries. */
  function SortFarFirst(s: seq<Entry>): (r: seq<Entry>)
    ensures FarFirst(r)
    ensures multiset(r) == multiset(s)
    ensures |r| == |s|
  {
    if |s| == 0 then []
    else
      assert s == [s[0]] + s[1..];
      Insert(s[0], SortFarFirst(s[1..]))
  }

  /** The entries drawn, in drawing order. */
  function DrawOrder(c: Camera, g: GameState): (r: seq<Entry>)
    ensures FarFirst(r) && |r| == |g.obstacles| + |g.coins| + 1
    ensures multiset(r) == multiset(Collect(c, g))
  {
    SortFarFirst(Collect(c, g))
  }

  /** Every game object has its entry among the collected ones. */
  lemma CollectHasAll(c: Camera, g: GameState)
    ensures PlayerEntry(c, g.player) in Collect(c, g)
    ensures forall o :: o in g.obstacles ==> ObstacleEntry(c, o) in Collect(c, g)
    ensures forall k :: k in g.coins ==> CoinEntry(c, k) in Collect(c, g)
  {
    var all := Collect(c, g);
    assert all[|all| - 1] in all;
    forall o | o in g.obstacles
      ensures ObstacleEntry(c, o) in all
    {
      var i :| 0 <= i < |g.obstacles| && g.obstacles[i] == o;
      assert all[i] == ObstacleEntry(c, o);
    }
    forall k | k in g.coins
      ensures CoinEntry(c, k) in all
    {
      var i :| 0 <= i < |g.coins| && g.coins[i] == k;
      assert all[|g.obstacles| + i] == CoinEntry(c, k);
    }
  }

  /** Nothing is lost in sorting: the player, every obstacle and every coin are drawn. */
  lemma DrawOrderDrawsAll(c: Camera, g: GameState)
    ensures PlayerEntry(c, g.player) in DrawOrder(c, g)
    ensures forall o :: o in g.obstacles ==> ObstacleEntry(c, o) in DrawOrder(c, g)
    ensures forall k :: k in g.coins ==> CoinEntry(c, k) in DrawOrder(c, g)
  {
    var all := Collect(c, g);
    var r := DrawOrder(c, g);
    CollectHasAll(c, g);
    forall e | e in all
      ensures e in r
    {
      assert e in multiset(all);
    }
  }

  /** In a far-first sequence, an element strictly nearer than every other one comes last. */
  lemma NearestComesLast(r: seq<Entry>, e: Entry)
    requires FarFirst(r) && e in r
    requires forall x :: x in r && x != e ==> x.depth > e.depth
    ensures r[|r| - 1] == e
  {
    var j :| 0 <= j < |r| && r[j] == e;
    assert j < |r| - 1 ==> r[|r| - 1].depth <= e.depth;
  }

  /** Every collected entry other than the player's lies beyond depth 0 when everything else does. */
  lemma CollectedBeyondPlayer(c: Camera, g: GameState)
    requires g.player.y == PLAYER_Y_POSITION
    requires forall o :: o in g.obstacles ==> o.y > PLAYER_Y_POSITION
    requires forall k :: k in g.coins ==> k.y > PLAYER_Y_POSITION
    ensures forall e :: e in Collect(c, g) && e != PlayerEntry(c, g.player) ==> e.depth > PLAYER_Y_POSITION
  {
    var all := Collect(c, g);
    forall e | e in all && e != PlayerEntry(c, g.player)
      ensures e.depth > PLAYER_Y_POSITION
    {
      var i :| 0 <= i < |all| && all[i] == e;
      if i < |g.obstacles| {
        assert g.obstacles[i] in g.obstacles;
      } else {
        assert g.coins[i - |g.obstacles|] in g.coins;
      }
    }
  }

  /** Two sequences with the same multiset have the same members. */
  lemma SameMembers(a: seq<Entry>, b: seq<Entry>, x: Entry)
    requires multiset(a) == multiset(b)
    ensures x in a <==> x in b
  {
    assert x in a <==> x in multiset(a);
    assert x in b <==> x in multiset(b);
  }

  /** In a far-first rearrangement of `all`, an entry of `all` nearer than every other one comes last. */
  lemma NearestOfPermutationLast(all: seq<Entry>, r: seq<Entry>, p: Entry)
    requires FarFirst(r) && multiset(r) == multiset(all) && |r| == |all| && p in all
    requires forall x :: x in all && x != p ==> x.depth > p.depth
    ensures r[|r| - 1] == p
  {
    SameMembers(all, r, p);
    forall x | x in r && x != p
      ensures x.depth > p.depth
    {
      SameMembers(all, r, x);
    }
    NearestComesLast(r, p);
  }

  /** On a running game the player, at depth 0 in front of everything still on screen, is drawn last. */
  lemma PlayerDrawnLast(c: Camera, g: GameState)
    requires g.player.y == PLAYER_Y_POSITION
    requires forall o :: o in g.obstacles ==> o.y > PLAYER_Y_POSITION
    requires forall k :: k in g.coins ==> k.y > PLAYER_Y_POSITION
    ensures DrawOrder(c, g)[|DrawOrder(c, g)| - 1] == PlayerEntry(c, g.player)
  {
    var all := Collect(c, g);
    CollectedBeyondPlayer(c, g);
    assert all[|all| - 1] in all;
    NearestOfPermutationLast(all, DrawOrder(c, g), PlayerEntry(c, g.player));
  }

  /** The text layer: HUD while running, the game-over screen once the latch is set. */
  datatype Overlay =
    | Hud(score: int, distance: real, speed: real)
    | GameOverScreen(score: int, distance: real)

  function ChooseOverlay(g: GameState): (o: Overlay)
    ensures o.GameOverScreen? <==> g.gameOver
    ensures o.score == g.score && o.distance == g.distance
    ensures o.Hud? ==> o.speed == g.player.speed
  {
    if g.gameOver then GameOverScreen(g.score, g.distance) else Hud(g.score, g.distance, g.player.speed)
  }

  /**
   * What `render` lays down in one frame. The fields follow the render order the
   * comment in renderer.rb lists (surface, dividers, objects, edges, overlay); the
   * draw calls themselves put the edges down with the rest of the road, before the
   * objects.
   */
  datatype Frame = Frame(surface: seq<RoadRenderer.Line>, dividers: seq<seq<RoadRenderer.Dash>>,
                         objects: seq<Entry>, edges: seq<(RoadRenderer.Line, RoadRenderer.Line)>,
                         overlay: Overlay)

  function Render(c: Camera, g: GameState): (f: Frame)
    ensures |f.objects| == |g.obstacles| + |g.coins| + 1 && FarFirst(f.objects)
    ensures multiset(f.objects) == multiset(Collect(c, g))
    ensures f.overlay.GameOverScreen? <==> g.gameOver
    ensures |f.surface| == |f.edges| == 340
    ensures f.dividers == RoadRenderer.RenderDividers(c, g.roadOffset)
  {
    Frame(RoadRenderer.Surface(), RoadRenderer.RenderDividers(c, g.roadOffset), DrawOrder(c, g),
          RoadRenderer.Edges(), ChooseOverlay(g))
  }
}

=== FILE: runner_spawner.dfy ===
/**
 * The endless runner's Spawner (test-first-game/app/systems/spawner.rb).
 * Watermarks are compared with the game's distance; the literal intervals 150 and
 * 80 are the ones the code uses. `rand(3)`, `rand(max_start_lane + 1)`,
 * `OBSTACLE_COLORS.sample` and `rand(NUM_LANES)` become the fields of `Draws`.
 *
 * `SpawnObstaclesAsWritten` / `SpawnCoinsAsWritten` pass the lane index as the
 * world x and the span as the width, as the source does; `SpawnObstacles` /
 * `SpawnCoins` place the entity on the lane table instead.
 */
module RunnerSpawner {
  import opened RunnerConfig
  import opened RunnerEntities
  import opened RunnerGameState

  const OBSTACLE_INTERVAL: real := 150.0
  const COIN_INTERVAL: real := 80.0

  datatype Spawner = Spawner(lastObstacleSpawn: real, lastCoinSpawn: real)

  /** The random draws of one `update`: `rand(3)`, `rand(max_start_lane + 1)`, the colour sample and `rand(NUM_LANES)`. */
  datatype Draws = Draws(spanPick: nat, lanePick: nat, colorPick: nat, coinLane: nat)

  predicate ValidDraws(d: Draws)
  {
    d.spanPick < 3 && d.lanePick <= NUM_LANES - (d.spanPick + 1) &&
    d.colorPick < |OBSTACLE_COLORS| && d.coinLane < NUM_LANES
  }

  function New(): (s: Spawner)
    ensures s.lastObstacleSpawn == 0.0 && s.lastCoinSpawn == 0.0
  {
    Spawner(0.0, 0.0)
  }

  predicate ObstacleDue(g: GameState, s: Spawner)
  {
    g.distance - s.lastObstacleSpawn > OBSTACLE_INTERVAL
  }

  predicate CoinDue(g: GameState, s: Spawner)
  {
    g.distance - s.lastCoinSpawn > COIN_INTERVAL
  }

  lemma LaneAt(i: int)
    requires 0 <= i < NUM_LANES
    ensures LANES[i] == -300.0 + 150.0 * i as real
  {
  }

  /** World x of the centre of lanes [lane, lane + span). */
  function SpanCentre(lane: nat, span: nat): (x: real)
    requires 1 <= span && lane + span <= NUM_LANES
    ensures x == -300.0 + 150.0 * lane as real + 75.0 * (span - 1) as real
  {
    LaneAt(lane);
    LaneAt(lane + span - 1);
    (LANES[lane] + LANES[lane + span - 1]) / 2.0
  }

  // ---------------------------------------------------------------------------
  // As written: lane index as x, span as width

  function SpawnObstaclesAsWritten(g: GameState, s: Spawner, d: Draws): (r: (GameState, Spawner))
    requires ValidDraws(d)
    ensures ObstacleDue(g, s) ==> |r.0.obstacles| == |g.obstacles| + 1
    ensures ObstacleDue(g, s) ==>
              var o := r.0.obstacles[|g.obstacles|];
              r.0.obstacles == g.obstacles + [o] && r.1.lastObstacleSpawn == g.distance &&
              o.y == WORLD_DEPTH as real && 0.0 <= o.x <= 4.0 && 1.0 <= o.w <= 3.0 &&
              o.x + o.w <= NUM_LANES as real
    ensures !ObstacleDue(g, s) ==> r == (g, s)
    ensures r.0 == g.(obstacles := r.0.obstacles) && r.1.lastCoinSpawn == s.lastCoinSpawn
  {
    if ObstacleDue(g, s) then
      var span := d.spanPick + 1;
      var lane := d.lanePick;
      var o := NewObstacle(lane as real, span as real, WORLD_DEPTH as real, d.colorPick);
      (g.(obstacles := g.obstacles + [o]), s.(lastObstacleSpawn := g.distance))
    else (g, s)
  }

  function SpawnCoinsAsWritten(g: GameState, s: Spawner, d: Draws): (r: (GameState, Spawner))
    requires ValidDraws(d)
    ensures CoinDue(g, s) ==> |r.0.coins| == |g.coins| + 1
    ensures CoinDue(g, s) ==>
              var c := r.0.coins[|g.coins|];
              r.0.coins == g.coins + [c] && r.1.lastCoinSpawn == g.distance &&
              c.y == WORLD_DEPTH as real && c.x == d.coinLane as real
    ensures !CoinDue(g, s) ==> r == (g, s)
    ensures r.0 == g.(coins := r.0.coins) && r.1.lastObstacleSpawn == s.lastObstacleSpawn
  {
    if CoinDue(g, s) then
      var c := NewCoin(d.coinLane as real, WORLD_DEPTH as real);
      (g.(coins := g.coins + [c]), s.(lastCoinSpawn := g.distance))
    else (g, s)
  }

  /**
   * `update` as written: the same due tests and watermarks as the corrected one,
   * but a new obstacle sits at the lane index with the span as its width, and a new
   * coin at the lane index.
   */
  function UpdateAsWritten(g: GameState, s: Spawner, d: Draws): (r: (GameState, Spawner))
    requires ValidDraws(d)
    ensures r.0 == g.(obstacles := r.0.obstacles, coins := r.0.coins)
    ensures r.0.obstacles == (if ObstacleDue(g, s) then g.obstacles + [NewObstacle(d.lanePick as real, (d.spanPick + 1) as real, WORLD_DEPTH as real, d.colorPick)] else g.obstacles)
    ensures r.0.coins == (if CoinDue(g, s) then g.coins + [NewCoin(d.coinLane as real, WORLD_DEPTH as real)] else g.coins)
    ensures r.1.lastObstacleSpawn == (if ObstacleDue(g, s) then g.distance else s.lastObstacleSpawn)
    ensures r.1.lastCoinSpawn == (if CoinDue(g, s) then g.distance else s.lastCoinSpawn)
  {
    var (g1, s1) := SpawnObstaclesAsWritten(g, s, d);
    SpawnCoinsAsWritten(g1, s1, d)
  }

  // ---------------------------------------------------------------------------
  // Corrected: entities placed on the lane table

  /** The obstacle covering lanes [lane, lane + span): centred on them and LANE_WIDTH wide per lane. */
  function LaneObstacle(lane: nat, span: nat, colorPick: nat): (o: Obstacle)
    requires 1 <= span && lane + span <= NUM_LANES && colorPick < |OBSTACLE_COLORS|
    ensures ROAD_MIN_X <= o.x - o.w / 2.0 && o.x + o.w / 2.0 <= ROAD_MAX_X
    ensures o.x - o.w / 2.0 == LANES[lane] - (LANE_WIDTH / 2) as real
    ensures o.x + o.w / 2.0 == LANES[lane + span - 1] + (LANE_WIDTH / 2) as real
    ensures o.y == WORLD_DEPTH as real && o.h == OBSTACLE_HEIGHT
  {
    LaneAt(lane);
    LaneAt(lane + span - 1);
    NewObstacle(SpanCentre(lane, span), (span * LANE_WIDTH) as real, WORLD_DEPTH as real, colorPick)
  }

  function SpawnObstacles(g: GameState, s: Spawner, d: Draws): (r: (GameState, Spawner))
    requires ValidDraws(d)
    ensures ObstacleDue(g, s) ==>
              r.0.obstacles == g.obstacles + [LaneObstacle(d.lanePick, d.spanPick + 1, d.colorPick)] &&
              r.1.lastObstacleSpawn == g.distance
    ensures !ObstacleDue(g, s) ==> r == (g, s)
    ensures r.0 == g.(obstacles := r.0.obstacles) && r.1.lastCoinSpawn == s.lastCoinSpawn
  {
    if ObstacleDue(g, s) then
      var o := LaneObstacle(d.lanePick, d.spanPick + 1, d.colorPick);
      (g.(obstacles := g.obstacles + [o]), s.(lastObstacleSpawn := g.distance))
    else (g, s)
  }

  function SpawnCoins(g: GameState, s: Spawner, d: Draws): (r: (GameState, Spawner))
    requires ValidDraws(d)
    ensures CoinDue(g, s) ==>
              r.0.coins == g.coins + [NewCoin(LANES[d.coinLane], WORLD_DEPTH as real)] &&
              r.1.lastCoinSpawn == g.distance
    ensures !CoinDue(g, s) ==> r == (g, s)
    ensures r.0 == g.(coins := r.0.coins) && r.1.lastObstacleSpawn == s.lastObstacleSpawn
  {
    if CoinDue(g, s) then
      (g.(coins := g.coins + [NewCoin(LANES[d.coinLane], WORLD_DEPTH as real)]), s.(lastCoinSpawn := g.distance))
    else (g, s)
  }

  /** `update`: at most one obstacle and at most one coin, both at the horizon; nothing else in the state changes. */
  function Update(g: GameState, s: Spawner, d: Draws): (r: (GameState, Spawner))
    requires ValidDraws(d)
    ensures r.0 == g.(obstacles := r.0.obstacles, coins := r.0.coins)
    ensures |g.obstacles| <= |r.0.obstacles| <= |g.obstacles| + 1
    ensures |g.coins| <= |r.0.coins| <= |g.coins| + 1
    ensures r.0.obstacles[..|g.obstacles|] == g.obstacles && r.0.coins[..|g.coins|] == g.coins
    ensures forall i :: |g.obstacles| <= i < |r.0.obstacles| ==> r.0.obstacles[i].y == WORLD_DEPTH as real
    ensures forall i :: |g.coins| <= i < |r.0.coins| ==> r.0.coins[i].y == WORLD_DEPTH as real
    ensures |r.0.obstacles| == |g.obstacles| + 1 <==> ObstacleDue(g, s)
    ensures |r.0.coins| == |g.coins| + 1 <==> CoinDue(g, s)
    ensures r.1.lastObstacleSpawn == (if ObstacleDue(g, s) then g.distance else s.lastObstacleSpawn)
    ensures r.1.lastCoinSpawn == (if CoinDue(g, s) then g.distance else s.lastCoinSpawn)
  {
    var (g1, s1) := SpawnObstacles(g, s, d);
    SpawnCoins(g1, s1, d)
  }

  /**
   * The as-written update spawns on the same frames as the corrected one and moves the
   * watermarks alike; only where the new entities stand differs.
   */
  lemma AsWrittenSameSchedule(g: GameState, s: Spawner, d: Draws)
    requires ValidDraws(d)
    ensures UpdateAsWritten(g, s, d).1 == Update(g, s, d).1
    ensures |UpdateAsWritten(g, s, d).0.obstacles| == |Update(g, s, d).0.obstacles|
    ensures |UpdateAsWritten(g, s, d).0.coins| == |Update(g, s, d).0.coins|
    ensures UpdateAsWritten(g, s, d).0 == Update(g, s, d).0.(obstacles := UpdateAsWritten(g, s, d).0.obstacles,
                                                               coins := UpdateAsWritten(g, s, d).0.coins)
  {
  }

  /** A lane's player overlaps a freshly placed obstacle sideways exactly when its lane is one the obstacle covers. */
  lemma LaneCoverage(lane: nat, span: nat, colorPick: nat, playerLane: nat)
    requires 1 <= span && lane + span <= NUM_LANES && colorPick < |OBSTACLE_COLORS| && playerLane < NUM_LANES
    ensures var o := LaneObstacle(lane, span, colorPick);
            (-(PLAYER_WIDTH + o.w) / 2.0 < LANES[playerLane] - o.x < (PLAYER_WIDTH + o.w) / 2.0)
            <==> lane <= playerLane < lane + span
  {
    LaneAt(playerLane);
    var o := LaneObstacle(lane, span, colorPick);
    assert o.x == -300.0 + 150.0 * lane as real + 75.0 * (span - 1) as real;
    assert o.w == 150.0 * span as real;
  }

  /**
   * Counterexample for the as-written spawner: an obstacle meant for lane 0 is
   * put at x = 0, width 1, i.e. in the centre lane, where the player starts.
   */
  lemma LaneIndexAsX(g: GameState, s: Spawner)
    requires ObstacleDue(g, s)
    ensures var d := Draws(0, 0, 0, 0);
            var o := SpawnObstaclesAsWritten(g, s, d).0.obstacles[|g.obstacles|];
            o.x == 0.0 == PLAYER_START_X && o.w == 1.0 &&
            LaneObstacle(0, 1, 0).x == LANES[0] && LaneObstacle(0, 1, 0).w == LANE_WIDTH as real
  {
  }

  /** Until the distance passes a watermark by its interval, nothing spawns. */
  lemma NoEarlySpawn(g: GameState, s: Spawner, d: Draws)
    requires ValidDraws(d)
    requires g.distance <= s.lastObstacleSpawn + OBSTACLE_INTERVAL
    requires g.distance <= s.lastCoinSpawn + COIN_INTERVAL
    ensures Update(g, s, d).0 == g
    ensures Update(g, s, d).1 == s
  {
  }
}

=== FILE: score.dfy ===
/** `Score` of mygame/app/score.rb: points, missed windows and the death rule. */
module Score {

  const MAX_WINDOWS: int := 5

  datatype Score = Score(points: int, windowsMissed: int, highestStack: int, maxWindows: int)

  function NewScore(): (s: Score)
    ensures s.points == 0 && s.windowsMissed == 0 && s.highestStack == 0 && s.maxWindows == MAX_WINDOWS
    ensures !HasDied(s)
  {
    Score(0, 0, 0, MAX_WINDOWS)
  }

  /** `has_died?`. */
  predicate HasDied(s: Score)
  {
    s.windowsMissed >= s.maxWindows
  }

  /** `windows_missed += 1`, done by the window spawner for each window that scrolls away. */
  function Miss(s: Score): (r: Score)
    ensures r.windowsMissed == s.windowsMissed + 1
    ensures r == s.(windowsMissed := r.windowsMissed)
  {
    s.(windowsMissed := s.windowsMissed + 1)
  }

  function MissN(s: Score, n: nat): (r: Score)
    ensures r.windowsMissed == s.windowsMissed + n
    ensures r == s.(windowsMissed := r.windowsMissed)
  {
    if n == 0 then s else Miss(MissN(s, n - 1))
  }

  /** Death is a latch under misses: once dead, further misses keep the score dead. */
  lemma {:induction false} DeathIsPermanent(s: Score, n: nat)
    requires HasDied(s)
    ensures HasDied(MissN(s, n))
  {
  }

  /** From a fresh score, dying takes exactly five misses. */
  lemma FiveMissesKill(n: nat)
    ensures HasDied(MissN(NewScore(), n)) <==> n >= 5
  {
  }
}

=== FILE: windows.dfy ===
/**
 * `Window` and `WindowSpawner` of mygame/app/window.rb: drop-off windows that
 * drift down the screen, open when some raver touches them while the group
 * holds every type they ask for, and cost a life when they scroll away.
 *
 * `hit` stands for the engine's rectangle intersection test, which is not
 * modelled; random draws arrive in a `WindowRoll`.
 */
module Windows {
  import opened Wrappers
  import opened Numeric
  import opened Ravers
  import Score
  import RubyArray

  const SPAWN_INTERVAL: int := 300
  const MAX_TYPES_PERIOD: int := 7200
  const SPAWN_Y: real := 600.0
  const FALL_PER_TICK: real := 0.5
  const INDICATOR_SIZE: real := 70.0
  /** `indicator_size * 0.6`. */
  const INDICATOR_STEP: real := 42.0
  /** Windows left of this x fan their indicators out to the left. */
  const LEFT_HALF: real := 500.0

  datatype Window = Window(x: real, y: real, acceptedTypes: seq<RaverType>, canBeOpened: bool, spriteId: int)

  /** `Window.new(x:, y:, accepted_types:)` with `sprite_id` drawn by the caller. */
  function NewWindow(x: real, y: real, types: seq<RaverType>, spriteId: int): (w: Window)
    ensures w.x == x && w.y == y && w.acceptedTypes == types && !w.canBeOpened && w.spriteId == spriteId
  {
    Window(x, y, types, false, spriteId)
  }

  /** The drawn box: `w` × `h` of the prefab. */
  function PrefabSize(w: Window): (r: (real, real))
    ensures r.0 > r.1 > 0.0
  {
    if w.canBeOpened then (220.0, 110.0) else (200.0, 100.0)
  }

  /** `rect`: the hit box, a fixed 100 × 100 at the window's corner. */
  function WindowRect(w: Window): (r: Rect)
    ensures r.x == w.x && r.y == w.y && r.w == 100.0 && r.h == 100.0
  {
    Rect(w.x, w.y, 100.0, 100.0)
  }

  /** Opening widens the drawn box by 20 and raises it by 10, and never touches the hit box. */
  lemma OpeningGrowsOnlyTheSprite(w: Window)
    ensures PrefabSize(w.(canBeOpened := true)).0 == PrefabSize(w.(canBeOpened := false)).0 + 20.0
    ensures PrefabSize(w.(canBeOpened := true)).1 == PrefabSize(w.(canBeOpened := false)).1 + 10.0
    ensures PrefabSize(w.(canBeOpened := false)) == (200.0, 100.0)
    ensures WindowRect(w.(canBeOpened := true)) == WindowRect(w.(canBeOpened := false))
  {
  }

  /** One `indicator_prefabs` entry: a 70 × 70 icon for an accepted type. */
  datatype Indicator = Indicator(x: real, y: real, w: real, h: real, kind: RaverType)

  function IndicatorX(w: Window, index: nat): real
  {
    if w.x < LEFT_HALF then w.x - INDICATOR_STEP * index as real
    else w.x + PrefabSize(w).0 - INDICATOR_SIZE + INDICATOR_STEP * index as real
  }

  /** `indicator_prefabs`: one icon per accepted type, in order. */
  function Indicators(w: Window): (r: seq<Indicator>)
    ensures |r| == |w.acceptedTypes|
    ensures forall i :: 0 <= i < |r| ==> r[i].kind == w.acceptedTypes[i] && r[i].y == w.y &&
                                          r[i].w == INDICATOR_SIZE && r[i].h == INDICATOR_SIZE
  {
    seq(|w.acceptedTypes|, i requires 0 <= i < |w.acceptedTypes| =>
      Indicator(IndicatorX(w, i), w.y, INDICATOR_SIZE, INDICATOR_SIZE, w.acceptedTypes[i]))
  }

  /**
   * The icons fan out 42 apart: leftward from the window's x on the left half of
   * the screen, rightward from the box's right edge less one icon otherwise.
   */
  lemma IndicatorsFanOut(w: Window)
    ensures var r := Indicators(w);
            forall i :: 0 < i < |r| ==>
              r[i].x == (if w.x < LEFT_HALF then r[i - 1].x - INDICATOR_STEP else r[i - 1].x + INDICATOR_STEP)
    ensures |w.acceptedTypes| > 0 ==>
              Indicators(w)[0].x == (if w.x < LEFT_HALF then w.x else w.x + PrefabSize(w).0 - INDICATOR_SIZE)
    ensures forall i :: 0 <= i < |Indicators(w)| ==>
              (w.x < LEFT_HALF ==> Indicators(w)[i].x <= w.x) &&
              (w.x >= LEFT_HALF ==> Indicators(w)[i].x >= w.x + PrefabSize(w).0 - INDICATOR_SIZE)
  {
  }

  // ---------------------------------------------------------------------------
  // Opening

  /** `ravers.map(&:type)`. */
  function Kinds(rs: seq<Raver>): (r: seq<RaverType>)
    ensures |r| == |rs| && forall i :: 0 <= i < |rs| ==> r[i] == rs[i].kind
  {
    seq(|rs|, i requires 0 <= i < |rs| => rs[i].kind)
  }

  /** `raver_group.rects`. */
  function Rects(rs: seq<Raver>): (r: seq<Rect>)
    ensures |r| == |rs| && forall i :: 0 <= i < |rs| ==> r[i] == RaverRect(rs[i])
  {
    seq(|rs|, i requires 0 <= i < |rs| => RaverRect(rs[i]))
  }

  /** `Array#-`: the entries of `a` that do not occur anywhere in `b`, in order. */
  function Minus(a: seq<RaverType>, b: seq<RaverType>): (r: seq<RaverType>)
    ensures |r| <= |a|
    ensures forall i :: 0 <= i < |r| ==> r[i] in a && r[i] !in b
  {
    if |a| == 0 then []
    else if a[0] in b then Minus(a[1..], b)
    else [a[0]] + Minus(a[1..], b)
  }

  /** `(a - b).empty?` holds exactly when every entry of `a` occurs in `b`. */
  lemma {:induction false} MinusEmptyIffCovered(a: seq<RaverType>, b: seq<RaverType>)
    ensures Minus(a, b) == [] <==> forall i :: 0 <= i < |a| ==> a[i] in b
  {
    if |a| > 0 {
      MinusEmptyIffCovered(a[1..], b);
      assert forall i :: 0 < i < |a| ==> a[i] == a[1..][i - 1];
    }
  }

  /** `Geometry.find_intersect_rect(rect, rects)` is truthy: some rect meets `r`. */
  function AnyHit(r: Rect, rects: seq<Rect>, hit: (Rect, Rect) -> bool): (b: bool)
    ensures b <==> exists i :: 0 <= i < |rects| && hit(r, rects[i])
  {
    if |rects| == 0 then false
    else if hit(r, rects[0]) then true
    else
      assert forall i :: 0 < i < |rects| ==> rects[i] == rects[1..][i - 1];
      AnyHit(r, rects[1..], hit)
  }

  /** `update_can_be_opened`: touching some raver while the group has every accepted type. */
  function UpdateCanBeOpened(w: Window, rs: seq<Raver>, hit: (Rect, Rect) -> bool): (r: Window)
    ensures r == w.(canBeOpened := r.canBeOpened)
    ensures r.canBeOpened <==>
              (exists i :: 0 <= i < |rs| && hit(WindowRect(w), RaverRect(rs[i]))) &&
              (forall j :: 0 <= j < |w.acceptedTypes| ==> w.acceptedTypes[j] in Kinds(rs))
  {
    MinusEmptyIffCovered(w.acceptedTypes, Kinds(rs));
    var touching := AnyHit(WindowRect(w), Rects(rs), hit);
    assert touching ==> exists i :: 0 <= i < |rs| && hit(WindowRect(w), RaverRect(rs[i]));
    assert (exists i :: 0 <= i < |rs| && hit(WindowRect(w), RaverRect(rs[i]))) ==> touching by {
      if i :| 0 <= i < |rs| && hit(WindowRect(w), RaverRect(rs[i])) {
        assert hit(WindowRect(w), Rects(rs)[i]);
      }
    }
    w.(canBeOpened := touching && Minus(w.acceptedTypes, Kinds(rs)) == [])
  }

  // ---------------------------------------------------------------------------
  // Spawner

  datatype WindowSpawner = WindowSpawner(windows: seq<Window>, lastSpawnAt: int, spawnInterval: int, maxTypes: int)

  function NewWindowSpawner(): (s: WindowSpawner)
    ensures s.windows == [] && s.lastSpawnAt == 0 && s.spawnInterval == SPAWN_INTERVAL && s.maxTypes == 1
  {
    WindowSpawner([], 0, SPAWN_INTERVAL, 1)
  }

  /**
   * The draws for one spawn: `rand(1..max_types)`, one sampled type per count,
   * x from `[rand(50..300), rand(900..1000)].sample`, and `rand(0..4)` for the sprite.
   */
  datatype WindowRoll = WindowRoll(count: int, types: seq<RaverType>, x: int, spriteId: int)

  predicate RollInRange(roll: WindowRoll, maxTypes: int)
  {
    1 <= roll.count <= maxTypes && |roll.types| == roll.count &&
    (50 <= roll.x <= 300 || 900 <= roll.x <= 1000) && 0 <= roll.spriteId <= 4
  }

  /** `max_types += 1` every 120 seconds of ticks. */
  function GrowTypes(s: WindowSpawner, tick: int): (r: WindowSpawner)
    ensures r == s.(maxTypes := r.maxTypes)
    ensures r.maxTypes == s.maxTypes + 1 <==> FloorMod(tick, MAX_TYPES_PERIOD) == 0
    ensures r.maxTypes == s.maxTypes || r.maxTypes == s.maxTypes + 1
  {
    if FloorMod(tick, MAX_TYPES_PERIOD) == 0 then s.(maxTypes := s.maxTypes + 1) else s
  }

  /** A new window at height 600 once more than the interval has passed since the last one. */
  function Spawn(s: WindowSpawner, tick: int, roll: WindowRoll): (r: WindowSpawner)
    ensures r.maxTypes == s.maxTypes && r.spawnInterval == s.spawnInterval
    ensures s.spawnInterval < tick - s.lastSpawnAt ==>
              r.lastSpawnAt == tick &&
              r.windows == s.windows + [NewWindow(roll.x as real, SPAWN_Y, roll.types, roll.spriteId)]
    ensures s.spawnInterval >= tick - s.lastSpawnAt ==> r == s
  {
    if s.spawnInterval < tick - s.lastSpawnAt then
      s.(lastSpawnAt := tick, windows := s.windows + [NewWindow(roll.x as real, SPAWN_Y, roll.types, roll.spriteId)])
    else s
  }

  /** The block of the `@windows.each` pass, before the deletion test. */
  function Drift(rs: seq<Raver>, hit: (Rect, Rect) -> bool): Window -> Window
  {
    (w: Window) => var u := UpdateCanBeOpened(w, rs, hit); u.(y := u.y - FALL_PER_TICK)
  }

  function Gone(): Window -> bool
  {
    (w: Window) => w.y < 0.0
  }

  function MissOne(): Score.Score -> Score.Score
  {
    (s: Score.Score) => Score.Miss(s)
  }

  /** The `@windows.each` pass as Ruby runs it, counting a miss for each window that leaves. */
  function Scroll(ws: seq<Window>, score: Score.Score, rs: seq<Raver>, hit: (Rect, Rect) -> bool): RubyArray.Pass<Window, Score.Score>
  {
    RubyArray.EachDelete(ws, score, Drift(rs, hit), Gone(), RubyArray.Ignore(MissOne()))
  }

  /** Missing n windows adds n to the missed count and changes nothing else. */
  lemma {:induction false} MissesAddUp(s: Score.Score, n: nat)
    ensures RubyArray.Iterate(MissOne(), s, n) == Score.MissN(s, n)
    decreases n
  {
    if n > 0 {
      MissesAddUp(Score.Miss(s), n - 1);
      MissNShift(s, n - 1);
    }
  }

  lemma {:induction false} MissNShift(s: Score.Score, n: nat)
    ensures Score.MissN(Score.Miss(s), n) == Score.Miss(Score.MissN(s, n))
    decreases n
  {
    if n > 0 {
      MissNShift(s, n - 1);
    }
  }

  /** The scroll pass counts one missed window per window it deletes and changes no other part of the score. */
  lemma ScrollCountsMisses(ws: seq<Window>, score: Score.Score, rs: seq<Raver>, hit: (Rect, Rect) -> bool)
    ensures var p := Scroll(ws, score, rs, hit);
            p.acc == score.(windowsMissed := score.windowsMissed + p.removed) &&
            |p.kept| == |ws| - p.removed
  {
    RubyArray.EffectIsIterate(ws, score, Drift(rs, hit), Gone(), MissOne());
    MissesAddUp(score, Scroll(ws, score, rs, hit).removed);
  }

  /** While every window is at least half a pixel up, nothing is missed and every window sinks by exactly 0.5. */
  lemma HighWindowsAllSink(ws: seq<Window>, score: Score.Score, rs: seq<Raver>, hit: (Rect, Rect) -> bool)
    requires forall i :: 0 <= i < |ws| ==> ws[i].y >= FALL_PER_TICK
    ensures var p := Scroll(ws, score, rs, hit);
            p.removed == 0 && p.acc == score && |p.kept| == |ws| &&
            forall i :: 0 <= i < |ws| ==> p.kept[i].y == ws[i].y - FALL_PER_TICK &&
                                          p.kept[i].x == ws[i].x && p.kept[i].acceptedTypes == ws[i].acceptedTypes
  {
    RubyArray.NoDeletionAgrees(ws, score, Drift(rs, hit), Gone(), RubyArray.Ignore(MissOne()));
  }

  /** A lone window below half a pixel scrolls away and costs one miss. */
  lemma LastWindowMissed(w: Window, score: Score.Score, rs: seq<Raver>, hit: (Rect, Rect) -> bool)
    requires w.y < FALL_PER_TICK
    ensures Scroll([w], score, rs, hit) == RubyArray.Pass([], Score.Miss(score), 1)
  {
  }

  /** `WindowSpawner#tick`: grow the type budget, maybe spawn, then scroll every window. */
  function Tick(s: WindowSpawner, score: Score.Score, rs: seq<Raver>, hit: (Rect, Rect) -> bool,
                tick: int, roll: WindowRoll): (r: (WindowSpawner, Score.Score))
    ensures var grown := GrowTypes(s, tick);
            var spawned := Spawn(grown, tick, roll);
            var p := Scroll(spawned.windows, score, rs, hit);
            r.0 == spawned.(windows := p.kept) && r.1 == p.acc
    ensures r.1 == score.(windowsMissed := r.1.windowsMissed) && r.1.windowsMissed >= score.windowsMissed
    ensures r.1.windowsMissed <= score.windowsMissed + |s.windows| + 1
    ensures r.0.maxTypes >= s.maxTypes
  {
    var grown := GrowTypes(s, tick);
    var spawned := Spawn(grown, tick, roll);
    var p := Scroll(spawned.windows, score, rs, hit);
    ScrollCountsMisses(spawned.windows, score, rs, hit);
    (spawned.(windows := p.kept), p.acc)
  }

  /** A spawned window asks for between one and `max_types` types, counting this tick's growth. */
  lemma SpawnedTypeCount(s: WindowSpawner, tick: int, roll: WindowRoll)
    requires RollInRange(roll, GrowTypes(s, tick).maxTypes)
    requires s.spawnInterval < tick - s.lastSpawnAt
    ensures var w := Spawn(GrowTypes(s, tick), tick, roll).windows[|s.windows|];
            1 <= |w.acceptedTypes| <= GrowTypes(s, tick).maxTypes && w.y == SPAWN_Y && !w.canBeOpened &&
            (50.0 <= w.x <= 300.0 || 900.0 <= w.x <= 1000.0)
  {
  }

  /** `10 ** n`, the reward `CloseWindow` pays; `MoreTypesScoreMore` shows it grows with the number of types. */
  function Pow10(n: nat): (r: int)
    ensures r >= 1
  {
    if n == 0 then 1 else 10 * Pow10(n - 1)
  }

  /** `close_window`: score 10 to the number of accepted types and take that one window away. */
  function CloseWindow(s: WindowSpawner, score: Score.Score, i: nat): (r: (WindowSpawner, Score.Score))
    requires i < |s.windows|
    ensures r.1 == score.(points := score.points + Pow10(|s.windows[i].acceptedTypes|))
    ensures r.0 == s.(windows := r.0.windows)
    ensures |r.0.windows| == |s.windows| - 1
    ensures forall j :: 0 <= j < i ==> r.0.windows[j] == s.windows[j]
    ensures forall j :: i <= j < |r.0.windows| ==> r.0.windows[j] == s.windows[j + 1]
  {
    (s.(windows := s.windows[..i] + s.windows[i + 1..]),
     score.(points := score.points + Pow10(|s.windows[i].acceptedTypes|)))
  }

  /** A window asking for more types is worth strictly more: every extra type multiplies the reward by ten. */
  lemma {:induction false} MoreTypesScoreMore(m: nat, n: nat)
    requires m <= n
    ensures Pow10(n) == Pow10(m) * Pow10(n - m)
    ensures m < n ==> Pow10(m) < Pow10(n)
    decreases n
  {
    if m < n {
      MoreTypesScoreMore(m, n - 1);
      assert Pow10(n) == 10 * (Pow10(m) * Pow10(n - 1 - m));
      assert Pow10(n - m) == 10 * Pow10(n - 1 - m);
    }
  }
}

=== FILE: wrappers.dfy ===
/** Option and Result for the places where the Ruby code returns nil or raises. */
module Wrappers {

  datatype Option<+T> = None | Some(value: T)

  /** The Ruby exceptions the modelled code can raise. */
  datatype RubyError =
    | ArgumentError(message: string)
    | NoMethodError(message: string)
    | IndexError(message: string)
    | ZeroDivisionError(message: string)

  datatype Result<+T> = Success(value: T) | Failure(error: RubyError)
}
